=== FILE: README.md ===
# Career Compass core, modelled in Dafny

Career Compass is a career-guidance platform. A Python service analyses resumes: it matches skills against a vocabulary, extracts contact details and named entities, and builds career recommendations. An Express backend stores interview questions, interview experiences, companies, progress and users, and generates learning roadmaps. A Next.js frontend presents all of this.

This project models the deterministic decision logic of those three parts as pure Dafny functions over immutable data, and proves what each promises.

- **Resume pipeline** (`SkillMatcher`, `NerExtractor`, `GeminiAnalyzer`):
  - chunking and the threshold / best-score / de-duplicate / sort / top-25 rules of skill matching;
  - the phone and e-mail regular expressions, run as a backtracking matcher runs them;
  - the name, organisation, location and date rules of entity extraction;
  - the niche-aware fallback recommendation engine;
  - the checks applied to a generative-model reply before it is accepted.
- **Roadmaps** (`Roadmap`, `RoadmapCacheService`, `RoadmapCache`, `RoadmapView`):
  - the duration table, the week/hour computation and the request validator;
  - the cleaning of the model reply and the normalisation of the parsed roadmap;
  - the backend and browser 30-day caches;
  - the roadmap page's week toggles, topic ticks and counters.
- **Community data** (`Votes`, `Questions`, `Experiences`, `Companies`, `Progress`, `Users`):
  - the three-way up/down-vote toggle with its counter invariant, shared by questions and experiences;
  - request validation order and ownership guards;
  - the company insight and salary aggregations;
  - the progress upserts and the user statistics feed.
- **Problem data and pages** (`CsvMerge`, `ProblemsPage`, `CompaniesPage`, `AddCompany`, `ResultsPage`):
  - the offline merge of per-company LeetCode CSV exports;
  - the filters, sorts, partitions, form validation and text splitting of the dashboard pages.

`Wrappers`, `Text`, `Lists`, `Sorting`, `JsMath`, `Json` and `Http` are shared helpers. They cover options and results, string operations of Python and JavaScript, de-duplication and grouping, a stable descending sort, JavaScript rounding, parsed JSON values and Express replies.

Everything outside the deterministic logic is a parameter:

- the embedding similarity is a score function `(chunk, skill) -> real`;
- the spaCy entities are a list of (label, text) pairs;
- `json.loads` / `JSON.parse` are a partial function `string -> Option<Json>`;
- `parseFloat` is a function `string -> real` (or `Json -> Json` on request bodies);
- the clock is an integer `now`;
- localStorage is a `map<string, string>`, with its key enumeration order as a parameter;
- the database is in-memory maps keyed by id or composite key.

SHA-256 in the cache keys is modelled as the identity on the lower-cased joined string. That is an injective abstraction, so cache-key collisions are exactly the collisions of that string.

Several behaviours are modelled as the code is written, not as the design describes them:

- the CSV reader never fills its values, so the merge script always writes an empty problem list;
- the fallback's ATS score uses the dominant niche count and is not clamped;
- `missing_skills` is chosen by niche name, below the go-deep threshold too;
- the roadmap page counts ticks left from another roadmap (`RoadmapView.ForeignTicksOvercount`);
- an indented feedback item keeps its dash (`ResultsPage.IndentedItemKeepsDash`).

## Model

| member | source | states |
|---|---|---|
| GeminiAnalyzer.CountIsCardinality | ml-service/app/gemini_analyzer.py:116-122 | a category count is the number of skills whose lower-cased text contains one of its keywords, each skill counted once |
| GeminiAnalyzer.ScoreBounds | ml-service/app/gemini_analyzer.py:115-123 | a single-category score is at most the number of skills; the full-stack score, a sum of two counts, at most twice that |
| GeminiAnalyzer.HtmlCountsAsMl | ml-service/app/gemini_analyzer.py:117 | "HTML" scores 1 for the ml niche, since "ml" is a substring keyword |
| GeminiAnalyzer.PickMaxCorrect | ml-service/app/gemini_analyzer.py:126 | the running maximum ends on a niche of maximal score, and replaces the current best only on a strictly larger score |
| GeminiAnalyzer.DominantCorrect | ml-service/app/gemini_analyzer.py:115-127 | the dominant niche scores at least as much as every niche, and strictly more than every niche declared before it |
| GeminiAnalyzer.NoSkillsWeb3 | ml-service/app/gemini_analyzer.py:115-127 | with no skills the dominant niche is web3 with count 0 |
| GeminiAnalyzer.RolesShape | ml-service/app/gemini_analyzer.py:132-206 | every branch yields three recommendations, and a deep branch leads with a score of at least 88 |
| GeminiAnalyzer.RolesLead | ml-service/app/gemini_analyzer.py:132-206 | the lead recommendation scores 85 exactly when no deep branch fires (web3 or ml with at least 2, cloud with at least 3) |
| GeminiAnalyzer.RolesGeneral | ml-service/app/gemini_analyzer.py:189-206 | outside the deep branches the recommendations are Full-Stack, Backend and Frontend at 85, 80 and 75 |
| GeminiAnalyzer.SalaryShape | ml-service/app/gemini_analyzer.py:209-216 | every salary range has 0 < min < max, and min exceeds the general 6 lakh exactly in the deep branches |
| GeminiAnalyzer.GapsFive | ml-service/app/gemini_analyzer.py:219-226 | each niche name's gap list has five entries |
| GeminiAnalyzer.FallbackShape | ml-service/app/gemini_analyzer.py:228-240 | the fallback carries the branch's recommendations, an INR salary from the branch's range, the five gaps chosen by niche name alone, three quick wins, and an ATS score of 65 plus three per skill of the dominant niche |
| GeminiAnalyzer.FallbackAtsAtLeast | ml-service/app/gemini_analyzer.py:230 | the fallback's ATS score is at least 65 plus three times any niche's score |
| GeminiAnalyzer.FallbackAtsUnclamped | ml-service/app/gemini_analyzer.py:230 | twelve "aws" skills give an ATS score above 100: the score is not clamped |
| GeminiAnalyzer.PySlice | ml-service/app/gemini_analyzer.py:86 | a Python slice between two in-range indices has length b - a, or is empty when b <= a |
| GeminiAnalyzer.BraceCut | ml-service/app/gemini_analyzer.py:85-86 | a text without '{' is kept; with a later '}' the cut is the text from its first '{' through its last '}'; with no '}' after the first '{' the cut is empty |
| GeminiAnalyzer.CleanReplyNoClosingBrace | ml-service/app/gemini_analyzer.py:84-87 | a reply whose cut is empty is cleaned to the empty string |
| GeminiAnalyzer.AsStrList | ml-service/app/gemini_analyzer.py:99-100 | an accepted string list keeps every element |
| GeminiAnalyzer.AsStrListIs | ml-service/app/models.py:57-58 | a JSON list converts to the string list xs exactly when it holds the strings of xs, in order |
| GeminiAnalyzer.AsRecommendations | ml-service/app/gemini_analyzer.py:96 | an accepted recommendation list builds one recommendation per element |
| GeminiAnalyzer.RecommendationIs | ml-service/app/models.py:31-37 | `CareerRecommendation(**j)` builds r exactly when j is an object whose role, match_score and reasoning are r's values |
| GeminiAnalyzer.AsRecommendationsIs | ml-service/app/gemini_analyzer.py:96 | a list converts to the recommendations rs exactly when it has one element per recommendation, each building the one at its position |
| GeminiAnalyzer.AsSalaryIs | ml-service/app/models.py:40-46 | `SalaryPrediction(**j)` builds s exactly when j holds s's min and max, and its currency or else "INR" |
| GeminiAnalyzer.TakeStrings | ml-service/app/gemini_analyzer.py:99-100 | the first n elements convert to xs exactly when they are the strings of xs, in order |
| GeminiAnalyzer.DecodeAccepts | ml-service/app/gemini_analyzer.py:90-103 | a parsed reply builds the analysis a exactly when it is an object with at least two recommendations whose first three build a's, and its ATS score (70 when absent), feedback, first five missing skills, first three quick wins, salary (600000-1200000 when absent) and summary are a's |
| GeminiAnalyzer.DecodeShape | ml-service/app/gemini_analyzer.py:91-103 | an accepted reply is an object with at least two recommendations, keeps 2 or 3 of them, at most 5 missing skills and 3 quick wins, and defaults the ATS score to 70, the salary to 600000-1200000 INR and the summary to "" |
| GeminiAnalyzer.AnalyzeCorrect | ml-service/app/gemini_analyzer.py:80-106 | an empty reply or a cleaned text that does not parse gives the fallback on the first 25 skills; a parsed reply that builds an analysis (as DecodeAccepts states it field by field) yields that analysis, and any other parsed reply yields the fallback |
| GeminiAnalyzer.TooFewRecommendations | ml-service/app/gemini_analyzer.py:91-93 | a parsed reply with fewer than two recommendations yields the fallback |
| SkillMatcher.Pieces | ml-service/app/skill_matcher.py:70 | replacing newlines by ". " and splitting on ". " leaves at least one piece and no newline in any piece |
| SkillMatcher.KeepChunks | ml-service/app/skill_matcher.py:73-77 | the kept chunks are exactly the stripped pieces of length strictly between 10 and 500, never more than the pieces |
| SkillMatcher.KeepChunksOne | ml-service/app/skill_matcher.py:73-77 | a single piece yields its stripped text exactly when that has an admissible length, and nothing otherwise |
| SkillMatcher.KeepChunksConcat | ml-service/app/skill_matcher.py:73-77 | the chunks of two runs of pieces are those of the first followed by those of the second, so chunks come in piece order, each as often as its piece occurs |
| SkillMatcher.ChunksShape | ml-service/app/skill_matcher.py:70-77 | every chunk has an admissible length and no newline |
| SkillMatcher.Row | ml-service/app/skill_matcher.py:98-106 | chunk i yields one candidate per skill of the database, in database order, with the similarity of that pair |
| SkillMatcher.Grid | ml-service/app/skill_matcher.py:94-101 | the candidates of the nested loops are exactly the (chunk, skill) pairs of the first n chunks |
| SkillMatcher.Context | ml-service/app/skill_matcher.py:113 | the context is a prefix of the chunk of at most 150 characters |
| SkillMatcher.Find | ml-service/app/skill_matcher.py:109 | the lookup finds the entry of that name, or reports that none exists |
| SkillMatcher.AbsorbKeeps | ml-service/app/skill_matcher.py:105-114 | one loop step keeps names unique, every entry above the threshold and held by its first best candidate, and a name present exactly when it had a candidate above the threshold |
| SkillMatcher.MatchedCorrect | ml-service/app/skill_matcher.py:91-114 | after the whole loop the dictionary satisfies that invariant |
| SkillMatcher.SameNameSame | ml-service/app/skill_matcher.py:109-114 | two dictionary entries with the same name are the same entry |
| SkillMatcher.FirstHit | ml-service/app/skill_matcher.py:105-109 | the position of a name's first candidate above the threshold, with no such candidate before it, or the end when there is none |
| SkillMatcher.MatchedHas | ml-service/app/skill_matcher.py:105-114 | a name with a candidate above the threshold has an entry in the dictionary |
| SkillMatcher.MatchedInOrder | ml-service/app/skill_matcher.py:91-114 | the dictionary's entries are in the order in which their names first had a candidate above the threshold |
| SkillMatcher.AbsorbInOrder | ml-service/app/skill_matcher.py:105-114 | one loop step keeps that order: a new name goes last, a better score is replaced in place |
| SkillMatcher.SortedTies | ml-service/app/skill_matcher.py:117-120 | after the stable sort, two entries of equal confidence keep the order of their names' first candidates above the threshold |
| SkillMatcher.ExtractSkillsCorrect | ml-service/app/skill_matcher.py:91-125 | the result has at most 25 entries in non-increasing confidence, distinct names, each above the threshold with the score and context of the first candidate reaching its name's maximum; equal confidences come in the order their names were first matched |
| SkillMatcher.ExtractSkillsTopRanked | ml-service/app/skill_matcher.py:117-125 | a name with a candidate above the threshold is returned, or the 25 returned entries all score at least as high as that name ever did, and those tied with its best score were matched before it |
| SkillMatcher.TopRankedOf | ml-service/app/skill_matcher.py:117-125 | the same, over the sequence of examined candidates |
| SkillMatcher.TopScores | ml-service/app/skill_matcher.py:117-125 | a matched name is returned, or every one of the 25 returned entries scores at least its best |
| SkillMatcher.DroppedAt | ml-service/app/skill_matcher.py:117-125 | a matched name that is not returned sits at position 25 or later of the sorted list |
| SkillMatcher.CutTies | ml-service/app/skill_matcher.py:117-125 | an entry cut by `[:25]` comes after every returned entry of the same confidence in first-match order |
| SkillMatcher.NoChunksNoSkills | ml-service/app/skill_matcher.py:79-82 | with no chunk of admissible length the result is empty |
| NerExtractor.Leftmost | ml-service/app/ner_extractor.py:42 | the search reports the first position from p on where the expression matches, with its end, or that it matches nowhere |
| NerExtractor.FirstMatch | ml-service/app/ner_extractor.py:42-43 | `findall(...)[0]` is the text of the leftmost match, and None exactly when the expression matches nowhere |
| NerExtractor.TldEnd | ml-service/app/ner_extractor.py:41 | backtracking over `[A-Z\|a-z]{2,}\b` settles on the latest word boundary at least two characters after the dot |
| NerExtractor.MatchTldCorrect | ml-service/app/ner_extractor.py:41 | the last segment found satisfies `\.[A-Z\|a-z]{2,}\b`, and no valid end lies beyond it |
| NerExtractor.DotEnd | ml-service/app/ner_extractor.py:41 | backtracking over the domain settles on the latest dot followed by a valid last segment |
| NerExtractor.MatchEmailAt | ml-service/app/ner_extractor.py:41 | an anchored e-mail match ends after its start and inside the text |
| NerExtractor.MatchEmailAtSound | ml-service/app/ner_extractor.py:41 | a reported match has an '@', a final dot and boundaries as the expression demands |
| NerExtractor.EmailLocalForced | ml-service/app/ner_extractor.py:41 | the '@' follows the greedy local-part run, since '@' is not a local character |
| NerExtractor.EmailDotInDomainRun | ml-service/app/ner_extractor.py:41 | the final dot lies inside the greedy run of domain characters |
| NerExtractor.EmailDotUnique | ml-service/app/ner_extractor.py:41 | for a given match end the final dot is determined |
| NerExtractor.ChosenDotLatest | ml-service/app/ner_extractor.py:41 | the matcher's final dot is at least as late as that of any valid match |
| NerExtractor.ChosenDotOnly | ml-service/app/ner_extractor.py:41 | every match ending where the matcher's ends uses the matcher's '@' and final dot |
| NerExtractor.MatchEmailAtComplete | ml-service/app/ner_extractor.py:41 | whenever the expression can match at p, the matcher finds a match there, the one with the latest dot and then the longest last segment |
| NerExtractor.ExtractEmailCorrect | ml-service/app/ner_extractor.py:41-43 | `extract_email` is None exactly when no e-mail matches anywhere; otherwise it is the text of a match at the leftmost position where one exists |
| NerExtractor.MatchIntlAt | ml-service/app/ner_extractor.py:64 | a "+91" match is 13 characters long, or 14 with the optional '-' or whitespace |
| NerExtractor.MatchLocalAt | ml-service/app/ner_extractor.py:65 | a bare match is exactly ten characters long |
| NerExtractor.IntlShape | ml-service/app/ner_extractor.py:64 | a "+91" match starts with "+91" and ends in a ten-digit body whose first digit is 6 to 9 |
| NerExtractor.LocalShape | ml-service/app/ner_extractor.py:65 | a bare match is a ten-digit body whose first digit is 6 to 9 |
| NerExtractor.ExtractPhoneCorrect | ml-service/app/ner_extractor.py:63-73 | the phone has 10, 13 or 14 characters ending in a valid body; a longer one starts with "+91"; a bare number is returned only when no "+91" number exists anywhere; None exactly when neither pattern matches |
| NerExtractor.NoLeadingDigitNoPhone | ml-service/app/ner_extractor.py:64-65 | a text with no digit from 6 to 9 has no phone number |
| NerExtractor.StrippedTexts | ml-service/app/ner_extractor.py:117-125 | the reference list of stripped texts holds no empty text |
| NerExtractor.DateTexts | ml-service/app/ner_extractor.py:131-133 | every reference date is longer than 3 characters |
| NerExtractor.FirstFullName | ml-service/app/ner_extractor.py:111-113 | the reference name is the text of the first PERSON entity with at least two words, present exactly when one exists |
| NerExtractor.StepFields | ml-service/app/ner_extractor.py:107-133 | one loop iteration changes only the field of the entity's label, and e-mail and phone never |
| NerExtractor.StepIsReference | ml-service/app/ner_extractor.py:107-133 | one iteration maps the reference values of a prefix to those of the longer prefix |
| NerExtractor.ScanIsReference | ml-service/app/ner_extractor.py:103-133 | the loop computes the reference definitions: first full name, deduplicated organisations and locations in first-seen order, and dates with duplicates kept |
| NerExtractor.ExtractEntitiesCorrect | ml-service/app/ner_extractor.py:96-140 | e-mail and phone come from the raw text alone; the organisations, locations and dates are the reference lists cut to 5, 3 and 10 |
| Roadmap.DurationTableShape | backend/src/types/roadmap.types.ts:48-54 | the table maps exactly the five durations the validator accepts, to 1, 2, 4, 12 and 24, positive and increasing in declaration order |
| Roadmap.ParseTopicType | backend/src/types/roadmap.types.ts:12 | a name read as a topic type is that type's name |
| Roadmap.TopicTypeRoundTrip | backend/src/types/roadmap.types.ts:12 | each type's name reads back as the type, and exactly video, reading, practice and project are types |
| Roadmap.WeeksAndHours | backend/src/utils/roadmap.util.ts:3-9 | the weeks are the table's value for a known duration and 4 otherwise; the hours are 20 per week |
| Roadmap.HoursBounds | backend/src/utils/roadmap.util.ts:6-7 | the hours are a multiple of 20 between 20 and 480, and the weeks between 1 and 24 |
| Roadmap.ValidatorCorrect | backend/src/middleware/validation.middleware.ts:4-30 | `next()` runs exactly when all three fields are valid; otherwise one 400 reports the first failing check, in the order technology, duration, difficulty |
| Roadmap.ValidatedDurationInTable | backend/src/middleware/validation.middleware.ts:11-22 | a request that passes has a duration found in the table |
| Roadmap.OccursFence | backend/src/services/gemini.service.ts:82 | an occurrence of the six-backtick string is a place where six backticks start |
| Roadmap.RemoveFences | backend/src/services/gemini.service.ts:82 | removing fences never lengthens the text |
| Roadmap.RemoveFencesKeepsPlain | backend/src/services/gemini.service.ts:82 | a backtick-free prefix passes through unchanged |
| Roadmap.RemoveFencesNoBacktick | backend/src/services/gemini.service.ts:82 | a text without backticks is unchanged |
| Roadmap.RemoveFenceNewline | backend/src/services/gemini.service.ts:82 | a fence is removed together with one newline right after it |
| Roadmap.RemoveFenceNoNewline | backend/src/services/gemini.service.ts:82 | a fence not followed by a newline is removed alone |
| Roadmap.RemoveFencesJoin | backend/src/services/gemini.service.ts:82 | pieces free of backticks and newlines, joined by fences, come back concatenated |
| Roadmap.RemoveFencesNoRun | backend/src/services/gemini.service.ts:82 | no six backticks start anywhere in the output: the global replacement cannot glue a new fence together |
| Roadmap.RemoveFencesFenceFree | backend/src/services/gemini.service.ts:82 | the cleaned text does not contain the fence string |
| Roadmap.TrimToBracesBraced | backend/src/services/gemini.service.ts:84-96 | with the first '{' before the last '}', exactly the span from that '{' through that '}' remains |
| Roadmap.CleanResponseNoBraces | backend/src/services/gemini.service.ts:80-97 | a reply without braces is only trimmed once its fences are gone |
| Roadmap.CleanResponseKeepsPrefix | backend/src/services/gemini.service.ts:85-96 | without a '{' the prefix is kept: the result is the trimmed text up to its last '}', or all of it |
| Roadmap.TopicIdInjective | backend/src/services/gemini.service.ts:171 | distinct (week, topic) positions get distinct generated ids |
| Roadmap.NormTopics | backend/src/services/gemini.service.ts:169-176 | normalising topics keeps their number and normalises each in place, failing exactly when one topic cannot take a property |
| Roadmap.NormWeeks | backend/src/services/gemini.service.ts:164-177 | normalising weeks keeps their number and normalises each in place, failing exactly when one week cannot |
| Roadmap.RejectsMissingWeeks | backend/src/services/gemini.service.ts:153-161 | a roadmap without a weeks array is rejected with the missing-weeks message, one with an empty array with the no-weeks message, and a success had a non-empty array |
| Roadmap.NormTopicFieldsCorrect | backend/src/services/gemini.service.ts:169-176 | a truthy id is kept and a falsy one replaced by the generated id; resources that are not an array become []; no other field changes |
| Roadmap.NormWeekCorrect | backend/src/services/gemini.service.ts:164-177 | a week object keeps its other fields and topic count (topics that are not an array become []), and each topic object is normalised |
| Roadmap.NormalizeRoadmapCorrect | backend/src/services/gemini.service.ts:153-177 | a successful normalisation keeps every other roadmap field and the number of weeks, and normalises each week object in place |
| Roadmap.GenerateRoadmap | backend/src/services/gemini.service.ts:138-160 | a reply whose cleaned text does not parse fails with "Failed to parse AI response: " followed by the parser's own message; a parsed one gives the roadmap's normalisation |
| Roadmap.GenerateRoadmapCorrect | backend/src/services/gemini.service.ts:143-160 | a failure carries the parse-failure prefix exactly when parsing failed; a success came from an object with a non-empty weeks array and keeps its number of weeks |
| Roadmap.NormalizeNotParseError | backend/src/services/gemini.service.ts:154-160 | no structure error of normalisation starts with the parse-failure prefix |
| Roadmap.NormTopicFieldsIdempotent | backend/src/services/gemini.service.ts:169-176 | normalising a normalised topic changes nothing |
| RoadmapCacheService.CacheKeyIgnoresCase | backend/src/utils/cache.util.ts:12-15 | keys ignore letter case in any of the three fields |
| RoadmapCacheService.CacheKeySplitsCollide | backend/src/utils/cache.util.ts:12-15 | requests whose fields join to the same dashed text share one key |
| RoadmapCacheService.Get | backend/src/utils/cache.util.ts:17-33 | a missing key gives null; an entry older than 30 days is deleted and gives null; otherwise the stored data, with the cache unchanged |
| RoadmapCacheService.Set | backend/src/utils/cache.util.ts:35-42 | the key's entry becomes the data stamped now, and no other entry changes |
| RoadmapCacheService.Clear | backend/src/utils/cache.util.ts:44-46 | the cache is empty afterwards |
| RoadmapCacheService.ClearExpired | backend/src/utils/cache.util.ts:52-64 | exactly the entries older than 30 days are removed, the others kept as they were |
| RoadmapCacheService.SetThenGet | backend/src/utils/cache.util.ts:17-42 | within 30 days (an entry exactly 30 days old included) a get returns what the last set stored; after that it misses |
| RoadmapCacheService.SetOverwrites | backend/src/utils/cache.util.ts:35-42 | a second set of the same key replaces data and timestamp |
| RoadmapCacheService.SizeFacts | backend/src/utils/cache.util.ts:17-50 | after clear the size is 0; a get never increases the size |
| RoadmapCacheService.ClearExpiredKeepsHits | backend/src/utils/cache.util.ts:17-64 | clearing expired entries never changes what a get returns |
| RoadmapCache.StorageKey | frontend/src/app/lib/cache.ts:10-22 | the storage key is "roadmap_cache_" followed by the cache key of the lower-cased joined fields |
| RoadmapCache.ArrayAge | frontend/src/app/lib/cache.ts:34 | an array timestamp is coerced as JavaScript's subtraction does: `[]` is 0, `[n]` and `[[n]]` are n, and two elements are NaN, which never expires |
| RoadmapCache.GetCachedRoadmap | frontend/src/app/lib/cache.ts:20-51 | a read leaves the store alone or removes only its own key |
| RoadmapCache.GetCachedRoadmapCorrect | frontend/src/app/lib/cache.ts:20-51 | a missing, empty or unparsable value misses and leaves the store; an expired record is removed and misses; any other record yields its data field |
| RoadmapCache.SetCachedRoadmap | frontend/src/app/lib/cache.ts:54-75 | a successful write stores {data, timestamp, key} under the storage key; a quota error clears the expired caches instead; another error changes nothing |
| RoadmapCache.RemoveCachedRoadmap | frontend/src/app/lib/cache.ts:78-82 | only the request's own key is removed |
| RoadmapCache.ClearExpiredCaches | frontend/src/app/lib/cache.ts:85-111 | exactly the prefixed entries that are unparsable or expired are removed |
| RoadmapCache.ClearExpiredKeepsForeign | frontend/src/app/lib/cache.ts:92 | a key without the prefix is never touched |
| RoadmapCache.ClearAllCaches | frontend/src/app/lib/cache.ts:136-148 | all and only the prefixed keys are removed |
| RoadmapCache.CollectRecords | frontend/src/app/lib/cache.ts:114-133 | at most one record is collected per key |
| RoadmapCache.CollectRecordsSound | frontend/src/app/lib/cache.ts:117-130 | every collected record is the parse of a non-empty value under a prefixed key |
| RoadmapCache.CollectRecordsComplete | frontend/src/app/lib/cache.ts:117-130 | every non-empty parsable value under a prefixed key is collected |
| RoadmapCache.SetThenGet | frontend/src/app/lib/cache.ts:20-75 | reading back a fresh write returns the written data, when parsing undoes serialising |
| RoadmapCache.RemoveIsolated | frontend/src/app/lib/cache.ts:78-82 | removing one request's entry leaves every other request's read as it was |
| Votes.Opposite | backend/src/controllers/question.controller.ts:374-386 | the opposite direction differs from the vote's own |
| Votes.Bump | backend/src/controllers/question.controller.ts:366-385 | a counter update moves only the counter of its direction, by the given amount |
| Votes.VoteOf | backend/src/controllers/question.controller.ts:350-357 | the user's vote on the item is present exactly when the (user, item) row exists, and is its type |
| Votes.Toggle | backend/src/controllers/question.controller.ts:350-405 | after a vote in direction v the user holds v exactly when they did not before, never holds the opposite, and no other row changes |
| Votes.ToggleKeepsCounted | backend/src/controllers/question.controller.ts:359-405 | each branch keeps the item's counters equal to the number of its up and down votes |
| Votes.ToggleIsolated | backend/src/controllers/question.controller.ts:350-405 | a vote on one item leaves every other item's votes alone |
| Votes.ToggleTallies | backend/src/controllers/question.controller.ts:359-405 | no prior vote creates one (+1); the same vote is removed (-1); the opposite vote is flipped (+1 and -1 on the other counter) |
| Votes.ToggleTwice | backend/src/controllers/question.controller.ts:359-405 | voting the same way twice restores votes and counters, unless the first vote flipped an opposite one |
| Votes.ToggleTwiceFromOpposite | backend/src/controllers/question.controller.ts:374-386 | from an opposite vote, two same votes leave no vote and the opposite counter one lower |
| Votes.UpThenDown | backend/src/controllers/question.controller.ts:395-469 | from no vote, an upvote then a downvote leaves one downvote, upvotes as before and downvotes one higher |
| Votes.Swap | backend/src/controllers/question.controller.ts:415-488 | reversing every vote keeps the rows and flips each type |
| Votes.SwapTally | backend/src/controllers/question.controller.ts:415-488 | swapping a tally exchanges its two counters |
| Votes.DownvoteMirrorsUpvote | backend/src/controllers/question.controller.ts:415-488 | a downvote is an upvote on reversed votes and swapped counters |
| Questions.OrNull | backend/src/controllers/question.controller.ts:71-80 | `body[k] \|\| null` is the value exactly when it is truthy |
| Questions.CreateQuestionCorrect | backend/src/controllers/question.controller.ts:9-108 | a missing required field gives 400; an unknown company or given-but-unknown college gives 404; after those checks, a given user id that names no stored user ends in a forwarded database error; a created question has a known company, college and user, the required values, null for falsy optional fields, and the current time as last-asked date |
| Questions.MissingFieldBeforeLookup | backend/src/controllers/question.controller.ts:29-33 | the required-field check answers before any lookup |
| Questions.UserOnlyStored | backend/src/controllers/question.controller.ts:57-72 | the controller never answers about the submitter itself: swapping one absent, falsy or stored user id for another gives the same outcome, apart from the stored user |
| Questions.VoteQuestion | backend/src/controllers/question.controller.ts:335-488 | a missing user id gives 400 and changes nothing; a missing question ends in a forwarded error; a new vote by a user that is not stored ends in a forwarded error and changes nothing; on a stored question, an existing vote or a stored user succeeds; no question is added or removed |
| Questions.VoteKeepsConsistent | backend/src/controllers/question.controller.ts:335-488 | every vote names a stored question and every question's counters equal its vote counts, before and after a vote |
| Questions.VoteTouchesOneQuestion | backend/src/controllers/question.controller.ts:335-488 | a vote changes only the counters of the question voted on |
| Questions.VoteStatus | backend/src/controllers/question.controller.ts:179-214 | a missing user id gives 400; otherwise hasUpvoted and hasDownvoted say whether the row is an upvote or a downvote, never both |
| Questions.Insert | backend/src/controllers/question.controller.ts:165-169 | inserting a row adds it to the multiset |
| Questions.InsertRanked | backend/src/controllers/question.controller.ts:165-169 | inserting into a ranked list keeps it ranked |
| Questions.Order | backend/src/controllers/question.controller.ts:165-169 | the ordering is a permutation ranked by askedCount, then upvotes, then createdAt, each descending |
| Questions.Where | backend/src/controllers/question.controller.ts:125-134 | the filter keeps exactly the rows matching the company, approval and given filters |
| Questions.QuestionsByCompanyCorrect | backend/src/controllers/question.controller.ts:116-172 | the listing holds exactly the matching rows, each as often as stored, ranked, all of the company and approved |
| Questions.UnapprovedNeverListed | backend/src/controllers/question.controller.ts:125-128 | an unapproved question, or another company's, is never listed |
| Experiences.Patch | backend/src/services/experience.service.ts:200-219 | a field the patch carries and the update writes is overwritten; every other stored field is kept; no field appears from nowhere |
| Experiences.UpdateExperience | backend/src/services/experience.service.ts:186-226 | the update fails exactly when the experience is missing or the caller is not its owner, and then with the ownership message |
| Experiences.UpdateKeepsIdentity | backend/src/services/experience.service.ts:200-219 | an update keeps the experience's owner, company, college and counters, the votes and every other experience |
| Experiences.UpdateWritesPatch | backend/src/services/experience.service.ts:200-219 | an owner's update writes exactly the editable fields the patch carries |
| Experiences.DeleteExperience | backend/src/services/experience.service.ts:228-241 | the delete fails exactly when the caller is not the owner; a success removes just that experience and the votes on it, keeping every other vote as it was |
| Experiences.MapError | backend/src/controllers/experience.controller.ts:200-228 | the ownership message becomes 403 and anything else is forwarded to the error middleware |
| Experiences.UpdateBody | backend/src/controllers/experience.controller.ts:187-192 | the update body is the request with the three numeric fields parsed when truthy and dropped otherwise |
| Experiences.NonOwnerGets403 | backend/src/controllers/experience.controller.ts:178-230 | a request by anyone but the owner, or on a missing experience, is answered 403 and changes nothing |
| Experiences.OwnerSucceeds | backend/src/controllers/experience.controller.ts:178-221 | the owner's update and delete succeed, and the delete removes the experience |
| Experiences.VoteExperience | backend/src/services/experience.service.ts:244-345 | a vote keeps the set of experiences; a new vote by a user that is not stored fails and changes nothing; on a stored experience, with an existing vote or a stored user, it returns that experience as re-read; on a missing one it fails and leaves the experiences alone |
| Experiences.VoteKeepsConsistent | backend/src/services/experience.service.ts:244-345 | every vote names a stored experience and every experience's counters equal its vote counts, before and after a vote |
| Experiences.DropKeepsVoters | backend/src/services/experience.service.ts:228-241 | dropping the votes on one experience leaves every other experience's voters unchanged |
| Experiences.EditsKeepConsistent | backend/src/services/experience.service.ts:186-241 | update and delete keep every vote naming a stored experience and the counters equal to the vote counts |
| Experiences.UpThenDownOnExperience | backend/src/services/experience.service.ts:281-329 | from no vote, an upvote then a downvote leaves one downvote, upvotes as before and downvotes one higher |
| Experiences.ParsedIfGiven | backend/src/controllers/experience.controller.ts:105-106 | a money field is parsed exactly when it is truthy |
| Experiences.CreateMissingFieldFirst | backend/src/controllers/experience.controller.ts:36-47 | a missing required field gives 400 before any lookup, whatever the database holds |
| Experiences.CreateExperienceOrder | backend/src/controllers/experience.controller.ts:49-93 | company, college and user are looked up in that order with their own 404s, and the round and review checks run only once all three exist |
| Experiences.ObjectReviewLength | backend/src/controllers/experience.controller.ts:87 | an object review's own `length` field is compared as JavaScript coerces it: 5, null, true and [] are shorter than 100; [150], an object and a missing field are not |
| Experiences.ShortReviewRejected | backend/src/controllers/experience.controller.ts:87-93 | a review text that is too short is never accepted, whatever the rest of the body holds |
| Experiences.CreateExperienceAccepted | backend/src/controllers/experience.controller.ts:82-116 | an accepted experience names known rows, has at least one round, a title and a review text that is not too short (a string of at least 100 UTF-16 units, an array of at least 100 elements, or an object whose own `length` field coerces to at least 100 or to NaN), its anonymity flag is the value's truthiness, and money fields are present exactly when given |
| Companies.CreateCompany | backend/src/services/company.service.ts:55-72 | a stored name is returned with nothing changed; a new name is stored under a fresh id; either way the result is what the directory now holds under the name |
| Companies.CreateCompanyIdempotent | backend/src/services/company.service.ts:55-59 | creating the same name again returns the first result and changes nothing, whatever the data and id |
| Companies.CreateCompanyIsolated | backend/src/services/company.service.ts:55-72 | creation touches no other name |
| Companies.DifficultyPoints | backend/src/services/company.service.ts:145-151 | a difficulty weighs 1 to 3 points: 1 exactly for EASY, 3 exactly for HARD, and 2 for anything else |
| Companies.PointSum | backend/src/services/company.service.ts:146-153 | the points of n rows add up to between n and 3n |
| Companies.AvgDifficulty | backend/src/services/company.service.ts:144-158 | the label is Easy below a mean of 1.5, Medium from 1.5 below 2.5, and Hard from 2.5 |
| Companies.AvgDifficultyUniform | backend/src/services/company.service.ts:144-158 | all-EASY rows are Easy, all-HARD rows are Hard, and rows of one other label are Medium |
| Companies.AvgRating | backend/src/services/company.service.ts:160-163 | the rating is the mean rounded to one decimal, so within 0.05 of the mean |
| Companies.Selected | backend/src/services/company.service.ts:166-168 | no more rows are selected than there are rows |
| Companies.SuccessRate | backend/src/services/company.service.ts:165-170 | the success rate is the selected share times 100 rounded to the nearest integer (within half a point), between 0 and 100: 100 when every row is selected, 0 when none is |
| Companies.Salaries | backend/src/services/company.service.ts:173-176 | the kept salaries are no more than the rows and none is zero |
| Companies.AvgSalary | backend/src/services/company.service.ts:172-181 | 0 without a truthy salary; otherwise the mean of the truthy salaries within rounding to one decimal |
| Companies.AvgSalaryIgnoresUnpaid | backend/src/services/company.service.ts:173-176 | a row without a salary, or with salary 0, does not move the average |
| Companies.GroupMember | backend/src/services/company.service.ts:186-189 | each counted key is a key of some row and its count is the number of rows with that key |
| Companies.GroupKeysUnique | backend/src/services/company.service.ts:186-189 | no key is counted twice |
| Companies.SortedGroupsMembers | backend/src/services/company.service.ts:190-191 | sorting the counts keeps each key with its count |
| Companies.SortedGroupsDistinct | backend/src/services/company.service.ts:190-191 | no key appears twice after sorting |
| Companies.SortedGroupsComplete | backend/src/services/company.service.ts:190-191 | every key of the rows survives sorting |
| Companies.TopOfSorted | backend/src/services/company.service.ts:190-193 | the first n of distinct keys sorted by count are distinct rows' keys by non-increasing count, and any key left out counts no more than the kept ones |
| Companies.TopKeysCorrect | backend/src/services/company.service.ts:183-223 | the top keys are at most n distinct keys by non-increasing count; a key left out counts no more than any listed one, and then n are listed |
| Companies.TopKeysTie | backend/src/services/company.service.ts:190-191 | of two listed keys with equal counts, the one first seen among the rows comes first |
| Companies.TopKeysTies | backend/src/services/company.service.ts:190-191 | keys with equal counts keep the order of their first appearance |
| Companies.RolePairs | backend/src/services/company.service.ts:186-188 | each row contributes its role once, in order |
| Companies.CollegePairs | backend/src/services/company.service.ts:211-216 | exactly the rows with a college contribute its name |
| Companies.CommonRolesCorrect | backend/src/services/company.service.ts:183-194 | at most three distinct roles of the rows by non-increasing count, ties in order of first appearance; a role left out counts no more than any listed one, and then three are listed |
| Companies.TopCollegesCorrect | backend/src/services/company.service.ts:209-223 | at most five distinct names of colleges the rows name, by non-increasing count, ties in first-appearance order; a named college left out counts no more than any listed one, and then five are listed |
| Companies.LastVisit | backend/src/services/company.service.ts:196-200 | the last visit is the date of some row and no row's date is later |
| Companies.Years | backend/src/services/company.service.ts:203-205 | the years are the rows' years, in order |
| Companies.YearsVisitedDistinct | backend/src/services/company.service.ts:206 | the years visited have no repeats |
| Companies.YearsVisitedCorrect | backend/src/services/company.service.ts:202-207 | the years visited are exactly the rows' years, each once, strictly descending |
| Companies.OfCollege | backend/src/services/company.service.ts:110-112 | the college's rows are exactly the rows with that college id |
| Companies.CollegeSummary | backend/src/services/company.service.ts:115-125 | the college block counts the college's rows |
| Companies.GlobalSummary | backend/src/services/company.service.ts:128-135 | the global block counts every row |
| Companies.CompanyInsightsCorrect | backend/src/services/company.service.ts:94-142 | no rows give no data and two nulls; otherwise the global block counts every row, and the college block exists exactly when a college id was given and some row has it, and counts only those rows |
| Companies.MinOf | backend/src/services/company.service.ts:279-282 | the minimum is one of the values and none is smaller |
| Companies.MaxOf | backend/src/services/company.service.ts:284-287 | the maximum is one of the values and none is larger |
| Companies.Summarise | backend/src/services/company.service.ts:300-309 | a role's entry names the role and counts its salaries; its min and max are salaries of the role that bound all the others; its average is within 0.05 of the exact mean |
| Companies.Summaries | backend/src/services/company.service.ts:299-309 | each role group gets its own summary, in order |
| Companies.CountSumConcat | backend/src/services/company.service.ts:308 | the count total of two lists is the sum of their totals |
| Companies.CountSumPermutation | backend/src/services/company.service.ts:310 | reordering the entries keeps the count total |
| Companies.SummariesCount | backend/src/services/company.service.ts:292-309 | the summaries' counts add up to the number of grouped salaries |
| Companies.RoleBreakdownMembers | backend/src/services/company.service.ts:289-311 | each entry summarises its role's offers: their count, a min and a max that are offers of that role and bound every one, and their mean rounded to one decimal |
| Companies.RoleBreakdownTotal | backend/src/services/company.service.ts:289-311 | the breakdown's counts add up to the number of offers |
| Companies.RoleBreakdownCorrect | backend/src/services/company.service.ts:289-311 | exactly one entry per role with an offer, each summarising that role's offers (count, attained extremes, rounded mean), counts adding up to the offers, ordered by non-increasing average |
| Companies.RoleEntry | backend/src/services/company.service.ts:290-309 | an entry's min and max are salaries offered for its role and bound every such salary; its average is within 0.05 of their mean |
| Companies.RoleBreakdownDistinct | backend/src/services/company.service.ts:290-299 | no role has two entries |
| Companies.RoleBreakdownComplete | backend/src/services/company.service.ts:290-299 | every role with an offer has an entry |
| Companies.SumBounds | backend/src/services/company.service.ts:272-276 | a sum of values between lo and hi lies between n·lo and n·hi |
| Companies.MeanBetween | backend/src/services/company.service.ts:276 | the mean of such a sum lies between lo and hi |
| Companies.Round1Between | backend/src/services/company.service.ts:276 | rounding to one decimal moves a value by at most 0.05 |
| Companies.MeanWithinRange | backend/src/services/company.service.ts:271-287 | the rounded mean lies within 0.05 of the range between minimum and maximum |
| Companies.OfferSalaries | backend/src/services/company.service.ts:279-287 | the salaries are the offers' salaries, in order |
| Companies.OfferPairs | backend/src/services/company.service.ts:292-297 | each offer contributes its (role, salary) pair, in order |
| Companies.SalaryBlock | backend/src/services/company.service.ts:247-287 | a block counts its offers; its min and max are salaries of some offer and bound every salary; its average is within 0.05 of the exact mean salary |
| Companies.OffersOf | backend/src/services/company.service.ts:242-244 | the college's offers are exactly the offers with that college id |
| Companies.SalaryInsightsCorrect | backend/src/services/company.service.ts:225-269 | no offers give null; otherwise the global block counts every offer and the college block exists exactly when a college id was given and some offer has it |
| Progress.Written | backend/src/services/progress.service.ts:18-21 | the written record carries the flag, and the current time exactly when completed |
| Progress.UpdateProgress | backend/src/services/progress.service.ts:4-33 | the upsert creates or overwrites the one record of (user, roadmap, topic) with the flag, and keeps every other record |
| Progress.UpdateKeepsStamped | backend/src/services/progress.service.ts:18-28 | every record carries a completion time exactly when completed, before and after an update |
| Progress.UpdateTwice | backend/src/services/progress.service.ts:10-29 | repeating an update keeps the flag and the records; only the completion time can move, and not at the same instant |
| Progress.UpdateIgnoresPrior | backend/src/services/progress.service.ts:18-28 | the create and update branches write the same record |
| Progress.BulkUpdate | backend/src/services/progress.service.ts:46-77 | one result per update, each with its update's flag and a time exactly when completed |
| Progress.BulkLastWins | backend/src/services/progress.service.ts:46-77 | after a bulk update, an updated topic holds its last update's flag, and every other record is as before |
| Progress.BulkKeepsStamped | backend/src/services/progress.service.ts:60-70 | a bulk update keeps every record's time present exactly when completed |
| Progress.UserProgress | backend/src/services/progress.service.ts:35-44 | the listing holds exactly the records of that user and roadmap |
| Progress.UpdateThenList | backend/src/services/progress.service.ts:4-44 | an update shows up in the listing of its user and roadmap, and in no other |
| Progress.Done | backend/src/services/progress.service.ts:84 | the completed records are exactly the listing's records with the flag set |
| Progress.ProgressStats | backend/src/services/progress.service.ts:79-93 | the stats count the listing and its completed records; the percentage is completed times 100 over total rounded to the nearest integer (within half a point), 0 to 100, 0 for no records and 100 when all are completed |
| Progress.CompletingCounts | backend/src/services/progress.service.ts:4-93 | completing a stored unfinished topic adds one completed record, keeps the total and does not lower the percentage |
| Users.Keep | backend/src/services/user.service.ts:18-25 | an undefined field keeps its stored value, a given one replaces it |
| Users.Merged | backend/src/services/user.service.ts:18-25 | an update keeps the id and Clerk id and writes the email |
| Users.CreateOrUpdateUser | backend/src/services/user.service.ts:15-41 | the upsert fails exactly when another user holds the email or the given college id names no stored college; otherwise the user is filed under the Clerk id, its college is stored or kept from before, an existing one keeps its id and a new one gets the fresh id |
| Users.UpsertKeepsKeys | backend/src/services/user.service.ts:15-41 | the upsert keeps one user per Clerk id and per email |
| Users.UpsertIsolated | backend/src/services/user.service.ts:15-41 | the upsert touches no other user |
| Users.UpsertIdempotent | backend/src/services/user.service.ts:15-41 | sending the same payload again changes nothing and returns the same user |
| Users.Latest | backend/src/services/user.service.ts:83-97 | the latest n are min(n, length) entries of the list, newest first, and every row left out is no newer than any kept one |
| Users.Certifications | backend/src/services/user.service.ts:112-115 | missing skills count 0; an array without null entries counts at most its length; any other value throws |
| Users.CountCertifications | backend/src/services/user.service.ts:114 | the count throws exactly when some entry is null, and never exceeds the entries |
| Users.CountCertificationsMatches | backend/src/services/user.service.ts:114 | without null entries, the count is the number of certification entries |
| Users.RoadmapEntries | backend/src/services/user.service.ts:137-148 | one roadmap entry per roadmap, in order, titled by technology |
| Users.ExperienceEntries | backend/src/services/user.service.ts:151-162 | one experience entry per experience, in order |
| Users.UserStatsCounters | backend/src/services/user.service.ts:79-116 | no user gives null; at most one analysis and three roadmaps count; problems solved counts the completed progress rows; certifications are the certification entries of a newest analysis (0 without one), and the call throws when that analysis's skills cannot be filtered |
| Users.FeedKinds | backend/src/services/user.service.ts:119-162 | the feed holds at most one resume, three roadmap and three experience entries |
| Users.KindCount | backend/src/services/user.service.ts:137-162 | a list of one kind counts no other kind |
| Users.NewestCorrect | backend/src/services/user.service.ts:165-174 | the five newest are sorted, drawn from the feed, no kind more often than the feed; an entry left out is no newer than any kept one, and a feed of at most five is kept whole |
| Users.RecentActivityCorrect | backend/src/services/user.service.ts:79-175 | recent activity is at most five fetched entries, newest first, with at most one resume, three roadmap and three experience entries; a left-out entry is no newer than any kept one |
| Users.StatsFeed | backend/src/services/user.service.ts:165-174 | recent activity is the newest five of the fetched feed |
| Users.FetchedFeedKinds | backend/src/services/user.service.ts:83-162 | the fetched feed holds at most one resume, three roadmap and three experience entries |
| CsvMerge.Header | frontend/src/scripts/merge-csv-folder.js:14 | a header cell holds no double quote |
| CsvMerge.RowOf | frontend/src/scripts/merge-csv-folder.js:19-30 | as written, a row has one property per header and every property is the empty string, since no value is ever read |
| CsvMerge.OrElse | frontend/src/scripts/merge-csv-folder.js:108-111 | `a \|\| b` is truthy exactly when one of them is, and is `a` when `a` is truthy |
| CsvMerge.OrDefault | frontend/src/scripts/merge-csv-folder.js:111-124 | `a \|\| d` is `a` when truthy and `d` otherwise |
| CsvMerge.RowsOf | frontend/src/scripts/merge-csv-folder.js:17-32 | the kept rows are no more than the lines and each has a truthy id |
| CsvMerge.ParseCsvEmpty | frontend/src/scripts/merge-csv-folder.js:9-33 | whatever the file holds, parseCSV returns no rows |
| CsvMerge.NoRowHasId | frontend/src/scripts/merge-csv-folder.js:26-32 | no row built from the lines has a truthy id, so the filter drops them all |
| CsvMerge.ReplaceFirst | frontend/src/scripts/merge-csv-folder.js:38 | a string pattern replaces its first occurrence only, and nothing when absent |
| CsvMerge.Capitalize | frontend/src/scripts/merge-csv-folder.js:41 | the first character is upper-cased and the rest kept |
| CsvMerge.CapitalizeAll | frontend/src/scripts/merge-csv-folder.js:41 | every word is capitalised, in order |
| CsvMerge.CapitalizeKeepsOut | frontend/src/scripts/merge-csv-folder.js:41 | capitalising neither adds nor removes an underscore or a hyphen |
| CsvMerge.CompanyNameClean | frontend/src/scripts/merge-csv-folder.js:36-43 | a company name holds no hyphen and no underscore |
| CsvMerge.SuffixFound | frontend/src/scripts/merge-csv-folder.js:38 | the suffix is found where it was appended when the stem does not hold it |
| CsvMerge.CompanyNameOfPlain | frontend/src/scripts/merge-csv-folder.js:36-43 | the suffix leaves no trace in the name |
| CsvMerge.RunLength | frontend/src/scripts/merge-csv-folder.js:108 | the run is the longest prefix of passing characters |
| CsvMerge.IntToString | frontend/src/scripts/merge-csv-folder.js:108 | a printed integer is never empty |
| CsvMerge.ParseIntRoundTrip | frontend/src/scripts/merge-csv-folder.js:108 | parseInt reads back every printed integer |
| CsvMerge.ParsePrintedNat | frontend/src/scripts/merge-csv-folder.js:108 | parseInt reads a printed natural number back as itself, and with a leading minus sign as its negation |
| CsvMerge.MagnitudeOfDigits | frontend/src/scripts/merge-csv-folder.js:108 | a run of decimal digits is read whole, in base 10 |
| CsvMerge.Collapse | frontend/src/scripts/merge-csv-folder.js:141 | every run of characters outside a-z and 0-9 becomes a hyphen, leaving only slug characters |
| CsvMerge.StripDashes | frontend/src/scripts/merge-csv-folder.js:142 | removing an end hyphen never lengthens the text |
| CsvMerge.CollapseSingles | frontend/src/scripts/merge-csv-folder.js:141 | the collapsed text never holds two hyphens in a row |
| CsvMerge.DropLeadingDash | frontend/src/scripts/merge-csv-folder.js:142 | dropping a leading hyphen leaves a text that does not start with one |
| CsvMerge.DropTrailingDash | frontend/src/scripts/merge-csv-folder.js:142 | dropping a trailing hyphen then leaves no hyphen at either end |
| CsvMerge.SlugIsSlugShaped | frontend/src/scripts/merge-csv-folder.js:139-142 | a slug holds only a-z, digits and single hyphens, with none at either end |
| CsvMerge.CollapseKeeps | frontend/src/scripts/merge-csv-folder.js:141 | collapsing a slug-shaped text changes nothing |
| CsvMerge.SlugIdempotent | frontend/src/scripts/merge-csv-folder.js:139-142 | the slug of a slug is itself |
| CsvMerge.RowId | frontend/src/scripts/merge-csv-folder.js:108-109 | a usable id is never zero |
| CsvMerge.Difficulty | frontend/src/scripts/merge-csv-folder.js:114-134 | the stored difficulty is Easy, Medium or Hard |
| CsvMerge.Acceptance | frontend/src/scripts/merge-csv-folder.js:119-137 | the stored acceptance always holds a percent sign |
| CsvMerge.Normalise | frontend/src/scripts/merge-csv-folder.js:107-142 | a row is taken exactly when its id parses to a non-zero number and its title is non-empty, and then with these fields and the slug link |
| CsvMerge.NewProblem | frontend/src/scripts/merge-csv-folder.js:127-146 | a new problem carries the row's fields, the one company, no topics and unsolved |
| CsvMerge.Touch | frontend/src/scripts/merge-csv-folder.js:148-158 | a later row adds its company once and keeps the higher frequency, changing no other field |
| CsvMerge.Find | frontend/src/scripts/merge-csv-folder.js:127-150 | the lookup finds the problem with the id, or reports that none has it |
| CsvMerge.MergeRowWellFormed | frontend/src/scripts/merge-csv-folder.js:127-158 | one problem per id, each company once per problem, before and after a row |
| CsvMerge.MergeItemsWellFormed | frontend/src/scripts/merge-csv-folder.js:82-167 | merging any rows keeps one problem per id and each company once |
| CsvMerge.TakenRows | frontend/src/scripts/merge-csv-folder.js:107-112 | the taken rows of an id are rows with that id |
| CsvMerge.SummarisesNew | frontend/src/scripts/merge-csv-folder.js:127-146 | a new problem summarises its one row |
| CsvMerge.SummarisesTouch | frontend/src/scripts/merge-csv-folder.js:148-158 | touching a problem keeps it the summary of its rows plus the new one |
| CsvMerge.TakenRowsSnoc | frontend/src/scripts/merge-csv-folder.js:107-112 | a further row adds to the taken rows of its id only |
| CsvMerge.MergeItemsMerged | frontend/src/scripts/merge-csv-folder.js:82-167 | the merge holds one problem per id some row was taken with, with the first row's fields, every row's company and the highest frequency |
| CsvMerge.MergedSkip | frontend/src/scripts/merge-csv-folder.js:109-112 | a skipped row changes nothing |
| CsvMerge.MergedAppend | frontend/src/scripts/merge-csv-folder.js:127-147 | a row of a new id appends its summary |
| CsvMerge.MergedTouch | frontend/src/scripts/merge-csv-folder.js:148-158 | a row of a known id updates that id's summary |
| CsvMerge.Tag | frontend/src/scripts/merge-csv-folder.js:82-107 | every row of a file is tagged with the file's company, in order |
| CsvMerge.ProcessFile | frontend/src/scripts/merge-csv-folder.js:92-166 | each file counts as processed or failed, once |
| CsvMerge.ProcessFiles | frontend/src/scripts/merge-csv-folder.js:82-167 | every file counts once as processed or failed |
| Sorting.StrLeUnits | frontend/src/scripts/merge-csv-folder.js:173 | the string order used by `sort()` is the lexicographic order of the UTF-16 code units |
| CsvMerge.SortCompanies | frontend/src/scripts/merge-csv-folder.js:170-174 | each problem's companies are sorted, nothing else changes |
| CsvMerge.CsvFiles | frontend/src/scripts/merge-csv-folder.js:60-63 | the listed files are exactly the names ending in .csv |
| CsvMerge.MergeAll | frontend/src/scripts/merge-csv-folder.js:46-68 | the script exits exactly when the folder is missing or holds no CSV file |
| CsvMerge.FinishOrdered | frontend/src/scripts/merge-csv-folder.js:169-191 | problems are a permutation ordered by non-increasing frequency with sorted company lists; company names are sorted; the counts match |
| CsvMerge.ProcessFilesDistinct | frontend/src/scripts/merge-csv-folder.js:102 | each company is listed once |
| CsvMerge.MergeAllYieldsNothing | frontend/src/scripts/merge-csv-folder.js:46-191 | as written, the output has no problems and no companies, and every CSV file counts as failed |
| CsvMerge.NothingProcessed | frontend/src/scripts/merge-csv-folder.js:94-100 | from the empty state every file fails and nothing is added |
| ProblemsPage.CountCompanies | frontend/src/app/dashboard/problems/page.tsx:18-20 | counting a problem's companies adds each of them as a key and no other |
| ProblemsPage.CountCompaniesAdds | frontend/src/app/dashboard/problems/page.tsx:18-20 | a company's count grows by the number of times the problem lists it |
| ProblemsPage.CountAllAdds | frontend/src/app/dashboard/problems/page.tsx:17-21 | a company's count grows by its listings over all the problems |
| ProblemsPage.CountAllKeys | frontend/src/app/dashboard/problems/page.tsx:17-21 | a company becomes a key exactly when some problem lists it |
| ProblemsPage.CompanyCountsCorrect | frontend/src/app/dashboard/problems/page.tsx:15-23 | All counts every problem (plus a company literally named All); every other key counts its listings, and a company is a key exactly when some problem lists it |
| ProblemsPage.ListingsCountProblems | frontend/src/app/dashboard/problems/page.tsx:17-21 | with no company listed twice in a problem, a count is the number of problems listing the company |
| ProblemsPage.FilteredCorrect | frontend/src/app/dashboard/problems/page.tsx:25-46 | a problem is listed exactly when it passes the company, difficulty and search filters, as often as it occurs, in the chosen order |
| ProblemsPage.FilteredMembers | frontend/src/app/dashboard/problems/page.tsx:26-34 | a problem is listed exactly when it passes the three filters, as often as it occurs |
| ProblemsPage.FilteredOrder | frontend/src/app/dashboard/problems/page.tsx:35-42 | the list comes by non-increasing frequency, non-increasing parsed acceptance, or Easy before Medium before Hard |
| ProblemsPage.DefaultsKeepAll | frontend/src/app/dashboard/problems/page.tsx:26-34 | with every filter at its default, every problem is listed, each as often as before |
| ProblemsPage.ProblemStats | frontend/src/app/dashboard/problems/page.tsx:48-55 | the total is the number of problems, the solved count is the number of solved ones, and the percentage is solved times 100 over total rounded to the nearest integer (within half a point), 0 to 100, undefined for no problems |
| ProblemsPage.DifficultySplit | frontend/src/app/dashboard/problems/page.tsx:49-53 | the per-difficulty counts never exceed the solved count, and add up to it when every difficulty is one of the three |
| ProblemsPage.CountsSplit | frontend/src/app/dashboard/problems/page.tsx:51-53 | solved problems counted by difficulty add up to at most the solved count, exactly when every difficulty is known |
| ProblemsPage.SolvingRaisesPercentage | frontend/src/app/dashboard/problems/page.tsx:48-55 | solving one more problem adds one to the solved count and never lowers the percentage |
| ProblemsPage.FrequencyBadge | frontend/src/app/dashboard/problems/page.tsx:66-71 | Very High from 2.0, High from 1.5, Medium from 1.0, Low below |
| ProblemsPage.BadgeMonotone | frontend/src/app/dashboard/problems/page.tsx:66-71 | a higher frequency never gets a lower badge |
| CompaniesPage.UserCollege | frontend/src/app/dashboard/companies/page.tsx:65 | the user's college is the profile's, or the empty string |
| CompaniesPage.FilteredCorrect | frontend/src/app/dashboard/companies/page.tsx:117-125 | a company is shown exactly when it passes the search, industry and college filters, in list order |
| CompaniesPage.DefaultsShowAll | frontend/src/app/dashboard/companies/page.tsx:117-125 | with empty search and every filter at all, nothing is hidden |
| CompaniesPage.NoExperiencesHidden | frontend/src/app/dashboard/companies/page.tsx:120-122 | a company without an experience list never passes a college filter other than all |
| CompaniesPage.SplitPartitions | frontend/src/app/dashboard/companies/page.tsx:128-134 | the two groups hold each shown company once, those with an experience from the user's college first, each in list order |
| CompaniesPage.YourCollegeAllMine | frontend/src/app/dashboard/companies/page.tsx:121-134 | with the your-college filter on, every shown company is in the first group |
| CompaniesPage.AsOptions | frontend/src/app/dashboard/companies/page.tsx:141 | each industry becomes an option with itself as id and label, in order |
| CompaniesPage.IndustriesMember | frontend/src/app/dashboard/companies/page.tsx:139 | the industries are exactly the companies' industries |
| CompaniesPage.FilterDistinct | frontend/src/app/dashboard/companies/page.tsx:139-140 | filtering a list without repeats keeps it without repeats |
| CompaniesPage.IndustryOptionsCorrect | frontend/src/app/dashboard/companies/page.tsx:137-142 | all comes first, then each non-empty industry of some company exactly once, as id and label, in the order the company list first shows each |
| CompaniesPage.IndustryOptionsOrdered | frontend/src/app/dashboard/companies/page.tsx:137-142 | after all, the options follow the first appearance of each industry in the company list |
| CompaniesPage.FilterDedupOrder | frontend/src/app/dashboard/companies/page.tsx:138-141 | filtering the distinct values keeps them in order of first appearance |
| AddCompany.WithValue | frontend/src/app/dashboard/companies/add-company/page.tsx:189 | setting a field changes that field and no other |
| AddCompany.HandleInputChange | frontend/src/app/dashboard/companies/add-company/page.tsx:188-193 | an edit stores the value, blanks the field's shown error and keeps every other error |
| AddCompany.ErrorsOfKeys | frontend/src/app/dashboard/companies/add-company/page.tsx:195-229 | a field has an error exactly when its check failed, with its own message; the over-long description message replaces the short one |
| AddCompany.ValidateCorrect | frontend/src/app/dashboard/companies/add-company/page.tsx:195-229 | a field has an error exactly when it is not valid, and the message is the field's non-empty message |
| AddCompany.ValidateForm | frontend/src/app/dashboard/companies/add-company/page.tsx:195-232 | the form validates exactly when every field is valid, exactly when no error is set |
| AddCompany.ValidateKeys | frontend/src/app/dashboard/companies/add-company/page.tsx:195-231 | the errors are exactly the invalid fields, and there are none exactly when all are valid |
| AddCompany.EmptyFormErrors | frontend/src/app/dashboard/companies/add-company/page.tsx:195-229 | the empty form fails on exactly the five required fields |
| AddCompany.OrUndefined | frontend/src/app/dashboard/companies/add-company/page.tsx:253-254 | an empty value is left out, any other is sent as it is |
| AddCompany.Submit | frontend/src/app/dashboard/companies/add-company/page.tsx:234-257 | nothing is sent unless the form validates |
| AddCompany.SubmittedIsValid | frontend/src/app/dashboard/companies/add-company/page.tsx:195-257 | a posted company has a name of at least two units that is not all space, a description of 50 to 500 units, an industry, a location and a size, and any URL starts with a web scheme |
| AddCompany.EditKeepsOthers | frontend/src/app/dashboard/companies/add-company/page.tsx:188-229 | editing one field never changes whether another field fails |
| RoadmapView.ToggleWeek | frontend/src/app/dashboard/careerPaths/roadmapView/page.tsx:87-93 | a week is open after a toggle exactly when it was closed before, and no other week changes |
| RoadmapView.ToggleWeekTwice | frontend/src/app/dashboard/careerPaths/roadmapView/page.tsx:87-93 | two toggles restore which weeks are open, and the very list when the week starts closed |
| RoadmapView.ToggleComplete | frontend/src/app/dashboard/careerPaths/roadmapView/page.tsx:95-121 | a tick flips the topic and no other; the sync is posted exactly when both ids are known, with the new state |
| RoadmapView.ToggleCompleteTwice | frontend/src/app/dashboard/careerPaths/roadmapView/page.tsx:95-121 | two ticks of a topic cancel out and post opposite states |
| RoadmapView.CompletedTopicIds | frontend/src/app/dashboard/careerPaths/roadmapView/page.tsx:73-75 | the completed ids are no more than the records |
| RoadmapView.LoadFromDatabaseCorrect | frontend/src/app/dashboard/careerPaths/roadmapView/page.tsx:63-77 | a topic is ticked after loading exactly when some record marks it completed |
| RoadmapView.WeekCompleted | frontend/src/app/dashboard/careerPaths/roadmapView/page.tsx:218 | a week's ticked topics are no more than its topics |
| RoadmapView.Ratio | frontend/src/app/dashboard/careerPaths/roadmapView/page.tsx:167 | the percentage is defined exactly for a non-empty whole, and is then the part times 100 over the whole rounded to the nearest integer (within half a point) |
| RoadmapView.Overall | frontend/src/app/dashboard/careerPaths/roadmapView/page.tsx:165-167 | done and remaining add up to the total |
| RoadmapView.TotalIsAllTopics | frontend/src/app/dashboard/careerPaths/roadmapView/page.tsx:165 | the total is the number of topics of all weeks |
| RoadmapView.SumIsCount | frontend/src/app/dashboard/careerPaths/roadmapView/page.tsx:218 | the week counts add up to the ticked topics of the whole roadmap |
| RoadmapView.CountDistinct | frontend/src/app/dashboard/careerPaths/roadmapView/page.tsx:166 | over distinct topics, counting the ticked ones gives the size of the ticked set among them |
| RoadmapView.ConsistentCounters | frontend/src/app/dashboard/careerPaths/roadmapView/page.tsx:165-167 | with distinct topic ids and only this roadmap's ticks, the overall count is the sum of the week counts, never above the total, and the percentage is 0 to 100 |
| RoadmapView.ForeignTicksOvercount | frontend/src/app/dashboard/careerPaths/roadmapView/page.tsx:166-167 | ticks left from another roadmap count: one topic with two ticked ids shows 2 done, -1 remaining and 200% |
| RoadmapView.BadgesAgree | frontend/src/app/dashboard/careerPaths/roadmapView/page.tsx:134-152 | each known resource type has its own icon and colour, and any other type gets the fallback of both |
| RoadmapView.FallbackBadges | frontend/src/app/dashboard/careerPaths/roadmapView/page.tsx:134-152 | the fallback icon goes to exactly the types outside video, reading, practice and project, and so does the fallback colour |
| RoadmapView.ColourLength | frontend/src/app/dashboard/careerPaths/roadmapView/page.tsx:144-152 | each icon's colour class has its own length, so no two types with different icons share a colour |
| ResultsPage.Pieces | frontend/src/app/dashboard/resume-analyze/results/page.tsx:276-279 | the kept pieces of a split are the non-blank ones |
| ResultsPage.JoinMember | frontend/src/app/dashboard/resume-analyze/results/page.tsx:284 | a character of a join outside the separator comes from one of the parts |
| ResultsPage.PiecesOfNonBlank | frontend/src/app/dashboard/resume-analyze/results/page.tsx:444-446 | a non-blank text has a non-blank line, so the first line always exists |
| ResultsPage.SplitBoldEnds | frontend/src/app/dashboard/resume-analyze/results/page.tsx:284 | no piece of a split at ** ends in a star, except the last |
| ResultsPage.BoldAt | frontend/src/app/dashboard/resume-analyze/results/page.tsx:284 | ** occurs at k exactly when two stars stand there |
| ResultsPage.ConcatBoldFree | frontend/src/app/dashboard/resume-analyze/results/page.tsx:284 | gluing bold-free pieces that do not end in a star leaves no ** |
| ResultsPage.StripBoldFree | frontend/src/app/dashboard/resume-analyze/results/page.tsx:284 | removing ** leaves none, so removing it twice is removing it once |
| ResultsPage.NoBoldUnchanged | frontend/src/app/dashboard/resume-analyze/results/page.tsx:284 | text without ** is left alone |
| ResultsPage.DescStart | frontend/src/app/dashboard/resume-analyze/results/page.tsx:295 | the description starts at a character the regex dot accepts, or there is none |
| ResultsPage.TitleEnd | frontend/src/app/dashboard/resume-analyze/results/page.tsx:295 | the lazy title ends at the first colon that a description can follow |
| ResultsPage.WsBack | frontend/src/app/dashboard/resume-analyze/results/page.tsx:295 | the whitespace run before the title is given back until a title and description fit |
| ResultsPage.NumberedMatch | frontend/src/app/dashboard/resume-analyze/results/page.tsx:295 | a match splits the line into digits, a dot, whitespace, a title, a colon, whitespace and a description, and implies the numbered start |
| ResultsPage.Classify | frontend/src/app/dashboard/resume-analyze/results/page.tsx:284-341 | a line is a heading exactly when it matches the heading test; a numbered point starts numbered; a bullet starts with a star and a space and is no heading |
| ResultsPage.SummaryBlocks | frontend/src/app/dashboard/resume-analyze/results/page.tsx:275-345 | one block list per non-blank paragraph |
| ResultsPage.TitleEndFinds | frontend/src/app/dashboard/resume-analyze/results/page.tsx:295 | the lazy title stops at the first colon when a description follows it |
| ResultsPage.MatchOfShape | frontend/src/app/dashboard/resume-analyze/results/page.tsx:295 | a line shaped as num. Title: description is matched with exactly those bounds |
| ResultsPage.NumberedLineShape | frontend/src/app/dashboard/resume-analyze/results/page.tsx:295-297 | a written point is matched back to its number, title and description |
| ResultsPage.NumberedRoundTrip | frontend/src/app/dashboard/resume-analyze/results/page.tsx:294-306 | a point written as num. Title: description is read back as exactly those three parts |
| ResultsPage.ClassifyNumbered | frontend/src/app/dashboard/resume-analyze/results/page.tsx:294-306 | a numbered line that matches is shown as its three captured parts |
| ResultsPage.SkipDigits | frontend/src/app/dashboard/resume-analyze/results/page.tsx:294 | the digit run ends at the first non-digit |
| ResultsPage.SkipDots | frontend/src/app/dashboard/resume-analyze/results/page.tsx:295 | a run of dot characters reaches the end of the line |
| ResultsPage.NumberedFallsThrough | frontend/src/app/dashboard/resume-analyze/results/page.tsx:294-341 | a line that looks numbered but has no title and description, and is no heading, is shown as a paragraph |
| ResultsPage.BulletSplitsAtColon | frontend/src/app/dashboard/resume-analyze/results/page.tsx:310-326 | a bullet with a colon is split at its first colon into title and trimmed description |
| ResultsPage.FirstColon | frontend/src/app/dashboard/resume-analyze/results/page.tsx:314-315 | the first colon of title:desc is right after the title |
| ResultsPage.ColonSplitAtFirst | frontend/src/app/dashboard/resume-analyze/results/page.tsx:484-487 | quick wins and missing skills are split at the first colon, the description trimmed; without a colon the whole text is the title and the description is empty |
| ResultsPage.BulletAgreesWithColonSplit | frontend/src/app/dashboard/resume-analyze/results/page.tsx:313-316 | a bullet and a quick win with the same bold-free text agree on title and description |
| ResultsPage.DropDash | frontend/src/app/dashboard/resume-analyze/results/page.tsx:457 | removing the leading dash never lengthens an item |
| ResultsPage.FeedbackSection | frontend/src/app/dashboard/resume-analyze/results/page.tsx:444-469 | a section is a list exactly when its first line names what works or what to fix, and then has at most one item per later line |
| ResultsPage.Feedback | frontend/src/app/dashboard/resume-analyze/results/page.tsx:440-470 | one layout per non-blank section |
| ResultsPage.FeedbackItems | frontend/src/app/dashboard/resume-analyze/results/page.tsx:446-458 | each list item is a later line of its section that starts with a dash after trimming, shown without its dash and without bold |
| ResultsPage.IndentedItemKeepsDash | frontend/src/app/dashboard/resume-analyze/results/page.tsx:448-457 | an indented item keeps its dash, because the dash is removed only at the very start |
| ResultsPage.MatchDots | frontend/src/app/dashboard/resume-analyze/results/page.tsx:369-377 | there are five dots |
| ResultsPage.LitPrefix | frontend/src/app/dashboard/resume-analyze/results/page.tsx:372 | the first m dots lit below n number n clamped to 0..m |
| ResultsPage.MatchDotsCount | frontend/src/app/dashboard/resume-analyze/results/page.tsx:369-377 | the lit dots come first and number the score over 20 rounded down, clamped to 0..5, so a higher score never lights fewer |
| ResultsPage.AtsBand | frontend/src/app/dashboard/resume-analyze/results/page.tsx:430-431 | green from 80, yellow from 60, red below |
| ResultsPage.AtsBandMonotone | frontend/src/app/dashboard/resume-analyze/results/page.tsx:430-431 | a higher score never gets a worse colour |
| ResultsPage.RecommendationTag | frontend/src/app/dashboard/resume-analyze/results/page.tsx:384-388 | the first recommendation is the best fit, the second the alternative, the rest growth paths |

## Left out

- Machine-learning inference: SentenceTransformer encoding, cosine similarity and spaCy are not modelled. Their outputs are inputs: a score function and an entity list.
- Generative-model calls and prompt texts, FastAPI wiring, document parsers and logging are not modelled. A model reply is a parameter.
- Prisma: include/select shapes, transactions as isolation, and database errors other than the missing-row, unique-key and foreign-key cases are not modelled. The foreign keys modelled are the company, college and user of a new question, the user of a new question or experience vote, and the college of an upserted user; a thrown database error is `Forwarded` to the error middleware. The Prisma schema is not part of this model, so deleting an experience is modelled as cascading to its vote rows, the behaviour that keeps every vote naming a stored experience.
- Controllers, routes and services that only pass data through to the database are not modelled. These are college, company, roadmap, resumeAnalysis and user controller glue, college.service, roadmap.service and resumeAnalysis.service.
- React rendering, hooks, layouts, dropdown positioning and styling helpers such as `getDifficultyColor` are not modelled. Only the page logic listed in the table is modelled.
- Floating point: scores, ratings, salaries and frequencies are reals. `Math.round` is modelled on reals; `toFixed`, `toLocaleString` and IEEE rounding error are not modelled.
- Unicode: Python's `\d`, `\b`, `\w`, `.lower()` and `.upper()`, and JavaScript's `toLowerCase` and `toUpperCase`, are modelled on ASCII letters and digits. Whitespace uses the full Python and JavaScript whitespace lists.
- CsvMerge.Capitalize: upper-cases only an ASCII first letter. JavaScript's `toUpperCase` also maps other letters, for example "é" to "É" and "ß" to "SS", which lengthens the word; the model keeps such a first character unchanged.
- pydantic's lax coercions (for example the string "85" accepted as an int) are not modelled. Only JSON numbers with an integral value count as integers.
- JavaScript objects used as dictionaries are modelled as maps. Keys inherited from `Object.prototype` (such as `constructor`) are not modelled.
- The merge script's file system, console statistics and `last_updated` date are not modelled. The folder listing and the file reader are parameters.
- `parseInt` is modelled on unbounded integers. Precision loss above 2^53 is not modelled.
- RoadmapCache.GetCachedRoadmapCorrect: a timestamp stored as a non-empty string, bare or as an array's only element, is treated as `NaN`, so such an entry never expires. JavaScript would coerce a numeric string, so the model is weaker there. Null, booleans, the empty string and arrays are coerced as JavaScript does.
- RoadmapCache.ClearExpiredCaches: the same string-timestamp gap: a record whose timestamp is a numeric string is kept, where JavaScript would remove it once expired.
- ProblemsPage.FilteredCorrect: the difficulty order is stated only when every problem has one of the three difficulties. The acceptance order is stated for a `parseFloat` parameter that returns a number for every acceptance text. `parseFloat("N/A%")` is `NaN`, and "N/A%" is what the merge script writes when no acceptance is known. For an unknown difficulty or a `NaN` acceptance the comparator returns `NaN`, the resulting order depends on the engine, and the model promises no order.
- Companies.TopKeysTies: ties are stated in first-appearance order. JavaScript guarantees that order only for keys that are not array indices; a role or college named like "7" would be listed first.
- Companies.TopKeysTie: the same first-appearance tie order, with the same gap for array-index-like keys.
- Companies.CommonRolesCorrect: the same first-appearance tie order, with the same gap for array-index-like role names.
- Companies.TopCollegesCorrect: the same first-appearance tie order, with the same gap for array-index-like college names.
- Companies.AvgDifficulty: stated for non-empty row lists only, the only lists the insights pass it. An empty list would give `NaN` in `calculateAvgDifficulty`.
- Users.Latest: which of several rows with equal dates the database returns, and in which order, is not stated; only that no row left out is newer than a kept one.
- Experiences.TooShort: an object review whose `length` field is a non-empty string is compared as `NaN` and so passes. JavaScript would coerce a numeric string such as "5" and reject the review.

=== FILE: add_company.dfy ===
/**
 * The add-company form: field edits, client-side validation and the body
 * posted to the company endpoint. Lengths are JavaScript `.length`, that is
 * UTF-16 code units.
 */
module AddCompany {

  import opened Wrappers
  import opened Text

  datatype Field = Name | Description | Industry | Website | Headquarters | EmployeeCount | Logo

  datatype Form = Form(name: string, description: string, industry: string, website: string,
                       headquarters: string, employeeCount: string, logo: string)

  /** The error map: a message per field, `''` once the user has edited the field. */
  type Errors = map<Field, string>

  const EmptyForm := Form("", "", "", "", "", "", "")

  function Value(form: Form, f: Field): string {
    match f
    case Name => form.name
    case Description => form.description
    case Industry => form.industry
    case Website => form.website
    case Headquarters => form.headquarters
    case EmployeeCount => form.employeeCount
    case Logo => form.logo
  }

  function WithValue(form: Form, f: Field, v: string): (r: Form)
    ensures Value(r, f) == v
    ensures forall g :: g != f ==> Value(r, g) == Value(form, g)
  {
    match f
    case Name => form.(name := v)
    case Description => form.(description := v)
    case Industry => form.(industry := v)
    case Website => form.(website := v)
    case Headquarters => form.(headquarters := v)
    case EmployeeCount => form.(employeeCount := v)
    case Logo => form.(logo := v)
  }

  /** `handleInputChange`: store the value, and blank the field's error if it shows one. */
  function HandleInputChange(form: Form, errors: Errors, f: Field, v: string): (r: (Form, Errors))
    ensures Value(r.0, f) == v
    ensures forall g :: g != f ==> Value(r.0, g) == Value(form, g)
    ensures r.1.Keys == errors.Keys
    ensures forall g :: g in errors && g != f ==> r.1[g] == errors[g]
    ensures f in errors ==> r.1[f] == ""
  {
    (WithValue(form, f, v), if f in errors && errors[f] != "" then errors[f := ""] else errors)
  }

  // ------------------------------------------------------------- validation

  const NameMessage := "Company name must be at least 2 characters"
  const ShortDescriptionMessage := "Description must be at least 50 characters"
  const LongDescriptionMessage := "Description must not exceed 500 characters"
  const IndustryMessage := "Please select an industry"
  const HeadquartersMessage := "Headquarters location is required"
  const EmployeeCountMessage := "Please select employee count range"
  const UrlMessage := "Please enter a valid URL (starting with http:// or https://)"

  /** `/^https?:\/\/.+/`: the scheme, then at least one character that is not a line terminator. */
  predicate MatchesUrl(u: string) {
    || (StartsWith(u, "http://") && |u| > 7 && !IsJsLineTerminator(u[7]))
    || (StartsWith(u, "https://") && |u| > 8 && !IsJsLineTerminator(u[8]))
  }

  /** The outcome of each check of `validateForm`, before the messages are attached. */
  datatype Checks = Checks(nameBad: bool, descriptionShort: bool, descriptionLong: bool, industryBad: bool,
                           headquartersBad: bool, employeeCountBad: bool, websiteBad: bool, logoBad: bool)

  function RunChecks(form: Form): Checks {
    Checks(JsTrim(form.name) == "" || Utf16Length(form.name) < 2,
           JsTrim(form.description) == "" || Utf16Length(form.description) < 50,
           Utf16Length(form.description) > 500,
           form.industry == "",
           JsTrim(form.headquarters) == "",
           form.employeeCount == "",
           form.website != "" && !MatchesUrl(form.website),
           form.logo != "" && !MatchesUrl(form.logo))
  }

  /** The checks in source order; the length message replaces the short one. */
  function ErrorsOf(c: Checks): Errors {
    var e0: Errors := map[];
    var e1 := if c.nameBad then e0[Name := NameMessage] else e0;
    var e2 := if c.descriptionShort then e1[Description := ShortDescriptionMessage] else e1;
    var e3 := if c.descriptionLong then e2[Description := LongDescriptionMessage] else e2;
    var e4 := if c.industryBad then e3[Industry := IndustryMessage] else e3;
    var e5 := if c.headquartersBad then e4[Headquarters := HeadquartersMessage] else e4;
    var e6 := if c.employeeCountBad then e5[EmployeeCount := EmployeeCountMessage] else e5;
    var e7 := if c.websiteBad then e6[Website := UrlMessage] else e6;
    if c.logoBad then e7[Logo := UrlMessage] else e7
  }

  function Failed(c: Checks, f: Field): bool {
    match f
    case Name => c.nameBad
    case Description => c.descriptionShort || c.descriptionLong
    case Industry => c.industryBad
    case Headquarters => c.headquartersBad
    case EmployeeCount => c.employeeCountBad
    case Website => c.websiteBad
    case Logo => c.logoBad
  }

  lemma ErrorsOfKeys(c: Checks, f: Field)
    ensures f in ErrorsOf(c) <==> Failed(c, f)
    ensures f == Description && c.descriptionLong ==> ErrorsOf(c)[f] == LongDescriptionMessage
    ensures f == Description && c.descriptionShort && !c.descriptionLong ==> ErrorsOf(c)[f] == ShortDescriptionMessage
    ensures f != Description && f in ErrorsOf(c) ==>
      ErrorsOf(c)[f] == match f
        case Name => NameMessage
        case Industry => IndustryMessage
        case Headquarters => HeadquartersMessage
        case EmployeeCount => EmployeeCountMessage
        case _ => UrlMessage
  {
  }

  /** `validateForm`'s error map. */
  function Validate(form: Form): (errors: Errors) {
    ErrorsOf(RunChecks(form))
  }

  /** What the form promises of an acceptable field, stated field by field. */
  predicate FieldValid(form: Form, f: Field) {
    match f
    case Name => JsTrim(form.name) != "" && Utf16Length(form.name) >= 2
    case Description => JsTrim(form.description) != "" && 50 <= Utf16Length(form.description) <= 500
    case Industry => form.industry != ""
    case Headquarters => JsTrim(form.headquarters) != ""
    case EmployeeCount => form.employeeCount != ""
    case Website => form.website == "" || MatchesUrl(form.website)
    case Logo => form.logo == "" || MatchesUrl(form.logo)
  }

  function Message(form: Form, f: Field): string {
    match f
    case Name => NameMessage
    case Description =>
      if Utf16Length(form.description) > 500 then LongDescriptionMessage else ShortDescriptionMessage
    case Industry => IndustryMessage
    case Headquarters => HeadquartersMessage
    case EmployeeCount => EmployeeCountMessage
    case Website => UrlMessage
    case Logo => UrlMessage
  }

  /**
   * A field has an error exactly when it is not valid; the message is
   * non-empty (so an edit blanks it), and an over-long description gets the
   * length message, never the short one.
   */
  lemma ValidateCorrect(form: Form, f: Field)
    ensures f in Validate(form) <==> !FieldValid(form, f)
    ensures f in Validate(form) ==> Validate(form)[f] == Message(form, f) && Validate(form)[f] != ""
  {
    ErrorsOfKeys(RunChecks(form), f);
  }

  /** `validateForm()` is true exactly when every field is valid. */
  function ValidateForm(form: Form): (r: (bool, Errors))
    ensures r.0 <==> forall f :: FieldValid(form, f)
    ensures r.0 <==> |r.1| == 0
    ensures forall f :: f in r.1 <==> !FieldValid(form, f)
  {
    var errors := Validate(form);
    ValidateKeys(form);
    (|errors| == 0, errors)
  }

  lemma ValidateKeys(form: Form)
    ensures forall f :: f in Validate(form) <==> !FieldValid(form, f)
    ensures |Validate(form)| == 0 <==> forall f :: FieldValid(form, f)
  {
    var errors := Validate(form);
    forall f ensures f in errors <==> !FieldValid(form, f) {
      ValidateCorrect(form, f);
    }
    if |errors| != 0 {
      var f :| f in errors;
    }
  }

  /** The empty form fails on every required field, and only on those. */
  lemma EmptyFormErrors()
    ensures Validate(EmptyForm).Keys == {Name, Description, Industry, Headquarters, EmployeeCount}
  {
    forall f ensures f in Validate(EmptyForm) <==> f in {Name, Description, Industry, Headquarters, EmployeeCount} {
      ValidateCorrect(EmptyForm, f);
    }
  }

  // ---------------------------------------------------------------- submit

  /** The JSON body of the POST; `undefined` fields are left out. */
  datatype Payload = Payload(name: string, description: string, industry: string, website: Option<string>,
                             logo: Option<string>, headquarters: string, employeeCount: string)

  /** `value || undefined` */
  function OrUndefined(v: string): (r: Option<string>)
    ensures r.None? <==> v == ""
    ensures r.Some? ==> r.value == v
  {
    if v == "" then None else Some(v)
  }

  /** `handleSubmit`: nothing is sent unless the form validates. */
  function Submit(form: Form): (r: Option<Payload>)
    ensures r.Some? <==> ValidateForm(form).0
  {
    if ValidateForm(form).0 then
      Some(Payload(form.name, form.description, form.industry, OrUndefined(form.website),
                   OrUndefined(form.logo), form.headquarters, form.employeeCount))
    else None
  }

  /**
   * A posted company has a name of at least two code units that is not all
   * space, a description of 50 to 500, an industry, a location and a size,
   * and any URL it carries starts with a web scheme.
   */
  lemma SubmittedIsValid(form: Form)
    requires Submit(form).Some?
    ensures var p := Submit(form).value;
      && JsTrim(p.name) != "" && Utf16Length(p.name) >= 2
      && 50 <= Utf16Length(p.description) <= 500
      && p.industry != "" && JsTrim(p.headquarters) != "" && p.employeeCount != ""
      && (p.website.Some? ==> MatchesUrl(p.website.value))
      && (p.logo.Some? ==> MatchesUrl(p.logo.value))
  {
    assert FieldValid(form, Name) && FieldValid(form, Description) && FieldValid(form, Industry);
    assert FieldValid(form, Headquarters) && FieldValid(form, EmployeeCount);
    assert FieldValid(form, Website) && FieldValid(form, Logo);
  }

  /** Editing one field never changes whether another field fails validation. */
  lemma EditKeepsOthers(form: Form, errors: Errors, f: Field, v: string, g: Field)
    requires g != f
    ensures var form' := HandleInputChange(form, errors, f, v).0;
      (g in Validate(form') <==> g in Validate(form))
  {
    var form' := HandleInputChange(form, errors, f, v).0;
    ValidateCorrect(form, g);
    ValidateCorrect(form', g);
    assert Value(form', g) == Value(form, g);
    assert form'.description == form.description || f == Description;
  }
}

=== FILE: companies.dfy ===
/**
 * The company service: `createCompany` and the aggregations behind the
 * company insights (difficulty band, rating, success rate, salary, common
 * roles, top colleges, last visit, years visited) and the per-role salary
 * breakdown.
 *
 * An experience row carries the fields the aggregations read; the year of
 * the interview date is part of the row, since it depends on the server's
 * time zone. Arithmetic is on reals.
 */
module Companies {

  import opened Wrappers
  import opened JsMath
  import opened Sorting
  import opened Lists

  // ------------------------------------------------------------ createCompany

  datatype CompanyData = CompanyData(
    name: string,
    logo: Option<string>,
    website: Option<string>,
    industry: string,
    description: Option<string>,
    headquarters: Option<string>,
    employeeCount: Option<string>)

  datatype Company = Company(id: string, data: CompanyData)

  /** Companies by their unique name. */
  type Directory = map<string, Company>

  /** `createCompany`: the stored company of that name if there is one, otherwise a new one with id `freshId`. */
  function CreateCompany(dir: Directory, data: CompanyData, freshId: string): (r: (Directory, Company))
    ensures data.name in r.0 && r.1 == r.0[data.name]
    ensures data.name in dir ==> r == (dir, dir[data.name])
    ensures data.name !in dir ==> r.0 == dir[data.name := Company(freshId, data)]
  {
    if data.name in dir then (dir, dir[data.name])
    else
      var c := Company(freshId, data);
      (dir[data.name := c], c)
  }

  /** Creating the same name again returns the first result and changes nothing, whatever the data and id. */
  lemma CreateCompanyIdempotent(dir: Directory, data: CompanyData, freshId: string, again: CompanyData, freshId2: string)
    requires again.name == data.name
    ensures var (dir1, c1) := CreateCompany(dir, data, freshId);
      CreateCompany(dir1, again, freshId2) == (dir1, c1)
  {
  }

  /** Creation touches no other name. */
  lemma CreateCompanyIsolated(dir: Directory, data: CompanyData, freshId: string, other: string)
    requires other != data.name
    ensures var dir1 := CreateCompany(dir, data, freshId).0;
      (other in dir1 <==> other in dir) && (other in dir ==> dir1[other] == dir[other])
  {
  }

  // -------------------------------------------------------------- experiences

  datatype Row = Row(
    collegeId: Option<string>,
    collegeName: Option<string>,
    overallDifficulty: string,
    overallRating: real,
    outcome: string,
    salaryOffered: Option<real>,
    role: string,
    interviewDate: int,
    year: int)

  /** `difficultyMap[d] || 2` */
  function DifficultyPoints(d: string): (p: int)
    ensures 1 <= p <= 3
    ensures (p == 1 <==> d == "EASY") && (p == 3 <==> d == "HARD")
  {
    if d == "EASY" then 1 else if d == "HARD" then 3 else 2
  }

  function PointSum(rows: seq<Row>): (s: int)
    ensures |rows| <= s <= 3 * |rows|
  {
    if |rows| == 0 then 0 else PointSum(rows[..|rows| - 1]) + DifficultyPoints(rows[|rows| - 1].overallDifficulty)
  }

  /** The mean difficulty points. */
  function MeanPoints(rows: seq<Row>): real
    requires |rows| > 0
  {
    PointSum(rows) as real / |rows| as real
  }

  lemma DivBelow(x: real, n: real, c: real)
    requires n > 0.0
    ensures x / n < c <==> x < c * n
  {
    assert x / n * n == x;
  }

  /** `calculateAvgDifficulty`, on the non-empty lists the insights pass it. */
  function AvgDifficulty(rows: seq<Row>): (r: string)
    requires |rows| > 0
    ensures r == "Easy" <==> MeanPoints(rows) < 1.5
    ensures r == "Medium" <==> 1.5 <= MeanPoints(rows) < 2.5
    ensures r == "Hard" <==> MeanPoints(rows) >= 2.5
  {
    DivBelow(PointSum(rows) as real, |rows| as real, 1.5);
    DivBelow(PointSum(rows) as real, |rows| as real, 2.5);
    if 2 * PointSum(rows) < 3 * |rows| then "Easy"
    else if 2 * PointSum(rows) < 5 * |rows| then "Medium"
    else "Hard"
  }

  /** Unknown difficulty labels weigh as MEDIUM; all-EASY rows are Easy and all-HARD rows are Hard. */
  lemma {:induction false} AvgDifficultyUniform(rows: seq<Row>, d: string)
    requires |rows| > 0 && forall i :: 0 <= i < |rows| ==> rows[i].overallDifficulty == d
    ensures PointSum(rows) == DifficultyPoints(d) * |rows|
    ensures d == "EASY" ==> AvgDifficulty(rows) == "Easy"
    ensures d == "HARD" ==> AvgDifficulty(rows) == "Hard"
    ensures d != "EASY" && d != "HARD" ==> AvgDifficulty(rows) == "Medium"
  {
    if |rows| > 1 {
      AvgDifficultyUniform(rows[..|rows| - 1], d);
    }
  }

  function RatingSum(rows: seq<Row>): real {
    if |rows| == 0 then 0.0 else RatingSum(rows[..|rows| - 1]) + rows[|rows| - 1].overallRating
  }

  /** `calculateAvgRating`: the mean rating rounded to one decimal. */
  function AvgRating(rows: seq<Row>): (r: real)
    requires |rows| > 0
    ensures RatingSum(rows) / |rows| as real - 0.05 < r <= RatingSum(rows) / |rows| as real + 0.05
  {
    Round1(RatingSum(rows) / |rows| as real)
  }

  function Selected(rows: seq<Row>): (n: nat)
    ensures n <= |rows|
  {
    if |rows| == 0 then 0 else Selected(rows[..|rows| - 1]) + (if rows[|rows| - 1].outcome == "SELECTED" then 1 else 0)
  }

  /** `calculateSuccessRate`: the percentage of SELECTED outcomes, rounded. */
  function SuccessRate(rows: seq<Row>): (r: int)
    requires |rows| > 0
    ensures PercentOf(r, Selected(rows), |rows|)
    ensures 0 <= r <= 100
    ensures Selected(rows) == |rows| ==> r == 100
    ensures Selected(rows) == 0 ==> r == 0
  {
    Percent(Selected(rows), |rows|)
  }

  /** A salary `filter` keeps: non-null and non-zero. */
  predicate PaidSalary(s: Option<real>) {
    s.Some? && s.value != 0.0
  }

  /** The truthy salaries, in order. */
  function Salaries(rows: seq<Row>): (r: seq<real>)
    ensures |r| <= |rows|
    ensures forall x :: x in r ==> x != 0.0
  {
    if |rows| == 0 then []
    else Salaries(rows[..|rows| - 1]) + (if PaidSalary(rows[|rows| - 1].salaryOffered) then [rows[|rows| - 1].salaryOffered.value] else [])
  }

  function Sum(xs: seq<real>): real {
    if |xs| == 0 then 0.0 else Sum(xs[..|xs| - 1]) + xs[|xs| - 1]
  }

  /** `calculateAvgSalary`: 0 without truthy salaries, otherwise their mean rounded to one decimal. */
  function AvgSalary(rows: seq<Row>): (r: real)
    ensures |Salaries(rows)| == 0 ==> r == 0.0
    ensures |Salaries(rows)| > 0 ==>
      Sum(Salaries(rows)) / |Salaries(rows)| as real - 0.05 < r <= Sum(Salaries(rows)) / |Salaries(rows)| as real + 0.05
  {
    var s := Salaries(rows);
    if |s| == 0 then 0.0 else Round1(Sum(s) / |s| as real)
  }

  /** A row without a salary, or with salary 0, does not move the average. */
  lemma AvgSalaryIgnoresUnpaid(rows: seq<Row>, row: Row)
    requires !PaidSalary(row.salaryOffered)
    ensures AvgSalary(rows + [row]) == AvgSalary(rows)
  {
    var rows' := rows + [row];
    assert rows'[..|rows'| - 1] == rows;
    assert Salaries(rows') == Salaries(rows);
  }

  // ------------------------------------------------------- counting by key

  /** The number of pairs with key `k`. */
  function Occurrences(pairs: seq<(string, ())>, k: string): nat {
    |ValuesOf(pairs, k)|
  }

  function GroupSize(e: (string, seq<()>)): real {
    |e.1| as real
  }

  /**
   * `Object.entries(counts).sort((a, b) => b[1] - a[1]).slice(0, n)` keys,
   * for counts built from `pairs` (string keys that do not look like array
   * indices, so the entries come in insertion order).
   */
  function TopKeys(pairs: seq<(string, ())>, n: nat): seq<string> {
    Keys(Take(SortDesc(Group(pairs), GroupSize), n))
  }

  /** A group is keyed by one of the pairs' keys and holds that key's values. */
  lemma GroupMember(pairs: seq<(string, ())>, e: (string, seq<()>))
    requires e in Group(pairs)
    ensures e.0 in Keys(pairs) && GroupSize(e) == Occurrences(pairs, e.0) as real
  {
    var g := Group(pairs);
    GroupKeys(pairs);
    GroupValues(pairs);
    var a :| 0 <= a < |g| && g[a] == e;
    assert Keys(g)[a] == e.0;
  }

  /** No two groups share a key. */
  lemma GroupKeysUnique(pairs: seq<(string, ())>)
    ensures forall a, b :: 0 <= a < |Group(pairs)| && 0 <= b < |Group(pairs)| && Group(pairs)[a].0 == Group(pairs)[b].0 ==> a == b
  {
    var g := Group(pairs);
    GroupKeys(pairs);
    assert Distinct(Keys(g));
  }

  /** The groups sorted by size are the groups, keyed by the pairs' keys and sized by their counts. */
  lemma SortedGroupsMembers(pairs: seq<(string, ())>)
    ensures var s := SortDesc(Group(pairs), GroupSize);
      forall e :: e in s ==> e in Group(pairs) && e.0 in Keys(pairs) && GroupSize(e) == Occurrences(pairs, e.0) as real
  {
    var s := SortDesc(Group(pairs), GroupSize);
    forall e | e in s ensures e in Group(pairs) && e.0 in Keys(pairs) && GroupSize(e) == Occurrences(pairs, e.0) as real {
      assert e in multiset(s);
      GroupMember(pairs, e);
    }
  }

  /** No key appears twice among the sorted groups. */
  lemma SortedGroupsDistinct(pairs: seq<(string, ())>)
    ensures var s := SortDesc(Group(pairs), GroupSize);
      forall i, j :: 0 <= i < j < |s| ==> s[i].0 != s[j].0
  {
    var g := Group(pairs);
    var s := SortDesc(g, GroupSize);
    GroupKeysUnique(pairs);
    assert Distinct(g);
    DistinctPermutation(g, s);
    SortedGroupsMembers(pairs);
    forall i, j | 0 <= i < j < |s| ensures s[i].0 != s[j].0 {
      assert s[i] in s && s[j] in s;
      var a :| 0 <= a < |g| && g[a] == s[i];
      var b :| 0 <= b < |g| && g[b] == s[j];
    }
  }

  /** Every key of the pairs has its group among the sorted groups. */
  lemma SortedGroupsComplete(pairs: seq<(string, ())>)
    ensures var s := SortDesc(Group(pairs), GroupSize);
      forall k :: k in Keys(pairs) ==> exists e :: e in s && e.0 == k
  {
    var g := Group(pairs);
    var s := SortDesc(g, GroupSize);
    GroupKeys(pairs);
    forall k | k in Keys(pairs) ensures exists e :: e in s && e.0 == k {
      assert k in Keys(g);
      var a :| 0 <= a < |g| && Keys(g)[a] == k;
      assert g[a] in multiset(g);
      assert g[a] in s;
    }
  }

  /** The first `n` keys of distinctly keyed groups sorted by size: distinct, by non-increasing count. */
  lemma TopOfSortedKept(pairs: seq<(string, ())>, s: seq<(string, seq<()>)>, n: nat)
    requires SortedDesc(s, GroupSize)
    requires forall e :: e in s ==> e.0 in Keys(pairs) && GroupSize(e) == Occurrences(pairs, e.0) as real
    requires forall i, j :: 0 <= i < j < |s| ==> s[i].0 != s[j].0
    ensures var r := Keys(Take(s, n));
      && |r| <= n
      && Distinct(r)
      && (forall k :: k in r ==> k in Keys(pairs))
      && (forall i, j :: 0 <= i < j < |r| ==> Occurrences(pairs, r[i]) >= Occurrences(pairs, r[j]))
  {
    var t := Take(s, n);
    var r := Keys(t);
    assert forall i :: 0 <= i < |t| ==> t[i] == s[i] && s[i] in s;
    forall k | k in r ensures k in Keys(pairs) {
      var i :| 0 <= i < |r| && r[i] == k;
    }
  }

  /** A key left out of the first `n` counts no more than any kept one, and then `n` are kept. */
  lemma TopOfSortedLeftOut(pairs: seq<(string, ())>, s: seq<(string, seq<()>)>, n: nat)
    requires SortedDesc(s, GroupSize)
    requires forall e :: e in s ==> e.0 in Keys(pairs) && GroupSize(e) == Occurrences(pairs, e.0) as real
    requires forall k :: k in Keys(pairs) ==> exists e :: e in s && e.0 == k
    ensures var r := Keys(Take(s, n));
      forall k :: k in Keys(pairs) && k !in r ==>
        |r| == n && forall i :: 0 <= i < |r| ==> Occurrences(pairs, r[i]) >= Occurrences(pairs, k)
  {
    var t := Take(s, n);
    var r := Keys(t);
    forall k | k in Keys(pairs) && k !in r
      ensures |r| == n && forall i :: 0 <= i < |r| ==> Occurrences(pairs, r[i]) >= Occurrences(pairs, k)
    {
      var e :| e in s && e.0 == k;
      TakeSortedKeepsTop(s, GroupSize, n, e);
      assert e !in t by {
        forall i | 0 <= i < |t| ensures t[i] != e { assert r[i] == t[i].0; }
      }
      forall i | 0 <= i < |r| ensures Occurrences(pairs, r[i]) >= Occurrences(pairs, k) {
        assert t[i] in t && t[i] in s;
      }
    }
  }

  /** The keys of the first `n` of distinctly keyed groups sorted by size. */
  lemma TopOfSorted(pairs: seq<(string, ())>, s: seq<(string, seq<()>)>, n: nat)
    requires SortedDesc(s, GroupSize)
    requires forall e :: e in s ==> e.0 in Keys(pairs) && GroupSize(e) == Occurrences(pairs, e.0) as real
    requires forall i, j :: 0 <= i < j < |s| ==> s[i].0 != s[j].0
    requires forall k :: k in Keys(pairs) ==> exists e :: e in s && e.0 == k
    ensures var r := Keys(Take(s, n));
      && |r| <= n
      && Distinct(r)
      && (forall k :: k in r ==> k in Keys(pairs))
      && (forall i, j :: 0 <= i < j < |r| ==> Occurrences(pairs, r[i]) >= Occurrences(pairs, r[j]))
      && (forall k :: k in Keys(pairs) && k !in r ==>
            |r| == n && forall i :: 0 <= i < |r| ==> Occurrences(pairs, r[i]) >= Occurrences(pairs, k))
  {
    TopOfSortedKept(pairs, s, n);
    TopOfSortedLeftOut(pairs, s, n);
  }

  /**
   * The top keys: at most `n`, distinct, each a key of some pair, listed by
   * non-increasing count; a key left out has a count no larger than any
   * listed one, and then `n` keys are listed.
   */
  lemma TopKeysCorrect(pairs: seq<(string, ())>, n: nat)
    ensures var r := TopKeys(pairs, n);
      && |r| <= n
      && Distinct(r)
      && (forall k :: k in r ==> k in Keys(pairs))
      && (forall i, j :: 0 <= i < j < |r| ==> Occurrences(pairs, r[i]) >= Occurrences(pairs, r[j]))
      && (forall k :: k in Keys(pairs) && k !in r ==>
            |r| == n && forall i :: 0 <= i < |r| ==> Occurrences(pairs, r[i]) >= Occurrences(pairs, k))
  {
    SortedGroupsMembers(pairs);
    SortedGroupsDistinct(pairs);
    SortedGroupsComplete(pairs);
    TopOfSorted(pairs, SortDesc(Group(pairs), GroupSize), n);
  }

  /** Two listed keys with equal counts: the one whose first pair comes first is listed first. */
  lemma TopKeysTie(pairs: seq<(string, ())>, n: nat, i: nat, j: nat)
    requires i < j < |TopKeys(pairs, n)|
    requires Occurrences(pairs, TopKeys(pairs, n)[i]) == Occurrences(pairs, TopKeys(pairs, n)[j])
    ensures TopKeys(pairs, n)[i] in Keys(pairs) && TopKeys(pairs, n)[j] in Keys(pairs)
    ensures FirstIndex(Keys(pairs), TopKeys(pairs, n)[i]) < FirstIndex(Keys(pairs), TopKeys(pairs, n)[j])
  {
    var g := Group(pairs);
    var s := SortDesc(g, GroupSize);
    var r := TopKeys(pairs, n);
    SortedGroupsMembers(pairs);
    assert Take(s, n)[i] == s[i] && Take(s, n)[j] == s[j];
    assert r[i] == s[i].0 && r[j] == s[j].0;
    assert s[i] in s && s[j] in s;
    var c := GroupSize(s[i]);
    assert Precedes(s, s[i], s[j]);
    KeyFilterPrecedes(s, GroupSize, c, s[i], s[j]);
    SortDescStable(g, GroupSize, c);
    KeyFilterPrecedes(g, GroupSize, c, s[i], s[j]);
    var a, b :| 0 <= a < b < |g| && g[a] == s[i] && g[b] == s[j];
    GroupKeys(pairs);
    DedupOrder(Keys(pairs));
    assert Keys(g)[a] == r[i] && Keys(g)[b] == r[j];
  }

  /** Keys with equal counts keep the order of their first appearance among the pairs. */
  lemma TopKeysTies(pairs: seq<(string, ())>, n: nat)
    ensures var r := TopKeys(pairs, n);
      forall i, j :: 0 <= i < j < |r| && Occurrences(pairs, r[i]) == Occurrences(pairs, r[j]) ==>
        r[i] in Keys(pairs) && r[j] in Keys(pairs) &&
        FirstIndex(Keys(pairs), r[i]) < FirstIndex(Keys(pairs), r[j])
  {
    var r := TopKeys(pairs, n);
    forall i, j | 0 <= i < j < |r| && Occurrences(pairs, r[i]) == Occurrences(pairs, r[j])
      ensures r[i] in Keys(pairs) && r[j] in Keys(pairs) &&
        FirstIndex(Keys(pairs), r[i]) < FirstIndex(Keys(pairs), r[j])
    {
      TopKeysTie(pairs, n, i, j);
    }
  }

  function RolePairs(rows: seq<Row>): (r: seq<(string, ())>)
    ensures |r| == |rows|
    ensures forall i :: 0 <= i < |rows| ==> r[i] == (rows[i].role, ())
  {
    seq(|rows|, i requires 0 <= i < |rows| => (rows[i].role, ()))
  }

  /** `getCommonRoles`: the three most frequent roles. */
  function CommonRoles(rows: seq<Row>): seq<string> {
    TopKeys(RolePairs(rows), 3)
  }

  /** The college names of the rows that have a college, in order. */
  function CollegePairs(rows: seq<Row>): (r: seq<(string, ())>)
    ensures forall p :: p in r ==> exists i :: 0 <= i < |rows| && rows[i].collegeName == Some(p.0)
    ensures forall i :: 0 <= i < |rows| && rows[i].collegeName.Some? ==> (rows[i].collegeName.value, ()) in r
  {
    if |rows| == 0 then []
    else
      var pre := CollegePairs(rows[..|rows| - 1]);
      var last := rows[|rows| - 1];
      assert forall i :: 0 <= i < |rows| - 1 ==> rows[..|rows| - 1][i] == rows[i];
      pre + (if last.collegeName.Some? then [(last.collegeName.value, ())] else [])
  }

  /** `getTopColleges`: the five most frequent college names, skipping rows without a college. */
  function TopColleges(rows: seq<Row>): seq<string> {
    TopKeys(CollegePairs(rows), 5)
  }

  /**
   * Common roles: at most three distinct roles of the rows, by
   * non-increasing count, ties in order of first appearance; a role left out
   * has a count no larger than any listed one, and then three are listed.
   */
  lemma CommonRolesCorrect(rows: seq<Row>)
    ensures var r := CommonRoles(rows);
      var roles := Keys(RolePairs(rows));
      && |r| <= 3 && Distinct(r)
      && (forall k :: k in r ==> exists i :: 0 <= i < |rows| && rows[i].role == k)
      && (forall i, j :: 0 <= i < j < |r| ==> Occurrences(RolePairs(rows), r[i]) >= Occurrences(RolePairs(rows), r[j]))
      && (forall i, j :: 0 <= i < j < |r| && Occurrences(RolePairs(rows), r[i]) == Occurrences(RolePairs(rows), r[j]) ==>
            r[i] in roles && r[j] in roles && FirstIndex(roles, r[i]) < FirstIndex(roles, r[j]))
      && (forall x :: x in rows && x.role !in r ==>
            |r| == 3 && forall i :: 0 <= i < |r| ==> Occurrences(RolePairs(rows), r[i]) >= Occurrences(RolePairs(rows), x.role))
  {
    var pairs := RolePairs(rows);
    TopKeysCorrect(pairs, 3);
    TopKeysTies(pairs, 3);
    forall k | k in CommonRoles(rows) ensures exists i :: 0 <= i < |rows| && rows[i].role == k {
      var i :| 0 <= i < |pairs| && Keys(pairs)[i] == k;
      assert rows[i].role == k;
    }
    forall x | x in rows ensures x.role in Keys(pairs) {
      var i :| 0 <= i < |rows| && rows[i] == x;
      assert Keys(pairs)[i] == x.role;
    }
  }

  /**
   * Top colleges: at most five distinct names of colleges the rows name, by
   * non-increasing count, ties in order of first appearance; a named college
   * left out has a count no larger than any listed one, and then five are
   * listed.
   */
  lemma TopCollegesCorrect(rows: seq<Row>)
    ensures var r := TopColleges(rows);
      var names := Keys(CollegePairs(rows));
      && |r| <= 5 && Distinct(r)
      && (forall k :: k in r ==> exists i :: 0 <= i < |rows| && rows[i].collegeName == Some(k))
      && (forall i, j :: 0 <= i < j < |r| ==> Occurrences(CollegePairs(rows), r[i]) >= Occurrences(CollegePairs(rows), r[j]))
      && (forall i, j :: 0 <= i < j < |r| && Occurrences(CollegePairs(rows), r[i]) == Occurrences(CollegePairs(rows), r[j]) ==>
            r[i] in names && r[j] in names && FirstIndex(names, r[i]) < FirstIndex(names, r[j]))
      && (forall x :: x in rows && x.collegeName.Some? && x.collegeName.value !in r ==>
            |r| == 5 && forall i :: 0 <= i < |r| ==> Occurrences(CollegePairs(rows), r[i]) >= Occurrences(CollegePairs(rows), x.collegeName.value))
  {
    var pairs := CollegePairs(rows);
    TopKeysCorrect(pairs, 5);
    TopKeysTies(pairs, 5);
    forall k | k in TopColleges(rows) ensures exists i :: 0 <= i < |rows| && rows[i].collegeName == Some(k) {
      var i :| 0 <= i < |pairs| && Keys(pairs)[i] == k;
      assert pairs[i] in pairs;
    }
    forall x | x in rows && x.collegeName.Some? ensures x.collegeName.value in Keys(pairs) {
      var i :| 0 <= i < |rows| && rows[i] == x;
      var p := (x.collegeName.value, ());
      assert p in pairs;
      var j :| 0 <= j < |pairs| && pairs[j] == p;
      assert Keys(pairs)[j] == p.0;
    }
  }

  // ------------------------------------------------------------ dates

  /** `getLastVisit`: the latest interview date. */
  function LastVisit(rows: seq<Row>): (r: int)
    requires |rows| > 0
    ensures exists i :: 0 <= i < |rows| && rows[i].interviewDate == r
    ensures forall i :: 0 <= i < |rows| ==> rows[i].interviewDate <= r
  {
    if |rows| == 1 then rows[0].interviewDate
    else
      var rest := LastVisit(rows[..|rows| - 1]);
      if rows[|rows| - 1].interviewDate > rest then rows[|rows| - 1].interviewDate else rest
  }

  function Years(rows: seq<Row>): (r: seq<int>)
    ensures |r| == |rows|
    ensures forall i :: 0 <= i < |rows| ==> r[i] == rows[i].year
  {
    seq(|rows|, i requires 0 <= i < |rows| => rows[i].year)
  }

  function YearKey(y: int): real { y as real }

  /** `[...new Set(years)].sort((a, b) => b - a)` */
  function YearsVisited(rows: seq<Row>): seq<int> {
    SortDesc(Dedup(Years(rows)), YearKey)
  }

  /** The de-duplicated years in descending order have no repeats. */
  lemma YearsVisitedDistinct(rows: seq<Row>)
    ensures Distinct(YearsVisited(rows))
  {
    DistinctPermutation(Dedup(Years(rows)), YearsVisited(rows));
  }

  /** The years visited are exactly the rows' years, each once, in strictly descending order. */
  lemma YearsVisitedCorrect(rows: seq<Row>)
    ensures var r := YearsVisited(rows);
      && (forall y :: y in r <==> exists i :: 0 <= i < |rows| && rows[i].year == y)
      && (forall i, j :: 0 <= i < j < |r| ==> r[i] > r[j])
  {
    var ys := Years(rows);
    var r := YearsVisited(rows);
    YearsVisitedDistinct(rows);
    forall y ensures y in r <==> y in ys {
      assert y in r <==> y in multiset(r);
    }
    forall y | y in ys ensures exists i :: 0 <= i < |rows| && rows[i].year == y {
      var i :| 0 <= i < |ys| && ys[i] == y;
    }
    forall i | 0 <= i < |rows| ensures rows[i].year in ys {
      assert ys[i] == rows[i].year;
    }
  }

  // ------------------------------------------------------------ insights

  datatype CollegeInsights = CollegeInsights(
    totalExperiences: nat,
    avgDifficulty: string,
    avgRating: real,
    successRate: int,
    avgSalary: real,
    commonRoles: seq<string>,
    lastVisit: int,
    yearsVisited: seq<int>)

  datatype GlobalInsights = GlobalInsights(
    totalExperiences: nat,
    avgDifficulty: string,
    avgRating: real,
    avgSalary: real,
    topColleges: seq<string>,
    commonRoles: seq<string>)

  datatype Insights = Insights(hasData: bool, collegeInsights: Option<CollegeInsights>, globalInsights: Option<GlobalInsights>)

  /** The rows of one college: `exp.collegeId === collegeId`. */
  function OfCollege(rows: seq<Row>, collegeId: string): (r: seq<Row>)
    ensures |r| <= |rows|
    ensures forall x :: x in r <==> x in rows && x.collegeId == Some(collegeId)
  {
    if |rows| == 0 then []
    else
      var pre := OfCollege(rows[..|rows| - 1], collegeId);
      var last := rows[|rows| - 1];
      assert forall x :: x in rows <==> x in rows[..|rows| - 1] || x == last;
      pre + (if last.collegeId == Some(collegeId) then [last] else [])
  }

  /** The insights block of one college's rows. */
  function CollegeSummary(mine: seq<Row>): (r: CollegeInsights)
    requires |mine| > 0
    ensures r.totalExperiences == |mine|
  {
    CollegeInsights(|mine|, AvgDifficulty(mine), AvgRating(mine), SuccessRate(mine), AvgSalary(mine),
                    CommonRoles(mine), LastVisit(mine), YearsVisited(mine))
  }

  /** The insights block over all of a company's rows. */
  function GlobalSummary(rows: seq<Row>): (r: GlobalInsights)
    requires |rows| > 0
    ensures r.totalExperiences == |rows|
  {
    GlobalInsights(|rows|, AvgDifficulty(rows), AvgRating(rows), AvgSalary(rows), TopColleges(rows), CommonRoles(rows))
  }

  /** `getCompanyInsights` over the company's experience rows; `collegeId` "" means none was given. */
  function CompanyInsights(rows: seq<Row>, collegeId: string): Insights {
    if |rows| == 0 then Insights(false, None, None)
    else
      var mine := if collegeId != "" then OfCollege(rows, collegeId) else [];
      Insights(true, if |mine| > 0 then Some(CollegeSummary(mine)) else None, Some(GlobalSummary(rows)))
  }

  /**
   * No experiences give no data and two nulls; otherwise the global
   * insights count every row, and the college insights exist exactly when a
   * college was given and some row has it, and count only its rows.
   */
  lemma CompanyInsightsCorrect(rows: seq<Row>, collegeId: string)
    ensures var r := CompanyInsights(rows, collegeId);
      && (r.hasData <==> |rows| > 0)
      && (|rows| == 0 ==> r.collegeInsights.None? && r.globalInsights.None?)
      && (|rows| > 0 ==> r.globalInsights.Some? && r.globalInsights.value.totalExperiences == |rows|)
      && (r.collegeInsights.Some? <==> collegeId != "" && exists x :: x in rows && x.collegeId == Some(collegeId))
      && (r.collegeInsights.Some? ==>
            r.collegeInsights.value.totalExperiences == |OfCollege(rows, collegeId)| <= |rows|)
  {
    if collegeId != "" && |rows| > 0 {
      var mine := OfCollege(rows, collegeId);
      if exists x :: x in rows && x.collegeId == Some(collegeId) {
        var x :| x in rows && x.collegeId == Some(collegeId);
        assert x in mine;
      }
      if |mine| > 0 {
        assert mine[0] in mine;
      }
    }
  }

  // ------------------------------------------------------- salary breakdown

  datatype RoleSalary = RoleSalary(role: string, avgSalary: real, minSalary: real, maxSalary: real, count: nat)

  function MinOf(xs: seq<real>): (m: real)
    requires |xs| > 0
    ensures exists i :: 0 <= i < |xs| && xs[i] == m
    ensures forall i :: 0 <= i < |xs| ==> m <= xs[i]
  {
    if |xs| == 1 then xs[0]
    else
      var rest := MinOf(xs[..|xs| - 1]);
      if xs[|xs| - 1] < rest then xs[|xs| - 1] else rest
  }

  function MaxOf(xs: seq<real>): (m: real)
    requires |xs| > 0
    ensures exists i :: 0 <= i < |xs| && xs[i] == m
    ensures forall i :: 0 <= i < |xs| ==> xs[i] <= m
  {
    if |xs| == 1 then xs[0]
    else
      var rest := MaxOf(xs[..|xs| - 1]);
      if xs[|xs| - 1] > rest then xs[|xs| - 1] else rest
  }

  /**
   * One role's entry: the mean rounded to one decimal, the extremes (each
   * the salary of some offer) and the number of offers.
   */
  function Summarise(e: (string, seq<real>)): (r: RoleSalary)
    requires |e.1| > 0
    ensures r.role == e.0 && r.count == |e.1|
    ensures r.minSalary <= r.maxSalary
    ensures (exists i :: 0 <= i < |e.1| && e.1[i] == r.minSalary) && (exists i :: 0 <= i < |e.1| && e.1[i] == r.maxSalary)
    ensures forall i :: 0 <= i < |e.1| ==> r.minSalary <= e.1[i] <= r.maxSalary
    ensures Sum(e.1) / |e.1| as real - 0.05 < r.avgSalary <= Sum(e.1) / |e.1| as real + 0.05
    ensures r.minSalary - 0.05 < r.avgSalary <= r.maxSalary + 0.05
  {
    MeanWithinRange(e.1);
    RoleSalary(e.0, Round1(Sum(e.1) / |e.1| as real), MinOf(e.1), MaxOf(e.1), |e.1|)
  }

  function Summaries(g: seq<(string, seq<real>)>): (r: seq<RoleSalary>)
    requires forall i :: 0 <= i < |g| ==> |g[i].1| > 0
    ensures |r| == |g|
    ensures forall i :: 0 <= i < |g| ==> r[i] == Summarise(g[i])
  {
    seq(|g|, i requires 0 <= i < |g| => Summarise(g[i]))
  }

  function AvgKey(e: RoleSalary): real { e.avgSalary }

  /** `getRoleSalaryBreakdown` over (role, salary) pairs of offers with a salary. */
  function RoleBreakdown(offers: seq<(string, real)>): seq<RoleSalary> {
    GroupNonEmpty(offers);
    SortDesc(Summaries(Group(offers)), AvgKey)
  }

  function CountSum(bs: seq<RoleSalary>): nat {
    if |bs| == 0 then 0 else CountSum(bs[..|bs| - 1]) + bs[|bs| - 1].count
  }

  lemma {:induction false} CountSumConcat(a: seq<RoleSalary>, b: seq<RoleSalary>)
    ensures CountSum(a + b) == CountSum(a) + CountSum(b)
  {
    if |b| > 0 {
      assert (a + b)[..|a + b| - 1] == a + b[..|b| - 1];
      CountSumConcat(a, b[..|b| - 1]);
    } else {
      assert a + b == a;
    }
  }

  /** The count total depends only on which entries there are. */
  lemma {:induction false} CountSumPermutation(a: seq<RoleSalary>, b: seq<RoleSalary>)
    requires multiset(a) == multiset(b)
    ensures CountSum(a) == CountSum(b)
    decreases |a|
  {
    if |a| > 0 {
      var x := a[|a| - 1];
      assert x in multiset(b) by { assert x in multiset(a); }
      var k :| 0 <= k < |b| && b[k] == x;
      RemoveMatched(a, b, k);
      CountSumPermutation(a[..|a| - 1], b[..k] + b[k + 1..]);
      CountSumConcat(b[..k] + [x], b[k + 1..]);
      CountSumConcat(b[..k], [x]);
      CountSumConcat(b[..k], b[k + 1..]);
      assert CountSum([x]) == x.count by { assert [x][..0] == []; }
    } else {
      assert |b| == 0;
    }
  }


  lemma {:induction false} SummariesCount(g: seq<(string, seq<real>)>)
    requires forall i :: 0 <= i < |g| ==> |g[i].1| > 0
    ensures CountSum(Summaries(g)) == Total(g)
  {
    if |g| > 0 {
      var pre := g[..|g| - 1];
      SummariesCount(pre);
      assert Summaries(g)[..|g| - 1] == Summaries(pre);
    }
  }

  /**
   * `e` summarises the offers of its role: it counts them, its extremes are
   * salaries of such offers and bound every one of them, and its average
   * is their mean rounded to one decimal.
   */
  predicate SummarisesRole(e: RoleSalary, offers: seq<(string, real)>) {
    var vs := ValuesOf(offers, e.role);
    && e.role in Keys(offers)
    && e.count == |vs|
    && e.count > 0
    && (e.role, e.minSalary) in offers
    && (e.role, e.maxSalary) in offers
    && (forall p :: p in offers && p.0 == e.role ==> e.minSalary <= p.1 <= e.maxSalary)
    && Sum(vs) / |vs| as real - 0.05 < e.avgSalary <= Sum(vs) / |vs| as real + 0.05
  }

  /** A breakdown entry is the summary of its role's group of salaries. */
  lemma RoleEntryGroup(offers: seq<(string, real)>, e: RoleSalary)
    requires e in RoleBreakdown(offers)
    ensures e.role in Keys(offers)
    ensures |ValuesOf(offers, e.role)| > 0 && e == Summarise((e.role, ValuesOf(offers, e.role)))
  {
    GroupNonEmpty(offers);
    var g := Group(offers);
    var u := Summaries(g);
    assert e in multiset(RoleBreakdown(offers));
    assert e in u;
    var i :| 0 <= i < |u| && u[i] == e;
    GroupKeys(offers);
    GroupValues(offers);
    assert Keys(g)[i] == g[i].0;
  }

  /** One breakdown entry summarises the offers of its role. */
  lemma RoleEntry(offers: seq<(string, real)>, e: RoleSalary)
    requires e in RoleBreakdown(offers)
    ensures SummarisesRole(e, offers)
  {
    RoleEntryGroup(offers, e);
    var vs := ValuesOf(offers, e.role);
    ValuesOfHas(offers, e.role);
    var a :| 0 <= a < |vs| && vs[a] == e.minSalary;
    var b :| 0 <= b < |vs| && vs[b] == e.maxSalary;
    assert vs[a] in vs && vs[b] in vs;
    forall p | p in offers && p.0 == e.role ensures e.minSalary <= p.1 <= e.maxSalary {
      assert (e.role, p.1) == p;
      var m :| 0 <= m < |vs| && vs[m] == p.1;
    }
  }

  /** Each breakdown entry summarises the offers of one role, min never above max. */
  lemma RoleBreakdownMembers(offers: seq<(string, real)>)
    ensures forall e :: e in RoleBreakdown(offers) ==>
      SummarisesRole(e, offers) && e.minSalary <= e.maxSalary && e.minSalary - 0.05 < e.avgSalary <= e.maxSalary + 0.05
  {
    forall e | e in RoleBreakdown(offers)
      ensures SummarisesRole(e, offers) && e.minSalary <= e.maxSalary && e.minSalary - 0.05 < e.avgSalary <= e.maxSalary + 0.05
    {
      RoleEntry(offers, e);
      GroupNonEmpty(offers);
      assert e in multiset(RoleBreakdown(offers));
      var u := Summaries(Group(offers));
      assert e in u;
    }
  }

  /** The role summaries, before sorting, are keyed by distinct roles. */
  lemma SummariesDistinct(offers: seq<(string, real)>)
    requires forall i :: 0 <= i < |Group(offers)| ==> |Group(offers)[i].1| > 0
    ensures forall a, b :: 0 <= a < |Summaries(Group(offers))| && 0 <= b < |Summaries(Group(offers))| && a != b ==>
      Summaries(Group(offers))[a].role != Summaries(Group(offers))[b].role
  {
    var u := Summaries(Group(offers));
    forall a, b | 0 <= a < |u| && 0 <= b < |u| && a != b ensures u[a].role != u[b].role {
      GroupKeysDistinct(offers, a, b);
    }
  }

  /** No role has two entries. */
  lemma RoleBreakdownDistinct(offers: seq<(string, real)>)
    ensures var r := RoleBreakdown(offers);
      forall i, j :: 0 <= i < j < |r| ==> r[i].role != r[j].role
  {
    GroupNonEmpty(offers);
    var u := Summaries(Group(offers));
    var r := RoleBreakdown(offers);
    SummariesDistinct(offers);
    assert Distinct(u);
    DistinctPermutation(u, r);
    forall i, j | 0 <= i < j < |r| ensures r[i].role != r[j].role {
      assert r[i] in multiset(u) && r[j] in multiset(u);
      var a :| 0 <= a < |u| && u[a] == r[i];
      var b :| 0 <= b < |u| && u[b] == r[j];
    }
  }

  /** Every role with an offer has an entry. */
  lemma RoleBreakdownComplete(offers: seq<(string, real)>)
    ensures forall k :: k in Keys(offers) ==> exists e :: e in RoleBreakdown(offers) && e.role == k
  {
    GroupNonEmpty(offers);
    var g := Group(offers);
    var u := Summaries(g);
    var r := RoleBreakdown(offers);
    GroupKeys(offers);
    forall k | k in Keys(offers) ensures exists e :: e in r && e.role == k {
      assert k in Keys(g);
      var a :| 0 <= a < |g| && Keys(g)[a] == k;
      assert u[a] in multiset(r);
      assert u[a] in r;
    }
  }

  /** The breakdown's counts add up to the number of offers. */
  lemma RoleBreakdownTotal(offers: seq<(string, real)>)
    ensures CountSum(RoleBreakdown(offers)) == |offers|
  {
    GroupNonEmpty(offers);
    var g := Group(offers);
    GroupTotal(offers);
    SummariesCount(g);
    CountSumPermutation(Summaries(g), RoleBreakdown(offers));
  }

  /**
   * The breakdown: exactly one entry per role with an offer, each
   * summarising that role's offers; the counts add up to the number of
   * offers, and the entries come by non-increasing average.
   */
  lemma RoleBreakdownCorrect(offers: seq<(string, real)>)
    ensures var r := RoleBreakdown(offers);
      && (forall i :: 0 <= i < |r| ==> r[i].minSalary <= r[i].maxSalary && r[i].count > 0)
      && CountSum(r) == |offers|
      && (forall i, j :: 0 <= i < j < |r| ==> r[i].avgSalary >= r[j].avgSalary)
      && (forall e :: e in r ==> e.role in Keys(offers) && e.count == |ValuesOf(offers, e.role)|)
      && (forall i, j :: 0 <= i < j < |r| ==> r[i].role != r[j].role)
      && (forall k :: k in Keys(offers) ==> exists e :: e in r && e.role == k)
      && (forall e :: e in r ==> SummarisesRole(e, offers))
  {
    var r := RoleBreakdown(offers);
    RoleBreakdownMembers(offers);
    RoleBreakdownTotal(offers);
    RoleBreakdownDistinct(offers);
    RoleBreakdownComplete(offers);
    assert forall i :: 0 <= i < |r| ==> r[i] in r;
  }

  // ---------------------------------------------------------- salary insights

  /** `n` copies of `x` added up. */
  function Scale(n: int, x: real): real {
    n as real * x
  }

  lemma {:induction false} SumBounds(xs: seq<real>, lo: real, hi: real)
    requires forall i :: 0 <= i < |xs| ==> lo <= xs[i] <= hi
    ensures Scale(|xs|, lo) <= Sum(xs) <= Scale(|xs|, hi)
  {
    if |xs| > 0 {
      SumBounds(xs[..|xs| - 1], lo, hi);
    }
  }

  lemma MeanBetween(sum: real, n: int, lo: real, hi: real)
    requires n > 0 && Scale(n, lo) <= sum <= Scale(n, hi)
    ensures lo <= sum / n as real <= hi
  {
    assert sum / n as real * n as real == sum;
  }

  lemma Round1Between(m: real, lo: real, hi: real)
    requires lo <= m <= hi
    ensures lo - 0.05 < Round1(m) <= hi + 0.05
  {
  }

  /** The rounded mean of a non-empty list lies within rounding of its extremes. */
  lemma MeanWithinRange(xs: seq<real>)
    requires |xs| > 0
    ensures MinOf(xs) - 0.05 < Round1(Sum(xs) / |xs| as real) <= MaxOf(xs) + 0.05
  {
    SumBounds(xs, MinOf(xs), MaxOf(xs));
    MeanBetween(Sum(xs), |xs|, MinOf(xs), MaxOf(xs));
    Round1Between(Sum(xs) / |xs| as real, MinOf(xs), MaxOf(xs));
  }

  /** An offer row of `getSalaryInsights`: only experiences with a salary are fetched. */
  datatype Offer = Offer(role: string, salary: real, collegeId: Option<string>)

  datatype SalaryData = SalaryData(avgSalary: real, minSalary: real, maxSalary: real, totalOffers: nat, roleBreakdown: seq<RoleSalary>)

  datatype SalaryInsights = SalaryInsights(collegeData: Option<SalaryData>, globalData: SalaryData)

  function OfferSalaries(offers: seq<Offer>): (r: seq<real>)
    ensures |r| == |offers|
    ensures forall i :: 0 <= i < |offers| ==> r[i] == offers[i].salary
  {
    seq(|offers|, i requires 0 <= i < |offers| => offers[i].salary)
  }

  function OfferPairs(offers: seq<Offer>): (r: seq<(string, real)>)
    ensures |r| == |offers|
    ensures forall i :: 0 <= i < |offers| ==> r[i] == (offers[i].role, offers[i].salary)
  {
    seq(|offers|, i requires 0 <= i < |offers| => (offers[i].role, offers[i].salary))
  }

  /**
   * One salary block: the mean salary rounded to one decimal, the extremes
   * (each some offer's salary), the number of offers and the per-role
   * breakdown.
   */
  function SalaryBlock(offers: seq<Offer>): (r: SalaryData)
    requires |offers| > 0
    ensures r.totalOffers == |offers|
    ensures r.minSalary <= r.maxSalary
    ensures (exists i :: 0 <= i < |offers| && offers[i].salary == r.minSalary)
         && (exists i :: 0 <= i < |offers| && offers[i].salary == r.maxSalary)
    ensures forall i :: 0 <= i < |offers| ==> r.minSalary <= offers[i].salary <= r.maxSalary
    ensures var mean := Sum(OfferSalaries(offers)) / |offers| as real;
      mean - 0.05 < r.avgSalary <= mean + 0.05
    ensures r.minSalary - 0.05 < r.avgSalary <= r.maxSalary + 0.05
  {
    var xs := OfferSalaries(offers);
    MeanWithinRange(xs);
    SalaryData(Round1(Sum(xs) / |xs| as real), MinOf(xs), MaxOf(xs), |xs|, RoleBreakdown(OfferPairs(offers)))
  }

  /** The offers of one college. */
  function OffersOf(offers: seq<Offer>, collegeId: string): (r: seq<Offer>)
    ensures forall x :: x in r <==> x in offers && x.collegeId == Some(collegeId)
  {
    if |offers| == 0 then []
    else
      var last := offers[|offers| - 1];
      assert forall x :: x in offers <==> x in offers[..|offers| - 1] || x == last;
      OffersOf(offers[..|offers| - 1], collegeId) + (if last.collegeId == Some(collegeId) then [last] else [])
  }

  /** `getSalaryInsights`; `collegeId` "" means none was given. */
  function SalaryInsightsOf(offers: seq<Offer>, collegeId: string): Option<SalaryInsights> {
    if |offers| == 0 then None
    else
      var mine := if collegeId != "" then OffersOf(offers, collegeId) else [];
      Some(SalaryInsights(if |mine| > 0 then Some(SalaryBlock(mine)) else None, SalaryBlock(offers)))
  }

  /**
   * No offers give null; otherwise the global block counts every offer and
   * the college block exists exactly when a college was given and some offer
   * has it.
   */
  lemma SalaryInsightsCorrect(offers: seq<Offer>, collegeId: string)
    ensures var r := SalaryInsightsOf(offers, collegeId);
      && (r.None? <==> |offers| == 0)
      && (r.Some? ==> r.value.globalData.totalOffers == |offers|)
      && (r.Some? ==> (r.value.collegeData.Some? <==> collegeId != "" && exists x :: x in offers && x.collegeId == Some(collegeId)))
  {
    if collegeId != "" && |offers| > 0 {
      var mine := OffersOf(offers, collegeId);
      if exists x :: x in offers && x.collegeId == Some(collegeId) {
        var x :| x in offers && x.collegeId == Some(collegeId);
        assert x in mine;
      }
      if |mine| > 0 {
        assert mine[0] in mine;
      }
    }
  }
}

=== FILE: companies_page.dfy ===
/**
 * The companies page: the search / industry / college filter, the split into
 * companies with experiences from the user's college and the rest, and the
 * industry options.
 */
module CompaniesPage {

  import opened Wrappers
  import opened Text
  import opened Sorting
  import opened Lists

  /**
   * A company as the list endpoint returns it; `experiences` holds the
   * college ids of its experiences and is absent when the endpoint leaves
   * the field out.
   */
  datatype Company = Company(name: string, industry: string, experiences: Option<seq<string>>)

  /** `data.data?.collegeId || ''`: the user's college, or the empty string. */
  function UserCollege(profileCollege: Option<string>): (r: string)
    ensures profileCollege.Some? ==> r == profileCollege.value
    ensures profileCollege.None? ==> r == ""
  {
    if profileCollege.Some? then profileCollege.value else ""
  }

  /** `company.experiences?.some(exp => exp.collegeId === college)`; an absent list is falsy. */
  predicate HasExperienceFrom(c: Company, college: string) {
    c.experiences.Some? && college in c.experiences.value
  }

  predicate MatchesCollege(c: Company, selectedCollege: string, userCollege: string) {
    || selectedCollege == "all"
    || (selectedCollege == "your-college" && HasExperienceFrom(c, userCollege))
    || (selectedCollege != "your-college" && HasExperienceFrom(c, selectedCollege))
  }

  predicate Matches(c: Company, query: string, selectedIndustry: string, selectedCollege: string, userCollege: string) {
    && Contains(Lower(c.name), Lower(query))
    && (selectedIndustry == "all" || c.industry == selectedIndustry)
    && MatchesCollege(c, selectedCollege, userCollege)
  }

  /** `filteredCompanies` */
  function FilteredCompanies(cs: seq<Company>, query: string, selectedIndustry: string,
                             selectedCollege: string, userCollege: string): seq<Company>
  {
    Filter(cs, (c: Company) => Matches(c, query, selectedIndustry, selectedCollege, userCollege))
  }

  /**
   * A company is shown exactly when it passes all three filters, and the
   * shown companies keep the order of the list.
   */
  lemma FilteredCorrect(cs: seq<Company>, query: string, selectedIndustry: string,
                        selectedCollege: string, userCollege: string, a: Company, b: Company)
    ensures var r := FilteredCompanies(cs, query, selectedIndustry, selectedCollege, userCollege);
      && (a in r <==> a in cs && Matches(a, query, selectedIndustry, selectedCollege, userCollege))
      && (Matches(a, query, selectedIndustry, selectedCollege, userCollege) &&
          Matches(b, query, selectedIndustry, selectedCollege, userCollege) ==>
            (Precedes(r, a, b) <==> Precedes(cs, a, b)))
  {
    var m := (c: Company) => Matches(c, query, selectedIndustry, selectedCollege, userCollege);
    if a in cs && m(a) {
      FilterMember(cs, m, a);
    }
    if m(a) && m(b) {
      FilterPrecedes(cs, m, a, b);
    }
  }

  /** The empty search text matches every name, so with every filter at `all` nothing is hidden. */
  lemma DefaultsShowAll(cs: seq<Company>, userCollege: string)
    ensures FilteredCompanies(cs, "", "all", "all", userCollege) == cs
  {
    forall i | 0 <= i < |cs| ensures Matches(cs[i], "", "all", "all", userCollege) {
      assert OccursAt(Lower(cs[i].name), Lower(""), 0);
    }
    FilterAll(cs, (c: Company) => Matches(c, "", "all", "all", userCollege));
  }

  /** A company without an experience list never passes a college filter other than `all`. */
  lemma NoExperiencesHidden(c: Company, query: string, selectedIndustry: string,
                            selectedCollege: string, userCollege: string)
    requires c.experiences.None? && selectedCollege != "all"
    ensures !Matches(c, query, selectedIndustry, selectedCollege, userCollege)
  {
  }

  // --------------------------------------------------------------- the split

  /** `collegeCompanies` and `otherCompanies` */
  function Split(shown: seq<Company>, userCollege: string): (r: (seq<Company>, seq<Company>)) {
    (Filter(shown, (c: Company) => HasExperienceFrom(c, userCollege)),
     Filter(shown, (c: Company) => !HasExperienceFrom(c, userCollege)))
  }

  /**
   * The two groups together hold each shown company exactly once: the
   * first those with an experience from the user's college, the second the
   * rest, each in list order.
   */
  lemma SplitPartitions(shown: seq<Company>, userCollege: string, a: Company, b: Company)
    ensures var (mine, others) := Split(shown, userCollege);
      && multiset(mine) + multiset(others) == multiset(shown)
      && (a in mine <==> a in shown && HasExperienceFrom(a, userCollege))
      && (a in others <==> a in shown && !HasExperienceFrom(a, userCollege))
      && (HasExperienceFrom(a, userCollege) && HasExperienceFrom(b, userCollege) ==>
            (Precedes(mine, a, b) <==> Precedes(shown, a, b)))
  {
    var p := (c: Company) => HasExperienceFrom(c, userCollege);
    var q := (c: Company) => !HasExperienceFrom(c, userCollege);
    FilterPartition(shown, p, q);
    if a in shown {
      if p(a) { FilterMember(shown, p, a); } else { FilterMember(shown, q, a); }
    }
    if p(a) && p(b) {
      FilterPrecedes(shown, p, a, b);
    }
  }

  /** With the `your-college` filter on, every shown company is in the first group. */
  lemma YourCollegeAllMine(cs: seq<Company>, query: string, selectedIndustry: string, userCollege: string)
    ensures var shown := FilteredCompanies(cs, query, selectedIndustry, "your-college", userCollege);
      Split(shown, userCollege).0 == shown && Split(shown, userCollege).1 == []
  {
    var shown := FilteredCompanies(cs, query, selectedIndustry, "your-college", userCollege);
    forall i | 0 <= i < |shown| ensures HasExperienceFrom(shown[i], userCollege) {
      assert shown[i] in shown;
    }
    FilterAll(shown, (c: Company) => HasExperienceFrom(c, userCollege));
    NoneKept(shown, (c: Company) => !HasExperienceFrom(c, userCollege));
  }

  // ---------------------------------------------------------- the industries

  datatype OptionItem = OptionItem(id: string, caption: string)

  function Industries(cs: seq<Company>): seq<string> {
    if |cs| == 0 then [] else Industries(cs[..|cs| - 1]) + [cs[|cs| - 1].industry]
  }

  function AsOptions(xs: seq<string>): (r: seq<OptionItem>)
    ensures |r| == |xs|
    ensures forall i :: 0 <= i < |xs| ==> r[i] == OptionItem(xs[i], xs[i])
  {
    if |xs| == 0 then [] else [OptionItem(xs[0], xs[0])] + AsOptions(xs[1..])
  }

  /**
   * `industries`: `all` first, then each distinct non-empty industry once,
   * in order of first appearance, as its own label.
   */
  function IndustryOptions(cs: seq<Company>): seq<OptionItem> {
    [OptionItem("all", "All Industries")] + AsOptions(Filter(Dedup(Industries(cs)), (i: string) => i != ""))
  }

  lemma {:induction false} IndustriesMember(cs: seq<Company>, i: string)
    ensures i in Industries(cs) <==> exists c :: c in cs && c.industry == i
  {
    if |cs| > 0 {
      var pre := cs[..|cs| - 1];
      IndustriesMember(pre, i);
      assert forall c :: c in cs <==> c in pre || c == cs[|cs| - 1];
    }
  }

  lemma {:induction false} FilterDistinct<T(!new)>(s: seq<T>, p: T -> bool)
    requires Distinct(s)
    ensures Distinct(Filter(s, p))
  {
    if |s| > 0 {
      FilterDistinct(s[1..], p);
      var rest := Filter(s[1..], p);
      forall k | 0 <= k < |s| - 1 ensures s[1..][k] != s[0] {
        assert s[1..][k] == s[k + 1];
      }
      assert s[0] !in rest;
    }
  }

  /** Filtering the distinct values keeps them in order of first appearance. */
  lemma FilterDedupOrder(xs: seq<string>, p: string -> bool, a: nat, b: nat)
    requires a < b < |Filter(Dedup(xs), p)|
    ensures var ds := Filter(Dedup(xs), p);
      FirstIndex(xs, ds[a]) < FirstIndex(xs, ds[b])
  {
    var d := Dedup(xs);
    var ds := Filter(d, p);
    assert ds[a] in ds && ds[b] in ds;
    assert Precedes(ds, ds[a], ds[b]);
    FilterPrecedes(d, p, ds[a], ds[b]);
    var i, j :| 0 <= i < j < |d| && d[i] == ds[a] && d[j] == ds[b];
    DedupOrder(xs);
  }

  /** The options after `all` follow the first appearance of each industry. */
  lemma IndustryOptionsOrdered(cs: seq<Company>)
    ensures var r := IndustryOptions(cs);
      forall a, b :: 1 <= a < b < |r| ==> FirstIndex(Industries(cs), r[a].id) < FirstIndex(Industries(cs), r[b].id)
  {
    var notEmpty := (s: string) => s != "";
    var ds := Filter(Dedup(Industries(cs)), notEmpty);
    var r := IndustryOptions(cs);
    assert r[1..] == AsOptions(ds);
    forall a, b | 1 <= a < b < |r|
      ensures FirstIndex(Industries(cs), r[a].id) < FirstIndex(Industries(cs), r[b].id)
    {
      assert r[a] == AsOptions(ds)[a - 1] && r[b] == AsOptions(ds)[b - 1];
      FilterDedupOrder(Industries(cs), notEmpty, a - 1, b - 1);
    }
  }

  /**
   * After the `all` entry, the options are exactly the non-empty industries
   * of some company, each once, with the industry as id and label, in the
   * order in which the companies list first shows each industry.
   */
  lemma IndustryOptionsCorrect(cs: seq<Company>, i: string)
    ensures var r := IndustryOptions(cs);
      && r[0] == OptionItem("all", "All Industries")
      && (OptionItem(i, i) in r[1..] <==> i != "" && exists c :: c in cs && c.industry == i)
      && (forall k :: 1 <= k < |r| ==> r[k].id == r[k].caption && r[k].id != "")
      && (forall a, b :: 1 <= a < b < |r| ==> r[a].id != r[b].id)
      && (forall a, b :: 1 <= a < b < |r| ==> FirstIndex(Industries(cs), r[a].id) < FirstIndex(Industries(cs), r[b].id))
  {
    var notEmpty := (s: string) => s != "";
    var ds := Filter(Dedup(Industries(cs)), notEmpty);
    var r := IndustryOptions(cs);
    IndustriesMember(cs, i);
    if i != "" && i in Dedup(Industries(cs)) {
      FilterMember(Dedup(Industries(cs)), notEmpty, i);
    }
    assert r[1..] == AsOptions(ds);
    if OptionItem(i, i) in r[1..] {
      var k :| 0 <= k < |ds| && AsOptions(ds)[k] == OptionItem(i, i);
      assert ds[k] == i;
    }
    FilterDistinct(Dedup(Industries(cs)), notEmpty);
    forall k | 1 <= k < |r| ensures r[k].id == r[k].caption && r[k].id != "" {
      assert r[k] == AsOptions(ds)[k - 1];
      assert ds[k - 1] in ds;
    }
    forall a, b | 1 <= a < b < |r| ensures r[a].id != r[b].id {
      assert r[a] == AsOptions(ds)[a - 1] && r[b] == AsOptions(ds)[b - 1];
    }
    IndustryOptionsOrdered(cs);
  }
}

=== FILE: csv_merge.dfy ===
/**
 * The offline script that merges per-company LeetCode CSV exports into one
 * problem list: the CSV reader, the company name taken from a file name,
 * the per-row normalisation (id, title, difficulty, acceptance, frequency,
 * link slug), the merge keyed by problem id, and the sorted output.
 *
 * The file system is a parameter: the folder listing (`None` when the
 * folder is missing) and a reader returning `None` where `readFileSync`
 * throws. `parseFloat` is a parameter as well.
 */
module CsvMerge {

  import opened Wrappers
  import opened Text
  import opened Sorting
  import opened Lists

  // -------------------------------------------------------------- the reader

  /** A parsed row: the object whose properties are the header names. */
  type Row = map<string, string>

  /** A header cell: trimmed, with every double quote removed. */
  function Header(h: string): (r: string)
    ensures '"' !in r
  {
    ReplaceAllRemoves(JsTrim(h), '"', "");
    ReplaceAll(JsTrim(h), "\"", "")
  }

  /**
   * `parseCSV` as written: the loop that should fill `values` is absent, so
   * every property of every row is the empty string.
   */
  function RowOf(headers: seq<string>, line: string): (r: Row)
    ensures r.Keys == set h | h in headers
    ensures forall h :: h in r ==> r[h] == ""
  {
    map h | h in headers :: ""
  }

  /** A property read through `row.X`: `None` is `undefined`. */
  function Get(row: Row, k: string): Option<string> {
    if k in row then Some(row[k]) else None
  }

  /** JavaScript truthiness of an optional string. */
  predicate Truthy(v: Option<string>) { v.Some? && v.value != "" }

  /** `a || b` */
  function OrElse(a: Option<string>, b: Option<string>): (r: Option<string>)
    ensures Truthy(r) <==> Truthy(a) || Truthy(b)
    ensures Truthy(a) ==> r == a
  {
    if Truthy(a) then a else b
  }

  /** `a || "default"` */
  function OrDefault(a: Option<string>, d: string): (r: string)
    ensures Truthy(a) ==> r == a.value
    ensures !Truthy(a) ==> r == d
  {
    if Truthy(a) then a.value else d
  }

  /** The row filter `row.ID || row.id`. */
  predicate HasId(row: Row) { Truthy(OrElse(Get(row, "ID"), Get(row, "id"))) }

  function RowsOf(headers: seq<string>, lines: seq<string>): (rows: seq<Row>)
    ensures |rows| <= |lines|
    ensures forall r :: r in rows ==> HasId(r)
  {
    if |lines| == 0 then []
    else
      var row := RowOf(headers, lines[|lines| - 1]);
      RowsOf(headers, lines[..|lines| - 1]) + (if HasId(row) then [row] else [])
  }

  /** `parseCSV(content)` */
  function ParseCsv(content: string): (rows: seq<Row>)
  {
    var lines := Split(JsTrim(content), "\n");
    if |lines| < 2 then []
    else
      var headers := seq(|Split(lines[0], ",")|, i requires 0 <= i < |Split(lines[0], ",")| => Header(Split(lines[0], ",")[i]));
      RowsOf(headers, lines[1..])
  }

  /**
   * Whatever the file holds, `parseCSV` returns no rows: a text of fewer than
   * two lines gives none, and in every other row the id is the empty string
   * or undefined, so the filter drops it.
   */
  lemma ParseCsvEmpty(content: string)
    ensures ParseCsv(content) == []
  {
    var lines := Split(JsTrim(content), "\n");
    if |lines| >= 2 {
      var headers := seq(|Split(lines[0], ",")|, i requires 0 <= i < |Split(lines[0], ",")| => Header(Split(lines[0], ",")[i]));
      NoRowHasId(headers, lines[1..]);
    }
  }

  lemma {:induction false} NoRowHasId(headers: seq<string>, lines: seq<string>)
    ensures RowsOf(headers, lines) == []
  {
    if |lines| > 0 {
      NoRowHasId(headers, lines[..|lines| - 1]);
      var row := RowOf(headers, lines[|lines| - 1]);
      assert !Truthy(Get(row, "ID")) && !Truthy(Get(row, "id"));
    }
  }

  // --------------------------------------------------------- company names

  /** `replace(pat, rep)` with a string pattern: the first occurrence only. */
  function ReplaceFirst(s: string, pat: string, rep: string): (r: string)
    ensures IndexOf(s, pat) < 0 ==> r == s
    ensures IndexOf(s, pat) >= 0 ==> r == s[..IndexOf(s, pat)] + rep + s[IndexOf(s, pat) + |pat|..]
  {
    var i := IndexOf(s, pat);
    if i < 0 then s else s[..i] + rep + s[i + |pat|..]
  }

  /** `word.charAt(0).toUpperCase() + word.slice(1)` */
  function Capitalize(w: string): (r: string)
    ensures |r| == |w|
    ensures |w| > 0 ==> r[0] == UpperChar(w[0]) && r[1..] == w[1..]
  {
    if |w| == 0 then "" else [UpperChar(w[0])] + w[1..]
  }

  function CapitalizeAll(words: seq<string>): (r: seq<string>)
    ensures |r| == |words|
    ensures forall i :: 0 <= i < |words| ==> r[i] == Capitalize(words[i])
  {
    seq(|words|, i requires 0 <= i < |words| => Capitalize(words[i]))
  }

  /** `getCompanyName(filename)` */
  function CompanyName(filename: string): string {
    var base := ReplaceFirst(filename, "_alltime.csv", "");
    Join(CapitalizeAll(Split(ReplaceAll(base, "-", " "), "_")), " ")
  }

  /** Capitalising a word neither adds an underscore or a hyphen nor removes one. */
  lemma CapitalizeKeepsOut(w: string, c: char)
    requires c == '_' || c == '-'
    ensures c in Capitalize(w) <==> c in w
  {
    if |w| > 0 {
      assert w == [w[0]] + w[1..];
      assert Capitalize(w) == [UpperChar(w[0])] + w[1..];
    }
  }

  /** A company name holds no hyphen and no underscore. */
  lemma CompanyNameClean(filename: string)
    ensures '-' !in CompanyName(filename) && '_' !in CompanyName(filename)
  {
    var base := ReplaceFirst(filename, "_alltime.csv", "");
    var spaced := ReplaceAll(base, "-", " ");
    ReplaceAllRemoves(base, '-', " ");
    var parts := Split(spaced, "_");
    SplitKeepsOut(spaced, "_", '-');
    SplitPartsFree(spaced, "_");
    var words := CapitalizeAll(parts);
    forall w | w in words ensures '-' !in w && '_' !in w {
      var i :| 0 <= i < |words| && words[i] == w;
      assert parts[i] in parts;
      ContainsChar(parts[i], '_');
      CapitalizeKeepsOut(parts[i], '-');
      CapitalizeKeepsOut(parts[i], '_');
    }
    JoinKeepsOut(words, " ", '-');
    JoinKeepsOut(words, " ", '_');
  }

  /** Only the first character of the suffix is an underscore, so two of its occurrences never overlap. */
  lemma SuffixFound(stem: string)
    requires !Contains(stem, "_alltime.csv")
    ensures IndexOf(stem + "_alltime.csv", "_alltime.csv") == |stem|
  {
    var p := "_alltime.csv";
    var f := stem + p;
    assert OccursAt(f, p, |stem|);
    assert f[|stem|] == '_';
    assert p[1..] == "alltime.csv";
    ContainsIff(stem, p);
    forall k | 0 <= k < |stem| ensures !OccursAt(f, p, k) {
      if k + 12 <= |stem| {
        assert f[k..k + 12] == stem[k..k + 12];
        assert !OccursAt(stem, p, k);
      } else {
        var d := |stem| - k;
        assert p[d] == p[1..][d - 1] && p[1..][d - 1] in p[1..];
        assert f[k..k + 12][d] == f[|stem|];
        assert f[k..k + 12] != p;
      }
    }
  }

  /** The suffix `_alltime.csv` goes first, so it leaves no trace in the name. */
  lemma CompanyNameOfPlain(stem: string)
    requires !Contains(stem, "_alltime.csv")
    ensures CompanyName(stem + "_alltime.csv") == CompanyName(stem)
  {
    var f := stem + "_alltime.csv";
    SuffixFound(stem);
    assert f[..|stem|] == stem && f[|stem| + 12..] == "";
    assert ReplaceFirst(f, "_alltime.csv", "") == stem;
    assert IndexOf(stem, "_alltime.csv") < 0;
  }

  // --------------------------------------------------------------- parseInt

  /** `parseInt`'s radix-16 digits. */
  predicate IsHexDigit(c: char) { IsDigit(c) || 'a' <= c <= 'f' || 'A' <= c <= 'F' }

  function HexDigitValue(c: char): nat
    requires IsHexDigit(c)
  {
    if IsDigit(c) then c as int - '0' as int
    else if 'a' <= c <= 'f' then c as int - 'a' as int + 10
    else c as int - 'A' as int + 10
  }

  function HexValue(s: string): nat
    requires forall i :: 0 <= i < |s| ==> IsHexDigit(s[i])
  {
    if |s| == 0 then 0 else 16 * HexValue(s[..|s| - 1]) + HexDigitValue(s[|s| - 1])
  }

  /** The length of the longest prefix of `s` whose characters satisfy `p`. */
  function RunLength(s: string, p: char -> bool): (n: nat)
    ensures n <= |s|
    ensures forall i :: 0 <= i < n ==> p(s[i])
    ensures n < |s| ==> !p(s[n])
  {
    SkipWhile(s, p, 0)
  }

  /**
   * The number after any sign: `0x` or `0X` and the longest run of hex
   * digits, or else the longest run of decimal digits; `None` when the run
   * is empty.
   */
  function ParseMagnitude(u: string): (r: Option<nat>)
  {
    var hex := |u| >= 2 && u[0] == '0' && (u[1] == 'x' || u[1] == 'X');
    var v := if hex then u[2..] else u;
    var n := if hex then RunLength(v, IsHexDigit) else RunLength(v, IsDigit);
    if n == 0 then None
    else Some(if hex then HexValue(v[..n]) else DigitsValue(v[..n]))
  }

  /**
   * `parseInt(s)` without a radix: leading white space, an optional sign,
   * then the magnitude; `None` is `NaN`.
   */
  function ParseInt(s: string): (r: Option<int>)
  {
    var t := s[SkipWhile(s, IsJsWhitespace, 0)..];
    var negative := |t| > 0 && t[0] == '-';
    var u := if |t| > 0 && (t[0] == '-' || t[0] == '+') then t[1..] else t;
    match ParseMagnitude(u)
    case None => None
    case Some(m) => Some(if negative then -(m as int) else m)
  }

  /** How `String(n)` prints an integer. */
  function IntToString(n: int): (r: string)
    ensures |r| > 0
  {
    if n < 0 then "-" + NatToString(-n) else NatToString(n)
  }

  /** A run of decimal digits is read in base 10, in full. */
  lemma MagnitudeOfDigits(digits: string)
    requires |digits| > 0 && forall i :: 0 <= i < |digits| ==> IsDigit(digits[i])
    ensures ParseMagnitude(digits) == Some(DigitsValue(digits))
  {
    assert |digits| >= 2 ==> digits[1] != 'x' && digits[1] != 'X' by {
      if |digits| >= 2 { assert IsDigit(digits[1]); }
    }
    assert RunLength(digits, IsDigit) == |digits|;
    assert digits[..|digits|] == digits;
  }

  /** `parseInt` reads back a printed natural number, with or without a minus sign. */
  lemma ParsePrintedNat(m: nat)
    ensures ParseInt(NatToString(m)) == Some(m)
    ensures ParseInt("-" + NatToString(m)) == Some(-(m as int))
  {
    var digits := NatToString(m);
    NatToStringRoundTrip(m);
    MagnitudeOfDigits(digits);
    assert !IsJsWhitespace(digits[0]);
    assert SkipWhile(digits, IsJsWhitespace, 0) == 0;
    assert digits[0..] == digits;
    var s := "-" + digits;
    assert !IsJsWhitespace(s[0]);
    assert SkipWhile(s, IsJsWhitespace, 0) == 0;
    assert s[0..] == s;
    assert s[1..] == digits;
  }

  /** `parseInt` reads back every printed integer. */
  lemma ParseIntRoundTrip(n: int)
    ensures ParseInt(IntToString(n)) == Some(n)
  {
    if n < 0 {
      ParsePrintedNat(-n);
      assert IntToString(n) == "-" + NatToString(-n);
    } else {
      ParsePrintedNat(n);
      assert IntToString(n) == NatToString(n);
    }
  }

  // -------------------------------------------------------------- the slug

  predicate IsSlugChar(c: char) { IsAsciiLower(c) || IsDigit(c) }

  /** `replace(/[^a-z0-9]+/g, "-")`: every maximal run of other characters becomes one hyphen. */
  function Collapse(s: string, inRun: bool): (r: string)
    ensures SlugChars(r)
  {
    if |s| == 0 then ""
    else if IsSlugChar(s[0]) then [s[0]] + Collapse(s[1..], false)
    else (if inRun then "" else "-") + Collapse(s[1..], true)
  }

  /** `replace(/^-|-$/g, "")` */
  function StripDashes(s: string): (r: string)
    ensures |r| <= |s|
  {
    var a := if |s| > 0 && s[0] == '-' then s[1..] else s;
    if |a| > 0 && a[|a| - 1] == '-' then a[..|a| - 1] else a
  }

  /** The path segment of `leetcodeLink`. */
  function Slug(title: string): string {
    StripDashes(Collapse(Lower(title), false))
  }

  /** Only `a`-`z`, digits and single hyphens, with no hyphen at either end. */
  predicate SlugShaped(s: string) {
    && SlugChars(s)
    && NoDoubleDash(s)
    && (|s| > 0 ==> s[0] != '-' && s[|s| - 1] != '-')
  }

  predicate NoDoubleDash(s: string) {
    forall i :: 0 <= i < |s| - 1 ==> !(s[i] == '-' && s[i + 1] == '-')
  }

  /** Inside a run, the collapsed text does not open with a hyphen, and nowhere holds two in a row. */
  lemma {:induction false} CollapseSingles(s: string, inRun: bool)
    ensures inRun && |Collapse(s, inRun)| > 0 ==> Collapse(s, inRun)[0] != '-'
    ensures NoDoubleDash(Collapse(s, inRun))
  {
    if |s| > 0 {
      var r := Collapse(s, inRun);
      var rest := Collapse(s[1..], !IsSlugChar(s[0]));
      CollapseSingles(s[1..], !IsSlugChar(s[0]));
      if IsSlugChar(s[0]) {
        assert r == [s[0]] + rest;
        assert forall i :: 1 <= i < |r| ==> r[i] == rest[i - 1];
      } else if inRun {
        assert r == rest;
      } else {
        assert r == "-" + rest;
        assert forall i :: 1 <= i < |r| ==> r[i] == rest[i - 1];
      }
    }
  }

  predicate SlugChars(s: string) {
    forall i :: 0 <= i < |s| ==> IsSlugChar(s[i]) || s[i] == '-'
  }

  /** Dropping a leading hyphen from a text without double hyphens leaves one that does not start with one. */
  lemma DropLeadingDash(c: string)
    requires SlugChars(c) && NoDoubleDash(c)
    ensures var a := if |c| > 0 && c[0] == '-' then c[1..] else c;
      SlugChars(a) && NoDoubleDash(a) && (|a| > 0 ==> a[0] != '-')
  {
    if |c| > 1 && c[0] == '-' {
      assert c[1..][0] == c[1];
    }
  }

  /** Dropping a trailing hyphen then leaves no hyphen at either end. */
  lemma DropTrailingDash(a: string)
    requires SlugChars(a) && NoDoubleDash(a) && (|a| > 0 ==> a[0] != '-')
    ensures SlugShaped(if |a| > 0 && a[|a| - 1] == '-' then a[..|a| - 1] else a)
  {
    if |a| > 0 && a[|a| - 1] == '-' {
      var r := a[..|a| - 1];
      assert forall i :: 0 <= i < |r| ==> r[i] == a[i];
      if |r| > 0 {
        assert a[|a| - 2] != '-';
      }
    }
  }

  lemma SlugIsSlugShaped(title: string)
    ensures SlugShaped(Slug(title))
  {
    var c := Collapse(Lower(title), false);
    CollapseSingles(Lower(title), false);
    DropLeadingDash(c);
    DropTrailingDash(if |c| > 0 && c[0] == '-' then c[1..] else c);
  }

  /** Collapsing a slug-shaped text (outside a run, or inside one it does not start with a hyphen) changes nothing. */
  lemma {:induction false} CollapseKeeps(s: string, inRun: bool)
    requires SlugChars(s)
    requires NoDoubleDash(s)
    requires inRun && |s| > 0 ==> s[0] != '-'
    ensures Collapse(s, inRun) == s
  {
    if |s| > 0 {
      CollapseKeeps(s[1..], !IsSlugChar(s[0]));
      assert s == [s[0]] + s[1..];
    }
  }

  /** The slug of a slug is itself: the link of a title is stable under re-slugging. */
  lemma SlugIdempotent(title: string)
    ensures Slug(Slug(title)) == Slug(title)
  {
    var s := Slug(title);
    SlugIsSlugShaped(title);
    assert Lower(s) == s;
    CollapseKeeps(s, false);
  }

  // ---------------------------------------------------------------- problems

  /** `parseInt(row.ID || row.id)`, when it is neither `NaN` nor zero. */
  function RowId(row: Row): (r: Option<int>)
    ensures r.Some? ==> r.value != 0
  {
    var v := OrElse(Get(row, "ID"), Get(row, "id"));
    var id := if v.Some? then ParseInt(v.value) else None;
    if id.None? || id.value == 0 then None else id
  }

  function Title(row: Row): string {
    JsTrim(OrDefault(OrElse(Get(row, "Title"), Get(row, "title")), ""))
  }

  /** The stored difficulty: one of the three levels, `Medium` for anything else. */
  function Difficulty(row: Row): (r: string)
    ensures r in ["Easy", "Medium", "Hard"]
  {
    var d := JsTrim(OrDefault(OrElse(Get(row, "Difficulty"), Get(row, "difficulty")), "Medium"));
    if d in ["Easy", "Medium", "Hard"] then d else "Medium"
  }

  /** The stored acceptance, ending in `%` unless it already holds one. */
  function Acceptance(row: Row): (r: string)
    ensures Contains(r, "%")
  {
    var a := JsTrim(OrDefault(OrElse(OrElse(Get(row, "Acceptance"), Get(row, "acceptance")), Get(row, "Acceptance Rate")), "N/A"));
    if Contains(a, "%") then a
    else
      ContainsIff(a + "%", "%");
      assert OccursAt(a + "%", "%", |a|);
      a + "%"
  }

  /** `parseFloat(row.Frequency || row.frequency || 0)` */
  function Frequency(row: Row, parseFloat: string -> real): real {
    var v := OrElse(Get(row, "Frequency"), Get(row, "frequency"));
    if Truthy(v) then parseFloat(v.value) else 0.0
  }

  /** What one row contributes, once read and normalised. */
  datatype Fields = Fields(
    id: int, title: string, difficulty: string, acceptance: string, frequency: real, leetcodeLink: string)

  /** A row's fields, or `None` for a row without a usable id or title, which the merge skips. */
  function Normalise(row: Row, parseFloat: string -> real): (r: Option<Fields>)
    ensures r.Some? <==> RowId(row).Some? && Title(row) != ""
    ensures r.Some? ==>
      && r.value.id == RowId(row).value && r.value.id != 0
      && r.value.title == Title(row) && r.value.title != ""
      && r.value.difficulty in ["Easy", "Medium", "Hard"]
      && Contains(r.value.acceptance, "%")
      && r.value.frequency == Frequency(row, parseFloat)
      && r.value.leetcodeLink == "https://leetcode.com/problems/" + Slug(Title(row)) + "/"
  {
    var id := RowId(row);
    var title := Title(row);
    if id.None? || title == "" then None
    else Some(Fields(id.value, title, Difficulty(row), Acceptance(row), Frequency(row, parseFloat),
                     "https://leetcode.com/problems/" + Slug(title) + "/"))
  }

  datatype Problem = Problem(
    id: int, title: string, difficulty: string, acceptance: string, frequency: real,
    leetcodeLink: string, companies: seq<string>, topics: seq<string>, solved: bool)

  /** The record the first row of an id creates. */
  function NewProblem(company: string, f: Fields): (p: Problem)
    ensures p.id == f.id && p.title == f.title && p.frequency == f.frequency && p.companies == [company]
    ensures p.topics == [] && !p.solved
  {
    Problem(f.id, f.title, f.difficulty, f.acceptance, f.frequency, f.leetcodeLink, [company], [], false)
  }

  /** A later row of a known id: its company joins once, and the higher frequency stays. */
  function Touch(p: Problem, company: string, frequency: real): (q: Problem)
    ensures q.frequency >= p.frequency && q.frequency >= frequency
    ensures q.frequency == p.frequency || q.frequency == frequency
    ensures forall c :: c in q.companies <==> c in p.companies || c == company
    ensures Distinct(p.companies) ==> Distinct(q.companies)
    ensures q.id == p.id && q.title == p.title && q.difficulty == p.difficulty
      && q.acceptance == p.acceptance && q.leetcodeLink == p.leetcodeLink
  {
    var cs := if company in p.companies then p.companies else p.companies + [company];
    p.(companies := cs, frequency := if frequency > p.frequency then frequency else p.frequency)
  }

  /** The position of the problem with this id, or -1. */
  function Find(ps: seq<Problem>, id: int): (k: int)
    ensures -1 <= k < |ps|
    ensures k == -1 <==> forall i :: 0 <= i < |ps| ==> ps[i].id != id
    ensures k >= 0 ==> ps[k].id == id
  {
    if |ps| == 0 then -1
    else if ps[|ps| - 1].id == id then |ps| - 1
    else Find(ps[..|ps| - 1], id)
  }

  /** One row of one company's file merged into the problems so far, kept in insertion order. */
  function MergeRow(ps: seq<Problem>, company: string, row: Option<Fields>): seq<Problem> {
    if row.None? then ps
    else
      var k := Find(ps, row.value.id);
      if k < 0 then ps + [NewProblem(company, row.value)]
      else ps[k := Touch(ps[k], company, row.value.frequency)]
  }

  /** A normalised row together with the company whose file it comes from. */
  type Item = (string, Option<Fields>)

  /** Every row of every file, in order. */
  function MergeItems(ps: seq<Problem>, items: seq<Item>): seq<Problem> {
    if |items| == 0 then ps
    else
      var last := items[|items| - 1];
      MergeRow(MergeItems(ps, items[..|items| - 1]), last.0, last.1)
  }

  /** The map's invariants: one problem per id, and each company once in its list. */
  predicate WellFormed(ps: seq<Problem>) {
    && (forall i, j :: 0 <= i < j < |ps| ==> ps[i].id != ps[j].id)
    && (forall i :: 0 <= i < |ps| ==> Distinct(ps[i].companies))
  }

  lemma MergeRowWellFormed(ps: seq<Problem>, company: string, row: Option<Fields>)
    requires WellFormed(ps)
    ensures WellFormed(MergeRow(ps, company, row))
  {
    if row.Some? {
      var k := Find(ps, row.value.id);
      var r := MergeRow(ps, company, row);
      if k < 0 {
        assert r == ps + [NewProblem(company, row.value)];
        assert forall i :: 0 <= i < |ps| ==> r[i] == ps[i];
      } else {
        assert r == ps[k := Touch(ps[k], company, row.value.frequency)];
        assert forall i :: 0 <= i < |ps| ==> r[i].id == ps[i].id;
      }
    }
  }

  lemma {:induction false} MergeItemsWellFormed(ps: seq<Problem>, items: seq<Item>)
    requires WellFormed(ps)
    ensures WellFormed(MergeItems(ps, items))
  {
    if |items| > 0 {
      var last := items[|items| - 1];
      MergeItemsWellFormed(ps, items[..|items| - 1]);
      MergeRowWellFormed(MergeItems(ps, items[..|items| - 1]), last.0, last.1);
    }
  }

  /** The rows taken with this id, with their companies, in merge order: the reference the merge is checked against. */
  function TakenRows(items: seq<Item>, id: int): (r: seq<(string, Fields)>)
    ensures |r| <= |items|
    ensures forall j :: 0 <= j < |r| ==> r[j].1.id == id
  {
    if |items| == 0 then []
    else
      var last := items[|items| - 1];
      TakenRows(items[..|items| - 1], id) + (if last.1.Some? && last.1.value.id == id then [(last.0, last.1.value)] else [])
  }

  /** `f` is the largest frequency among `rows`. */
  ghost predicate HighestIs(f: real, rows: seq<(string, Fields)>) {
    && (forall j :: 0 <= j < |rows| ==> rows[j].1.frequency <= f)
    && (exists j :: 0 <= j < |rows| && rows[j].1.frequency == f)
  }

  /**
   * `p` is what the merge makes of `rows`: the first row's fields, every
   * row's company and no other, and the highest frequency.
   */
  ghost predicate Summarises(p: Problem, rows: seq<(string, Fields)>) {
    && |rows| > 0
    && p.id == rows[0].1.id && p.title == rows[0].1.title && p.difficulty == rows[0].1.difficulty
    && p.acceptance == rows[0].1.acceptance && p.leetcodeLink == rows[0].1.leetcodeLink
    && (forall c :: c in p.companies <==> exists j :: 0 <= j < |rows| && rows[j].0 == c)
    && HighestIs(p.frequency, rows)
  }

  /** Merging from nothing: one problem for each id some row was taken with, summarising exactly those rows. */
  ghost predicate Merged(items: seq<Item>, ps: seq<Problem>) {
    && (forall id :: Find(ps, id) >= 0 <==> |TakenRows(items, id)| > 0)
    && (forall k :: 0 <= k < |ps| ==> Summarises(ps[k], TakenRows(items, ps[k].id)))
  }

  lemma SummarisesNew(company: string, f: Fields)
    ensures Summarises(NewProblem(company, f), [(company, f)])
  {
    var rows := [(company, f)];
    assert rows[0].1.frequency == f.frequency;
  }

  lemma SummarisesTouch(p: Problem, rows: seq<(string, Fields)>, company: string, f: Fields)
    requires Summarises(p, rows)
    ensures Summarises(Touch(p, company, f.frequency), rows + [(company, f)])
  {
    var q := Touch(p, company, f.frequency);
    var rows' := rows + [(company, f)];
    assert forall j :: 0 <= j < |rows| ==> rows'[j] == rows[j];
    assert rows'[|rows|] == (company, f);
    forall c ensures c in q.companies <==> exists j :: 0 <= j < |rows'| && rows'[j].0 == c {
      if c in p.companies {
        var j :| 0 <= j < |rows| && rows[j].0 == c;
        assert rows'[j].0 == c;
      }
      if exists j :: 0 <= j < |rows'| && rows'[j].0 == c {
        var j :| 0 <= j < |rows'| && rows'[j].0 == c;
        if j < |rows| { assert rows[j].0 == c; }
      }
    }
    var j0 :| 0 <= j0 < |rows| && rows[j0].1.frequency == p.frequency;
    if q.frequency == p.frequency {
      assert rows'[j0].1.frequency == q.frequency;
    } else {
      assert rows'[|rows|].1.frequency == q.frequency;
    }
  }

  lemma TakenRowsSnoc(front: seq<Item>, last: Item, id: int)
    ensures TakenRows(front + [last], id)
      == TakenRows(front, id) + (if last.1.Some? && last.1.value.id == id then [(last.0, last.1.value)] else [])
  {
    assert (front + [last])[..|front|] == front;
  }

  lemma {:induction false} MergeItemsMerged(items: seq<Item>)
    ensures WellFormed(MergeItems([], items))
    ensures Merged(items, MergeItems([], items))
  {
    if |items| > 0 {
      var n := |items| - 1;
      var front := items[..n];
      var last := items[n];
      MergeItemsMerged(front);
      var ps := MergeItems([], front);
      MergeItemsWellFormed([], front);
      MergeRowWellFormed(ps, last.0, last.1);
      assert front + [last] == items;
      forall id ensures TakenRows(items, id)
        == TakenRows(front, id) + (if last.1.Some? && last.1.value.id == id then [(last.0, last.1.value)] else [])
      {
        TakenRowsSnoc(front, last, id);
      }
      if last.1.None? {
        MergedSkip(front, ps, last);
      } else if Find(ps, last.1.value.id) < 0 {
        MergedAppend(front, ps, last);
      } else {
        MergedTouch(front, ps, last, Find(ps, last.1.value.id));
      }
    }
  }

  lemma MergedSkip(front: seq<Item>, ps: seq<Problem>, last: Item)
    requires Merged(front, ps) && last.1.None?
    requires forall id :: TakenRows(front + [last], id) == TakenRows(front, id)
    ensures Merged(front + [last], MergeRow(ps, last.0, last.1))
  {
  }

  lemma MergedAppend(front: seq<Item>, ps: seq<Problem>, last: Item)
    requires Merged(front, ps) && WellFormed(ps)
    requires last.1.Some? && Find(ps, last.1.value.id) < 0
    requires forall id :: (TakenRows(front + [last], id)
      == TakenRows(front, id) + (if last.1.value.id == id then [(last.0, last.1.value)] else []))
    ensures Merged(front + [last], MergeRow(ps, last.0, last.1))
  {
    var items := front + [last];
    var f := last.1.value;
    var r := MergeRow(ps, last.0, last.1);
    assert r == ps + [NewProblem(last.0, f)];
    assert TakenRows(front, f.id) == [];
    assert TakenRows(items, f.id) == [(last.0, f)];
    SummarisesNew(last.0, f);
    forall id ensures Find(r, id) >= 0 <==> |TakenRows(items, id)| > 0 {
      if id == f.id {
        assert r[|ps|].id == id;
      } else if Find(ps, id) >= 0 {
        assert r[Find(ps, id)].id == id;
      } else {
        assert forall k :: 0 <= k < |ps| ==> r[k] == ps[k];
      }
    }
    forall k | 0 <= k < |r| ensures Summarises(r[k], TakenRows(items, r[k].id)) {
      if k < |ps| {
        var id := ps[k].id;
        assert r[k] == ps[k] && id != f.id;
        assert TakenRows(items, id) == TakenRows(front, id);
        assert Summarises(ps[k], TakenRows(front, id));
      } else {
        assert r[k] == NewProblem(last.0, f);
      }
    }
  }

  lemma MergedTouch(front: seq<Item>, ps: seq<Problem>, last: Item, k0: int)
    requires Merged(front, ps) && WellFormed(ps)
    requires last.1.Some? && k0 == Find(ps, last.1.value.id) && k0 >= 0
    requires forall id :: (TakenRows(front + [last], id)
      == TakenRows(front, id) + (if last.1.value.id == id then [(last.0, last.1.value)] else []))
    ensures Merged(front + [last], MergeRow(ps, last.0, last.1))
  {
    var items := front + [last];
    var f := last.1.value;
    var r := MergeRow(ps, last.0, last.1);
    assert r == ps[k0 := Touch(ps[k0], last.0, f.frequency)];
    assert forall k :: 0 <= k < |r| ==> r[k].id == ps[k].id;
    SummarisesTouch(ps[k0], TakenRows(front, f.id), last.0, f);
    forall id ensures Find(r, id) >= 0 <==> |TakenRows(items, id)| > 0 {
      if Find(ps, id) >= 0 {
        assert r[Find(ps, id)].id == id;
      } else {
        assert forall k :: 0 <= k < |r| ==> r[k].id != id;
      }
    }
    forall k | 0 <= k < |r| ensures Summarises(r[k], TakenRows(items, r[k].id)) {
      var id := ps[k].id;
      if k != k0 {
        assert r[k] == ps[k] && id != f.id;
        assert TakenRows(items, id) == TakenRows(front, id);
        assert Summarises(ps[k], TakenRows(front, id));
      } else {
        assert TakenRows(items, id) == TakenRows(front, id) + [(last.0, f)];
      }
    }
  }

  // ---------------------------------------------------------------- the run

  datatype Stats = Stats(processed: nat, failed: nat, totalEntries: nat)

  datatype State = State(problems: seq<Problem>, companies: seq<string>, stats: Stats)

  /** The rows of one file, tagged with its company. */
  function Tag(company: string, rows: seq<Row>, parseFloat: string -> real): (items: seq<Item>)
    ensures |items| == |rows|
    ensures forall i :: 0 <= i < |rows| ==> items[i] == (company, Normalise(rows[i], parseFloat))
  {
    seq(|rows|, i requires 0 <= i < |rows| => (company, Normalise(rows[i], parseFloat)))
  }

  /** One file: unreadable or empty counts as failed and adds nothing. */
  function ProcessFile(st: State, file: string, content: Option<string>, parseFloat: string -> real): (r: State)
    ensures r.stats.processed + r.stats.failed == st.stats.processed + st.stats.failed + 1
  {
    var company := CompanyName(file);
    if content.None? then st.(stats := st.stats.(failed := st.stats.failed + 1))
    else
      var data := ParseCsv(content.value);
      if |data| == 0 then st.(stats := st.stats.(failed := st.stats.failed + 1))
      else
        State(MergeItems(st.problems, Tag(company, data, parseFloat)),
              if company in st.companies then st.companies else st.companies + [company],
              Stats(st.stats.processed + 1, st.stats.failed, st.stats.totalEntries + |data|))
  }

  function ProcessFiles(st: State, files: seq<string>, read: string -> Option<string>, parseFloat: string -> real): (r: State)
    ensures r.stats.processed + r.stats.failed == st.stats.processed + st.stats.failed + |files|
  {
    if |files| == 0 then st
    else
      var last := files[|files| - 1];
      ProcessFile(ProcessFiles(st, files[..|files| - 1], read, parseFloat), last, read(last), parseFloat)
  }

  datatype Metadata = Metadata(
    totalProblems: nat, totalCompanies: nat, totalEntries: nat, source: string,
    processedFiles: nat, failedFiles: nat)

  datatype Output = Output(problems: seq<Problem>, companies: seq<string>, metadata: Metadata)

  function FrequencyKey(p: Problem): real { p.frequency }

  function SortCompanies(ps: seq<Problem>): (r: seq<Problem>)
    ensures |r| == |ps|
    ensures forall i :: 0 <= i < |ps| ==> r[i] == ps[i].(companies := SortStrings(ps[i].companies))
  {
    seq(|ps|, i requires 0 <= i < |ps| => ps[i].(companies := SortStrings(ps[i].companies)))
  }

  /** The written document. */
  function Finish(st: State): Output {
    var problems := SortDesc(SortCompanies(st.problems), FrequencyKey);
    Output(problems, SortStrings(st.companies),
      Metadata(|problems|, |st.companies|, st.stats.totalEntries,
               "Local CSV files (GitHub: krishnadey30/LeetCode-Questions-CompanyWise)",
               st.stats.processed, st.stats.failed))
  }

  function CsvFiles(names: seq<string>): (r: seq<string>)
    ensures forall f :: f in r <==> f in names && EndsWith(f, ".csv")
  {
    if |names| == 0 then []
    else CsvFiles(names[..|names| - 1]) + (if EndsWith(names[|names| - 1], ".csv") then [names[|names| - 1]] else [])
  }

  predicate EndsWith(s: string, suffix: string) {
    |suffix| <= |s| && s[|s| - |suffix|..] == suffix
  }

  /**
   * `mergeAllCSVFiles`: `None` is `process.exit(1)`, for a missing folder
   * or one without CSV files.
   */
  function MergeAll(listing: Option<seq<string>>, read: string -> Option<string>, parseFloat: string -> real): (r: Option<Output>)
    ensures r.None? <==> listing.None? || CsvFiles(listing.value) == []
  {
    if listing.None? then None
    else
      var files := SortStrings(CsvFiles(listing.value));
      if |files| == 0 then None
      else Some(Finish(ProcessFiles(State([], [], Stats(0, 0, 0)), files, read, parseFloat)))
  }

  /** The output is ordered: problems by non-increasing frequency, names alphabetically, counts matching. */
  lemma FinishOrdered(st: State)
    ensures var out := Finish(st);
      && SortedDesc(out.problems, FrequencyKey)
      && multiset(out.problems) == multiset(SortCompanies(st.problems))
      && (forall p :: p in out.problems ==> StrSorted(p.companies))
      && StrSorted(out.companies) && multiset(out.companies) == multiset(st.companies)
      && out.metadata.totalProblems == |out.problems| == |st.problems|
      && out.metadata.totalCompanies == |out.companies|
  {
    var out := Finish(st);
    forall p | p in out.problems ensures StrSorted(p.companies) {
      assert p in multiset(SortCompanies(st.problems));
    }
  }

  /** Each company is listed once. */
  lemma {:induction false} ProcessFilesDistinct(st: State, files: seq<string>, read: string -> Option<string>, parseFloat: string -> real)
    requires Distinct(st.companies)
    ensures Distinct(ProcessFiles(st, files, read, parseFloat).companies)
  {
    if |files| > 0 {
      ProcessFilesDistinct(st, files[..|files| - 1], read, parseFloat);
    }
  }

  /**
   * As written, the script always writes an empty problem list and counts
   * every CSV file as failed, because the reader returns no rows.
   */
  lemma MergeAllYieldsNothing(listing: Option<seq<string>>, read: string -> Option<string>, parseFloat: string -> real)
    ensures var r := MergeAll(listing, read, parseFloat);
      r.Some? ==>
        && r.value.problems == [] && r.value.companies == []
        && r.value.metadata.processedFiles == 0
        && r.value.metadata.failedFiles == |CsvFiles(listing.value)|
  {
    if listing.Some? {
      var files := SortStrings(CsvFiles(listing.value));
      NothingProcessed(files, read, parseFloat);
    }
  }

  lemma {:induction false} NothingProcessed(files: seq<string>, read: string -> Option<string>, parseFloat: string -> real)
    ensures ProcessFiles(State([], [], Stats(0, 0, 0)), files, read, parseFloat)
      == State([], [], Stats(0, |files|, 0))
  {
    if |files| > 0 {
      NothingProcessed(files[..|files| - 1], read, parseFloat);
      var last := files[|files| - 1];
      if read(last).Some? { ParseCsvEmpty(read(last).value); }
    }
  }
}

=== FILE: experiences.dfy ===
/**
 * Company interview experiences: the controller's checks on a new
 * experience, the service's ownership guard on update and delete, the
 * controller's mapping of that guard's error, and the vote toggle on the
 * experience counters.
 *
 * The database is in-memory: experiences by id and the ballots keyed by
 * (userId, experienceId). An experience keeps its three owner/target ids
 * apart from its other, editable fields.
 */
module Experiences {

  import opened Wrappers
  import opened Text
  import opened Json
  import opened Http
  import opened Votes

  datatype Experience = Experience(
    userId: string,
    companyId: string,
    collegeId: string,
    fields: map<string, Json>,
    tally: Tally)

  datatype Db = Db(experiences: map<string, Experience>, votes: Ballots)

  const OwnershipError: string := "Unauthorized or experience not found"

  /** The fields `updateExperience` copies from the request into the update. */
  const Editable: set<string> := {
    "role", "interviewType", "interviewDate", "outcome", "rounds", "salaryOffered", "joiningBonus",
    "otherBenefits", "overallDifficulty", "overallRating", "reviewTitle", "reviewText",
    "applicationProcess", "preparationTips", "interviewerBehavior", "isAnonymous"}

  /** The caller owns a stored experience: `experience.userId !== userId` is false. */
  predicate Owns(db: Db, id: string, caller: Option<Json>) {
    id in db.experiences && caller == Some(JStr(db.experiences[id].userId))
  }

  /** The stored fields after an update: each editable field present in the patch is overwritten, the rest kept. */
  function Patch(fields: map<string, Json>, patch: map<string, Json>): (r: map<string, Json>)
    ensures forall k :: k in r <==> k in fields || (k in Editable && k in patch)
    ensures forall k :: k in r ==> r[k] == if k in Editable && k in patch then patch[k] else fields[k]
  {
    map k | k in fields.Keys + (patch.Keys * Editable) :: if k in Editable && k in patch then patch[k] else fields[k]
  }

  /** `updateExperience` in the service. */
  function UpdateExperience(db: Db, id: string, caller: Option<Json>, patch: map<string, Json>): (r: Result<Db, string>)
    ensures r.Failure? <==> !Owns(db, id, caller)
    ensures r.Failure? ==> r.error == OwnershipError
  {
    if !Owns(db, id, caller) then Failure(OwnershipError)
    else
      var e := db.experiences[id];
      Success(db.(experiences := db.experiences[id := e.(fields := Patch(e.fields, patch))]))
  }

  /** An update never moves an experience to another user, company or college, and changes no other experience. */
  lemma UpdateKeepsIdentity(db: Db, id: string, caller: Option<Json>, patch: map<string, Json>)
    requires UpdateExperience(db, id, caller, patch).Success?
    ensures var db' := UpdateExperience(db, id, caller, patch).value;
      && db'.experiences.Keys == db.experiences.Keys
      && db'.experiences[id].userId == db.experiences[id].userId
      && db'.experiences[id].companyId == db.experiences[id].companyId
      && db'.experiences[id].collegeId == db.experiences[id].collegeId
      && db'.experiences[id].tally == db.experiences[id].tally
      && db'.votes == db.votes
      && (forall other :: other in db.experiences && other != id ==> db'.experiences[other] == db.experiences[other])
  {
  }

  /** An owner's update writes exactly the editable fields the patch carries. */
  lemma UpdateWritesPatch(db: Db, id: string, caller: Option<Json>, patch: map<string, Json>, k: string)
    requires Owns(db, id, caller)
    ensures var e' := UpdateExperience(db, id, caller, patch).value.experiences[id];
      && (k in Editable && k in patch ==> k in e'.fields && e'.fields[k] == patch[k])
      && (!(k in Editable && k in patch) ==> (k in e'.fields <==> k in db.experiences[id].fields))
      && (!(k in Editable && k in patch) && k in e'.fields ==> e'.fields[k] == db.experiences[id].fields[k])
  {
  }

  /** The ballots left once the votes on `id` are gone. */
  function DropVotesOn(b: Ballots, id: string): (r: Ballots)
    ensures forall p :: p in r <==> p in b && p.1 != id
    ensures forall p :: p in r ==> r[p] == b[p]
  {
    map p | p in b && p.1 != id :: b[p]
  }

  /**
   * `deleteExperience` in the service: the same guard, then removal. The
   * vote rows reference the experience, so the delete cascades to them.
   */
  function DeleteExperience(db: Db, id: string, caller: Option<Json>): (r: Result<Db, string>)
    ensures r.Failure? <==> !Owns(db, id, caller)
    ensures r.Failure? ==> r.error == OwnershipError
    ensures r.Success? ==> r.value.experiences == db.experiences - {id}
    ensures r.Success? ==> forall p :: p in r.value.votes <==> p in db.votes && p.1 != id
    ensures r.Success? ==> forall p :: p in r.value.votes ==> r.value.votes[p] == db.votes[p]
  {
    if !Owns(db, id, caller) then Failure(OwnershipError)
    else Success(Db(db.experiences - {id}, DropVotesOn(db.votes, id)))
  }

  /** The controller's `catch`: the ownership message becomes 403, anything else goes to the error middleware. */
  function MapError(message: string): (r: Reply<()>)
    ensures r == Fail(403, OwnershipError) <==> message == OwnershipError
    ensures message != OwnershipError ==> r == Forwarded
  {
    if message == OwnershipError then Fail(403, message) else Forwarded
  }

  /** `parseFloat` on the numeric fields, left abstract. */
  type ParseFloat = Json -> Json

  /** The controller's update body: the request with the three numeric fields parsed when truthy and dropped otherwise. */
  function UpdateBody(body: map<string, Json>, parseFloat: ParseFloat): (r: map<string, Json>)
    ensures forall k :: k in r <==> k in body && (k in NumericFields ==> Truthy(body[k]))
    ensures forall k :: k in r ==> r[k] == if k in NumericFields then parseFloat(body[k]) else body[k]
  {
    map k | k in body && (k in NumericFields ==> Truthy(body[k])) :: if k in NumericFields then parseFloat(body[k]) else body[k]
  }

  const NumericFields: set<string> := {"salaryOffered", "joiningBonus", "overallRating"}

  /** The `userId` of the request body, compared strictly against the owner. */
  function Caller(body: map<string, Json>): Option<Json> {
    if "userId" in body then Some(body["userId"]) else None
  }

  /** `updateExperience` in the controller. */
  function UpdateRequest(db: Db, id: string, body: map<string, Json>, parseFloat: ParseFloat): (r: (Db, Reply<()>))
  {
    match UpdateExperience(db, id, Caller(body), UpdateBody(body, parseFloat))
    case Success(db') => (db', Ok(200, "Experience updated successfully", ()))
    case Failure(e) => (db, MapError(e))
  }

  /** `deleteExperience` in the controller. */
  function DeleteRequest(db: Db, id: string, body: map<string, Json>): (r: (Db, Reply<()>))
  {
    match DeleteExperience(db, id, Caller(body))
    case Success(db') => (db', Ok(200, "Experience deleted successfully", ()))
    case Failure(e) => (db, MapError(e))
  }

  /** A request by anyone but the owner, or on a missing experience, is answered 403 and changes nothing. */
  lemma NonOwnerGets403(db: Db, id: string, body: map<string, Json>, parseFloat: ParseFloat)
    requires !Owns(db, id, Caller(body))
    ensures UpdateRequest(db, id, body, parseFloat) == (db, Fail(403, OwnershipError))
    ensures DeleteRequest(db, id, body) == (db, Fail(403, OwnershipError))
  {
  }

  /** The owner's requests succeed, and the delete removes the experience. */
  lemma OwnerSucceeds(db: Db, id: string, body: map<string, Json>, parseFloat: ParseFloat)
    requires Owns(db, id, Caller(body))
    ensures UpdateRequest(db, id, body, parseFloat).1.Ok?
    ensures DeleteRequest(db, id, body).1.Ok? && id !in DeleteRequest(db, id, body).0.experiences
  {
  }

  /**
   * `upvoteExperience` / `downvoteExperience`: the toggle, then the re-read
   * experience. A new vote row references both the experience and the user
   * (`users` holds the stored user ids), so creating one for a missing
   * experience or an unknown user is refused by the foreign key before
   * anything is written; an existing vote on a missing experience is toggled
   * before the counter update throws.
   */
  function VoteExperience(db: Db, users: set<string>, id: string, userId: string, v: VoteType): (r: (Db, Result<Option<Experience>, ()>))
    ensures r.0.experiences.Keys == db.experiences.Keys
    ensures id in db.experiences && ((userId, id) in db.votes || userId in users) ==>
      r.1.Success? && r.1.value == Some(r.0.experiences[id])
    ensures (userId, id) !in db.votes && userId !in users ==> r == (db, Failure(()))
    ensures id !in db.experiences ==> r.1.Failure? && r.0.experiences == db.experiences
  {
    if id !in db.experiences then
      if (userId, id) in db.votes then (db.(votes := Toggle(db.votes, Tally(0, 0), userId, id, v).0), Failure(()))
      else (db, Failure(()))
    else if (userId, id) !in db.votes && userId !in users then (db, Failure(()))
    else
      var e := db.experiences[id];
      var (b, t, _) := Toggle(db.votes, e.tally, userId, id, v);
      var db' := Db(db.experiences[id := e.(tally := t)], b);
      (db', Success(Some(db'.experiences[id])))
  }

  /** Every vote names a stored experience, and every experience's counters equal its vote counts. */
  ghost predicate Consistent(db: Db) {
    && (forall p :: p in db.votes ==> p.1 in db.experiences)
    && (forall id :: id in db.experiences ==> Counted(db.votes, id, db.experiences[id].tally))
  }

  lemma VoteKeepsConsistent(db: Db, users: set<string>, id: string, userId: string, v: VoteType)
    requires Consistent(db)
    ensures Consistent(VoteExperience(db, users, id, userId, v).0)
  {
    if id in db.experiences && ((userId, id) in db.votes || userId in users) {
      var e := db.experiences[id];
      var db' := VoteExperience(db, users, id, userId, v).0;
      ToggleKeepsCounted(db.votes, e.tally, userId, id, v);
      forall other | other in db'.experiences
        ensures Counted(db'.votes, other, db'.experiences[other].tally)
      {
        if other != id {
          ToggleIsolated(db.votes, e.tally, userId, id, v, other, Upvote);
          ToggleIsolated(db.votes, e.tally, userId, id, v, other, Downvote);
        }
      }
    }
  }

  /** Dropping the votes on one item leaves every other item's vote counts as they were. */
  lemma DropKeepsVoters(b: Ballots, id: string, other: string, w: VoteType)
    requires other != id
    ensures Voters(DropVotesOn(b, id), other, w) == Voters(b, other, w)
  {
  }

  /** Update and delete leave the counters consistent; no vote outlives its experience. */
  lemma EditsKeepConsistent(db: Db, id: string, caller: Option<Json>, patch: map<string, Json>)
    requires Consistent(db)
    ensures UpdateExperience(db, id, caller, patch).Success? ==> Consistent(UpdateExperience(db, id, caller, patch).value)
    ensures DeleteExperience(db, id, caller).Success? ==> Consistent(DeleteExperience(db, id, caller).value)
  {
    if Owns(db, id, caller) {
      var db' := DeleteExperience(db, id, caller).value;
      forall other | other in db'.experiences
        ensures Counted(db'.votes, other, db'.experiences[other].tally)
      {
        DropKeepsVoters(db.votes, id, other, Upvote);
        DropKeepsVoters(db.votes, id, other, Downvote);
      }
    }
  }

  /** From no vote, an upvote then a downvote by the same user leaves one downvote, upvotes as before, downvotes one higher. */
  lemma UpThenDownOnExperience(db: Db, users: set<string>, id: string, userId: string)
    requires id in db.experiences && VoteOf(db.votes, userId, id) == None && userId in users
    ensures var db1 := VoteExperience(db, users, id, userId, Upvote).0;
      var db2 := VoteExperience(db1, users, id, userId, Downvote).0;
      && VoteOf(db2.votes, userId, id) == Some(Downvote)
      && db2.experiences[id].tally.upvotes == db.experiences[id].tally.upvotes
      && db2.experiences[id].tally.downvotes == db.experiences[id].tally.downvotes + 1
  {
    UpThenDown(db.votes, db.experiences[id].tally, userId, id);
  }

  /** What `createExperience` hands the service once every check has passed. */
  datatype NewExperience = NewExperience(
    userId: string,
    companyId: string,
    collegeId: string,
    role: Json,
    rounds: seq<Json>,
    salaryOffered: Option<Json>,
    joiningBonus: Option<Json>,
    reviewTitle: Json,
    reviewText: Json,
    isAnonymous: bool)

  predicate Given(body: map<string, Json>, k: string) {
    k in body && Truthy(body[k])
  }

  predicate HasRequired(body: map<string, Json>) {
    Given(body, "userId") && Given(body, "companyId") && Given(body, "collegeId") &&
    Given(body, "role") && Given(body, "interviewDate") && Given(body, "outcome")
  }

  /**
   * `reviewText.length < 100`: a string's length in UTF-16 code units, an
   * array's element count, or an object's own `length` field coerced to a
   * number. A value without a `length` (undefined) and a NaN compare as
   * false.
   */
  predicate TooShort(j: Json) {
    match j
    case JStr(s) => Utf16Length(s) < 100
    case JArr(items) => |items| < 100
    case JObj(f) => "length" in f && LessThan(ToNumber(f["length"]), 100.0)
    case _ => false
  }

  /** JavaScript's `x < k` for a coerced number, false for NaN. */
  predicate LessThan(x: Option<real>, k: real) {
    x.Some? && x.value < k
  }

  /**
   * The `length` field of an object review is coerced: 5, null, true and []
   * count as shorter than 100, while 150, [150], a missing field and an
   * object do not.
   */
  lemma ObjectReviewLength(f: map<string, Json>, n: real)
    ensures TooShort(JObj(f)) <==> "length" in f && ToNumber(f["length"]).Some? && ToNumber(f["length"]).value < 100.0
    ensures TooShort(JObj(map["length" := JNum(n)])) <==> n < 100.0
    ensures TooShort(JObj(map["length" := JNull]))
    ensures TooShort(JObj(map["length" := JBool(true)]))
    ensures TooShort(JObj(map["length" := JArr([])]))
    ensures !TooShort(JObj(map["length" := JArr([JNum(150.0)])]))
    ensures !TooShort(JObj(map["length" := JObj(f)]))
    ensures "length" !in f ==> !TooShort(JObj(f))
  {
    assert ArrayNumber([JNum(150.0)]) == Some(150.0);
  }

  /** A review text that is too short is never accepted, whatever else the body holds. */
  lemma ShortReviewRejected(body: map<string, Json>, companies: set<string>, colleges: set<string>, users: set<string>,
                            parseFloat: ParseFloat)
    requires "reviewText" in body && TooShort(body["reviewText"])
    ensures !CreateExperience(body, companies, colleges, users, parseFloat).Ok?
  {
  }

  /** A truthy numeric field is parsed, a falsy one is left undefined. */
  function ParsedIfGiven(body: map<string, Json>, k: string, parseFloat: ParseFloat): (r: Option<Json>)
    ensures r.Some? <==> Given(body, k)
    ensures r.Some? ==> r.value == parseFloat(body[k])
  {
    if Given(body, k) then Some(parseFloat(body[k])) else None
  }

  /** Database reads by a non-string id throw. */
  function Lookup(body: map<string, Json>, k: string, table: set<string>, missing: string): Option<Reply<NewExperience>>
    requires k in body
  {
    if !body[k].JStr? then Some(Forwarded)
    else if body[k].str !in table then Some(Fail(404, missing))
    else None
  }

  /** `createExperience` in the controller: presence, then company, college and user, then rounds, then the review. */
  function CreateExperience(body: map<string, Json>, companies: set<string>, colleges: set<string>, users: set<string>,
                            parseFloat: ParseFloat): (r: Reply<NewExperience>)
  {
    if !HasRequired(body) then Fail(400, "Missing required fields")
    else if Lookup(body, "companyId", companies, "Company not found. Please make sure the company exists.").Some? then
      Lookup(body, "companyId", companies, "Company not found. Please make sure the company exists.").value
    else if Lookup(body, "collegeId", colleges, "College not found").Some? then
      Lookup(body, "collegeId", colleges, "College not found").value
    else if Lookup(body, "userId", users, "User not found").Some? then
      Lookup(body, "userId", users, "User not found").value
    else if !("rounds" in body && body["rounds"].JArr? && |body["rounds"].items| > 0) then
      Fail(400, "At least one interview round is required")
    else if !Given(body, "reviewTitle") || !Given(body, "reviewText") || TooShort(body["reviewText"]) then
      Fail(400, "Review title and detailed review (min 100 chars) are required")
    else
      Ok(201, "Experience created successfully", NewExperience(
        body["userId"].str, body["companyId"].str, body["collegeId"].str, body["role"], body["rounds"].items,
        ParsedIfGiven(body, "salaryOffered", parseFloat), ParsedIfGiven(body, "joiningBonus", parseFloat),
        body["reviewTitle"], body["reviewText"], Given(body, "isAnonymous")))
  }

  /** A missing required field is reported before any lookup, whatever the database holds. */
  lemma CreateMissingFieldFirst(body: map<string, Json>, c: set<string>, k: set<string>, u: set<string>, parseFloat: ParseFloat)
    requires !HasRequired(body)
    ensures CreateExperience(body, c, k, u, parseFloat) == Fail(400, "Missing required fields")
  {
  }

  /**
   * The lookups run in the order company, college, user; the round and
   * review checks only once all three exist.
   */
  lemma CreateExperienceOrder(body: map<string, Json>, companies: set<string>, colleges: set<string>, users: set<string>,
                              parseFloat: ParseFloat)
    requires HasRequired(body)
    requires body["companyId"].JStr? && body["collegeId"].JStr? && body["userId"].JStr?
    ensures var r := CreateExperience(body, companies, colleges, users, parseFloat);
      && (body["companyId"].str !in companies ==> r == Fail(404, "Company not found. Please make sure the company exists."))
      && (body["companyId"].str in companies && body["collegeId"].str !in colleges ==> r == Fail(404, "College not found"))
      && (body["companyId"].str in companies && body["collegeId"].str in colleges && body["userId"].str !in users ==>
            r == Fail(404, "User not found"))
      && (r.Fail? && r.code == 400 ==>
            body["companyId"].str in companies && body["collegeId"].str in colleges && body["userId"].str in users)
  {
  }

  /**
   * An accepted experience names known rows, has at least one round, a
   * truthy title and a review text that is not shorter than 100; the
   * anonymity flag is the value's truthiness and the money fields are parsed
   * only when truthy.
   */
  lemma CreateExperienceAccepted(body: map<string, Json>, companies: set<string>, colleges: set<string>, users: set<string>,
                                 parseFloat: ParseFloat)
    requires CreateExperience(body, companies, colleges, users, parseFloat).Ok?
    ensures var x := CreateExperience(body, companies, colleges, users, parseFloat).data;
      && x.companyId in companies && x.collegeId in colleges && x.userId in users
      && body["userId"] == JStr(x.userId)
      && |x.rounds| > 0 && body["rounds"] == JArr(x.rounds)
      && Truthy(x.reviewTitle) && Truthy(x.reviewText) && !TooShort(x.reviewText)
      && (x.isAnonymous <==> "isAnonymous" in body && Truthy(body["isAnonymous"]))
      && (x.salaryOffered.None? <==> !Given(body, "salaryOffered"))
      && (x.joiningBonus.None? <==> !Given(body, "joiningBonus"))
  {
  }
}

=== FILE: gemini_analyzer.dfy ===
/**
 * Career analysis: the deterministic niche-aware fallback
 * (`create_niche_aware_fallback`) and the checks `analyze_with_gemini`
 * applies to a generative-model reply before accepting it.
 *
 * The model call is not modelled: its reply text is a parameter (None when
 * there is no response or no text), and `json.loads` is a parameter `parse`.
 */
module GeminiAnalyzer {

  import opened Wrappers
  import opened Text
  import opened Json
  import Sorting
  import Lists

  datatype Recommendation = Recommendation(role: string, matchScore: int, reasoning: string)

  datatype SalaryPrediction = SalaryPrediction(min: int, max: int, currency: string)

  datatype Analysis = Analysis(
    recommendations: seq<Recommendation>,
    atsScore: int,
    atsFeedback: string,
    missingSkills: seq<string>,
    quickWins: seq<string>,
    salary: SalaryPrediction,
    summary: string)

  const MaxInputSkills: nat := 25

  // ------------------------------------------------------------ niches

  /** The niche categories, in the order the dictionary declares them. */
  datatype Niche = Web3 | Ml | Cloud | Devops | Mobile | Fullstack

  const NicheOrder: seq<Niche> := [Web3, Ml, Cloud, Devops, Mobile, Fullstack]

  function Rank(n: Niche): nat {
    match n
    case Web3 => 0
    case Ml => 1
    case Cloud => 2
    case Devops => 3
    case Mobile => 4
    case Fullstack => 5
  }

  function NicheName(n: Niche): string {
    match n
    case Web3 => "web3"
    case Ml => "ml"
    case Cloud => "cloud"
    case Devops => "devops"
    case Mobile => "mobile"
    case Fullstack => "fullstack"
  }

  const Web3Keywords: seq<string> := ["web3", "blockchain", "solana", "ethereum", "smart contract"]
  const MlKeywords: seq<string> := ["machine learning", "tensorflow", "pytorch", "scikit", "ml"]
  const CloudKeywords: seq<string> := ["aws", "azure", "gcp", "lambda", "kubernetes"]
  const DevopsKeywords: seq<string> := ["docker", "jenkins", "ci/cd", "terraform", "ansible"]
  const MobileKeywords: seq<string> := ["react native", "flutter", "ios", "android", "mobile"]
  const FrontendKeywords: seq<string> := ["react", "vue", "angular"]
  const BackendKeywords: seq<string> := ["node", "express", "django"]

  /** Some keyword occurs in the lower-cased skill. */
  predicate Mentions(skill: string, keywords: seq<string>) {
    exists k :: k in keywords && Contains(Lower(skill), k)
  }

  /** `sum(1 for s in skills if any(t in s.lower() for t in keywords))` */
  function CountMentioning(skills: seq<string>, keywords: seq<string>): nat {
    if |skills| == 0 then 0
    else CountMentioning(skills[..|skills| - 1], keywords) + (if Mentions(skills[|skills| - 1], keywords) then 1 else 0)
  }

  /** The positions of the skills that mention a keyword. */
  function MentioningIndices(skills: seq<string>, keywords: seq<string>): set<nat> {
    set i: nat | i < |skills| && Mentions(skills[i], keywords)
  }

  lemma {:induction false} CountMentioningIsCountIf(skills: seq<string>, keywords: seq<string>, p: string -> bool)
    requires forall s :: p(s) == Mentions(s, keywords)
    ensures CountMentioning(skills, keywords) == Lists.CountIf(skills, p)
  {
    if |skills| > 0 {
      CountMentioningIsCountIf(skills[..|skills| - 1], keywords, p);
    }
  }

  /** The count is the number of skills mentioning some keyword, each skill counted once. */
  lemma CountIsCardinality(skills: seq<string>, keywords: seq<string>)
    ensures CountMentioning(skills, keywords) == |MentioningIndices(skills, keywords)|
  {
    var p := (s: string) => Mentions(s, keywords);
    CountMentioningIsCountIf(skills, keywords, p);
    Lists.CountIfIndices(skills, p);
    forall i ensures i in MentioningIndices(skills, keywords) <==> i in Lists.Passing(skills, p) {
    }
    assert MentioningIndices(skills, keywords) == Lists.Passing(skills, p);
  }

  /** The niche's score; full-stack adds the frontend and the backend counts. */
  function Score(skills: seq<string>, n: Niche): nat {
    match n
    case Web3 => CountMentioning(skills, Web3Keywords)
    case Ml => CountMentioning(skills, MlKeywords)
    case Cloud => CountMentioning(skills, CloudKeywords)
    case Devops => CountMentioning(skills, DevopsKeywords)
    case Mobile => CountMentioning(skills, MobileKeywords)
    case Fullstack => CountMentioning(skills, FrontendKeywords) + CountMentioning(skills, BackendKeywords)
  }

  lemma {:induction false} CountAtMost(skills: seq<string>, keywords: seq<string>)
    ensures CountMentioning(skills, keywords) <= |skills|
  {
    if |skills| > 0 {
      CountAtMost(skills[..|skills| - 1], keywords);
    }
  }

  /** Each single-category score is at most the number of skills; full-stack at most twice that. */
  lemma ScoreBounds(skills: seq<string>, n: Niche)
    ensures Score(skills, n) <= (if n == Fullstack then 2 * |skills| else |skills|)
  {
    CountAtMost(skills, Web3Keywords);
    CountAtMost(skills, MlKeywords);
    CountAtMost(skills, CloudKeywords);
    CountAtMost(skills, DevopsKeywords);
    CountAtMost(skills, MobileKeywords);
    CountAtMost(skills, FrontendKeywords);
    CountAtMost(skills, BackendKeywords);
  }

  /** A skill such as "HTML" counts toward the ml niche, because "ml" is a keyword. */
  lemma HtmlCountsAsMl()
    ensures Score(["HTML"], Ml) == 1
  {
    var low := Lower("HTML");
    assert low == "html";
    assert OccursAt(low, "ml", 2);
    assert Mentions("HTML", MlKeywords) by {
      assert "ml" in MlKeywords;
    }
    assert ["HTML"][..0] == [];
  }

  /** `max(niches.items(), key=...)`: a later niche replaces the best so far only with a strictly larger score. */
  function PickMax(skills: seq<string>, order: seq<Niche>, best: Niche): Niche {
    if |order| == 0 then best
    else PickMax(skills, order[1..], if Score(skills, order[0]) > Score(skills, best) then order[0] else best)
  }

  function Dominant(skills: seq<string>): Niche {
    PickMax(skills, NicheOrder[1..], Web3)
  }

  lemma {:induction false} PickMaxCorrect(skills: seq<string>, order: seq<Niche>, best: Niche)
    ensures var r := PickMax(skills, order, best);
      && (r == best || r in order)
      && Score(skills, r) >= Score(skills, best)
      && (forall n :: n in order ==> Score(skills, n) <= Score(skills, r))
      && (r != best ==> (Score(skills, best) < Score(skills, r)
            && exists i :: 0 <= i < |order| && order[i] == r
                 && forall j :: 0 <= j < i ==> Score(skills, order[j]) < Score(skills, r)))
  {
    if |order| > 0 {
      var b := if Score(skills, order[0]) > Score(skills, best) then order[0] else best;
      PickMaxCorrect(skills, order[1..], b);
      var r := PickMax(skills, order, best);
      assert forall n :: n in order ==> n == order[0] || n in order[1..];
      if r != best {
        if r == b {
          assert order[0] == r;
        } else {
          var i :| 0 <= i < |order[1..]| && order[1..][i] == r
            && forall j :: 0 <= j < i ==> Score(skills, order[1..][j]) < Score(skills, r);
          assert order[i + 1] == r;
          forall j | 0 <= j < i + 1 ensures Score(skills, order[j]) < Score(skills, r) {
            if j > 0 { assert order[j] == order[1..][j - 1]; }
          }
        }
      }
    }
  }

  /**
   * The dominant niche has the maximal score, and every niche declared
   * before it scores strictly less: ties go to the earliest in the order
   * web3, ml, cloud, devops, mobile, full-stack.
   */
  lemma DominantCorrect(skills: seq<string>)
    ensures forall n: Niche :: Score(skills, n) <= Score(skills, Dominant(skills))
    ensures forall n: Niche :: Rank(n) < Rank(Dominant(skills)) ==> Score(skills, n) < Score(skills, Dominant(skills))
  {
    var order := NicheOrder[1..];
    PickMaxCorrect(skills, order, Web3);
    var r := Dominant(skills);
    forall n: Niche ensures Score(skills, n) <= Score(skills, r) {
      if n != Web3 { assert n == order[Rank(n) - 1]; }
    }
    forall n: Niche | Rank(n) < Rank(r) ensures Score(skills, n) < Score(skills, r) {
      if r != Web3 {
        var i :| 0 <= i < |order| && order[i] == r
          && forall j :: 0 <= j < i ==> Score(skills, order[j]) < Score(skills, r);
        assert i == Rank(r) - 1;
        if n != Web3 { assert order[Rank(n) - 1] == n; }
      }
    }
  }

  /** With no skills every score is 0 and the dominant niche is web3. */
  lemma NoSkillsWeb3()
    ensures Dominant([]) == Web3 && Score([], Dominant([])) == 0
  {
    DominantCorrect([]);
  }

  // ------------------------------------------------------------ fallback

  /** The deep branches: web3 or ml with at least 2, cloud with at least 3. */
  predicate GoesDeep(n: Niche, count: nat) {
    (n == Web3 && count >= 2) || (n == Ml && count >= 2) || (n == Cloud && count >= 3)
  }

  const Web3DeFiReasoning: string := "You have blockchain exposure. Go deep: Learn Solidity (Ethereum), Rust (Solana), or Move (Sui/Aptos). Build on trending L2s: Base, Arbitrum, Optimism. Explore DeFi protocols (Uniswap, Aave forks), NFT platforms (Metaplex). Target: Polygon jobs, Solana grants, remote Web3 companies. \U{20B9}15-30L. Learn: Anchor (Solana), Hardhat (Ethereum), Web3.js."
  const FullStackWeb3Reasoning: string := "Combine your web skills with Web3. Build dApps with Next.js + Wagmi + Viem. Master wallet integration (RainbowKit, WalletConnect). Deploy on Base or Polygon. \U{20B9}12-25L at crypto startups."
  const AuditorReasoning: string := "Growth path: Learn security (Slither, Mythril). Study common exploits. Do CTFs (Ethernaut). High demand, \U{20B9}20-40L with 1-2 years experience."
  const MlOpsReasoning: string := "You have ML foundations. Go production: Learn MLflow, DVC for versioning. Deploy with FastAPI, BentoML. Use vector DBs (Pinecone, Weaviate). Master PyTorch or TensorFlow. Target: AI startups, enterprise ML teams. \U{20B9}10-20L, growing to \U{20B9}18-35L."
  const LlmReasoning: string := "Hot niche: Build with LangChain, LlamaIndex. Fine-tune models (LoRA, QLoRA). Use OpenAI/Gemini APIs. Create RAG systems. \U{20B9}12-25L at AI-first companies."
  const VisionReasoning: string := "Specialize: YOLO, Detectron2 for vision tasks. Edge deployment (ONNX, TensorRT). \U{20B9}12-28L at robotics, automotive, surveillance companies."
  const CloudDevOpsReasoning: string := "You list cloud services. Go deep: Master IaC (Terraform, CloudFormation). Container orchestration (EKS, GKE, AKS). Observability (Datadog, Prometheus, Grafana). GitOps (ArgoCD, Flux). Target: Cloud-native companies. \U{20B9}10-20L, growing to \U{20B9}16-30L."
  const PlatformReasoning: string := "Emerging role: Build internal platforms. Master K8s operators, service mesh (Istio). Incident management. \U{20B9}14-28L at mature startups."
  const ArchitectReasoning: string := "Growth path: Design multi-cloud solutions. Cost optimization. Security (IAM, VPC). Certifications help. \U{20B9}20-40L with 3-5 years."
  const BackendReasoning: string := "Focus on APIs, databases, caching (Redis). Learn system design. \U{20B9}8-16L."
  const FrontendReasoning: string := "Master React/Vue deeply. Add animations, state management. \U{20B9}7-14L."

  function FullStackReasoning(count: nat): string {
    "You have " + NatToString(count) + " relevant skills. Master TypeScript, add testing, learn Docker. Build 2-3 production projects. \U{20B9}7-14L at product startups."
  }

  function Roles(n: Niche, count: nat): seq<Recommendation> {
    if n == Web3 && count >= 2 then
      [ Recommendation("Web3/DeFi Developer", 90, Web3DeFiReasoning),
        Recommendation("Full-Stack Web3 Engineer", 85, FullStackWeb3Reasoning),
        Recommendation("Smart Contract Auditor", 75, AuditorReasoning) ]
    else if n == Ml && count >= 2 then
      [ Recommendation("ML Engineer / MLOps", 88, MlOpsReasoning),
        Recommendation("LLM Application Developer", 82, LlmReasoning),
        Recommendation("Computer Vision Engineer", 75, VisionReasoning) ]
    else if n == Cloud && count >= 3 then
      [ Recommendation("Cloud/DevOps Engineer", 88, CloudDevOpsReasoning),
        Recommendation("Platform Engineer / SRE", 82, PlatformReasoning),
        Recommendation("Cloud Architect", 70, ArchitectReasoning) ]
    else GeneralRoles(count)
  }

  function SalaryRange(n: Niche, count: nat): (int, int) {
    if n == Web3 && count >= 2 then (1000000, 2000000)
    else if n == Ml && count >= 2 then (800000, 1600000)
    else if n == Cloud && count >= 3 then (800000, 1500000)
    else (600000, 1200000)
  }

  const Web3Gaps: seq<string> := ["Solidity or Rust", "Wallet integration (wagmi/viem)", "Smart contract testing", "Gas optimization", "DeFi protocol knowledge"]
  const MlGaps: seq<string> := ["MLOps (MLflow, DVC)", "Model deployment (FastAPI)", "Vector databases", "Fine-tuning techniques", "A/B testing for models"]
  const CloudGaps: seq<string> := ["Terraform (IaC)", "Kubernetes deep dive", "Monitoring (Datadog/Prometheus)", "Cost optimization", "Security best practices"]
  const GeneralGaps: seq<string> := ["TypeScript", "Docker", "Testing", "CI/CD", "System Design"]

  /** Gap list by niche name alone, whatever the count. */
  function Gaps(n: Niche): seq<string> {
    if n == Web3 then Web3Gaps
    else if n == Ml then MlGaps
    else if n == Cloud then CloudGaps
    else GeneralGaps
  }

  function AtsFeedback(n: Niche, count: nat): string {
    (if count >= 2 then "Strong " + Upper(NicheName(n)) + " focus visible." else "Broad skills - need focus.")
    + " Add metrics to bullets. Include GitHub links. Use specific tool names."
  }

  function QuickWins(n: Niche): seq<string> {
    [ "Add numbers to 3 bullets (1 hour)",
      "Build one " + NicheName(n) + " project with live demo (varies)",
      "Document tech stack and architecture (2 hours)" ]
  }

  function Summary(n: Niche, count: nat, roles: seq<Recommendation>, salMin: nat, salMax: nat): string {
    "You show " + Upper(NicheName(n)) + " interest with " + NatToString(count) + " relevant skills. "
    + (if count >= 2 then "Go deep in this niche - high demand, premium salaries." else "Pick one specialization and go deep.")
    + " Add production signals (Docker, tests, CI/CD). Target \U{20B9}" + NatToString(salMin / 100000) + "-"
    + NatToString(salMax / 100000) + "L. "
    + (if count >= 2 then "Explore " + (if |roles| > 0 then roles[0].role else "opportunities") + " deeply."
       else "Build 2-3 focused projects.")
  }

  /** `create_niche_aware_fallback(skills, resume_text)`; the resume text is not used. */
  function Fallback(skills: seq<string>): Analysis {
    var n := Dominant(skills);
    Assemble(n, Score(skills, n))
  }

  /** The fallback analysis for a dominant niche and its score. */
  function Assemble(n: Niche, count: nat): Analysis {
    var roles := Roles(n, count);
    var (salMin, salMax) := SalaryRange(n, count);
    Analysis(
      Sorting.Take(roles, 3),
      65 + count * 3,
      AtsFeedback(n, count),
      Gaps(n),
      QuickWins(n),
      SalaryPrediction(salMin, salMax, "INR"),
      Summary(n, count, roles, salMin, salMax))
  }

  /** The general trio: full-stack, backend and frontend at 85, 80 and 75. */
  function GeneralRoles(count: nat): seq<Recommendation> {
    [ Recommendation("Full-Stack Developer", 85, FullStackReasoning(count)),
      Recommendation("Backend Engineer", 80, BackendReasoning),
      Recommendation("Frontend Developer", 75, FrontendReasoning) ]
  }

  /** Three recommendations in every branch, led in the deep branches by one scoring at least 88. */
  lemma RolesShape(n: Niche, count: nat)
    ensures |Roles(n, count)| == 3
    ensures GoesDeep(n, count) ==> Roles(n, count)[0].matchScore >= 88
  {
  }

  /** The lead recommendation scores 85 exactly outside the deep branches. */
  lemma RolesLead(n: Niche, count: nat)
    ensures GoesDeep(n, count) <==> Roles(n, count)[0].matchScore != 85
  {
    if GoesDeep(n, count) {
      RolesShape(n, count);
    } else {
      RolesGeneral(n, count);
      assert GeneralRoles(count)[0].matchScore == 85;
    }
  }

  /** Outside the deep branches the recommendations are the general trio. */
  lemma RolesGeneral(n: Niche, count: nat)
    ensures !GoesDeep(n, count) ==> Roles(n, count) == GeneralRoles(count)
  {
  }

  /** Every salary range is positive and ordered, and above the general 6-12 lakh band exactly in the deep branches. */
  lemma SalaryShape(n: Niche, count: nat)
    ensures 0 < SalaryRange(n, count).0 < SalaryRange(n, count).1
    ensures GoesDeep(n, count) <==> SalaryRange(n, count).0 > 600000
  {
  }

  /**
   * The fallback's shape: three recommendations chosen as RolesShape says,
   * an INR salary as SalaryShape says, the five gaps of the dominant niche's
   * name, three quick wins, and an ATS score of 65 plus three per skill of the
   * dominant niche.
   */
  lemma FallbackShape(skills: seq<string>)
    ensures var a := Fallback(skills);
      var n := Dominant(skills);
      var count := Score(skills, n);
      && a.recommendations == Roles(n, count)
      && a.salary == SalaryPrediction(SalaryRange(n, count).0, SalaryRange(n, count).1, "INR")
      && a.missingSkills == Gaps(n) && |a.missingSkills| == 5
      && |a.quickWins| == 3
      && a.atsScore == 65 + 3 * count
  {
    var n := Dominant(skills);
    AssembleScores(n, Score(skills, n));
    AssembleLists(n, Score(skills, n));
  }

  lemma AssembleScores(n: Niche, count: nat)
    ensures var a := Assemble(n, count);
      && a.recommendations == Roles(n, count)
      && a.salary == SalaryPrediction(SalaryRange(n, count).0, SalaryRange(n, count).1, "INR")
      && a.atsScore == 65 + 3 * count
  {
    var a := Assemble(n, count);
    assert a.recommendations == Sorting.Take(Roles(n, count), 3);
    RolesShape(n, count);
  }

  lemma AssembleLists(n: Niche, count: nat)
    ensures var a := Assemble(n, count);
      && a.missingSkills == Gaps(n) && |a.missingSkills| == 5
      && |a.quickWins| == 3
  {
    GapsFive(n);
  }

  lemma GapsFive(n: Niche)
    ensures |Gaps(n)| == 5
  {
  }

  /** The ATS score grows with every niche's score, with no upper clamp. */
  lemma FallbackAtsAtLeast(skills: seq<string>, n: Niche)
    ensures Fallback(skills).atsScore >= 65 + 3 * Score(skills, n)
  {
    DominantCorrect(skills);
    var d := Dominant(skills);
    assert Score(skills, n) <= Score(skills, d);
    assert Fallback(skills).atsScore == 65 + Score(skills, d) * 3;
  }

  lemma {:induction false} CountAllMention(skills: seq<string>, keywords: seq<string>)
    requires forall i :: 0 <= i < |skills| ==> Mentions(skills[i], keywords)
    ensures CountMentioning(skills, keywords) == |skills|
  {
    if |skills| > 0 {
      CountAllMention(skills[..|skills| - 1], keywords);
    }
  }

  /** Twelve cloud skills push the fallback's ATS score past 100. */
  lemma FallbackAtsUnclamped(skills: seq<string>)
    requires |skills| == 12 && forall i :: 0 <= i < |skills| ==> skills[i] == "aws"
    ensures Fallback(skills).atsScore > 100
  {
    assert Mentions("aws", CloudKeywords) by {
      assert Lower("aws") == "aws";
      assert OccursAt("aws", "aws", 0);
      assert "aws" in CloudKeywords;
    }
    CountAllMention(skills, CloudKeywords);
    FallbackAtsAtLeast(skills, Cloud);
  }

  // ------------------------------------------------------------ accepting a reply

  /** Python slicing `s[a:b]` for indices inside the string: empty when b <= a. */
  function PySlice(s: string, a: nat, b: nat): (r: string)
    requires a <= |s| && b <= |s|
    ensures |r| == if a < b then b - a else 0
  {
    if a < b then s[a..b] else ""
  }

  /**
   * `text[text.find('{'):text.rfind('}') + 1]` when the text holds a '{':
   * from the first '{' through the last '}', or nothing when no '}' follows
   * the first '{'.
   */
  function BraceCut(text: string): (r: string)
    ensures '{' !in text ==> r == text
    ensures '{' in text && (exists i :: IndexOfChar(text, '{') < i < |text| && text[i] == '}') ==>
      exists a, b :: 0 <= a < b <= |text| && r == text[a..b]
        && text[a] == '{' && '{' !in text[..a] && text[b - 1] == '}' && '}' !in text[b..]
    ensures '{' in text && (forall i :: IndexOfChar(text, '{') < i < |text| ==> text[i] != '}') ==> r == ""
  {
    if '{' in text then
      var open := IndexOfChar(text, '{');
      var close := LastIndexOfChar(text, '}');
      if open < close then
        assert text[open] == '{' && '{' !in text[..open] && text[close] == '}' && '}' !in text[close + 1..];
        text[open..close + 1]
      else PySlice(text, open, close + 1)
    else text
  }

  /** The text handed to the parser: stripped, cut at the braces, fences removed, stripped again. */
  function CleanReply(reply: string): string {
    PyStrip(ReplaceAll(BraceCut(PyStrip(reply)), "``````", ""))
  }

  /** A JSON value pydantic accepts for an `int` field: a number with no fractional part. */
  function AsInt(j: Json): Option<int> {
    if j.JNum? && j.n == j.n.Floor as real then Some(j.n.Floor) else None
  }

  function AsStr(j: Json): Option<string> {
    if j.JStr? then Some(j.str) else None
  }

  /** A list whose every element is a string. */
  function AsStrList(items: seq<Json>): (r: Option<seq<string>>)
    ensures r.Some? ==> |r.value| == |items|
  {
    if |items| == 0 then Some([])
    else
      match (AsStr(items[0]), AsStrList(items[1..]))
      case (Some(x), Some(rest)) => Some([x] + rest)
      case _ => None
  }

  /** `CareerRecommendation(**r)` */
  function AsRecommendation(j: Json): Option<Recommendation> {
    if !j.JObj? || "role" !in j.fields || "match_score" !in j.fields || "reasoning" !in j.fields then None
    else
      match (AsStr(j.fields["role"]), AsInt(j.fields["match_score"]), AsStr(j.fields["reasoning"]))
      case (Some(role), Some(score), Some(why)) => Some(Recommendation(role, score, why))
      case _ => None
  }

  function AsRecommendations(items: seq<Json>): (r: Option<seq<Recommendation>>)
    ensures r.Some? ==> |r.value| == |items|
  {
    if |items| == 0 then Some([])
    else
      match (AsRecommendation(items[0]), AsRecommendations(items[1..]))
      case (Some(x), Some(rest)) => Some([x] + rest)
      case _ => None
  }

  /** `SalaryPrediction(**d)`: min and max required, currency defaulting to INR. */
  function AsSalary(j: Json): Option<SalaryPrediction> {
    if !j.JObj? || "min" !in j.fields || "max" !in j.fields then None
    else
      var currency := if "currency" in j.fields then AsStr(j.fields["currency"]) else Some("INR");
      match (AsInt(j.fields["min"]), AsInt(j.fields["max"]), currency)
      case (Some(lo), Some(hi), Some(c)) => Some(SalaryPrediction(lo, hi, c))
      case _ => None
  }

  /** `result.get(k, default)` on a parsed object. */
  function Get(fields: map<string, Json>, k: string, default: Json): Json {
    if k in fields then fields[k] else default
  }

  const DefaultSalary: Json := JObj(map["min" := JNum(600000.0), "max" := JNum(1200000.0)])

  /** `value[:n]` on a list; None when the value is not a list (slicing or validation would raise). */
  function ListPrefix(j: Json, n: nat): Option<seq<Json>> {
    if j.JArr? then Some(Sorting.Take(j.items, n)) else None
  }

  /** The analysis built from a parsed reply, or None where `analyze_with_gemini` raises or falls back. */
  function Decode(result: Json): Option<Analysis> {
    if !result.JObj? then None
    else
      var f := result.fields;
      var recs := Get(f, "career_recommendations", JArr([]));
      if !recs.JArr? || |recs.items| < 2 then None
      else
        var missing := ListPrefix(Get(f, "missing_skills", JArr([])), 5);
        var wins := ListPrefix(Get(f, "quick_wins", JArr([])), 3);
        if missing.None? || wins.None? then None
        else
          match (AsRecommendations(Sorting.Take(recs.items, 3)),
                 AsInt(Get(f, "ats_score", JNum(70.0))),
                 AsStr(Get(f, "ats_feedback", JStr(""))),
                 AsStrList(missing.value),
                 AsStrList(wins.value),
                 AsSalary(Get(f, "salary_prediction", DefaultSalary)),
                 AsStr(Get(f, "summary", JStr(""))))
          case (Some(rs), Some(ats), Some(fb), Some(ms), Some(qw), Some(sal), Some(sm)) =>
            Some(Analysis(rs, ats, fb, ms, qw, sal, sm))
          case _ => None
  }

  /** `analyze_with_gemini`: the reply's analysis when it passes every check, the fallback otherwise. */
  function Analyze(reply: Option<string>, parse: string -> Option<Json>, extracted: seq<string>): Analysis {
    var skills := Sorting.Take(extracted, MaxInputSkills);
    if reply.None? || |reply.value| == 0 then Fallback(skills)
    else
      match parse(CleanReply(reply.value))
      case None => Fallback(skills)
      case Some(result) =>
        match Decode(result)
        case Some(a) => a
        case None => Fallback(skills)
  }

  /** What an accepted reply looks like after the checks and truncations. */
  lemma DecodeShape(result: Json)
    requires Decode(result).Some?
    ensures var a := Decode(result).value;
      && result.JObj?
      && "career_recommendations" in result.fields
      && result.fields["career_recommendations"].JArr?
      && |result.fields["career_recommendations"].items| >= 2
      && 2 <= |a.recommendations| <= 3
      && |a.missingSkills| <= 5
      && |a.quickWins| <= 3
      && ("ats_score" !in result.fields ==> a.atsScore == 70)
      && ("salary_prediction" !in result.fields ==> a.salary == SalaryPrediction(600000, 1200000, "INR"))
      && ("summary" !in result.fields ==> a.summary == "")
  {
    var f := result.fields;
    if "salary_prediction" !in f {
      assert AsInt(JNum(600000.0)) == Some(600000);
      assert AsInt(JNum(1200000.0)) == Some(1200000);
    }
  }

  // ----------------------------------------------- the accepted reply, field by field

  /** The length of `items[:n]` for a list of `len` items. */
  function SliceLength(len: nat, n: nat): (r: nat)
    ensures r <= len && r <= n && (r == len || r == n)
  {
    if len < n then len else n
  }

  /** `CareerRecommendation(**j)` builds `r`: the three fields are present and carry `r`'s values. */
  predicate RecommendationOf(j: Json, r: Recommendation) {
    && j.JObj?
    && "role" in j.fields && j.fields["role"] == JStr(r.role)
    && "match_score" in j.fields && j.fields["match_score"] == JNum(r.matchScore as real)
    && "reasoning" in j.fields && j.fields["reasoning"] == JStr(r.reasoning)
  }

  /** `SalaryPrediction(**j)` builds `s`; the currency is INR when the object leaves it out. */
  predicate SalaryOf(j: Json, s: SalaryPrediction) {
    && j.JObj?
    && "min" in j.fields && j.fields["min"] == JNum(s.min as real)
    && "max" in j.fields && j.fields["max"] == JNum(s.max as real)
    && (if "currency" in j.fields then j.fields["currency"] == JStr(s.currency) else s.currency == "INR")
  }

  /** `items[:n]` is a list of strings, and `xs` holds them in order. */
  predicate StringsOf(items: seq<Json>, n: nat, xs: seq<string>) {
    |xs| == SliceLength(|items|, n) && forall i :: 0 <= i < |xs| ==> items[i] == JStr(xs[i])
  }

  /**
   * The `GeminiAnalysis` built from the fields of a parsed object without
   * raising: at least two recommendations, the first three of which convert;
   * a whole ATS score, 70 when absent; feedback and summary strings, "" when
   * absent; the first five missing skills and the first three quick wins,
   * all strings, none when absent; and a salary object, 600000 to 1200000
   * when absent.
   */
  predicate AcceptsFields(f: map<string, Json>, a: Analysis) {
    var recs := Get(f, "career_recommendations", JArr([]));
    var missing := Get(f, "missing_skills", JArr([]));
    var wins := Get(f, "quick_wins", JArr([]));
    && recs.JArr? && |recs.items| >= 2
    && |a.recommendations| == SliceLength(|recs.items|, 3)
    && (forall i :: 0 <= i < |a.recommendations| ==> RecommendationOf(recs.items[i], a.recommendations[i]))
    && Get(f, "ats_score", JNum(70.0)) == JNum(a.atsScore as real)
    && Get(f, "ats_feedback", JStr("")) == JStr(a.atsFeedback)
    && missing.JArr? && StringsOf(missing.items, 5, a.missingSkills)
    && wins.JArr? && StringsOf(wins.items, 3, a.quickWins)
    && SalaryOf(Get(f, "salary_prediction", DefaultSalary), a.salary)
    && Get(f, "summary", JStr("")) == JStr(a.summary)
  }

  /** A parsed reply from which the analysis `a` is built. */
  predicate Accepts(result: Json, a: Analysis) {
    result.JObj? && AcceptsFields(result.fields, a)
  }

  lemma AsIntIs(j: Json, k: int)
    ensures AsInt(j) == Some(k) <==> j == JNum(k as real)
  {
  }

  lemma {:induction false} AsStrListIs(items: seq<Json>, xs: seq<string>)
    ensures AsStrList(items) == Some(xs) <==> |xs| == |items| && forall i :: 0 <= i < |items| ==> items[i] == JStr(xs[i])
  {
    if |items| > 0 && |xs| > 0 {
      AsStrListIs(items[1..], xs[1..]);
      assert xs == [xs[0]] + xs[1..];
      if |xs| == |items| && forall i :: 0 <= i < |items| ==> items[i] == JStr(xs[i]) {
        assert forall i :: 0 <= i < |items| - 1 ==> items[1..][i] == items[i + 1];
      }
      if AsStrList(items) == Some(xs) {
        forall i | 0 <= i < |items| ensures items[i] == JStr(xs[i]) {
          if i > 0 { assert items[i] == items[1..][i - 1]; }
        }
      }
    }
  }

  lemma RecommendationIs(j: Json, r: Recommendation)
    ensures AsRecommendation(j) == Some(r) <==> RecommendationOf(j, r)
  {
    if j.JObj? && "match_score" in j.fields {
      AsIntIs(j.fields["match_score"], r.matchScore);
    }
  }

  lemma {:induction false} AsRecommendationsIs(items: seq<Json>, rs: seq<Recommendation>)
    ensures AsRecommendations(items) == Some(rs) <==>
      |rs| == |items| && forall i :: 0 <= i < |items| ==> RecommendationOf(items[i], rs[i])
  {
    if |items| > 0 && |rs| > 0 {
      AsRecommendationsIs(items[1..], rs[1..]);
      RecommendationIs(items[0], rs[0]);
      assert rs == [rs[0]] + rs[1..];
      if |rs| == |items| && forall i :: 0 <= i < |items| ==> RecommendationOf(items[i], rs[i]) {
        assert forall i :: 0 <= i < |items| - 1 ==> items[1..][i] == items[i + 1];
      }
      if AsRecommendations(items) == Some(rs) {
        forall i | 0 <= i < |items| ensures RecommendationOf(items[i], rs[i]) {
          if i > 0 { assert items[i] == items[1..][i - 1]; }
        }
      }
    }
  }

  lemma AsSalaryIs(j: Json, s: SalaryPrediction)
    ensures AsSalary(j) == Some(s) <==> SalaryOf(j, s)
  {
    if j.JObj? && "min" in j.fields && "max" in j.fields {
      AsIntIs(j.fields["min"], s.min);
      AsIntIs(j.fields["max"], s.max);
    }
  }

  /** A string list read off the first `n` items. */
  lemma TakeStrings(items: seq<Json>, n: nat, xs: seq<string>)
    ensures AsStrList(Sorting.Take(items, n)) == Some(xs) <==> StringsOf(items, n, xs)
  {
    var t := Sorting.Take(items, n);
    AsStrListIs(t, xs);
    assert forall i :: 0 <= i < |t| ==> t[i] == items[i];
  }

  /** The decoder builds exactly the analysis the reply's fields describe. */
  lemma DecodeAccepts(result: Json, a: Analysis)
    ensures Decode(result) == Some(a) <==> Accepts(result, a)
  {
    if result.JObj? {
      var f := result.fields;
      var recs := Get(f, "career_recommendations", JArr([]));
      var missing := Get(f, "missing_skills", JArr([]));
      var wins := Get(f, "quick_wins", JArr([]));
      if recs.JArr? && |recs.items| >= 2 && missing.JArr? && wins.JArr? {
        var t := Sorting.Take(recs.items, 3);
        AsRecommendationsIs(t, a.recommendations);
        assert forall i :: 0 <= i < |t| ==> t[i] == recs.items[i];
        AsIntIs(Get(f, "ats_score", JNum(70.0)), a.atsScore);
        TakeStrings(missing.items, 5, a.missingSkills);
        TakeStrings(wins.items, 3, a.quickWins);
        AsSalaryIs(Get(f, "salary_prediction", DefaultSalary), a.salary);
      }
    }
  }

  /**
   * `analyze_with_gemini` on the model's reply: the fallback on the first 25
   * skills when the reply is empty or its cleaned text does not parse;
   * otherwise the analysis the parsed fields describe, or the fallback when
   * they describe none.
   */
  lemma AnalyzeCorrect(reply: Option<string>, parse: string -> Option<Json>, extracted: seq<string>, result: Json, a: Analysis)
    ensures reply.None? || |reply.value| == 0 || parse(CleanReply(reply.value)).None? ==>
      Analyze(reply, parse, extracted) == Fallback(Sorting.Take(extracted, MaxInputSkills))
    ensures reply.Some? && |reply.value| > 0 && parse(CleanReply(reply.value)) == Some(result) ==>
      && (Accepts(result, a) ==> Analyze(reply, parse, extracted) == a)
      && (!Accepts(result, Analyze(reply, parse, extracted)) ==>
            Analyze(reply, parse, extracted) == Fallback(Sorting.Take(extracted, MaxInputSkills)))
  {
    DecodeAccepts(result, a);
    var out := Analyze(reply, parse, extracted);
    DecodeAccepts(result, out);
  }

  /** A reply with fewer than two recommendations is replaced by the fallback. */
  lemma TooFewRecommendations(reply: string, parse: string -> Option<Json>, extracted: seq<string>, result: Json)
    requires |reply| > 0 && parse(CleanReply(reply)) == Some(result)
    requires result.JObj? && "career_recommendations" in result.fields
    requires result.fields["career_recommendations"].JArr? && |result.fields["career_recommendations"].items| < 2
    ensures Analyze(Some(reply), parse, extracted) == Fallback(Sorting.Take(extracted, MaxInputSkills))
  {
  }

  /** A stripped reply with a '{' but no '}' after it is cleaned down to nothing. */
  lemma CleanReplyNoClosingBrace(reply: string)
    requires BraceCut(PyStrip(reply)) == ""
    ensures CleanReply(reply) == ""
  {
    assert Split("", "``````") == [""];
    assert Join([""], "") == "";
    assert StripBy("", IsPyWhitespace) == "";
  }
}

=== FILE: http.dfy ===
/** What an Express handler does with a request: one JSON reply or one hand-off to the error middleware. */
module Http {

  datatype Reply<T> =
    | Ok(code: int, message: string, data: T)   // `sendSuccess`
    | Fail(code: int, message: string)          // `sendError`
    | Forwarded                                 // `next(error)`: a thrown exception goes to the error middleware
}

=== FILE: jsmath.dfy ===
/**
 * JavaScript's rounding as the backend and the pages use it, on reals.
 */
module JsMath {

  /** `Math.round`: the nearest integer, halves rounded up. */
  function JsRound(x: real): (r: int)
    ensures x - 0.5 < r as real <= x + 0.5
  {
    (x + 0.5).Floor
  }

  /** `Math.round(x * 10) / 10` */
  function Round1(x: real): (r: real)
    ensures x - 0.05 < r <= x + 0.05
  {
    JsRound(x * 10.0) as real / 10.0
  }

  lemma FractionBounds(k: real, n: real)
    requires 0.0 <= k <= n && n > 0.0
    ensures 0.0 <= k / n <= 1.0
    ensures k == n ==> k / n == 1.0
  {
    assert k / n * n == k;
  }

  /**
   * `r` is `100 * k / n` rounded as `Math.round` does: the one integer in
   * the half-open band from half below to half above the exact share.
   */
  predicate PercentOf(r: int, k: int, n: nat)
    requires n > 0
  {
    var x := k as real * 100.0 / n as real;
    x - 0.5 < r as real <= x + 0.5
  }

  /** The band holds a single integer, so it determines the percentage. */
  lemma PercentOfUnique(a: int, b: int, k: int, n: nat)
    requires n > 0 && PercentOf(a, k, n) && PercentOf(b, k, n)
    ensures a == b
  {
  }

  /** `Math.round((k / n) * 100)` for any part `k` of a non-empty whole `n`. */
  function RoundedShare(k: int, n: nat): (r: int)
    requires n > 0
    ensures PercentOf(r, k, n)
  {
    assert k as real / n as real * 100.0 == k as real * 100.0 / n as real;
    JsRound(k as real / n as real * 100.0)
  }

  /** `Math.round((k / n) * 100)` for a part `k` of a non-empty whole `n`. */
  function Percent(k: nat, n: nat): (r: int)
    requires k <= n && n > 0
    ensures PercentOf(r, k, n)
    ensures 0 <= r <= 100
    ensures k == n ==> r == 100
    ensures k == 0 ==> r == 0
  {
    FractionBounds(k as real, n as real);
    RoundedShare(k, n)
  }

  lemma DivMonotone(a: real, b: real, n: real)
    requires a <= b && n > 0.0
    ensures a / n <= b / n
  {
    var d := b / n - a / n;
    assert d * n == b - a;
  }

  /** Rounding to a percentage is monotone in the part. */
  lemma PercentMonotone(k1: nat, k2: nat, n: nat)
    requires k1 <= k2 <= n && n > 0
    ensures Percent(k1, n) <= Percent(k2, n)
  {
    DivMonotone(k1 as real, k2 as real, n as real);
  }
}

=== FILE: json.dfy ===
/**
 * A parsed JSON value, as `json.loads` and `JSON.parse` produce it.
 *
 * Parsing itself is not modelled: operations that parse text take the parser
 * as a parameter `string -> Option<Json>`, so every result stated about them
 * holds for any parser.
 */
module Json {

  import opened Wrappers

  datatype Json =
    | JNull
    | JBool(b: bool)
    | JNum(n: real)
    | JStr(str: string)
    | JArr(items: seq<Json>)
    | JObj(fields: map<string, Json>)

  /** JavaScript truthiness of a parsed value (no NaN arises from parsing). */
  predicate Truthy(j: Json) {
    match j
    case JNull => false
    case JBool(b) => b
    case JNum(n) => n != 0.0
    case JStr(s) => |s| > 0
    case JArr(_) => true
    case JObj(_) => true
  }

  /**
   * JavaScript's `Number(j)` for a parsed value, as `-` and `<` apply it;
   * None stands for NaN. Null is 0, a boolean 0 or 1, an object NaN, and
   * an array the number its `join(",")` spells. The empty string is 0 and
   * any other string is treated as NaN.
   */
  function ToNumber(j: Json): Option<real>
    decreases j
  {
    match j
    case JNull => Some(0.0)
    case JBool(b) => Some(if b then 1.0 else 0.0)
    case JNum(n) => Some(n)
    case JStr(s) => if |s| == 0 then Some(0.0) else None
    case JArr(items) => ArrayNumber(items)
    case JObj(_) => None
  }

  /**
   * `Number(a)` for an array `a`: the empty array joins to "" (0); a
   * one-element array joins to its element's text, "" for null; two or
   * more elements join around a comma, which no number holds.
   */
  function ArrayNumber(items: seq<Json>): Option<real>
    decreases items
  {
    if |items| == 0 then Some(0.0)
    else if |items| > 1 then None
    else
      match items[0]
      case JNum(n) => Some(n)
      case JNull => Some(0.0)
      case JStr(s) => if |s| == 0 then Some(0.0) else None
      case JArr(inner) => ArrayNumber(inner)
      case _ => None
  }

  /** `obj.get(k)` / `obj[k]`: the field, or None when absent or when the value is not an object. */
  function Field(j: Json, k: string): (r: Option<Json>)
    ensures r.Some? <==> j.JObj? && k in j.fields
    ensures r.Some? ==> r.value == j.fields[k]
  {
    if j.JObj? && k in j.fields then Some(j.fields[k]) else None
  }
}

=== FILE: lists.dfy ===
/**
 * Sequence helpers shared by the aggregations: order-preserving
 * de-duplication (`[...new Set(xs)]`, "first seen wins") and grouping of
 * keyed values in first-appearance order of the keys, which is the order
 * `Object.entries` reports the string keys of an object built by
 * `counts[k] = ...` in a loop.
 */
module Lists {

  predicate Distinct<T(==,!new)>(s: seq<T>) {
    forall a, b :: 0 <= a < b < |s| ==> s[a] != s[b]
  }

  /** The first entry of each distinct value, in order of first appearance. */
  function Dedup<T(==,!new)>(xs: seq<T>): (r: seq<T>)
    ensures forall x :: x in r <==> x in xs
    ensures Distinct(r)
  {
    if |xs| == 0 then []
    else
      var d := Dedup(xs[..|xs| - 1]);
      assert forall x :: x in xs <==> x in xs[..|xs| - 1] || x == xs[|xs| - 1];
      if xs[|xs| - 1] in d then d else d + [xs[|xs| - 1]]
  }

  lemma DedupSnoc<T(!new)>(xs: seq<T>, x: T)
    ensures Dedup(xs + [x]) == if x in xs then Dedup(xs) else Dedup(xs) + [x]
  {
    assert (xs + [x])[..|xs|] == xs;
  }

  /** Position of the first occurrence of `x`. */
  function FirstIndex<T(==,!new)>(xs: seq<T>, x: T): (k: nat)
    requires x in xs
    ensures k < |xs| && xs[k] == x && x !in xs[..k]
  {
    if xs[0] == x then 0 else 1 + FirstIndex(xs[1..], x)
  }

  lemma NotInPrefix<T(!new)>(xs: seq<T>, k: nat, x: T)
    requires k <= |xs| && x !in xs[..k]
    ensures forall j :: 0 <= j < k ==> xs[j] != x
  {
    forall j | 0 <= j < k ensures xs[j] != x {
      assert xs[..k][j] == xs[j];
    }
  }

  lemma FirstIndexPrefix<T(!new)>(xs: seq<T>, y: T, x: T)
    requires x in xs
    ensures FirstIndex(xs + [y], x) == FirstIndex(xs, x)
  {
    var ys := xs + [y];
    var k := FirstIndex(xs, x);
    var k2 := FirstIndex(ys, x);
    NotInPrefix(xs, k, x);
    NotInPrefix(ys, k2, x);
    assert forall j :: 0 <= j < |xs| ==> ys[j] == xs[j];
    assert ys[k] == x;
  }

  lemma FirstIndexLast<T(!new)>(xs: seq<T>, x: T)
    requires x !in xs
    ensures FirstIndex(xs + [x], x) == |xs|
  {
    var ys := xs + [x];
    var k := FirstIndex(ys, x);
    assert ys[k] == x;
    assert forall j :: 0 <= j < |xs| ==> ys[j] == xs[j];
    assert ys[|xs|] == x;
    NotInPrefix(ys, k, x);
  }

  /** De-duplication keeps values in the order in which they first appear. */
  lemma {:induction false} DedupOrder<T(!new)>(xs: seq<T>)
    ensures forall a, b :: 0 <= a < b < |Dedup(xs)| ==> FirstIndex(xs, Dedup(xs)[a]) < FirstIndex(xs, Dedup(xs)[b])
  {
    if |xs| > 0 {
      var pre := xs[..|xs| - 1];
      var x := xs[|xs| - 1];
      assert xs == pre + [x];
      DedupOrder(pre);
      var d := Dedup(pre);
      forall y | y in d ensures FirstIndex(xs, y) == FirstIndex(pre, y) && FirstIndex(xs, y) < |pre| {
        FirstIndexPrefix(pre, x, y);
      }
      if x !in d {
        FirstIndexLast(pre, x);
      }
    }
  }

  /** A sequence without repeats holds each value at most once. */
  lemma {:induction false} DistinctMultiplicity<T(!new)>(s: seq<T>)
    requires Distinct(s)
    ensures forall x :: multiset(s)[x] <= 1
  {
    if |s| > 0 {
      var pre := s[..|s| - 1];
      assert s == pre + [s[|s| - 1]];
      assert Distinct(pre);
      DistinctMultiplicity(pre);
      assert forall j :: 0 <= j < |pre| ==> pre[j] != s[|s| - 1];
      assert multiset(pre)[s[|s| - 1]] == 0;
    }
  }

  /** Two positions holding one value make its multiplicity at least two. */
  lemma TwoPositions<T(!new)>(s: seq<T>, i: nat, j: nat)
    requires i < j < |s|
    ensures multiset(s)[s[j]] >= multiset(s[..j])[s[j]] + 1
    ensures multiset(s[..j])[s[i]] >= 1
  {
    assert s == s[..j] + s[j..];
    assert s[j..][0] == s[j];
    assert s[..j][i] == s[i];
  }

  /** A rearrangement of a sequence without repeats has none. */
  lemma DistinctPermutation<T(!new)>(a: seq<T>, b: seq<T>)
    requires Distinct(a) && multiset(a) == multiset(b)
    ensures Distinct(b)
  {
    DistinctMultiplicity(a);
    forall i, j | 0 <= i < j < |b| ensures b[i] != b[j] {
      TwoPositions(b, i, j);
    }
  }

  // ------------------------------------------------------------------ counting

  /** The number of elements satisfying `p`. */
  function CountIf<T>(s: seq<T>, p: T -> bool): (n: nat)
    ensures n <= |s|
  {
    if |s| == 0 then 0 else CountIf(s[..|s| - 1], p) + (if p(s[|s| - 1]) then 1 else 0)
  }

  /** The positions of `s` whose element passes `p`. */
  function Passing<T>(s: seq<T>, p: T -> bool): set<nat> {
    set i: nat | i < |s| && p(s[i])
  }

  /** The count is the number of positions whose element passes. */
  lemma {:induction false} CountIfIndices<T>(s: seq<T>, p: T -> bool)
    ensures CountIf(s, p) == |Passing(s, p)|
  {
    if |s| > 0 {
      var pre := s[..|s| - 1];
      var last := |s| - 1;
      CountIfIndices(pre, p);
      var a := Passing(pre, p);
      var b := Passing(s, p);
      assert forall i :: 0 <= i < |pre| ==> pre[i] == s[i];
      if p(s[last]) {
        assert b == a + {last};
      } else {
        assert b == a;
      }
    }
  }

  lemma {:induction false} CountIfConcat<T>(a: seq<T>, b: seq<T>, p: T -> bool)
    ensures CountIf(a + b, p) == CountIf(a, p) + CountIf(b, p)
  {
    if |b| > 0 {
      assert (a + b)[..|a + b| - 1] == a + b[..|b| - 1];
      CountIfConcat(a, b[..|b| - 1], p);
    } else {
      assert a + b == a;
    }
  }

  /**
   * Matching the last element of `a` with position `k` of its rearrangement
   * `b` leaves rearrangements of each other behind.
   */
  lemma RemoveMatched<T>(a: seq<T>, b: seq<T>, k: nat)
    requires multiset(a) == multiset(b) && 0 < |a| && k < |b| && b[k] == a[|a| - 1]
    ensures multiset(a[..|a| - 1]) == multiset(b[..k] + b[k + 1..])
    ensures b == b[..k] + [b[k]] + b[k + 1..]
  {
    var x := a[|a| - 1];
    var a' := a[..|a| - 1];
    var b' := b[..k] + b[k + 1..];
    assert a == a' + [x];
    assert b == b[..k] + [x] + b[k + 1..];
    assert multiset(b) == multiset(b') + multiset{x};
    assert multiset(a) == multiset(a') + multiset{x};
    assert multiset(a') == multiset(a) - multiset{x};
    assert multiset(b') == multiset(b) - multiset{x};
  }

  /** A count depends only on which elements there are. */
  lemma {:induction false} CountIfPermutation<T>(a: seq<T>, b: seq<T>, p: T -> bool)
    requires multiset(a) == multiset(b)
    ensures CountIf(a, p) == CountIf(b, p)
    decreases |a|
  {
    if |a| > 0 {
      var x := a[|a| - 1];
      assert x in multiset(b) by { assert x in multiset(a); }
      var k :| 0 <= k < |b| && b[k] == x;
      RemoveMatched(a, b, k);
      CountIfPermutation(a[..|a| - 1], b[..k] + b[k + 1..], p);
      CountIfConcat(b[..k] + [x], b[k + 1..], p);
      CountIfConcat(b[..k], [x], p);
      CountIfConcat(b[..k], b[k + 1..], p);
      assert CountIf([x], p) == (if p(x) then 1 else 0) by { assert [x][..0] == []; }
    } else {
      assert |b| == 0;
    }
  }


  /** A prefix has no more matches than the whole. */
  lemma CountIfPrefix<T>(s: seq<T>, t: seq<T>, p: T -> bool)
    requires t <= s
    ensures CountIf(t, p) <= CountIf(s, p)
  {
    assert s == t + s[|t|..];
    CountIfConcat(t, s[|t|..], p);
  }

  // ------------------------------------------------------------------ grouping

  /** The keys of a list of groups. */
  function Keys<V>(g: seq<(string, V)>): (r: seq<string>)
    ensures |r| == |g|
    ensures forall i :: 0 <= i < |g| ==> r[i] == g[i].0
  {
    seq(|g|, i requires 0 <= i < |g| => g[i].0)
  }

  /** The values paired with `k`, in order: the reference definition of a group. */
  function ValuesOf<V>(pairs: seq<(string, V)>, k: string): (r: seq<V>)
    ensures |r| <= |pairs|
  {
    if |pairs| == 0 then []
    else
      var pre := ValuesOf(pairs[..|pairs| - 1], k);
      if pairs[|pairs| - 1].0 == k then pre + [pairs[|pairs| - 1].1] else pre
  }

  /** Position of the group with key `k`, or -1. */
  function KeyIndex<V>(g: seq<(string, V)>, k: string): (r: int)
    ensures -1 <= r < |g|
    ensures r == -1 <==> k !in Keys(g)
    ensures r >= 0 ==> g[r].0 == k
  {
    if |g| == 0 then -1
    else if g[0].0 == k then 0
    else
      var r := KeyIndex(g[1..], k);
      assert Keys(g) == [g[0].0] + Keys(g[1..]);
      if r == -1 then -1 else r + 1
  }

  /** `groups[k] = [...(groups[k] || []), v]` */
  function AddTo<V>(g: seq<(string, seq<V>)>, k: string, v: V): (r: seq<(string, seq<V>)>)
    ensures |r| == |g| || |r| == |g| + 1
  {
    var i := KeyIndex(g, k);
    if i < 0 then g + [(k, [v])] else g[i := (k, g[i].1 + [v])]
  }

  /** The groups of `pairs` by key, in first-appearance order of the keys. */
  function Group<V>(pairs: seq<(string, V)>): (g: seq<(string, seq<V>)>)
  {
    if |pairs| == 0 then []
    else
      var p := pairs[|pairs| - 1];
      AddTo(Group(pairs[..|pairs| - 1]), p.0, p.1)
  }

  lemma AddToKeys<V>(g: seq<(string, seq<V>)>, k: string, v: V)
    ensures Keys(AddTo(g, k, v)) == if k in Keys(g) then Keys(g) else Keys(g) + [k]
  {
  }

  lemma KeysSnoc<V>(pairs: seq<(string, V)>)
    requires |pairs| > 0
    ensures Keys(pairs) == Keys(pairs[..|pairs| - 1]) + [pairs[|pairs| - 1].0]
  {
  }

  /** The groups' keys are the pairs' keys de-duplicated in first-appearance order. */
  lemma {:induction false} GroupKeys<V>(pairs: seq<(string, V)>)
    ensures Keys(Group(pairs)) == Dedup(Keys(pairs))
  {
    if |pairs| > 0 {
      var pre := pairs[..|pairs| - 1];
      var p := pairs[|pairs| - 1];
      var g := Group(pre);
      GroupKeys(pre);
      assert p.0 in Keys(g) <==> p.0 in Keys(pre);
      assert Group(pairs) == AddTo(g, p.0, p.1);
      AddToKeys(g, p.0, p.1);
      KeysSnoc(pairs);
      DedupSnoc(Keys(pre), p.0);
    }
  }

  lemma ValuesOfSnoc<V>(pairs: seq<(string, V)>, p: (string, V), k: string)
    ensures ValuesOf(pairs + [p], k) == if p.0 == k then ValuesOf(pairs, k) + [p.1] else ValuesOf(pairs, k)
  {
    assert (pairs + [p])[..|pairs|] == pairs;
  }

  /** The values paired with `k` are exactly the second halves of the pairs keyed `k`. */
  lemma {:induction false} ValuesOfHas<V>(pairs: seq<(string, V)>, k: string)
    ensures forall v :: v in ValuesOf(pairs, k) <==> (k, v) in pairs
  {
    if |pairs| > 0 {
      var pre := pairs[..|pairs| - 1];
      var p := pairs[|pairs| - 1];
      ValuesOfHas(pre, k);
      assert pairs == pre + [p];
    }
  }

  lemma {:induction false} ValuesOfAbsent<V>(pairs: seq<(string, V)>, k: string)
    requires k !in Keys(pairs)
    ensures ValuesOf(pairs, k) == []
  {
    if |pairs| > 0 {
      var pre := pairs[..|pairs| - 1];
      assert Keys(pre) == Keys(pairs)[..|pairs| - 1];
      ValuesOfAbsent(pre, k);
    }
  }

  /** Every group holds exactly the values paired with its key, in order. */
  lemma {:induction false} GroupValues<V>(pairs: seq<(string, V)>)
    ensures forall i :: 0 <= i < |Group(pairs)| ==> Group(pairs)[i].1 == ValuesOf(pairs, Group(pairs)[i].0)
  {
    if |pairs| > 0 {
      var pre := pairs[..|pairs| - 1];
      var p := pairs[|pairs| - 1];
      assert pairs == pre + [p];
      GroupValues(pre);
      var g := Group(pre);
      var g' := Group(pairs);
      assert g' == AddTo(g, p.0, p.1);
      var j := KeyIndex(g, p.0);
      forall i | 0 <= i < |g'| ensures g'[i].1 == ValuesOf(pairs, g'[i].0) {
        ValuesOfSnoc(pre, p, g'[i].0);
        if j < 0 && i == |g| {
          GroupKeys(pre);
          assert p.0 !in Keys(pre);
          ValuesOfAbsent(pre, p.0);
        } else if i == j {
          assert g'[i] == (p.0, g[i].1 + [p.1]);
        } else {
          assert g'[i] == g[i];
          assert g[i].0 != p.0 by {
            if j >= 0 { GroupKeysDistinct(pre, i, j); } else { assert p.0 !in Keys(g); assert Keys(g)[i] == g[i].0; }
          }
        }
      }
    }
  }

  lemma GroupKeysDistinct<V>(pairs: seq<(string, V)>, i: int, j: int)
    requires 0 <= i < |Group(pairs)| && 0 <= j < |Group(pairs)| && i != j
    ensures Group(pairs)[i].0 != Group(pairs)[j].0
  {
    GroupKeys(pairs);
    var ks := Keys(Group(pairs));
    assert Distinct(ks);
    assert ks[i] == Group(pairs)[i].0 && ks[j] == Group(pairs)[j].0;
  }

  /** The total number of values over all groups. */
  function Total<V>(g: seq<(string, seq<V>)>): nat {
    if |g| == 0 then 0 else Total(g[..|g| - 1]) + |g[|g| - 1].1|
  }

  lemma {:induction false} TotalUpdate<V>(g: seq<(string, seq<V>)>, i: nat, e: (string, seq<V>))
    requires i < |g|
    ensures Total(g[i := e]) == Total(g) - |g[i].1| + |e.1|
  {
    var h := g[i := e];
    if i < |g| - 1 {
      assert h[..|h| - 1] == g[..|g| - 1][i := e];
      TotalUpdate(g[..|g| - 1], i, e);
    } else {
      assert h[..|h| - 1] == g[..|g| - 1];
    }
  }

  /** Grouping loses and invents no value: the group sizes add up to the number of pairs. */
  lemma {:induction false} GroupTotal<V>(pairs: seq<(string, V)>)
    ensures Total(Group(pairs)) == |pairs|
  {
    if |pairs| > 0 {
      var pre := pairs[..|pairs| - 1];
      var p := pairs[|pairs| - 1];
      GroupTotal(pre);
      var g := Group(pre);
      var i := KeyIndex(g, p.0);
      if i < 0 {
        assert (g + [(p.0, [p.1])])[..|g|] == g;
      } else {
        TotalUpdate(g, i, (p.0, g[i].1 + [p.1]));
      }
    }
  }

  /** Every group is non-empty. */
  lemma {:induction false} GroupNonEmpty<V>(pairs: seq<(string, V)>)
    ensures forall i :: 0 <= i < |Group(pairs)| ==> |Group(pairs)[i].1| > 0
  {
    if |pairs| > 0 {
      GroupNonEmpty(pairs[..|pairs| - 1]);
    }
  }
}

=== FILE: ner_extractor.dfy ===
/**
 * Contact and entity extraction (`extract_email`, `extract_phone`,
 * `extract_entities`).
 *
 * The two regular expressions for phone numbers and the one for e-mail
 * addresses are modelled as the backtracking matcher runs them: the leftmost
 * starting position wins, greedy repetitions are tried longest first. The
 * named-entity recogniser is not modelled: its output is a parameter, the
 * list of (label, text) entities in document order.
 */
module NerExtractor {

  import opened Wrappers
  import opened Text
  import Sorting
  import Lists

  // ------------------------------------------------------ character classes

  /** Regex `\w` on ASCII text: letters, digits and underscore. */
  predicate IsWordChar(c: char) { IsAsciiAlnum(c) || c == '_' }

  /** `[A-Za-z0-9._%+-]` */
  predicate LocalChar(c: char) { IsAsciiAlnum(c) || c == '.' || c == '_' || c == '%' || c == '+' || c == '-' }

  /** `[A-Za-z0-9.-]` */
  predicate DomainChar(c: char) { IsAsciiAlnum(c) || c == '.' || c == '-' }

  /** `[A-Z|a-z]`: the bar is a literal member of the class. */
  predicate TldChar(c: char) { IsAsciiLetter(c) || c == '|' }

  /** Regex `\b` at index `i`: a word character on exactly one side. */
  predicate Boundary(s: string, i: int) {
    0 <= i <= |s| && ((i > 0 && IsWordChar(s[i - 1])) != (i < |s| && IsWordChar(s[i])))
  }

  // ------------------------------------------------------ leftmost search

  /** `matchAt` reports a match at `q` ending inside the text. */
  predicate MatchesAt(s: string, matchAt: (string, nat) -> Option<nat>, q: nat) {
    matchAt(s, q).Some? && q <= matchAt(s, q).value <= |s|
  }

  /** The leftmost position from `p` on where `matchAt` succeeds, with the end it reports. */
  function Leftmost(s: string, matchAt: (string, nat) -> Option<nat>, p: nat): (r: Option<(nat, nat)>)
    requires p <= |s| + 1
    ensures r.Some? ==> p <= r.value.0 <= r.value.1 <= |s| && matchAt(s, r.value.0) == Some(r.value.1)
    ensures r.Some? ==> forall q :: p <= q < r.value.0 ==> !MatchesAt(s, matchAt, q)
    ensures r.None? ==> forall q :: p <= q <= |s| ==> !MatchesAt(s, matchAt, q)
    decreases |s| + 1 - p
  {
    if p > |s| then None
    else if MatchesAt(s, matchAt, p) then Some((p, matchAt(s, p).value))
    else Leftmost(s, matchAt, p + 1)
  }

  /** The text of the first match, as `re.findall(...)[0]` returns it. */
  function FirstMatch(s: string, matchAt: (string, nat) -> Option<nat>): (r: Option<string>)
    ensures r.None? <==> forall q :: 0 <= q <= |s| ==> !MatchesAt(s, matchAt, q)
    ensures r.Some? ==> exists q :: (0 <= q <= |s| && MatchesAt(s, matchAt, q) && r.value == s[q..matchAt(s, q).value]
      && forall q2 :: 0 <= q2 < q ==> !MatchesAt(s, matchAt, q2))
  {
    var l := Leftmost(s, matchAt, 0);
    if l.Some? then
      assert MatchesAt(s, matchAt, l.value.0);
      Some(s[l.value.0..l.value.1])
    else None
  }

  // ------------------------------------------------------ e-mail

  /**
   * `\b[A-Za-z0-9._%+-]+@[A-Za-z0-9.-]+\.[A-Z|a-z]{2,}\b` matches `s[p..t]`
   * with its '@' at `at` and the dot before the last segment at `d`.
   */
  predicate EmailAt(s: string, p: int, at: int, d: int, t: int) {
    && 0 <= p < at && at + 1 < d && d + 2 < t <= |s|
    && Boundary(s, p) && Boundary(s, t)
    && (forall i :: p <= i < at ==> LocalChar(s[i]))
    && s[at] == '@'
    && (forall i :: at < i < d ==> DomainChar(s[i]))
    && s[d] == '.'
    && (forall i :: d < i < t ==> TldChar(s[i]))
  }

  /** Backtracking over the last segment: its end is tried from `t` down to two characters. */
  function TldEnd(s: string, d: nat, t: nat): (r: Option<nat>)
    requires t <= |s|
    ensures r.Some? ==> d + 3 <= r.value <= t && Boundary(s, r.value)
    ensures r.Some? ==> forall u :: r.value < u <= t ==> !Boundary(s, u)
    ensures r.None? ==> forall u :: d + 3 <= u <= t ==> !Boundary(s, u)
    decreases t
  {
    if t < d + 3 then None
    else if Boundary(s, t) then Some(t)
    else TldEnd(s, d, t - 1)
  }

  /** `\.[A-Z|a-z]{2,}\b` from the dot at `d`: the greedy run, then backtracking. */
  function MatchTld(s: string, d: nat): (r: Option<nat>)
    requires d < |s|
  {
    TldEnd(s, d, SkipWhile(s, TldChar, d + 1))
  }

  /** Backtracking over the domain: the final dot is tried from `d` down to one domain character. */
  function DotEnd(s: string, at: nat, d: nat): (r: Option<(nat, nat)>)
    requires d <= |s|
    ensures r.Some? ==> (at + 2 <= r.value.0 <= d && r.value.0 < |s| && s[r.value.0] == '.'
      && MatchTld(s, r.value.0) == Some(r.value.1))
    ensures r.Some? ==> forall e :: r.value.0 < e <= d && e < |s| && s[e] == '.' ==> MatchTld(s, e).None?
    ensures r.None? ==> forall e :: at + 2 <= e <= d && e < |s| && s[e] == '.' ==> MatchTld(s, e).None?
    decreases d
  {
    if d < at + 2 then None
    else if d < |s| && s[d] == '.' && MatchTld(s, d).Some? then Some((d, MatchTld(s, d).value))
    else DotEnd(s, at, d - 1)
  }

  /** The e-mail expression anchored at `p`: the end of the match, or None. */
  function MatchEmailAt(s: string, p: nat): (r: Option<nat>)
    ensures r.Some? ==> p < r.value <= |s|
  {
    if p > |s| || !Boundary(s, p) then None
    else
      var at := SkipWhile(s, LocalChar, p);
      if at == p || at == |s| || s[at] != '@' then None
      else
        match DotEnd(s, at, SkipWhile(s, DomainChar, at + 1))
        case Some((d, t)) => Some(t)
        case None => None
  }

  /** The last segment found from `d` satisfies the expression, and any valid end is no later than it. */
  lemma MatchTldCorrect(s: string, d: nat)
    requires d < |s|
    ensures MatchTld(s, d).Some? ==> (d + 3 <= MatchTld(s, d).value <= |s|
      && Boundary(s, MatchTld(s, d).value)
      && forall i :: d < i < MatchTld(s, d).value ==> TldChar(s[i]))
    ensures forall u :: ((d + 3 <= u <= |s| && Boundary(s, u) && (forall i :: d < i < u ==> TldChar(s[i])))
      ==> MatchTld(s, d).Some? && u <= MatchTld(s, d).value)
  {
    var tm := SkipWhile(s, TldChar, d + 1);
    if tm < |s| {
      assert !TldChar(s[tm]);
    }
  }

  /** A match at `p` exists, with the separator positions and the end it reports. */
  lemma MatchEmailAtSound(s: string, p: nat)
    requires MatchEmailAt(s, p).Some?
    ensures exists at, d :: EmailAt(s, p, at, d, MatchEmailAt(s, p).value)
  {
    var at := SkipWhile(s, LocalChar, p);
    var e := SkipWhile(s, DomainChar, at + 1);
    var r := DotEnd(s, at, e);
    var d := r.value.0;
    MatchTldCorrect(s, d);
    assert forall i :: at < i < d ==> DomainChar(s[i]);
    assert EmailAt(s, p, at, d, MatchEmailAt(s, p).value);
  }

  /** The local part cannot give back characters: the '@' comes right after its greedy run. */
  lemma EmailLocalForced(s: string, p: int, at: int, d: int, t: int)
    requires EmailAt(s, p, at, d, t)
    ensures at == SkipWhile(s, LocalChar, p)
  {
    var a := SkipWhile(s, LocalChar, p);
    if a < |s| {
      assert !LocalChar(s[a]);
    }
    assert !LocalChar(s[at]);
  }

  /** The final dot lies inside the greedy run of domain characters. */
  lemma EmailDotInDomainRun(s: string, p: int, at: int, d: int, t: int)
    requires EmailAt(s, p, at, d, t)
    ensures d < SkipWhile(s, DomainChar, at + 1)
  {
    var e := SkipWhile(s, DomainChar, at + 1);
    if e < |s| {
      assert !DomainChar(s[e]);
    }
    assert DomainChar(s[d]);
  }

  /** For a given end, the final dot is determined: the last segment holds no dot. */
  lemma EmailDotUnique(s: string, p: int, at: int, d: int, at2: int, d2: int, t: int)
    requires EmailAt(s, p, at, d, t) && EmailAt(s, p, at2, d2, t)
    ensures d == d2
  {
    assert !TldChar(s[d]) && !TldChar(s[d2]);
  }

  /** The final dot the matcher settles on for the '@' at `at`. */
  function ChosenDot(s: string, at: nat): Option<(nat, nat)>
    requires at < |s|
  {
    DotEnd(s, at, SkipWhile(s, DomainChar, at + 1))
  }

  /** Backtracking reaches every valid final dot, so it settles on one at least as late. */
  lemma ChosenDotLatest(s: string, p: nat, at: nat, d: nat, t: nat)
    requires EmailAt(s, p, at, d, t)
    ensures ChosenDot(s, at).Some? && d <= ChosenDot(s, at).value.0
    ensures d == ChosenDot(s, at).value.0 ==> t <= ChosenDot(s, at).value.1
  {
    EmailDotInDomainRun(s, p, at, d, t);
    MatchTldCorrect(s, d);
  }

  /** Every match ending where the matcher's does uses the matcher's final dot. */
  lemma ChosenDotOnly(s: string, p: nat, at2: int, d2: int)
    requires MatchEmailAt(s, p).Some?
    requires EmailAt(s, p, at2, d2, MatchEmailAt(s, p).value)
    ensures at2 == SkipWhile(s, LocalChar, p) && d2 == ChosenDot(s, at2).value.0
  {
    EmailLocalForced(s, p, at2, d2, MatchEmailAt(s, p).value);
    var t0 := MatchEmailAt(s, p).value;
    var d0 := ChosenDot(s, at2).value.0;
    MatchTldCorrect(s, d0);
    assert forall i :: d0 < i < t0 ==> TldChar(s[i]);
    assert !TldChar(s[d2]) && !TldChar(s[d0]);
  }

  /**
   * Any way the expression can match at `p` is found, and the reported one is
   * the one backtracking prefers: the latest final dot, then the longest last
   * segment.
   */
  lemma MatchEmailAtComplete(s: string, p: nat, at: nat, d: nat, t: nat)
    requires EmailAt(s, p, at, d, t)
    ensures MatchEmailAt(s, p).Some?
    ensures forall at2, d2 :: EmailAt(s, p, at2, d2, MatchEmailAt(s, p).value) ==>
      d <= d2 && (d == d2 ==> t <= MatchEmailAt(s, p).value)
  {
    EmailLocalForced(s, p, at, d, t);
    ChosenDotLatest(s, p, at, d, t);
    forall at2, d2 | EmailAt(s, p, at2, d2, MatchEmailAt(s, p).value)
      ensures d <= d2 && (d == d2 ==> t <= MatchEmailAt(s, p).value)
    {
      ChosenDotOnly(s, p, at2, d2);
    }
  }

  /** `extract_email`: the first match of the expression, or None. */
  function ExtractEmail(text: string): Option<string> {
    FirstMatch(text, MatchEmailAt)
  }

  /** The e-mail found is a match of the expression at the leftmost position where one exists. */
  lemma ExtractEmailCorrect(text: string)
    ensures ExtractEmail(text).None? <==> forall p, at, d, t :: !EmailAt(text, p, at, d, t)
    ensures ExtractEmail(text).Some? ==> exists p, at, d, t ::
      && EmailAt(text, p, at, d, t)
      && ExtractEmail(text).value == text[p..t]
      && forall q, at2, d2, t2 :: EmailAt(text, q, at2, d2, t2) ==> p <= q
  {
    forall p, at, d, t | EmailAt(text, p, at, d, t) ensures MatchesAt(text, MatchEmailAt, p) {
      MatchEmailAtComplete(text, p, at, d, t);
    }
    var l := Leftmost(text, MatchEmailAt, 0);
    if l.Some? {
      var p := l.value.0;
      MatchEmailAtSound(text, p);
      var at, d :| EmailAt(text, p, at, d, l.value.1);
      assert EmailAt(text, p, at, d, l.value.1) && ExtractEmail(text).value == text[p..l.value.1];
    }
  }

  // ------------------------------------------------------ phone

  /** `[6-9]\d{9}` at `q`. */
  predicate Body(s: string, q: int) {
    0 <= q && q + 10 <= |s| && '6' <= s[q] <= '9' && forall i :: q < i < q + 10 ==> IsDigit(s[i])
  }

  /** `\+91[\-\s]?[6-9]\d{9}` anchored at `p`; the optional separator is tried first. */
  function MatchIntlAt(s: string, p: nat): (r: Option<nat>)
    ensures r.Some? ==> (r.value == p + 13 || r.value == p + 14) && r.value <= |s|
  {
    if !(p + 3 <= |s| && s[p..p + 3] == "+91") then None
    else if p + 3 < |s| && (s[p + 3] == '-' || IsPyWhitespace(s[p + 3])) && Body(s, p + 4) then Some(p + 14)
    else if Body(s, p + 3) then Some(p + 13)
    else None
  }

  /** `\b[6-9]\d{9}\b` anchored at `p`. */
  function MatchLocalAt(s: string, p: nat): (r: Option<nat>)
    ensures r.Some? ==> r.value == p + 10 <= |s|
  {
    if Boundary(s, p) && Body(s, p) && Boundary(s, p + 10) then Some(p + 10) else None
  }

  /** `extract_phone`: the first "+91" number if there is one anywhere, else the first bare ten-digit number. */
  function ExtractPhone(text: string): Option<string> {
    var intl := FirstMatch(text, MatchIntlAt);
    if intl.Some? then intl else FirstMatch(text, MatchLocalAt)
  }

  lemma IntlShape(s: string, p: nat)
    requires MatchIntlAt(s, p).Some?
    ensures var m := s[p..MatchIntlAt(s, p).value];
      m[..3] == "+91" && Body(m, |m| - 10)
  {
    var t := MatchIntlAt(s, p).value;
    var m := s[p..t];
    assert m[..3] == s[p..p + 3];
    assert forall i :: t - 10 <= i < t ==> m[i - p] == s[i];
    if t == p + 14 {
      assert Body(s, p + 4);
    } else {
      assert Body(s, p + 3);
    }
  }

  lemma LocalShape(s: string, p: nat)
    requires MatchLocalAt(s, p).Some?
    ensures Body(s[p..p + 10], 0)
  {
    var m := s[p..p + 10];
    assert forall i :: 0 <= i < 10 ==> m[i] == s[p + i];
  }

  /**
   * Which of the two numbers is returned, and its shape: "+91" numbers keep
   * their prefix and optional separator, and every number ends in a ten-digit
   * body starting with 6 to 9.
   */
  lemma ExtractPhoneCorrect(text: string)
    ensures var r := ExtractPhone(text);
      && (r.Some? ==> |r.value| in {10, 13, 14} && Body(r.value, |r.value| - 10))
      && (r.Some? && |r.value| != 10 ==> r.value[..3] == "+91")
      && (r.Some? && |r.value| == 10 ==> forall q :: 0 <= q <= |text| ==> MatchIntlAt(text, q).None?)
      && (r.None? <==> forall q :: 0 <= q <= |text| ==> MatchIntlAt(text, q).None? && MatchLocalAt(text, q).None?)
  {
    var l1 := Leftmost(text, MatchIntlAt, 0);
    var l2 := Leftmost(text, MatchLocalAt, 0);
    assert forall q :: 0 <= q <= |text| ==> (MatchIntlAt(text, q).Some? <==> MatchesAt(text, MatchIntlAt, q));
    assert forall q :: 0 <= q <= |text| ==> (MatchLocalAt(text, q).Some? <==> MatchesAt(text, MatchLocalAt, q));
    if l1.Some? {
      IntlShape(text, l1.value.0);
    } else if l2.Some? {
      LocalShape(text, l2.value.0);
    }
  }

  /** A text with no digit from 6 to 9 yields no phone number. */
  lemma NoLeadingDigitNoPhone(text: string)
    requires forall i :: 0 <= i < |text| ==> !('6' <= text[i] <= '9')
    ensures ExtractPhone(text).None?
  {
    ExtractPhoneCorrect(text);
    forall q | 0 <= q <= |text| ensures MatchIntlAt(text, q).None? && MatchLocalAt(text, q).None? {
      assert !Body(text, q) && !Body(text, q + 3) && !Body(text, q + 4);
    }
  }

  // ------------------------------------------------------ entities

  datatype Entity = Entity(kind: string, text: string)

  datatype Extracted = Extracted(
    name: Option<string>,
    email: Option<string>,
    phone: Option<string>,
    organizations: seq<string>,
    locations: seq<string>,
    dates: seq<string>)

  const MaxOrganizations: nat := 5
  const MaxLocations: nat := 3
  const MaxDates: nat := 10

  predicate FullName(text: string) { |PyWords(text)| >= 2 }

  predicate IsLocationLabel(kind: string) { kind == "GPE" || kind == "LOC" }

  /** One iteration of the entity loop; `seen_orgs` and `seen_locs` are the lists themselves. */
  function Step(acc: Extracted, e: Entity): Extracted {
    if e.kind == "PERSON" && acc.name.None? then
      if FullName(e.text) then acc.(name := Some(e.text)) else acc
    else if e.kind == "ORG" then
      var org := PyStrip(e.text);
      if |org| > 0 && org !in acc.organizations then acc.(organizations := acc.organizations + [org]) else acc
    else if IsLocationLabel(e.kind) then
      var loc := PyStrip(e.text);
      if |loc| > 0 && loc !in acc.locations then acc.(locations := acc.locations + [loc]) else acc
    else if e.kind == "DATE" then
      var date := PyStrip(e.text);
      if |date| > 0 && |date| > 3 then acc.(dates := acc.dates + [date]) else acc
    else acc
  }

  function Scan(acc: Extracted, ents: seq<Entity>): Extracted {
    if |ents| == 0 then acc
    else Step(Scan(acc, ents[..|ents| - 1]), ents[|ents| - 1])
  }

  /** `extract_entities(text)` where the recogniser found `ents`. */
  function ExtractEntities(text: string, ents: seq<Entity>): Extracted {
    var start := Extracted(None, ExtractEmail(text), ExtractPhone(text), [], [], []);
    var r := Scan(start, ents);
    r.(organizations := Sorting.Take(r.organizations, MaxOrganizations),
       locations := Sorting.Take(r.locations, MaxLocations),
       dates := Sorting.Take(r.dates, MaxDates))
  }

  // ------------------------------------------------------ reference definitions

  /** The stripped, non-empty texts of the entities with an accepted label, in order. */
  function StrippedTexts(ents: seq<Entity>, accept: string -> bool): (r: seq<string>)
    ensures forall x :: x in r ==> |x| > 0
  {
    if |ents| == 0 then []
    else
      var e := ents[|ents| - 1];
      var t := PyStrip(e.text);
      StrippedTexts(ents[..|ents| - 1], accept) + (if accept(e.kind) && |t| > 0 then [t] else [])
  }

  function DateTexts(ents: seq<Entity>): (r: seq<string>)
    ensures forall x :: x in r ==> |x| > 3
  {
    if |ents| == 0 then []
    else
      var e := ents[|ents| - 1];
      var t := PyStrip(e.text);
      DateTexts(ents[..|ents| - 1]) + (if e.kind == "DATE" && |t| > 3 then [t] else [])
  }

  /** The text of the first PERSON entity with at least two words. */
  function FirstFullName(ents: seq<Entity>): (r: Option<string>)
    ensures r.Some? <==> exists i :: 0 <= i < |ents| && ents[i].kind == "PERSON" && FullName(ents[i].text)
    ensures r.Some? ==> exists i :: (0 <= i < |ents| && ents[i].kind == "PERSON" && FullName(ents[i].text)
      && r.value == ents[i].text
      && forall j :: 0 <= j < i ==> !(ents[j].kind == "PERSON" && FullName(ents[j].text)))
  {
    if |ents| == 0 then None
    else if ents[0].kind == "PERSON" && FullName(ents[0].text) then Some(ents[0].text)
    else
      var r := FirstFullName(ents[1..]);
      assert forall i :: 1 <= i < |ents| ==> ents[i] == ents[1..][i - 1];
      r
  }

  predicate IsOrgLabel(kind: string) { kind == "ORG" }

  lemma FirstFullNameSnoc(ents: seq<Entity>, e: Entity)
    ensures FirstFullName(ents + [e]) == if FirstFullName(ents).Some? then FirstFullName(ents)
      else if e.kind == "PERSON" && FullName(e.text) then Some(e.text) else None
  {
    var xs := ents + [e];
    assert forall i :: 0 <= i < |ents| ==> xs[i] == ents[i];
    assert xs[|ents|] == e;
    if FirstFullName(ents).None? && FirstFullName(xs).Some? {
      var i :| 0 <= i < |xs| && xs[i].kind == "PERSON" && FullName(xs[i].text) && FirstFullName(xs).value == xs[i].text
        && forall j :: 0 <= j < i ==> !(xs[j].kind == "PERSON" && FullName(xs[j].text));
      assert i == |ents|;
    }
    if FirstFullName(ents).Some? {
      var i :| 0 <= i < |ents| && ents[i].kind == "PERSON" && FullName(ents[i].text) && FirstFullName(ents).value == ents[i].text
        && forall j :: 0 <= j < i ==> !(ents[j].kind == "PERSON" && FullName(ents[j].text));
      var i2 :| 0 <= i2 < |xs| && xs[i2].kind == "PERSON" && FullName(xs[i2].text) && FirstFullName(xs).value == xs[i2].text
        && forall j :: 0 <= j < i2 ==> !(xs[j].kind == "PERSON" && FullName(xs[j].text));
      assert i == i2;
    }
  }

  /** Appending a value extends the deduplicated list exactly when the value is new. */
  lemma DedupAppendIf(xs: seq<string>, x: string, keep: bool)
    ensures Lists.Dedup(xs + (if keep then [x] else []))
      == Lists.Dedup(xs) + (if keep && x !in Lists.Dedup(xs) then [x] else [])
  {
    if keep {
      Lists.DedupSnoc(xs, x);
    } else {
      assert xs + [] == xs;
    }
  }

  lemma StrippedSnoc(pre: seq<Entity>, e: Entity, accept: string -> bool)
    ensures StrippedTexts(pre + [e], accept)
      == StrippedTexts(pre, accept) + (if accept(e.kind) && |PyStrip(e.text)| > 0 then [PyStrip(e.text)] else [])
  {
    assert (pre + [e])[..|pre|] == pre;
  }

  lemma DateSnoc(pre: seq<Entity>, e: Entity)
    ensures DateTexts(pre + [e]) == DateTexts(pre) + (if e.kind == "DATE" && |PyStrip(e.text)| > 3 then [PyStrip(e.text)] else [])
  {
    assert (pre + [e])[..|pre|] == pre;
  }

  /** The reference values after `ents`, on top of `start`'s e-mail and phone. */
  function Reference(start: Extracted, ents: seq<Entity>): Extracted {
    start.(
      name := FirstFullName(ents),
      organizations := Lists.Dedup(StrippedTexts(ents, IsOrgLabel)),
      locations := Lists.Dedup(StrippedTexts(ents, IsLocationLabel)),
      dates := DateTexts(ents))
  }

  /** Each field of a step depends only on that field and the entity. */
  lemma StepFields(acc: Extracted, e: Entity)
    ensures var r := Step(acc, e);
      var t := PyStrip(e.text);
      && r.email == acc.email && r.phone == acc.phone
      && r.name == (if e.kind == "PERSON" && acc.name.None? && FullName(e.text) then Some(e.text) else acc.name)
      && r.organizations == acc.organizations + (if IsOrgLabel(e.kind) && |t| > 0 && t !in acc.organizations then [t] else [])
      && r.locations == acc.locations + (if IsLocationLabel(e.kind) && |t| > 0 && t !in acc.locations then [t] else [])
      && r.dates == acc.dates + (if e.kind == "DATE" && |t| > 3 then [t] else [])
  {
  }

  lemma StepName(start: Extracted, pre: seq<Entity>, e: Entity)
    ensures Step(Reference(start, pre), e).name == FirstFullName(pre + [e])
  {
    StepFields(Reference(start, pre), e);
    FirstFullNameSnoc(pre, e);
  }

  lemma StepOrgs(start: Extracted, pre: seq<Entity>, e: Entity)
    ensures Step(Reference(start, pre), e).organizations == Lists.Dedup(StrippedTexts(pre + [e], IsOrgLabel))
  {
    var t := PyStrip(e.text);
    StepFields(Reference(start, pre), e);
    StrippedSnoc(pre, e, IsOrgLabel);
    DedupAppendIf(StrippedTexts(pre, IsOrgLabel), t, IsOrgLabel(e.kind) && |t| > 0);
  }

  lemma StepLocs(start: Extracted, pre: seq<Entity>, e: Entity)
    ensures Step(Reference(start, pre), e).locations == Lists.Dedup(StrippedTexts(pre + [e], IsLocationLabel))
  {
    var t := PyStrip(e.text);
    StepFields(Reference(start, pre), e);
    StrippedSnoc(pre, e, IsLocationLabel);
    DedupAppendIf(StrippedTexts(pre, IsLocationLabel), t, IsLocationLabel(e.kind) && |t| > 0);
  }

  lemma StepDates(start: Extracted, pre: seq<Entity>, e: Entity)
    ensures Step(Reference(start, pre), e).dates == DateTexts(pre + [e])
  {
    StepFields(Reference(start, pre), e);
    DateSnoc(pre, e);
  }

  lemma StepIsReference(start: Extracted, pre: seq<Entity>, e: Entity)
    ensures Step(Reference(start, pre), e) == Reference(start, pre + [e])
  {
    StepFields(Reference(start, pre), e);
    StepName(start, pre, e);
    StepOrgs(start, pre, e);
    StepLocs(start, pre, e);
    StepDates(start, pre, e);
  }

  /** Before any entity, the reference values are the empty start. */
  lemma ReferenceEmpty(start: Extracted)
    requires start.name.None? && start.organizations == [] && start.locations == [] && start.dates == []
    ensures Reference(start, []) == start
  {
    assert StrippedTexts([], IsOrgLabel) == [] && StrippedTexts([], IsLocationLabel) == [];
  }

  /** The loop computes, category by category, the reference definitions above. */
  lemma {:induction false} ScanIsReference(start: Extracted, ents: seq<Entity>)
    requires start.name.None? && start.organizations == [] && start.locations == [] && start.dates == []
    ensures Scan(start, ents) == Reference(start, ents)
  {
    if |ents| > 0 {
      var pre := ents[..|ents| - 1];
      var e := ents[|ents| - 1];
      assert pre + [e] == ents;
      var before := Reference(start, pre);
      ScanIsReference(start, pre);
      assert Scan(start, ents) == Step(before, e);
      StepIsReference(start, pre, e);
    } else {
      ReferenceEmpty(start);
    }
  }

  /**
   * The entity fields: the first full PERSON name; the distinct stripped ORG
   * texts (at most 5) and GPE/LOC texts (at most 3) in first-seen order; the
   * stripped DATE texts longer than 3 characters, duplicates kept (at most 10).
   * E-mail and phone come from the raw text alone.
   */
  lemma ExtractEntitiesCorrect(text: string, ents: seq<Entity>)
    ensures var r := ExtractEntities(text, ents);
      && r.email == ExtractEmail(text)
      && r.phone == ExtractPhone(text)
      && r.name == FirstFullName(ents)
      && r.organizations == Sorting.Take(Lists.Dedup(StrippedTexts(ents, IsOrgLabel)), MaxOrganizations)
      && r.locations == Sorting.Take(Lists.Dedup(StrippedTexts(ents, IsLocationLabel)), MaxLocations)
      && r.dates == Sorting.Take(DateTexts(ents), MaxDates)
  {
    ScanIsReference(Extracted(None, ExtractEmail(text), ExtractPhone(text), [], [], []), ents);
  }
}

=== FILE: problems_page.dfy ===
/**
 * The problem browser: per-company counts, the company / difficulty /
 * search filter, the three sort orders, the solved statistics and the
 * frequency badge, over the problem list the merge script writes.
 *
 * `parseFloat`, used by the acceptance sort, is a parameter that yields a
 * number; a text it would read as NaN is not modelled.
 */
module ProblemsPage {

  import opened Wrappers
  import opened Text
  import opened Sorting
  import opened Lists
  import opened JsMath
  import opened CsvMerge

  // ------------------------------------------------------------- the counts

  /** `counts[c] || 0` */
  function Lookup(m: map<string, int>, c: string): int {
    if c in m then m[c] else 0
  }

  /** One problem's companies counted into `m`. */
  function CountCompanies(m: map<string, int>, cs: seq<string>): (r: map<string, int>)
    ensures r.Keys == m.Keys + set c | c in cs
  {
    if |cs| == 0 then m
    else
      var c := cs[|cs| - 1];
      var m' := CountCompanies(m, cs[..|cs| - 1]);
      m'[c := Lookup(m', c) + 1]
  }

  function CountAll(m: map<string, int>, ps: seq<Problem>): map<string, int> {
    if |ps| == 0 then m else CountCompanies(CountAll(m, ps[..|ps| - 1]), ps[|ps| - 1].companies)
  }

  /** `companyCounts`: `All` first, then every listing of every company. */
  function CompanyCounts(ps: seq<Problem>): map<string, int> {
    CountAll(map["All" := |ps|], ps)
  }

  /** How many times the problems list company `c`, over all problems. */
  function Listings(ps: seq<Problem>, c: string): nat {
    if |ps| == 0 then 0 else Listings(ps[..|ps| - 1], c) + multiset(ps[|ps| - 1].companies)[c]
  }

  lemma {:induction false} CountCompaniesAdds(m: map<string, int>, cs: seq<string>, c: string)
    ensures Lookup(CountCompanies(m, cs), c) == Lookup(m, c) + multiset(cs)[c]
  {
    if |cs| > 0 {
      var pre := cs[..|cs| - 1];
      CountCompaniesAdds(m, pre, c);
      assert cs == pre + [cs[|cs| - 1]];
    }
  }

  lemma {:induction false} CountAllAdds(m: map<string, int>, ps: seq<Problem>, c: string)
    ensures Lookup(CountAll(m, ps), c) == Lookup(m, c) + Listings(ps, c)
  {
    if |ps| > 0 {
      CountAllAdds(m, ps[..|ps| - 1], c);
      CountCompaniesAdds(CountAll(m, ps[..|ps| - 1]), ps[|ps| - 1].companies, c);
    }
  }

  lemma {:induction false} CountAllKeys(m: map<string, int>, ps: seq<Problem>, c: string)
    ensures c in CountAll(m, ps) <==> c in m || Listings(ps, c) > 0
  {
    if |ps| > 0 {
      CountAllKeys(m, ps[..|ps| - 1], c);
      var cs := ps[|ps| - 1].companies;
      assert c in cs <==> multiset(cs)[c] > 0;
    }
  }

  /**
   * `All` counts every problem (plus any company literally named `All`),
   * every other key counts the listings of that company, and a company is a
   * key exactly when some problem lists it.
   */
  lemma CompanyCountsCorrect(ps: seq<Problem>, c: string)
    ensures Lookup(CompanyCounts(ps), c) == (if c == "All" then |ps| else 0) + Listings(ps, c)
    ensures c in CompanyCounts(ps) <==> c == "All" || Listings(ps, c) > 0
  {
    CountAllAdds(map["All" := |ps|], ps, c);
    CountAllKeys(map["All" := |ps|], ps, c);
  }

  /** With no company listed twice in a problem, a listing count is the number of problems listing it. */
  lemma {:induction false} ListingsCountProblems(ps: seq<Problem>, c: string)
    requires forall i :: 0 <= i < |ps| ==> Distinct(ps[i].companies)
    ensures Listings(ps, c) == CountIf(ps, (p: Problem) => c in p.companies)
  {
    if |ps| > 0 {
      var pre := ps[..|ps| - 1];
      var cs := ps[|ps| - 1].companies;
      ListingsCountProblems(pre, c);
      DistinctMultiplicity(cs);
      assert c in cs <==> multiset(cs)[c] > 0;
    }
  }

  // ------------------------------------------------------------- the filter

  /** The three filters of the list; `query` is the raw search text. */
  predicate Matches(p: Problem, company: string, difficulty: string, query: string) {
    && (company == "All" || company in p.companies)
    && (difficulty == "All" || p.difficulty == difficulty)
    && (query == "" || Contains(Lower(p.title), Lower(query)) || Contains(IntToString(p.id), query))
  }

  datatype SortBy = ByFrequency | ByAcceptance | ByDifficulty

  predicate KnownDifficulty(p: Problem) { p.difficulty in ["Easy", "Medium", "Hard"] }

  /** `{ Easy: 1, Medium: 2, Hard: 3 }` */
  function DifficultyOrder(d: string): int {
    if d == "Easy" then 1 else if d == "Medium" then 2 else 3
  }

  /** The sort key, largest first. */
  function SortKey(sortBy: SortBy, parseFloat: string -> real): (key: Problem -> real) {
    match sortBy
    case ByFrequency => (p: Problem) => p.frequency
    case ByAcceptance => (p: Problem) => parseFloat(p.acceptance)
    case ByDifficulty => (p: Problem) => -(DifficultyOrder(p.difficulty) as real)
  }

  /** `filteredProblems`: the matching problems, sorted (stably) by the chosen order. */
  function FilteredProblems(ps: seq<Problem>, company: string, difficulty: string, query: string,
                            sortBy: SortBy, parseFloat: string -> real): (r: seq<Problem>)
    requires sortBy == ByDifficulty ==> forall p :: p in ps ==> KnownDifficulty(p)
  {
    SortDesc(Filter(ps, (p: Problem) => Matches(p, company, difficulty, query)), SortKey(sortBy, parseFloat))
  }

  /** The listed problems are the matching ones, each as often as in `problems`. */
  lemma FilteredMembers(ps: seq<Problem>, company: string, difficulty: string, query: string,
                        sortBy: SortBy, parseFloat: string -> real)
    requires sortBy == ByDifficulty ==> forall p :: p in ps ==> KnownDifficulty(p)
    ensures var r := FilteredProblems(ps, company, difficulty, query, sortBy, parseFloat);
      && (forall p :: p in r <==> p in ps && Matches(p, company, difficulty, query))
      && multiset(r) == multiset(Filter(ps, (p: Problem) => Matches(p, company, difficulty, query)))
  {
    var m := (p: Problem) => Matches(p, company, difficulty, query);
    var f := Filter(ps, m);
    var r := FilteredProblems(ps, company, difficulty, query, sortBy, parseFloat);
    assert multiset(r) == multiset(f);
    forall p ensures p in r <==> p in ps && Matches(p, company, difficulty, query) {
      assert p in r <==> p in multiset(f);
      if p in ps && Matches(p, company, difficulty, query) {
        FilterMember(ps, m, p);
      }
    }
  }

  /** The listed problems come in the chosen order. */
  lemma FilteredOrder(ps: seq<Problem>, company: string, difficulty: string, query: string,
                      sortBy: SortBy, parseFloat: string -> real)
    requires sortBy == ByDifficulty ==> forall p :: p in ps ==> KnownDifficulty(p)
    ensures var r := FilteredProblems(ps, company, difficulty, query, sortBy, parseFloat);
      && (sortBy == ByFrequency ==> forall i, j :: 0 <= i < j < |r| ==> r[i].frequency >= r[j].frequency)
      && (sortBy == ByAcceptance ==> forall i, j :: 0 <= i < j < |r| ==> parseFloat(r[i].acceptance) >= parseFloat(r[j].acceptance))
      && (sortBy == ByDifficulty ==> forall i, j :: 0 <= i < j < |r| ==> DifficultyOrder(r[i].difficulty) <= DifficultyOrder(r[j].difficulty))
  {
    var r := FilteredProblems(ps, company, difficulty, query, sortBy, parseFloat);
    var key := SortKey(sortBy, parseFloat);
    assert SortedDesc(r, key);
  }

  /**
   * A problem is listed exactly when it is in `problems` and passes all three
   * filters, as often as it occurs there, and the list is in the chosen order.
   */
  lemma FilteredCorrect(ps: seq<Problem>, company: string, difficulty: string, query: string,
                        sortBy: SortBy, parseFloat: string -> real)
    requires sortBy == ByDifficulty ==> forall p :: p in ps ==> KnownDifficulty(p)
    ensures var r := FilteredProblems(ps, company, difficulty, query, sortBy, parseFloat);
      && (forall p :: p in r <==> p in ps && Matches(p, company, difficulty, query))
      && multiset(r) == multiset(Filter(ps, (p: Problem) => Matches(p, company, difficulty, query)))
      && (sortBy == ByFrequency ==> forall i, j :: 0 <= i < j < |r| ==> r[i].frequency >= r[j].frequency)
      && (sortBy == ByAcceptance ==> forall i, j :: 0 <= i < j < |r| ==> parseFloat(r[i].acceptance) >= parseFloat(r[j].acceptance))
      && (sortBy == ByDifficulty ==> forall i, j :: 0 <= i < j < |r| ==> DifficultyOrder(r[i].difficulty) <= DifficultyOrder(r[j].difficulty))
  {
    FilteredMembers(ps, company, difficulty, query, sortBy, parseFloat);
    FilteredOrder(ps, company, difficulty, query, sortBy, parseFloat);
  }

  /** With every filter at its default, every problem is listed, each as often as before. */
  lemma DefaultsKeepAll(ps: seq<Problem>, sortBy: SortBy, parseFloat: string -> real)
    requires sortBy == ByDifficulty ==> forall p :: p in ps ==> KnownDifficulty(p)
    ensures multiset(FilteredProblems(ps, "All", "All", "", sortBy, parseFloat)) == multiset(ps)
  {
    FilterAll(ps, (p: Problem) => Matches(p, "All", "All", ""));
  }

  // -------------------------------------------------------------- the stats

  datatype PageStats = PageStats(solved: nat, total: nat, easy: nat, medium: nat, hard: nat, percentage: Option<int>)

  predicate IsSolved(p: Problem) { p.solved }
  predicate SolvedAt(p: Problem, d: string) { p.difficulty == d && p.solved }

  /** `stats`; the percentage of an empty list is `NaN`, here `None`. */
  function ProblemStats(ps: seq<Problem>): (r: PageStats)
    ensures r.total == |ps| && r.solved <= r.total
    ensures r.percentage.Some? <==> r.total > 0
    ensures r.percentage.Some? ==> 0 <= r.percentage.value <= 100
    ensures r.percentage.Some? ==> PercentOf(r.percentage.value, r.solved, r.total)
    ensures r.solved == CountIf(ps, IsSolved)
  {
    var solved := CountIf(ps, IsSolved);
    PageStats(solved, |ps|,
          CountIf(ps, (p: Problem) => SolvedAt(p, "Easy")),
          CountIf(ps, (p: Problem) => SolvedAt(p, "Medium")),
          CountIf(ps, (p: Problem) => SolvedAt(p, "Hard")),
          if |ps| == 0 then None else Some(Percent(solved, |ps|)))
  }

  /** The per-difficulty counts never exceed the solved count, and add up to it when every difficulty is one of the three. */
  lemma DifficultySplit(ps: seq<Problem>)
    ensures var st := ProblemStats(ps); st.easy + st.medium + st.hard <= st.solved
    ensures (forall p :: p in ps ==> KnownDifficulty(p)) ==>
      var st := ProblemStats(ps); st.easy + st.medium + st.hard == st.solved
  {
    CountsSplit(ps, (p: Problem) => SolvedAt(p, "Easy"), (p: Problem) => SolvedAt(p, "Medium"),
                (p: Problem) => SolvedAt(p, "Hard"));
  }

  lemma {:induction false} CountsSplit(ps: seq<Problem>, e: Problem -> bool, m: Problem -> bool, h: Problem -> bool)
    requires forall p :: e(p) == SolvedAt(p, "Easy") && m(p) == SolvedAt(p, "Medium") && h(p) == SolvedAt(p, "Hard")
    ensures CountIf(ps, e) + CountIf(ps, m) + CountIf(ps, h) <= CountIf(ps, IsSolved)
    ensures (forall p :: p in ps ==> KnownDifficulty(p)) ==>
      CountIf(ps, e) + CountIf(ps, m) + CountIf(ps, h) == CountIf(ps, IsSolved)
  {
    if |ps| > 0 {
      var pre := ps[..|ps| - 1];
      var x := ps[|ps| - 1];
      CountsSplit(pre, e, m, h);
      if forall p :: p in ps ==> KnownDifficulty(p) {
        assert forall p :: p in pre ==> p in ps;
        assert x in ps;
        assert KnownDifficulty(x);
      }
    }
  }

  /** Solving one more problem never lowers the percentage. */
  lemma SolvingRaisesPercentage(ps: seq<Problem>, i: nat)
    requires i < |ps| && !ps[i].solved
    ensures var before := ProblemStats(ps);
      var after := ProblemStats(ps[i := ps[i].(solved := true)]);
      after.solved == before.solved + 1 && after.percentage.value >= before.percentage.value
  {
    var qs := ps[i := ps[i].(solved := true)];
    assert ps == ps[..i] + [ps[i]] + ps[i + 1..];
    assert qs == ps[..i] + [qs[i]] + ps[i + 1..];
    CountIfConcat(ps[..i] + [ps[i]], ps[i + 1..], IsSolved);
    CountIfConcat(ps[..i], [ps[i]], IsSolved);
    CountIfConcat(ps[..i] + [qs[i]], ps[i + 1..], IsSolved);
    CountIfConcat(ps[..i], [qs[i]], IsSolved);
    assert [ps[i]][..0] == [] && [qs[i]][..0] == [];
    PercentMonotone(CountIf(ps, IsSolved), CountIf(qs, IsSolved), |ps|);
  }

  // -------------------------------------------------------------- the badge

  datatype Badge = VeryHigh | High | Medium | Low

  /** `getFrequencyBadge` */
  function FrequencyBadge(frequency: real): (b: Badge)
    ensures b == VeryHigh <==> frequency >= 2.0
    ensures b == High <==> 1.5 <= frequency < 2.0
    ensures b == Medium <==> 1.0 <= frequency < 1.5
    ensures b == Low <==> frequency < 1.0
  {
    if frequency >= 2.0 then VeryHigh
    else if frequency >= 1.5 then High
    else if frequency >= 1.0 then Medium
    else Low
  }

  function BadgeRank(b: Badge): nat {
    match b
    case Low => 0
    case Medium => 1
    case High => 2
    case VeryHigh => 3
  }

  /** A higher frequency never gets a lower badge. */
  lemma BadgeMonotone(f1: real, f2: real)
    requires f1 <= f2
    ensures BadgeRank(FrequencyBadge(f1)) <= BadgeRank(FrequencyBadge(f2))
  {
  }
}

=== FILE: progress.dfy ===
/**
 * The progress service: one completion record per (user, roadmap, topic),
 * written by an upsert, in bulk inside one transaction, listed per user and
 * roadmap, and summarised as completed / total / percentage.
 *
 * The clock is a parameter: `now` is the instant `new Date()` reads.
 */
module Progress {

  import opened Wrappers
  import opened JsMath

  /** The composite unique key `userId_roadmapId_topicId`. */
  datatype Key = Key(userId: string, roadmapId: string, topicId: string)

  datatype Entry = Entry(completed: bool, completedAt: Option<int>)

  /** The progress table: the unique key makes it a map. */
  type Store = map<Key, Entry>

  /** The fields both upsert branches write. */
  function Written(completed: bool, now: int): (e: Entry)
    ensures e.completed == completed
    ensures e.completedAt.Some? <==> completed
    ensures completed ==> e.completedAt == Some(now)
  {
    Entry(completed, if completed then Some(now) else None)
  }

  /** `updateProgress`: create or overwrite the record of one topic. */
  function UpdateProgress(db: Store, userId: string, roadmapId: string, topicId: string, completed: bool, now: int): (r: (Store, Entry))
    ensures r.0.Keys == db.Keys + {Key(userId, roadmapId, topicId)}
    ensures r.0[Key(userId, roadmapId, topicId)] == r.1
    ensures r.1.completed == completed && (r.1.completedAt.Some? <==> completed)
    ensures forall k :: k in db && k != Key(userId, roadmapId, topicId) ==> r.0[k] == db[k]
  {
    var e := Written(completed, now);
    (db[Key(userId, roadmapId, topicId) := e], e)
  }

  /** Every record carries a completion time exactly when it is completed. */
  ghost predicate Stamped(db: Store) {
    forall k :: k in db ==> (db[k].completedAt.Some? <==> db[k].completed)
  }

  lemma UpdateKeepsStamped(db: Store, userId: string, roadmapId: string, topicId: string, completed: bool, now: int)
    requires Stamped(db)
    ensures Stamped(UpdateProgress(db, userId, roadmapId, topicId, completed, now).0)
  {
  }

  /**
   * Repeating an update keeps the flag and the set of records; only the
   * completion time can move, and not even that at the same instant.
   */
  lemma UpdateTwice(db: Store, userId: string, roadmapId: string, topicId: string, completed: bool, now: int, later: int)
    ensures var (db1, e1) := UpdateProgress(db, userId, roadmapId, topicId, completed, now);
      var (db2, e2) := UpdateProgress(db1, userId, roadmapId, topicId, completed, later);
      && e2.completed == e1.completed
      && db2.Keys == db1.Keys
      && (forall k :: k in db1 && k != Key(userId, roadmapId, topicId) ==> db2[k] == db1[k])
      && (later == now ==> db2 == db1)
  {
  }

  /** The written record does not depend on what was stored before: create and update agree. */
  lemma UpdateIgnoresPrior(db: Store, db': Store, userId: string, roadmapId: string, topicId: string, completed: bool, now: int)
    ensures UpdateProgress(db, userId, roadmapId, topicId, completed, now).1 == UpdateProgress(db', userId, roadmapId, topicId, completed, now).1
  {
  }

  // ------------------------------------------------------------------ bulk

  datatype Update = Update(topicId: string, completed: bool)

  /** `bulkUpdateProgress`: the upserts applied in order, one result each. */
  function BulkUpdate(db: Store, userId: string, roadmapId: string, updates: seq<Update>, now: int): (r: (Store, seq<Entry>))
    ensures |r.1| == |updates|
    ensures forall i :: 0 <= i < |updates| ==>
      r.1[i].completed == updates[i].completed && (r.1[i].completedAt.Some? <==> updates[i].completed)
  {
    if |updates| == 0 then (db, [])
    else
      var u := updates[|updates| - 1];
      var (d, rs) := BulkUpdate(db, userId, roadmapId, updates[..|updates| - 1], now);
      var (d', e) := UpdateProgress(d, userId, roadmapId, u.topicId, u.completed, now);
      (d', rs + [e])
  }

  /** The flag of the last update of `topicId`, if any. */
  function LastFor(updates: seq<Update>, topicId: string): Option<bool> {
    if |updates| == 0 then None
    else if updates[|updates| - 1].topicId == topicId then Some(updates[|updates| - 1].completed)
    else LastFor(updates[..|updates| - 1], topicId)
  }

  /**
   * After a bulk update, a topic that was updated holds its last update's
   * flag, and every other record, of this or any other user and roadmap, is
   * as before.
   */
  lemma {:induction false} BulkLastWins(db: Store, userId: string, roadmapId: string, updates: seq<Update>, now: int, k: Key)
    ensures var after := BulkUpdate(db, userId, roadmapId, updates, now).0;
      && (k.userId == userId && k.roadmapId == roadmapId && LastFor(updates, k.topicId).Some? ==>
            k in after && after[k].completed == LastFor(updates, k.topicId).value)
      && (!(k.userId == userId && k.roadmapId == roadmapId && LastFor(updates, k.topicId).Some?) ==>
            (k in after <==> k in db) && (k in db ==> after[k] == db[k]))
  {
    if |updates| > 0 {
      BulkLastWins(db, userId, roadmapId, updates[..|updates| - 1], now, k);
    }
  }

  lemma {:induction false} BulkKeepsStamped(db: Store, userId: string, roadmapId: string, updates: seq<Update>, now: int)
    requires Stamped(db)
    ensures Stamped(BulkUpdate(db, userId, roadmapId, updates, now).0)
  {
    if |updates| > 0 {
      var u := updates[|updates| - 1];
      BulkKeepsStamped(db, userId, roadmapId, updates[..|updates| - 1], now);
      var d := BulkUpdate(db, userId, roadmapId, updates[..|updates| - 1], now).0;
      UpdateKeepsStamped(d, userId, roadmapId, u.topicId, u.completed, now);
    }
  }

  // --------------------------------------------------------------- queries

  /** `getUserProgress`: the records of one user and roadmap. */
  function UserProgress(db: Store, userId: string, roadmapId: string): (r: map<Key, Entry>)
    ensures forall k :: k in r <==> k in db && k.userId == userId && k.roadmapId == roadmapId
    ensures forall k :: k in r ==> r[k] == db[k]
  {
    map k | k in db && k.userId == userId && k.roadmapId == roadmapId :: db[k]
  }

  /** An update shows up in the listing of its user and roadmap, and in no other. */
  lemma UpdateThenList(db: Store, userId: string, roadmapId: string, topicId: string, completed: bool, now: int, u: string, rm: string)
    ensures var (db1, e) := UpdateProgress(db, userId, roadmapId, topicId, completed, now);
      && (u == userId && rm == roadmapId ==> UserProgress(db1, u, rm) == UserProgress(db, u, rm)[Key(userId, roadmapId, topicId) := e])
      && (u != userId || rm != roadmapId ==> UserProgress(db1, u, rm) == UserProgress(db, u, rm))
  {
  }

  datatype Stats = Stats(completed: nat, total: nat, percentage: int)

  /** The completed records of a listing. */
  function Done(m: map<Key, Entry>): (r: set<Key>)
    ensures forall k :: k in r <==> k in m && m[k].completed
  {
    set k | k in m && m[k].completed
  }

  lemma SubsetSize<T>(a: set<T>, b: set<T>)
    requires a <= b
    ensures |a| <= |b|
  {
    assert b == a + (b - a);
  }

  /** `getProgressStats` */
  function ProgressStats(db: Store, userId: string, roadmapId: string): (r: Stats)
    ensures r.total == |UserProgress(db, userId, roadmapId)|
    ensures r.completed == |Done(UserProgress(db, userId, roadmapId))|
    ensures r.completed <= r.total
    ensures 0 <= r.percentage <= 100
    ensures r.total == 0 ==> r.percentage == 0
    ensures r.total > 0 ==> PercentOf(r.percentage, r.completed, r.total)
    ensures r.total > 0 && r.completed == r.total ==> r.percentage == 100
  {
    var m := UserProgress(db, userId, roadmapId);
    var done := Done(m);
    SubsetSize(done, m.Keys);
    var total := |m|;
    Stats(|done|, total, if total > 0 then Percent(|done|, total) else 0)
  }

  /** Completing a stored, unfinished topic adds one completed record and keeps the total. */
  lemma CompletingCounts(db: Store, userId: string, roadmapId: string, topicId: string, now: int)
    requires Key(userId, roadmapId, topicId) in db && !db[Key(userId, roadmapId, topicId)].completed
    ensures var after := ProgressStats(UpdateProgress(db, userId, roadmapId, topicId, true, now).0, userId, roadmapId);
      var before := ProgressStats(db, userId, roadmapId);
      after.total == before.total && after.completed == before.completed + 1 && after.percentage >= before.percentage
  {
    var k := Key(userId, roadmapId, topicId);
    var db1 := UpdateProgress(db, userId, roadmapId, topicId, true, now).0;
    var m := UserProgress(db, userId, roadmapId);
    var m1 := UserProgress(db1, userId, roadmapId);
    assert m1.Keys == m.Keys;
    assert Done(m1) == Done(m) + {k};
    assert k !in Done(m);
    SubsetSize(Done(m1), m1.Keys);
    PercentMonotone(|Done(m)|, |Done(m1)|, |m|);
  }
}

=== FILE: questions.dfy ===
/**
 * The interview-question controller: creating a question, listing a
 * company's questions, the up/down-vote toggle and a user's vote status.
 *
 * The database is in-memory: a map of question records by id plus the vote
 * ballots keyed by (userId, questionId). Request bodies are parsed JSON
 * objects; absent fields are missing keys.
 */
module Questions {

  import opened Wrappers
  import opened Text
  import opened Json
  import opened Http
  import opened Votes

  /** A stored popular question, with the fields the listing filters and orders on. */
  datatype Question = Question(
    companyId: string,
    collegeId: Option<string>,
    questionType: string,
    difficulty: string,
    round: string,
    topic: Option<string>,
    isApproved: bool,
    askedCount: int,
    tally: Tally,
    createdAt: int)

  datatype Db = Db(questions: map<string, Question>, votes: Ballots)

  /** The record `createQuestion` asks the database to insert. */
  datatype NewQuestion = NewQuestion(
    companyId: string,
    collegeId: Option<string>,
    userId: Option<string>,
    questionText: Json,
    questionType: Json,
    difficulty: Json,
    round: Json,
    topic: Option<Json>,
    sampleAnswer: Option<Json>,
    approach: Option<Json>,
    questionLink: Option<Json>,
    lastAskedDate: int)

  /** `!body[k]` is false. */
  predicate Given(body: map<string, Json>, k: string) {
    k in body && Truthy(body[k])
  }

  /** companyId, questionText, questionType, difficulty and round are all given. */
  predicate HasRequired(body: map<string, Json>) {
    Given(body, "companyId") && Given(body, "questionText") && Given(body, "questionType") &&
    Given(body, "difficulty") && Given(body, "round")
  }

  /** `body[k] || null` */
  function OrNull(body: map<string, Json>, k: string): (r: Option<Json>)
    ensures r.Some? <==> Given(body, k)
    ensures r.Some? ==> r.value == body[k]
  {
    if Given(body, k) then Some(body[k]) else None
  }

  /**
   * The submitter's id is not looked up, but the stored question references
   * its user: a given `userId` that is not a string, or names no stored user,
   * makes the insert throw.
   */
  predicate UserRejected(body: map<string, Json>, users: set<string>) {
    Given(body, "userId") && !(body["userId"].JStr? && body["userId"].str in users)
  }

  /**
   * `createQuestion`: the required fields, then the company, then a given
   * college; a non-string id makes the database lookup throw, and the insert
   * throws on a user id that `users` does not hold. The new question's id and
   * timestamps come from the database and the clock `now`.
   */
  function CreateQuestion(body: map<string, Json>, companies: set<string>, colleges: set<string>, users: set<string>,
                          now: int): Reply<NewQuestion>
  {
    if !HasRequired(body) then
      Fail(400, "Missing required fields")
    else if !body["companyId"].JStr? then Forwarded
    else if body["companyId"].str !in companies then Fail(404, "Company not found")
    else if Given(body, "collegeId") && !body["collegeId"].JStr? then Forwarded
    else if Given(body, "collegeId") && body["collegeId"].str !in colleges then Fail(404, "College not found")
    else if UserRejected(body, users) then Forwarded
    else
      Ok(201, "Question created successfully", NewQuestion(
        body["companyId"].str,
        if Given(body, "collegeId") then Some(body["collegeId"].str) else None,
        if Given(body, "userId") then Some(body["userId"].str) else None,
        body["questionText"], body["questionType"], body["difficulty"], body["round"],
        OrNull(body, "topic"), OrNull(body, "sampleAnswer"), OrNull(body, "approach"), OrNull(body, "questionLink"),
        now))
  }

  /**
   * A missing required field is reported with 400 before any lookup; an
   * unknown company or given-but-unknown college gives 404; once those pass,
   * an unknown given user ends in a forwarded error; a created question
   * belongs to a known company, college and user and keeps every required
   * value; falsy optional fields become null.
   */
  lemma CreateQuestionCorrect(body: map<string, Json>, companies: set<string>, colleges: set<string>, users: set<string>,
                              now: int)
    ensures var r := CreateQuestion(body, companies, colleges, users, now);
      && (!HasRequired(body) <==> r == Fail(400, "Missing required fields"))
      && (r.Fail? && r.code == 404 <==>
            HasRequired(body) && body["companyId"].JStr? &&
            (body["companyId"].str !in companies ||
             (Given(body, "collegeId") && body["collegeId"].JStr? && body["collegeId"].str !in colleges)))
      && (HasRequired(body) && body["companyId"].JStr? && body["companyId"].str in companies &&
          (Given(body, "collegeId") ==> body["collegeId"].JStr? && body["collegeId"].str in colleges) ==>
            (r == Forwarded <==> UserRejected(body, users)))
      && (r.Ok? ==>
            && body["companyId"] == JStr(r.data.companyId) && r.data.companyId in companies
            && (r.data.collegeId.None? <==> !Given(body, "collegeId"))
            && (r.data.collegeId.Some? ==> r.data.collegeId.value in colleges && body["collegeId"] == JStr(r.data.collegeId.value))
            && (r.data.userId.None? <==> !Given(body, "userId"))
            && (r.data.userId.Some? ==> r.data.userId.value in users && body["userId"] == JStr(r.data.userId.value))
            && r.data.questionText == body["questionText"] && Truthy(r.data.questionText)
            && (r.data.topic.None? <==> !Given(body, "topic"))
            && (r.data.sampleAnswer.None? <==> !Given(body, "sampleAnswer"))
            && (r.data.approach.None? <==> !Given(body, "approach"))
            && (r.data.questionLink.None? <==> !Given(body, "questionLink"))
            && r.data.lastAskedDate == now)
  {
  }

  /** The required-field check reads nothing from the database. */
  lemma MissingFieldBeforeLookup(body: map<string, Json>, c1: set<string>, k1: set<string>, u1: set<string>,
                                 c2: set<string>, k2: set<string>, u2: set<string>, now: int)
    requires !HasRequired(body)
    ensures CreateQuestion(body, c1, k1, u1, now) == CreateQuestion(body, c2, k2, u2, now)
  {
  }

  /** A falsy value, or the id of a stored user, as the body's `userId`. */
  predicate Acceptable(user: Json, users: set<string>) {
    !Truthy(user) || (user.JStr? && user.str in users)
  }

  /**
   * The controller never answers about the submitter: swapping one absent,
   * falsy or stored user id for another yields the same outcome, apart from
   * the stored user.
   */
  lemma UserOnlyStored(body: map<string, Json>, user: Json, companies: set<string>, colleges: set<string>,
                         users: set<string>, now: int)
    requires "userId" in body ==> Acceptable(body["userId"], users)
    requires Acceptable(user, users)
    ensures var r := CreateQuestion(body, companies, colleges, users, now);
      var r' := CreateQuestion(body["userId" := user], companies, colleges, users, now);
      && r.Ok? == r'.Ok? && r.Fail? == r'.Fail? && r.Forwarded? == r'.Forwarded?
      && (!r.Ok? ==> r == r')
      && (r.Ok? ==> r'.data == r.data.(userId := if Truthy(user) then Some(user.str) else None))
  {
    var b := body["userId" := user];
    assert forall k :: k != "userId" ==> (Given(b, k) <==> Given(body, k)) && (k in b ==> b[k] == body[k]);
  }

  /** The message `sendSuccess` attaches to each branch of a vote. */
  function VoteMessage(v: VoteType, c: Change): string {
    match (v, c)
    case (Upvote, Created) => "Question upvoted successfully"
    case (Upvote, Removed) => "Upvote removed"
    case (Upvote, Flipped) => "Changed to upvote"
    case (Downvote, Created) => "Question downvoted successfully"
    case (Downvote, Removed) => "Downvote removed"
    case (Downvote, Flipped) => "Changed to downvote"
  }

  /**
   * `upvoteQuestion` / `downvoteQuestion`. The userId check comes first; the
   * counter update of a missing question throws after the vote row has
   * already been written. A new vote row references the question and the
   * user (`users` holds the stored user ids), so creating one for a missing
   * question or an unknown user is refused by the foreign key before
   * anything is written.
   */
  function VoteQuestion(db: Db, users: set<string>, id: string, userId: string, v: VoteType): (r: (Db, Reply<Option<Question>>))
    ensures userId == "" ==> r == (db, Fail(400, "User ID is required"))
    ensures id !in db.questions ==> r.1 == Forwarded || userId == ""
    ensures userId != "" && (userId, id) !in db.votes && userId !in users ==> r == (db, Forwarded)
    ensures userId != "" && id in db.questions && ((userId, id) in db.votes || userId in users) ==> r.1.Ok?
    ensures r.0.questions.Keys == db.questions.Keys
  {
    if userId == "" then (db, Fail(400, "User ID is required"))
    else if id !in db.questions then
      if (userId, id) in db.votes then (db.(votes := Toggle(db.votes, Tally(0, 0), userId, id, v).0), Forwarded)
      else (db, Forwarded)
    else if (userId, id) !in db.votes && userId !in users then (db, Forwarded)
    else
      var q := db.questions[id];
      var (b, t, c) := Toggle(db.votes, q.tally, userId, id, v);
      var q' := q.(tally := t);
      (Db(db.questions[id := q'], b), Ok(200, VoteMessage(v, c), if c == Created then Some(q') else None))
  }

  /** Every vote names a stored question, and every question's counters equal its vote counts. */
  ghost predicate Consistent(db: Db) {
    && (forall p :: p in db.votes ==> p.1 in db.questions)
    && (forall id :: id in db.questions ==> Counted(db.votes, id, db.questions[id].tally))
  }

  /** Voting keeps the database consistent. */
  lemma VoteKeepsConsistent(db: Db, users: set<string>, id: string, userId: string, v: VoteType)
    requires Consistent(db)
    ensures Consistent(VoteQuestion(db, users, id, userId, v).0)
  {
    if userId != "" && id in db.questions && ((userId, id) in db.votes || userId in users) {
      var q := db.questions[id];
      var r := Toggle(db.votes, q.tally, userId, id, v);
      var db' := VoteQuestion(db, users, id, userId, v).0;
      ToggleKeepsCounted(db.votes, q.tally, userId, id, v);
      forall other | other in db'.questions
        ensures Counted(db'.votes, other, db'.questions[other].tally)
      {
        if other != id {
          ToggleIsolated(db.votes, q.tally, userId, id, v, other, Upvote);
          ToggleIsolated(db.votes, q.tally, userId, id, v, other, Downvote);
        }
      }
    }
  }

  /** A vote touches only the one question voted on, apart from its counters. */
  lemma VoteTouchesOneQuestion(db: Db, users: set<string>, id: string, userId: string, v: VoteType)
    ensures var db' := VoteQuestion(db, users, id, userId, v).0;
      forall other :: other in db.questions ==>
        if other == id then db'.questions[other] == db.questions[other].(tally := db'.questions[other].tally)
        else db'.questions[other] == db.questions[other]
  {
  }

  /** `getVoteStatus`: whether the user's vote row is an upvote and whether it is a downvote. */
  function VoteStatus(votes: Ballots, id: string, userId: string): (r: Reply<(bool, bool)>)
    ensures userId == "" <==> r == Fail(400, "User ID is required")
    ensures r.Ok? ==> !(r.data.0 && r.data.1)
    ensures r.Ok? ==> (r.data.0 <==> VoteOf(votes, userId, id) == Some(Upvote))
    ensures r.Ok? ==> (r.data.1 <==> VoteOf(votes, userId, id) == Some(Downvote))
  {
    if userId == "" then Fail(400, "User ID is required")
    else
      var vote := VoteOf(votes, userId, id);
      Ok(200, "Vote status retrieved", (vote == Some(Upvote), vote == Some(Downvote)))
  }

  /** The query-string filters of `getQuestionsByCompany`; "" means not given. */
  datatype Filters = Filters(collegeId: string, questionType: string, difficulty: string, round: string, topic: string)

  /** The `where` clause: the company, approval, each given equality filter, and a case-insensitive topic substring. */
  predicate Matches(q: Question, companyId: string, f: Filters) {
    && q.companyId == companyId
    && q.isApproved
    && (f.collegeId == "" || q.collegeId == Some(f.collegeId))
    && (f.questionType == "" || q.questionType == f.questionType)
    && (f.difficulty == "" || q.difficulty == f.difficulty)
    && (f.round == "" || q.round == f.round)
    && (f.topic == "" || (q.topic.Some? && Contains(Lower(q.topic.value), Lower(f.topic))))
  }

  /** `a` may be listed before `b`: askedCount, then upvotes, then createdAt, each descending. */
  predicate Ranks(a: Question, b: Question) {
    a.askedCount > b.askedCount ||
    (a.askedCount == b.askedCount &&
      (a.tally.upvotes > b.tally.upvotes ||
       (a.tally.upvotes == b.tally.upvotes && a.createdAt >= b.createdAt)))
  }

  predicate Ranked(s: seq<Question>) {
    forall i, j :: 0 <= i < j < |s| ==> Ranks(s[i], s[j])
  }

  function Insert(x: Question, s: seq<Question>): (r: seq<Question>)
    ensures multiset(r) == multiset(s) + multiset{x}
  {
    if |s| == 0 || Ranks(x, s[0]) then [x] + s
    else
      assert s == [s[0]] + s[1..];
      [s[0]] + Insert(x, s[1..])
  }

  lemma {:induction false} InsertRanked(x: Question, s: seq<Question>)
    requires Ranked(s)
    ensures Ranked(Insert(x, s))
  {
    if |s| > 0 && !Ranks(x, s[0]) {
      var t := s[1..];
      InsertRanked(x, t);
      var r := Insert(x, t);
      forall y | y in r ensures Ranks(s[0], y) {
        assert y in multiset(r);
        if y != x {
          assert y in multiset(t);
        }
      }
    }
  }

  /** The database's `orderBy`; rows equal on all three keys may come in any order, here the order of the input. */
  function Order(s: seq<Question>): (r: seq<Question>)
    ensures multiset(r) == multiset(s)
    ensures Ranked(r)
  {
    if |s| == 0 then []
    else
      assert s == [s[0]] + s[1..];
      var rest := Order(s[1..]);
      InsertRanked(s[0], rest);
      Insert(s[0], rest)
  }

  function Where(qs: seq<Question>, companyId: string, f: Filters): (r: seq<Question>)
    ensures forall q :: q in r <==> q in qs && Matches(q, companyId, f)
  {
    if |qs| == 0 then []
    else (if Matches(qs[0], companyId, f) then [qs[0]] else []) + Where(qs[1..], companyId, f)
  }

  /** `getQuestionsByCompany` over the stored rows. */
  function QuestionsByCompany(qs: seq<Question>, companyId: string, f: Filters): seq<Question> {
    Order(Where(qs, companyId, f))
  }

  /** The listing holds exactly the matching rows, each as often as stored, in ranking order. */
  lemma QuestionsByCompanyCorrect(qs: seq<Question>, companyId: string, f: Filters)
    ensures var r := QuestionsByCompany(qs, companyId, f);
      && (forall q :: q in r <==> q in qs && Matches(q, companyId, f))
      && multiset(r) == multiset(Where(qs, companyId, f))
      && Ranked(r)
      && (forall q :: q in r ==> q.companyId == companyId && q.isApproved)
  {
    var r := QuestionsByCompany(qs, companyId, f);
    forall q ensures q in r <==> q in Where(qs, companyId, f) {
      assert q in r <==> q in multiset(r);
    }
  }

  /** Unapproved questions and other companies' questions are never listed. */
  lemma UnapprovedNeverListed(qs: seq<Question>, companyId: string, f: Filters, q: Question)
    requires !q.isApproved || q.companyId != companyId
    ensures q !in QuestionsByCompany(qs, companyId, f)
  {
    QuestionsByCompanyCorrect(qs, companyId, f);
  }
}

=== FILE: results_page.dfy ===
/**
 * The resume analysis results page: how the summary and the ATS feedback
 * texts are cut into blocks and classified (headings, numbered points,
 * bullets, paragraphs, "What works:" lists), the `Title: description`
 * split of quick wins and missing skills, the match dots and the ATS
 * colour band.
 *
 * The regular expressions are modelled as JavaScript evaluates them,
 * including the backtracking of `/^(\d+)\.\s+(.+?):\s*(.+)/`; `.` is any
 * character but a line terminator, `\s` is `IsJsWhitespace`.
 */
module ResultsPage {

  import opened Text
  import opened Sorting
  import opened Wrappers

  // ------------------------------------------------------------ the blocks

  predicate NonBlank(s: string) { JsTrim(s) != "" }

  /** `s.split(sep).filter(p => p.trim())` */
  function Pieces(s: string, sep: string): (r: seq<string>)
    requires |sep| > 0
    ensures forall p :: p in r ==> NonBlank(p)
  {
    Filter(Split(s, sep), NonBlank)
  }

  // `.replace(/\*\*/g, '')`
  function StripBold(s: string): string { ReplaceAll(s, "**", "") }

  // `line.trim().replace(/\*\*/g, '')`
  function Clean(line: string): string { StripBold(JsTrim(line)) }

  lemma {:induction false} JoinMember(parts: seq<string>, sep: string, c: char)
    requires c !in sep && c in Join(parts, sep)
    ensures exists p :: p in parts && c in p
  {
    if forall p :: p in parts ==> c !in p {
      JoinKeepsOut(parts, sep, c);
    }
  }

  /** A non-blank text has at least one non-blank line, so `lines[0]` always exists. */
  lemma PiecesOfNonBlank(s: string, sep: string)
    requires NonBlank(s) && |sep| > 0 && forall i :: 0 <= i < |sep| ==> IsJsWhitespace(sep[i])
    ensures |Pieces(s, sep)| > 0
  {
    StripByShape(s, IsJsWhitespace);
    var i :| 0 <= i < |s| && !IsJsWhitespace(s[i]);
    var c := s[i];
    assert c !in sep;
    JoinSplit(s, sep);
    JoinMember(Split(s, sep), sep, c);
    var p :| p in Split(s, sep) && c in p;
    StripByShape(p, IsJsWhitespace);
    FilterMember(Split(s, sep), NonBlank, p);
  }

  // -------------------------------------------------------- removing bold

  /** A piece that does not end in a star cannot start a `**` with the next one. */
  predicate EndsClear(p: string) { |p| == 0 || p[|p| - 1] != '*' }

  lemma {:induction false} SplitBoldEnds(s: string)
    ensures forall j :: 0 <= j < |Split(s, "**")| - 1 ==> EndsClear(Split(s, "**")[j])
    decreases |s|
  {
    var i := IndexOf(s, "**");
    if i >= 0 {
      var rest := Split(s[i + 2..], "**");
      SplitBoldEnds(s[i + 2..]);
      var parts := Split(s, "**");
      assert parts == [s[..i]] + rest;
      if i > 0 {
        assert !OccursAt(s, "**", i - 1);
        BoldAt(s, i);
        BoldAt(s, i - 1);
        assert s[..i][i - 1] == s[i - 1];
      }
      forall j | 0 <= j < |parts| - 1 ensures EndsClear(parts[j]) {
        if j > 0 {
          assert parts[j] == rest[j - 1];
          assert EndsClear(rest[j - 1]);
        } else if i > 0 {
          assert parts[0] == s[..i];
          assert s[i - 1] != '*';
        }
      }
    }
  }

  lemma BoldAt(s: string, k: int)
    ensures OccursAt(s, "**", k) <==> 0 <= k && k + 2 <= |s| && s[k] == '*' && s[k + 1] == '*'
  {
    if 0 <= k && k + 2 <= |s| {
      assert s[k..k + 2] == [s[k], s[k + 1]];
    }
  }

  lemma {:induction false} ConcatBoldFree(parts: seq<string>)
    requires forall j :: 0 <= j < |parts| ==> !Contains(parts[j], "**")
    requires forall j :: 0 <= j < |parts| - 1 ==> EndsClear(parts[j])
    ensures !Contains(Join(parts, ""), "**")
  {
    if |parts| > 1 {
      var head := parts[0];
      ConcatBoldFree(parts[1..]);
      var rest := Join(parts[1..], "");
      var whole := Join(parts, "");
      assert whole == head + rest;
      forall k | OccursAt(whole, "**", k) ensures false {
        BoldAt(whole, k);
        if k + 2 <= |head| {
          BoldAt(head, k);
        } else if k >= |head| {
          BoldAt(rest, k - |head|);
        }
      }
    } else if |parts| == 1 {
      assert Join(parts, "") == parts[0];
    }
  }

  /** What the page shows has no `**` left, so removing bold twice is removing it once. */
  lemma StripBoldFree(s: string)
    ensures !Contains(StripBold(s), "**")
    ensures StripBold(StripBold(s)) == StripBold(s)
  {
    var parts := Split(s, "**");
    SplitPartsFree(s, "**");
    forall j | 0 <= j < |parts| ensures !Contains(parts[j], "**") {
      assert parts[j] in parts;
    }
    SplitBoldEnds(s);
    ConcatBoldFree(parts);
    NoBoldUnchanged(StripBold(s));
  }

  lemma NoBoldUnchanged(s: string)
    requires !Contains(s, "**")
    ensures StripBold(s) == s
  {
  }

  // ------------------------------------------------------ classifying lines

  datatype Block =
    | Heading(text: string)
    | Numbered(num: string, title: string, desc: string)
    | TitledBullet(title: string, desc: string)
    | Bullet(content: string)
    | Paragraph(text: string)

  /** `/^[A-Z][^:]+:$/` and `.length < 80` */
  predicate IsHeading(t: string) {
    && |t| >= 3 && IsAsciiUpper(t[0]) && t[|t| - 1] == ':'
    && (forall i :: 1 <= i < |t| - 1 ==> t[i] != ':')
    && Utf16Length(t) < 80
  }

  /** Regex `.` */
  predicate RegexDot(c: char) { !IsJsLineTerminator(c) }

  /** `/^\d+\.\s+/` */
  predicate NumberedStart(t: string) {
    var d := SkipWhile(t, IsDigit, 0);
    d >= 1 && d + 1 < |t| && t[d] == '.' && IsJsWhitespace(t[d + 1])
  }

  /** `\s*(.+)` after the colon: the whitespace run is given back one character at a time until a `.` can follow. */
  function DescStart(t: string, lo: nat, q: nat): (r: Option<nat>)
    requires lo <= q <= |t|
    ensures r.Some? ==> lo <= r.value <= q && r.value < |t| && RegexDot(t[r.value])
    ensures r.None? ==> forall j :: lo <= j <= q && j < |t| ==> !RegexDot(t[j])
    decreases q
  {
    if q < |t| && RegexDot(t[q]) then Some(q)
    else if q > lo then DescStart(t, lo, q - 1)
    else None
  }

  /** `(.+?):` from title start `k`: the title grows one `.` at a time until a colon with a description follows. */
  function TitleEnd(t: string, k: nat, e: nat): (r: Option<(nat, nat)>)
    requires k < e <= |t|
    ensures r.Some? ==> (
      && e <= r.value.0 < |t| && t[r.value.0] == ':'
      && r.value.0 + 1 <= r.value.1 < |t| && RegexDot(t[r.value.1])
      && (forall j :: e - 1 <= j < r.value.0 ==> RegexDot(t[j]))
      && (forall j :: r.value.0 + 1 <= j < r.value.1 ==> IsJsWhitespace(t[j])))
    decreases |t| - e
  {
    if !RegexDot(t[e - 1]) then None
    else if e < |t| && t[e] == ':' && DescStart(t, e + 1, SkipWhile(t, IsJsWhitespace, e + 1)).Some? then
      Some((e, DescStart(t, e + 1, SkipWhile(t, IsJsWhitespace, e + 1)).value))
    else if e < |t| then TitleEnd(t, k, e + 1)
    else None
  }

  /** `\s+` before the title: tried longest first, given back down to one character. */
  function WsBack(t: string, d: nat, k: nat): (r: Option<(nat, nat, nat)>)
    requires d + 2 <= k <= |t|
    requires forall j :: d + 1 <= j < k ==> IsJsWhitespace(t[j])
    ensures r.Some? ==> (
      && d + 2 <= r.value.0 <= k && r.value.0 < r.value.1 < |t| && t[r.value.1] == ':'
      && r.value.1 + 1 <= r.value.2 < |t| && RegexDot(t[r.value.2])
      && (forall j :: d + 1 <= j < r.value.0 ==> IsJsWhitespace(t[j]))
      && (forall j :: r.value.0 <= j < r.value.1 ==> RegexDot(t[j]))
      && (forall j :: r.value.1 + 1 <= j < r.value.2 ==> IsJsWhitespace(t[j])))
    decreases k
  {
    var here := if k < |t| then TitleEnd(t, k, k + 1) else None;
    if here.Some? then Some((k, here.value.0, here.value.1))
    else if k > d + 2 then WsBack(t, d, k - 1)
    else None
  }

  /** The capture positions: number `t[..d]`, title `t[k..e]`, description `t[q..z]`. */
  datatype Match = Match(d: nat, k: nat, e: nat, q: nat, z: nat)

  /** `/^(\d+)\.\s+(.+?):\s*(.+)/` */
  function NumberedMatch(t: string): (r: Option<Match>)
    ensures r.Some? ==> var m := r.value;
      && 1 <= m.d && m.d + 2 <= m.k < m.e < |t| && m.e + 1 <= m.q < m.z <= |t|
      && (forall j :: 0 <= j < m.d ==> IsDigit(t[j])) && t[m.d] == '.'
      && (forall j :: m.d + 1 <= j < m.k ==> IsJsWhitespace(t[j]))
      && (forall j :: m.k <= j < m.e ==> RegexDot(t[j])) && t[m.e] == ':'
      && (forall j :: m.e + 1 <= j < m.q ==> IsJsWhitespace(t[j]))
      && (forall j :: m.q <= j < m.z ==> RegexDot(t[j]))
      && (m.z < |t| ==> !RegexDot(t[m.z]))
    ensures r.Some? ==> NumberedStart(t)
  {
    var d := SkipWhile(t, IsDigit, 0);
    if d >= 1 && d + 1 < |t| && t[d] == '.' && IsJsWhitespace(t[d + 1]) then
      var w := SkipWhile(t, IsJsWhitespace, d + 1);
      var found := WsBack(t, d, w);
      if found.Some? then
        var (k, e, q) := found.value;
        Some(Match(d, k, e, q, SkipWhile(t, RegexDot, q)))
      else None
    else None
  }

  /** `/^\*\s+/` */
  predicate BulletStart(t: string) { |t| >= 2 && t[0] == '*' && IsJsWhitespace(t[1]) }

  /** `content.indexOf(':')`, the title before it and the trimmed rest. */
  function AtFirstColon(content: string): (r: (string, string))
    requires Contains(content, ":")
  {
    var i := IndexOf(content, ":");
    (content[..i], JsTrim(content[i + 1..]))
  }

  /** The renderer of one cleaned summary line, its checks in source order. */
  function Classify(t: string): (b: Block)
    ensures b.Heading? <==> IsHeading(t)
    ensures b.Numbered? ==> NumberedStart(t)
    ensures b.TitledBullet? || b.Bullet? ==> BulletStart(t) && !IsHeading(t)
  {
    if IsHeading(t) then Heading(t)
    else if NumberedStart(t) && NumberedMatch(t).Some? then
      var m := NumberedMatch(t).value;
      Numbered(t[..m.d], t[m.k..m.e], t[m.q..m.z])
    else if BulletStart(t) then
      var content := t[SkipWhile(t, IsJsWhitespace, 1)..];
      if Contains(content, ":") then TitledBullet(AtFirstColon(content).0, AtFirstColon(content).1)
      else Bullet(content)
    else Paragraph(t)
  }

  /** The strategic summary: paragraphs, their non-blank lines, each cleaned and classified. */
  function SummaryBlocks(summary: string): (r: seq<seq<Block>>)
    ensures |r| == |Pieces(summary, "\n\n")|
  {
    var paragraphs := Pieces(summary, "\n\n");
    seq(|paragraphs|, i requires 0 <= i < |paragraphs| =>
      var lines := Pieces(paragraphs[i], "\n");
      seq(|lines|, j requires 0 <= j < |lines| => Classify(Clean(lines[j]))))
  }

  /** The usual shape of a numbered point, `1. Title: description`. */
  function NumberedLine(num: string, title: string, desc: string): string {
    num + ". " + title + ": " + desc
  }

  predicate PlainText(s: string) { forall j :: 0 <= j < |s| ==> RegexDot(s[j]) }

  lemma {:induction false} TitleEndFinds(t: string, k: nat, e: nat, colon: nat, q: nat)
    requires k < e <= colon < |t| && t[colon] == ':'
    requires forall j :: e - 1 <= j < colon ==> RegexDot(t[j]) && t[j] != ':'
    requires DescStart(t, colon + 1, SkipWhile(t, IsJsWhitespace, colon + 1)) == Some(q)
    ensures TitleEnd(t, k, e) == Some((colon, q))
    decreases colon - e
  {
    if e < colon {
      TitleEndFinds(t, k, e + 1, colon, q);
    }
  }

  /** The character-level shape of `num. Title: description`, read back by the regex. */
  lemma MatchOfShape(t: string, d: nat, colon: nat)
    requires 1 <= d && d + 2 < colon && colon + 2 < |t|
    requires forall j :: 0 <= j < d ==> IsDigit(t[j])
    requires t[d] == '.' && t[d + 1] == ' ' && !IsJsWhitespace(t[d + 2])
    requires forall j :: d + 2 <= j < colon ==> RegexDot(t[j]) && t[j] != ':'
    requires t[colon] == ':' && t[colon + 1] == ' ' && !IsJsWhitespace(t[colon + 2])
    requires forall j :: colon + 2 <= j < |t| ==> RegexDot(t[j])
    ensures NumberedStart(t)
    ensures NumberedMatch(t) == Some(Match(d, d + 2, colon, colon + 2, |t|))
  {
    var k := d + 2;
    var q := colon + 2;
    SkipDigits(t, d, 0);
    assert SkipWhile(t, IsJsWhitespace, d + 1) == k;
    assert SkipWhile(t, IsJsWhitespace, colon + 1) == q;
    assert DescStart(t, colon + 1, q) == Some(q);
    TitleEndFinds(t, k, k + 1, colon, q);
    assert WsBack(t, d, k) == Some((k, colon, q));
    SkipDots(t, q);
  }

  lemma NumberedLineShape(num: string, title: string, desc: string)
    requires |num| >= 1 && forall j :: 0 <= j < |num| ==> IsDigit(num[j])
    requires |title| >= 1 && PlainText(title) && ':' !in title && !IsJsWhitespace(title[0])
    requires |desc| >= 1 && PlainText(desc) && !IsJsWhitespace(desc[0])
    ensures var t := NumberedLine(num, title, desc);
      var d := |num|;
      var colon := d + 2 + |title|;
      && NumberedMatch(t) == Some(Match(d, d + 2, colon, colon + 2, |t|)) && IsDigit(t[0])
      && t[..d] == num && t[d + 2..colon] == title && t[colon + 2..|t|] == desc
  {
    var t := NumberedLine(num, title, desc);
    var d := |num|;
    var k := d + 2;
    var colon := k + |title|;
    var q := colon + 2;
    var head := num + ". ";
    var mid := head + title;
    var front := mid + ": ";
    assert t == front + desc;
    assert |head| == k && |mid| == colon && |front| == q;
    assert front[..colon] == mid;
    assert mid[..k] == head;
    assert head[..d] == num;
    forall j | 0 <= j < d ensures IsDigit(t[j]) {
      assert t[j] == head[j] == num[j];
    }
    forall j | k <= j < colon ensures RegexDot(t[j]) && t[j] != ':' {
      assert t[j] == mid[j] == title[j - k];
    }
    forall j | q <= j < |t| ensures RegexDot(t[j]) {
      assert t[j] == desc[j - q];
    }
    assert t[..d] == num;
    assert t[k..colon] == title;
    assert t[q..] == desc;
    assert t[d] == '.' && t[d + 1] == ' ' && t[k] == title[0];
    assert t[colon] == ':' && t[colon + 1] == ' ' && t[q] == desc[0];
    MatchOfShape(t, d, colon);
  }

  /**
   * A point written as `num. Title: description`, with a plain title that has
   * no colon and does not start with a space, and a plain description that
   * does not start with one, is read back as exactly those three parts.
   */
  lemma NumberedRoundTrip(num: string, title: string, desc: string)
    requires |num| >= 1 && forall j :: 0 <= j < |num| ==> IsDigit(num[j])
    requires |title| >= 1 && PlainText(title) && ':' !in title && !IsJsWhitespace(title[0])
    requires |desc| >= 1 && PlainText(desc) && !IsJsWhitespace(desc[0])
    ensures Classify(NumberedLine(num, title, desc)) == Numbered(num, title, desc)
  {
    var t := NumberedLine(num, title, desc);
    var d := |num|;
    var colon := d + 2 + |title|;
    NumberedLineShape(num, title, desc);
    ClassifyNumbered(t, Match(d, d + 2, colon, colon + 2, |t|), num, title, desc);
  }

  /** A line the numbered-point regex matches, and that starts with a digit, is a numbered point of the matched parts. */
  lemma ClassifyNumbered(t: string, m: Match, num: string, title: string, desc: string)
    requires NumberedMatch(t) == Some(m) && |t| > 0 && IsDigit(t[0])
    requires t[..m.d] == num && t[m.k..m.e] == title && t[m.q..m.z] == desc
    ensures Classify(t) == Numbered(num, title, desc)
  {
  }

  lemma {:induction false} SkipDigits(t: string, d: nat, i: nat)
    requires i <= d < |t| && !IsDigit(t[d])
    requires forall j :: 0 <= j < d ==> IsDigit(t[j])
    ensures SkipWhile(t, IsDigit, i) == d
    decreases d - i
  {
    if i < d {
      SkipDigits(t, d, i + 1);
    }
  }

  lemma {:induction false} SkipDots(t: string, i: nat)
    requires i <= |t| && forall j :: i <= j < |t| ==> RegexDot(t[j])
    ensures SkipWhile(t, RegexDot, i) == |t|
    decreases |t| - i
  {
    if i < |t| {
      SkipDots(t, i + 1);
    }
  }

  /** A line that looks numbered but has no `Title: description` shape is neither a point nor a bullet: it is a paragraph. */
  lemma NumberedFallsThrough(t: string)
    requires NumberedStart(t) && NumberedMatch(t).None? && !IsHeading(t)
    ensures Classify(t) == Paragraph(t)
  {
    assert IsDigit(t[0]);
  }

  /** `* Title: description` is a titled bullet split at its first colon. */
  lemma BulletSplitsAtColon(title: string, desc: string)
    requires ':' !in title && (|title| == 0 || !IsJsWhitespace(title[0]))
    ensures Classify("* " + title + ":" + desc) == TitledBullet(title, JsTrim(desc))
  {
    var t := "* " + title + ":" + desc;
    var content := title + ":" + desc;
    assert t[2..] == content;
    assert t[2] == content[0];
    assert SkipWhile(t, IsJsWhitespace, 1) == 2;
    FirstColon(title, desc);
    assert content[|title| + 1..] == desc;
    assert !IsAsciiUpper(t[0]);
  }

  lemma FirstColon(title: string, desc: string)
    requires ':' !in title
    ensures Contains(title + ":" + desc, ":") && IndexOf(title + ":" + desc, ":") == |title|
    ensures (title + ":" + desc)[..|title|] == title
  {
    var s := title + ":" + desc;
    assert OccursAt(s, ":", |title|);
    forall k | 0 <= k < |title| ensures !OccursAt(s, ":", k) {
      assert s[k..k + 1][0] == title[k];
    }
  }

  // ------------------------------------------------------ the colon split

  /**
   * Quick wins and missing skills: `parts = clean.split(':')`, the title is
   * `parts[0]` and the description the rest joined back and trimmed.
   */
  function ColonSplit(item: string): (r: (string, string)) {
    var parts := Split(StripBold(item), ":");
    (parts[0], JsTrim(Join(parts[1..], ":")))
  }

  /**
   * The split is at the first colon: the title is everything before it and
   * the description the trimmed remainder; with no colon the whole text is
   * the title and the description is empty.
   */
  lemma ColonSplitAtFirst(item: string)
    ensures var c := StripBold(item);
      && (!Contains(c, ":") ==> ColonSplit(item) == (c, ""))
      && (Contains(c, ":") ==> ColonSplit(item) == AtFirstColon(c))
  {
    var c := StripBold(item);
    var i := IndexOf(c, ":");
    if i >= 0 {
      JoinSplit(c[i + 1..], ":");
      assert Split(c, ":")[1..] == Split(c[i + 1..], ":");
    } else {
      assert JsTrim("") == "";
    }
  }

  /** A bullet and a quick win with the same bold-free text agree on title and description. */
  lemma BulletAgreesWithColonSplit(content: string)
    requires !Contains(content, "**") && Contains(content, ":")
    ensures AtFirstColon(content) == ColonSplit(content)
  {
    NoBoldUnchanged(content);
    ColonSplitAtFirst(content);
  }

  // -------------------------------------------------------- the feedback

  datatype Section = ListSection(title: string, items: seq<string>) | TextSection(text: string)

  predicate IsListHead(line: string) { Contains(line, "What works:") || Contains(line, "What to fix:") }

  predicate IsItem(line: string) { StartsWith(JsTrim(line), "-") }

  // `item.replace(/^-\s*/, '')`: only when the line itself starts with the dash.
  function DropDash(line: string): (r: string)
    ensures |r| <= |line|
  {
    if |line| > 0 && line[0] == '-' then line[SkipWhile(line, IsJsWhitespace, 1)..] else line
  }

  /** One non-blank feedback section; its first line decides the layout. */
  function FeedbackSection(section: string): (r: Section)
    requires NonBlank(section)
    ensures |Pieces(section, "\n")| > 0
    ensures r.ListSection? <==> IsListHead(Pieces(section, "\n")[0])
    ensures r.ListSection? ==> |r.items| <= |Pieces(section, "\n")| - 1
  {
    PiecesOfNonBlank(section, "\n");
    var lines := Pieces(section, "\n");
    if IsListHead(lines[0]) then
      var items := Filter(lines[1..], IsItem);
      ListSection(StripBold(lines[0]), seq(|items|, i requires 0 <= i < |items| => StripBold(DropDash(items[i]))))
    else TextSection(StripBold(section))
  }

  /** `ats_feedback` split into its non-blank sections, each laid out. */
  function Feedback(feedback: string): (r: seq<Section>)
    ensures |r| == |Pieces(feedback, "\n\n")|
  {
    var sections := Pieces(feedback, "\n\n");
    seq(|sections|, i requires 0 <= i < |sections| => FeedbackSection(sections[i]))
  }

  /** Every list item comes from a later line of its section that starts with a dash after trimming, and shows no bold markers. */
  lemma FeedbackItems(section: string, i: nat)
    requires NonBlank(section)
    requires FeedbackSection(section).ListSection? && i < |FeedbackSection(section).items|
    ensures var lines := Pieces(section, "\n");
      var items := Filter(lines[1..], IsItem);
      && i < |items| && items[i] in lines[1..] && IsItem(items[i])
      && FeedbackSection(section).items[i] == StripBold(DropDash(items[i]))
      && !Contains(FeedbackSection(section).items[i], "**")
  {
    PiecesOfNonBlank(section, "\n");
    var lines := Pieces(section, "\n");
    var items := Filter(lines[1..], IsItem);
    assert items[i] in items;
    StripBoldFree(DropDash(items[i]));
  }

  /** An indented item keeps its dash: `  - fix` is shown as `  - fix`. */
  lemma IndentedItemKeepsDash()
    ensures IsItem("  - fix") && DropDash("  - fix") == "  - fix"
  {
    var s := "  - fix";
    assert JsTrim(s) == "- fix" by {
      assert SkipWhile(s, IsJsWhitespace, 2) == 2;
      assert SkipWhile(s, IsJsWhitespace, 0) == 2;
      assert TrailStart(s, IsJsWhitespace, |s|) == |s|;
      forall k | 0 <= k < 5 ensures s[2..7][k] == "- fix"[k] {
        assert s[2..7][k] == s[k + 2];
      }
    }
  }

  // ------------------------------------------------------- dots and colours

  /** `Math.floor(x)` on a real. */
  function Floor(x: real): int { x.Floor }

  /** The five match dots: dot `i` is lit when `i < Math.floor(match_score / 20)`. */
  function MatchDots(score: real): (r: seq<bool>)
    ensures |r| == 5
  {
    seq(5, i => i < Floor(score / 20.0))
  }

  function Lit(dots: seq<bool>): nat {
    if |dots| == 0 then 0 else Lit(dots[..|dots| - 1]) + (if dots[|dots| - 1] then 1 else 0)
  }

  lemma {:induction false} LitPrefix(n: int, m: nat)
    requires m <= 5
    ensures Lit(seq(m, i => i < n)) == if n <= 0 then 0 else if n >= m then m else n
  {
    if m > 0 {
      assert seq(m, i => i < n)[..m - 1] == seq(m - 1, i => i < n);
      LitPrefix(n, m - 1);
    }
  }

  /**
   * The lit dots come first, and their number is `Math.floor(score / 20)`
   * clamped to 0..5, so a higher score never lights fewer.
   */
  lemma MatchDotsCount(score: real, better: real)
    requires score <= better
    ensures var n := Floor(score / 20.0);
      Lit(MatchDots(score)) == if n <= 0 then 0 else if n >= 5 then 5 else n
    ensures forall i, j :: 0 <= i < j < 5 && MatchDots(score)[j] ==> MatchDots(score)[i]
    ensures Lit(MatchDots(score)) <= Lit(MatchDots(better))
  {
    LitPrefix(Floor(score / 20.0), 5);
    LitPrefix(Floor(better / 20.0), 5);
    assert score / 20.0 <= better / 20.0;
  }

  datatype Band = Green | Yellow | Red

  /** The ATS bar colour. */
  function AtsBand(score: real): (b: Band)
    ensures b == Green <==> score >= 80.0
    ensures b == Yellow <==> 60.0 <= score < 80.0
    ensures b == Red <==> score < 60.0
  {
    if score >= 80.0 then Green else if score >= 60.0 then Yellow else Red
  }

  function BandRank(b: Band): nat {
    match b
    case Red => 0
    case Yellow => 1
    case Green => 2
  }

  /** A higher score never gets a worse colour. */
  lemma AtsBandMonotone(a: real, b: real)
    requires a <= b
    ensures BandRank(AtsBand(a)) <= BandRank(AtsBand(b))
  {
  }

  /** The recommendation tag by position: the first is the best fit, the second the alternative, the rest growth paths. */
  function RecommendationTag(idx: nat): (r: string)
    ensures idx == 0 <==> r == "Best Fit"
    ensures idx == 1 <==> r == "Alternative"
    ensures idx >= 2 <==> r == "Growth Path"
  {
    if idx == 0 then "Best Fit" else if idx == 1 then "Alternative" else "Growth Path"
  }
}

=== FILE: roadmap.dfy ===
/**
 * Roadmap generation on the backend: the duration table, the week/hour
 * computation, the request validator, the cleaning of the model's reply
 * and the normalisation of the parsed roadmap.
 *
 * The model call is not modelled: its reply text is a parameter, and
 * `JSON.parse` is a parameter `parse`.
 */
module Roadmap {

  import opened Wrappers
  import opened Text
  import opened Json

  // ------------------------------------------------------------ table and types

  /** The durations the request validator accepts, in declaration order. */
  const ValidDurations: seq<string> := ["1 Week", "2 Weeks", "1 Month", "3 Months", "6 Months"]

  const ValidDifficulties: seq<string> := ["Beginner", "Intermediate", "Advanced"]

  /** `DURATION_TO_WEEKS` */
  const DurationToWeeks: map<string, nat> := map["1 Week" := 1, "2 Weeks" := 2, "1 Month" := 4, "3 Months" := 12, "6 Months" := 24]

  /** The table's keys are the accepted durations; its values are positive and increase in declaration order. */
  lemma DurationTableShape()
    ensures DurationToWeeks.Keys == set d | d in ValidDurations
    ensures forall d :: d in DurationToWeeks ==> DurationToWeeks[d] > 0
    ensures forall i, j :: 0 <= i < j < |ValidDurations| ==> DurationToWeeks[ValidDurations[i]] < DurationToWeeks[ValidDurations[j]]
    ensures DurationToWeeks["1 Week"] == 1 && DurationToWeeks["2 Weeks"] == 2 && DurationToWeeks["1 Month"] == 4
    ensures DurationToWeeks["3 Months"] == 12 && DurationToWeeks["6 Months"] == 24
  {
  }

  /** `Topic.type` */
  datatype TopicType = Video | Reading | Practice | Project

  function TopicTypeName(t: TopicType): string {
    match t
    case Video => "video"
    case Reading => "reading"
    case Practice => "practice"
    case Project => "project"
  }

  function ParseTopicType(s: string): (r: Option<TopicType>)
    ensures r.Some? ==> TopicTypeName(r.value) == s
  {
    if s == "video" then Some(Video)
    else if s == "reading" then Some(Reading)
    else if s == "practice" then Some(Practice)
    else if s == "project" then Some(Project)
    else None
  }

  /** Exactly the four names are topic types, and each name reads back as its type. */
  lemma TopicTypeRoundTrip(t: TopicType, s: string)
    ensures ParseTopicType(TopicTypeName(t)) == Some(t)
    ensures ParseTopicType(s).Some? <==> s in ["video", "reading", "practice", "project"]
  {
  }

  // ------------------------------------------------------------ weeks and hours

  const DefaultWeeks: nat := 4
  const HoursPerWeek: nat := 20

  /** `calculateWeeksAndHours`: the table's weeks, or 4 for an unknown duration, at 20 hours a week. */
  function WeeksAndHours(duration: string): (r: (nat, nat))
    ensures duration in DurationToWeeks ==> r.0 == DurationToWeeks[duration]
    ensures duration !in DurationToWeeks ==> r.0 == DefaultWeeks
    ensures r.1 == HoursPerWeek * r.0
  {
    var weeks := if duration in DurationToWeeks && DurationToWeeks[duration] != 0 then DurationToWeeks[duration] else DefaultWeeks;
    (weeks, weeks * HoursPerWeek)
  }

  /** The hours are a positive multiple of 20, between 20 and 480. */
  lemma HoursBounds(duration: string)
    ensures var (w, h) := WeeksAndHours(duration);
      h % HoursPerWeek == 0 && HoursPerWeek <= h <= 24 * HoursPerWeek && 1 <= w <= 24
  {
  }

  // ------------------------------------------------------------ request validator

  /** What the validator does with a request: call `next()`, or send an error with a status. */
  datatype Verdict = Next | Reject(status: nat, message: string)

  const TechnologyMessage: string := "Invalid or missing technology field"

  function DurationMessage(): string {
    "Invalid duration. Must be one of: " + Join(ValidDurations, ", ")
  }

  function DifficultyMessage(): string {
    "Invalid difficulty. Must be one of: " + Join(ValidDifficulties, ", ")
  }

  /** A truthy string; other types and the empty string are rejected. */
  predicate ValidTechnology(technology: Option<Json>) {
    technology.Some? && technology.value.JStr? && |technology.value.str| > 0
  }

  /** `includes` uses strict equality: only a string equal to a listed value passes. */
  predicate ListedString(v: Option<Json>, allowed: seq<string>) {
    v.Some? && v.value.JStr? && v.value.str in allowed
  }

  /** `validateRoadmapRequest` over the body's three fields (None when absent). */
  function ValidateRoadmapRequest(technology: Option<Json>, duration: Option<Json>, difficulty: Option<Json>): Verdict {
    if !ValidTechnology(technology) then Reject(400, TechnologyMessage)
    else if !ListedString(duration, ValidDurations) then Reject(400, DurationMessage())
    else if !ListedString(difficulty, ValidDifficulties) then Reject(400, DifficultyMessage())
    else Next
  }

  /**
   * `next()` runs exactly when all three fields are valid; otherwise a single
   * 400 reports the first failing check in the order technology, duration,
   * difficulty.
   */
  lemma ValidatorCorrect(technology: Option<Json>, duration: Option<Json>, difficulty: Option<Json>)
    ensures var v := ValidateRoadmapRequest(technology, duration, difficulty);
      && (v == Next <==> ValidTechnology(technology) && ListedString(duration, ValidDurations) && ListedString(difficulty, ValidDifficulties))
      && (v.Reject? ==> v.status == 400)
      && (!ValidTechnology(technology) ==> v.message == TechnologyMessage)
      && (ValidTechnology(technology) && !ListedString(duration, ValidDurations) ==> v.message == DurationMessage())
      && (ValidTechnology(technology) && ListedString(duration, ValidDurations) && !ListedString(difficulty, ValidDifficulties) ==>
            v.message == DifficultyMessage())
  {
  }

  /** A validated duration is in the table, so the week count never falls back to 4 after validation. */
  lemma ValidatedDurationInTable(technology: Option<Json>, duration: Option<Json>, difficulty: Option<Json>)
    requires ValidateRoadmapRequest(technology, duration, difficulty) == Next
    ensures duration.Some? && duration.value.JStr? && duration.value.str in DurationToWeeks
  {
    DurationTableShape();
  }

  // ------------------------------------------------------------ cleaning the reply

  const Fence: string := "``````"

  /** Six backticks start the text. */
  predicate FenceStart(s: string) {
    |s| >= |Fence| && forall i :: 0 <= i < |Fence| ==> s[i] == '`'
  }

  /** An occurrence of the fence string is a place where six backticks start. */
  lemma OccursFence(x: string, k: int)
    ensures OccursAt(x, Fence, k) <==> 0 <= k <= |x| && FenceStart(x[k..])
  {
    if 0 <= k <= |x| && FenceStart(x[k..]) {
      assert x[k..k + |Fence|] == Fence by {
        forall i | 0 <= i < |Fence| ensures x[k..k + |Fence|][i] == Fence[i] {
          assert x[k..k + |Fence|][i] == x[k..][i];
        }
      }
    }
    if OccursAt(x, Fence, k) {
      forall i | 0 <= i < |Fence| ensures x[k..][i] == '`' {
        assert x[k..][i] == x[k..k + |Fence|][i];
      }
    }
  }

  /** `replace(/``````\n?/g, "")`: every run of six backticks, with one newline right after it, removed left to right. */
  function RemoveFences(s: string): (r: string)
    ensures |r| <= |s|
    decreases |s|
  {
    if |s| == 0 then ""
    else if FenceStart(s) then
      var rest := s[|Fence|..];
      RemoveFences(if |rest| > 0 && rest[0] == '\n' then rest[1..] else rest)
    else [s[0]] + RemoveFences(s[1..])
  }

  lemma {:induction false} RemoveFencesKeepsPlain(p: string, t: string)
    requires '`' !in p
    ensures RemoveFences(p + t) == p + RemoveFences(t)
    decreases |p|
  {
    if |p| > 0 {
      assert p[0] in p;
      assert (p + t)[0] == p[0];
      assert !FenceStart(p + t);
      assert RemoveFences(p + t) == [p[0]] + RemoveFences((p + t)[1..]);
      assert (p + t)[1..] == p[1..] + t;
      assert '`' !in p[1..] by { assert forall c :: c in p[1..] ==> c in p; }
      RemoveFencesKeepsPlain(p[1..], t);
      assert [p[0]] + (p[1..] + RemoveFences(t)) == p + RemoveFences(t);
    } else {
      assert p + t == t;
    }
  }

  /** A text without backticks is unchanged. */
  lemma RemoveFencesNoBacktick(s: string)
    requires '`' !in s
    ensures RemoveFences(s) == s
  {
    RemoveFencesKeepsPlain(s, "");
    assert s + "" == s;
  }

  /** A fence followed by a newline disappears with the newline. */
  lemma RemoveFenceNewline(s: string)
    ensures RemoveFences(Fence + "\n" + s) == RemoveFences(s)
  {
    var t := Fence + "\n" + s;
    assert FenceStart(t);
    assert t[|Fence|..] == "\n" + s;
    assert ("\n" + s)[1..] == s;
  }

  function Concat(parts: seq<string>): string {
    if |parts| == 0 then "" else parts[0] + Concat(parts[1..])
  }

  /** Pieces free of backticks and newlines, joined with fences, come back glued together. */
  lemma {:induction false} RemoveFencesJoin(parts: seq<string>)
    requires forall p :: p in parts ==> '`' !in p && '\n' !in p
    ensures RemoveFences(Join(parts, Fence)) == Concat(parts)
  {
    if |parts| == 1 {
      RemoveFencesNoBacktick(parts[0]);
      assert Concat(parts) == parts[0] + Concat([]);
    } else if |parts| > 1 {
      var head := parts[0];
      var rest := parts[1..];
      assert head in parts;
      assert forall p :: p in rest ==> p in parts;
      RemoveFencesJoin(rest);
      var tail := Join(rest, Fence);
      JoinKeepsOut(rest, Fence, '\n');
      assert Join(parts, Fence) == head + (Fence + tail);
      RemoveFencesKeepsPlain(head, Fence + tail);
      RemoveFenceNoNewline(tail);
      assert Concat(parts) == head + Concat(rest);
    }
  }

  /** A fence not followed by a newline disappears alone. */
  lemma RemoveFenceNoNewline(tail: string)
    requires '\n' !in tail
    ensures RemoveFences(Fence + tail) == RemoveFences(tail)
  {
    var t := Fence + tail;
    assert FenceStart(t);
    assert t[|Fence|..] == tail;
    if |tail| > 0 { assert tail[0] in tail; }
  }

  /** The number of backticks the text starts with. */
  function Lead(x: string): nat {
    if |x| > 0 && x[0] == '`' then 1 + Lead(x[1..]) else 0
  }

  /** The text starts with at least n backticks exactly when Lead counts at least n. */
  lemma {:induction false} LeadAtLeastIff(x: string, n: nat)
    ensures Lead(x) >= n <==> (n <= |x| && forall i :: 0 <= i < n ==> x[i] == '`')
    decreases n
  {
    if n > 0 && |x| > 0 {
      LeadAtLeastIff(x[1..], n - 1);
      assert forall i :: 1 <= i < n && i < |x| ==> x[1..][i - 1] == x[i];
    }
  }

  /** A fence starts the text exactly when its leading run has six backticks. */
  lemma FenceLead(x: string)
    ensures FenceStart(x) <==> Lead(x) >= |Fence|
  {
    LeadAtLeastIff(x, |Fence|);
  }

  /** Without a fence at the front, no backtick of the leading run is removed. */
  lemma {:induction false} RemoveFencesLead(t: string)
    requires !FenceStart(t)
    ensures Lead(RemoveFences(t)) == Lead(t)
    decreases |t|
  {
    if |t| > 0 && t[0] == '`' {
      var u := t[1..];
      FenceLead(t);
      FenceLead(u);
      RemoveFencesLead(u);
      assert RemoveFences(t) == [t[0]] + RemoveFences(u);
      assert ([t[0]] + RemoveFences(u))[1..] == RemoveFences(u);
    }
  }

  /** Putting back the first input character in front of the rest's output cannot complete a fence. */
  lemma FrontFence(s: string, r: string)
    requires |s| > 0 && !FenceStart(s) && r == RemoveFences(s[1..])
    ensures !FenceStart([s[0]] + r)
  {
    var out := [s[0]] + r;
    var u := s[1..];
    FenceLead(s);
    FenceLead(out);
    assert out[1..] == r;
    if s[0] == '`' {
      FenceLead(u);
      RemoveFencesLead(u);
    }
  }

  /** No six backticks start anywhere in the output: a removal never glues backticks into a new fence. */
  lemma {:induction false} RemoveFencesNoRun(s: string)
    ensures forall k :: 0 <= k <= |RemoveFences(s)| ==> !FenceStart(RemoveFences(s)[k..])
    decreases |s|
  {
    if |s| > 0 {
      if FenceStart(s) {
        var rest := s[|Fence|..];
        var next := if |rest| > 0 && rest[0] == '\n' then rest[1..] else rest;
        RemoveFencesNoRun(next);
      } else {
        var r := RemoveFences(s[1..]);
        RemoveFencesNoRun(s[1..]);
        var out := [s[0]] + r;
        assert RemoveFences(s) == out;
        FrontFence(s, r);
        forall k | 0 <= k <= |out| ensures !FenceStart(out[k..]) {
          if k > 0 {
            assert out[k..] == r[k - 1..];
          }
        }
      }
    }
  }

  /** The cleaned text does not contain the fence string. */
  lemma RemoveFencesFenceFree(s: string)
    ensures !Contains(RemoveFences(s), Fence)
  {
    var r := RemoveFences(s);
    RemoveFencesNoRun(s);
    ContainsIff(r, Fence);
    forall k: int ensures !OccursAt(r, Fence, k) {
      OccursFence(r, k);
    }
  }

  /** Drops the text before the first '{' when that brace is not already first. */
  function CutBeforeBrace(s: string): string {
    var first := IndexOfChar(s, '{');
    if first > 0 then s[first..] else s
  }

  /** Drops the text after the last '}' when there is a '}' and it is not last. */
  function CutAfterBrace(s: string): string {
    var last := LastIndexOfChar(s, '}');
    if last != -1 && last < |s| - 1 then s[..last + 1] else s
  }

  /** The brace cuts and the final trim, applied to the fence-free text. */
  function TrimToBraces(c: string): string {
    JsTrim(CutAfterBrace(CutBeforeBrace(c)))
  }

  /** `cleanResponse` */
  function CleanResponse(text: string): string {
    TrimToBraces(RemoveFences(text))
  }

  /** The last '}' of a suffix is the last '}' of the whole text, shifted. */
  lemma LastBraceOfSuffix(c: string, first: nat, last: nat)
    requires first <= last < |c| && c[last] == '}' && '}' !in c[last + 1..]
    ensures LastIndexOfChar(c[first..], '}') == last - first
  {
    var b := c[first..];
    assert b[last - first] == '}';
    var lb := LastIndexOfChar(b, '}');
    assert b[lb] == '}';
    forall i | lb < i < |b| ensures b[i] != '}' {
      assert b[i] == b[lb + 1..][i - lb - 1];
    }
    forall i | last < i < |c| ensures c[i] != '}' {
      assert c[i] == c[last + 1..][i - last - 1];
    }
    assert c[first + lb] == b[lb];
  }

  lemma SliceOfSuffix(c: string, i: nat, j: nat)
    requires i <= j <= |c|
    ensures c[i..][..j - i] == c[i..j]
  {
  }

  lemma CutBeforeIs(c: string, first: int)
    requires first == IndexOfChar(c, '{') && first >= 0
    ensures CutBeforeBrace(c) == c[first..]
  {
  }

  lemma CutAfterIs(b: string, lb: int)
    requires lb == LastIndexOfChar(b, '}') && lb >= 0
    ensures CutAfterBrace(b) == b[..lb + 1]
  {
  }

  lemma TrimBraced(a: string)
    requires |a| > 0 && a[0] == '{' && a[|a| - 1] == '}'
    ensures JsTrim(a) == a
  {
    StripByKeeps(a, IsJsWhitespace);
  }

  /**
   * With the first '{' before the last '}', the brace cuts and the trim keep
   * exactly the span from that '{' through that '}'; the text before and
   * after is dropped.
   */
  lemma TrimToBracesBraced(c: string, first: int, last: int)
    requires first == IndexOfChar(c, '{') && last == LastIndexOfChar(c, '}') && 0 <= first < last
    ensures TrimToBraces(c) == c[first..last + 1]
  {
    var b := CutBeforeBrace(c);
    CutBeforeIs(c, first);
    LastBraceOfSuffix(c, first, last);
    CutAfterIs(b, last - first);
    var a := CutAfterBrace(b);
    SliceOfSuffix(c, first, last + 1);
    assert a == c[first..last + 1];
    assert a[0] == '{' && a[|a| - 1] == '}';
    TrimBraced(a);
    assert TrimToBraces(c) == JsTrim(a);
  }

  /** A reply with no braces at all is only trimmed after its fences go. */
  lemma CleanResponseNoBraces(text: string)
    requires '{' !in RemoveFences(text) && '}' !in RemoveFences(text)
    ensures CleanResponse(text) == JsTrim(RemoveFences(text))
  {
  }

  /** Without a '{' the prefix is kept: the cleaned reply is the trimmed text up to its last '}', or all of it. */
  lemma CleanResponseKeepsPrefix(text: string)
    requires '{' !in RemoveFences(text)
    ensures exists k :: 0 <= k <= |RemoveFences(text)| && CleanResponse(text) == JsTrim(RemoveFences(text)[..k])
  {
    var c := RemoveFences(text);
    var last := LastIndexOfChar(c, '}');
    assert IndexOfChar(c, '{') == -1;
    assert CutBeforeBrace(c) == c;
    var k := if last == -1 then |c| else last + 1;
    assert CutAfterBrace(c) == c[..k];
    assert CleanResponse(text) == JsTrim(c[..k]);
  }

  // ------------------------------------------------------------ normalisation

  const MissingWeeksMessage: string := "Invalid roadmap structure: missing weeks array"
  const NoWeeksMessage: string := "Roadmap has no weeks"
  /** What precedes `JSON.parse`'s own error message when the reply does not parse. */
  const ParseFailurePrefix: string := "Failed to parse AI response: "
  /** A property read on null, or a property write on a primitive, throws a TypeError. */
  const TypeErrorMessage: string := "TypeError"

  /** `w{weekIdx+1}-t{topicIdx+1}` */
  function TopicId(w: nat, t: nat): string {
    "w" + NatToString(w + 1) + "-t" + NatToString(t + 1)
  }

  /** Distinct positions get distinct generated ids. */
  lemma TopicIdInjective(w1: nat, t1: nat, w2: nat, t2: nat)
    requires TopicId(w1, t1) == TopicId(w2, t2)
    ensures w1 == w2 && t1 == t2
  {
    var a := NatToString(w1 + 1);
    var b := NatToString(w2 + 1);
    var x := "w" + a + "-t" + NatToString(t1 + 1);
    var y := "w" + b + "-t" + NatToString(t2 + 1);
    DigitRunEnds(a, NatToString(t1 + 1), b, NatToString(t2 + 1));
    NatToStringInjective(w1 + 1, w2 + 1);
    NatToStringInjective(t1 + 1, t2 + 1);
  }

  lemma DigitRunEnds(a: string, c: string, b: string, d: string)
    requires |a| > 0 && |b| > 0
    requires forall i :: 0 <= i < |a| ==> IsDigit(a[i])
    requires forall i :: 0 <= i < |b| ==> IsDigit(b[i])
    requires "w" + a + "-t" + c == "w" + b + "-t" + d
    ensures a == b && c == d
  {
    var x := "w" + a + "-t" + c;
    var y := "w" + b + "-t" + d;
    assert x[|a| + 1] == '-' && y[|b| + 1] == '-';
    assert forall i :: 0 <= i < |b| ==> x[i + 1] == b[i];
    assert forall i :: 0 <= i < |a| ==> x[i + 1] == a[i];
    assert a == x[1..|a| + 1] == b;
    assert c == x[|a| + 3..] == d;
  }

  /** The topic fields after normalisation: a falsy id replaced, a non-array resources replaced by []. */
  function NormTopicFields(f: map<string, Json>, w: nat, t: nat): map<string, Json> {
    var withId := if "id" in f && Truthy(f["id"]) then f else f["id" := JStr(TopicId(w, t))];
    if "resources" in withId && withId["resources"].JArr? then withId else withId["resources" := JArr([])]
  }

  /** A topic: objects are normalised, arrays pass through (their added properties are not JSON), other values throw. */
  function NormTopic(topic: Json, w: nat, t: nat): Option<Json> {
    match topic
    case JObj(f) => Some(JObj(NormTopicFields(f, w, t)))
    case JArr(_) => Some(topic)
    case _ => None
  }

  /** The topics of a week object, [] when missing or not an array. */
  function TopicsOf(f: map<string, Json>): seq<Json> {
    if "topics" in f && f["topics"].JArr? then f["topics"].items else []
  }

  function NormTopics(topics: seq<Json>, w: nat): (r: Option<seq<Json>>)
    ensures r.Some? ==> |r.value| == |topics|
    ensures r.Some? <==> forall j :: 0 <= j < |topics| ==> NormTopic(topics[j], w, j).Some?
    ensures r.Some? ==> forall j :: 0 <= j < |topics| ==> r.value[j] == NormTopic(topics[j], w, j).value
  {
    if forall j :: 0 <= j < |topics| ==> NormTopic(topics[j], w, j).Some? then
      Some(seq(|topics|, j requires 0 <= j < |topics| => NormTopic(topics[j], w, j).value))
    else None
  }

  function NormWeek(week: Json, w: nat): Option<Json> {
    match week
    case JObj(f) =>
      (match NormTopics(TopicsOf(f), w)
       case Some(ts) => Some(JObj(f["topics" := JArr(ts)]))
       case None => None)
    case JArr(_) => Some(week)
    case _ => None
  }

  function NormWeeks(weeks: seq<Json>): (r: Option<seq<Json>>)
    ensures r.Some? ==> |r.value| == |weeks|
    ensures r.Some? <==> forall i :: 0 <= i < |weeks| ==> NormWeek(weeks[i], i).Some?
    ensures r.Some? ==> forall i :: 0 <= i < |weeks| ==> r.value[i] == NormWeek(weeks[i], i).value
  {
    if forall i :: 0 <= i < |weeks| ==> NormWeek(weeks[i], i).Some? then
      Some(seq(|weeks|, i requires 0 <= i < |weeks| => NormWeek(weeks[i], i).value))
    else None
  }

  /** The validation and normalisation `generateRoadmap` applies to the parsed reply. */
  function NormalizeRoadmap(roadmap: Json): Result<Json, string> {
    if roadmap.JNull? then Failure(TypeErrorMessage)
    else if !roadmap.JObj? || "weeks" !in roadmap.fields || !roadmap.fields["weeks"].JArr? then Failure(MissingWeeksMessage)
    else if |roadmap.fields["weeks"].items| == 0 then Failure(NoWeeksMessage)
    else
      match NormWeeks(roadmap.fields["weeks"].items)
      case Some(ws) => Success(JObj(roadmap.fields["weeks" := JArr(ws)]))
      case None => Failure(TypeErrorMessage)
  }

  /**
   * `generateRoadmap` after the model call: clean, parse, validate,
   * normalise. `parse` fails with the message of the `SyntaxError` that
   * `JSON.parse` throws.
   */
  function GenerateRoadmap(reply: string, parse: string -> Result<Json, string>): (r: Result<Json, string>)
    ensures parse(CleanResponse(reply)).Failure? ==>
      r.Failure? && StartsWith(r.error, ParseFailurePrefix)
      && r.error[|ParseFailurePrefix|..] == parse(CleanResponse(reply)).error
    ensures parse(CleanResponse(reply)).Success? ==> r == NormalizeRoadmap(parse(CleanResponse(reply)).value)
  {
    match parse(CleanResponse(reply))
    case Failure(m) => Failure(ParseFailurePrefix + m)
    case Success(roadmap) => NormalizeRoadmap(roadmap)
  }

  /**
   * A failure names a parse error exactly when the cleaned reply did not
   * parse; a success comes from a parsed object with a non-empty weeks array,
   * one normalised week per week.
   */
  lemma GenerateRoadmapCorrect(reply: string, parse: string -> Result<Json, string>)
    ensures var r := GenerateRoadmap(reply, parse);
      var p := parse(CleanResponse(reply));
      && (r.Failure? ==> (StartsWith(r.error, ParseFailurePrefix) <==> p.Failure?))
      && (r.Success? ==>
            && p.Success? && p.value.JObj? && "weeks" in p.value.fields && p.value.fields["weeks"].JArr?
            && |p.value.fields["weeks"].items| > 0
            && r.value.JObj? && "weeks" in r.value.fields && r.value.fields["weeks"].JArr?
            && |r.value.fields["weeks"].items| == |p.value.fields["weeks"].items|)
  {
    var p := parse(CleanResponse(reply));
    if p.Success? {
      if NormalizeRoadmap(p.value).Success? {
        NormalizeRoadmapCorrect(p.value);
      } else {
        NormalizeNotParseError(p.value);
      }
    }
  }

  /** No message of the validation reads as a parse failure. */
  lemma NormalizeNotParseError(roadmap: Json)
    ensures NormalizeRoadmap(roadmap).Failure? ==> !StartsWith(NormalizeRoadmap(roadmap).error, ParseFailurePrefix)
  {
    var n := NormalizeRoadmap(roadmap);
    if n.Failure? {
      assert n.error in {TypeErrorMessage, MissingWeeksMessage, NoWeeksMessage};
      assert ParseFailurePrefix[0] == 'F';
      assert TypeErrorMessage[0] == 'T';
      assert MissingWeeksMessage == "Invalid" + " roadmap structure: missing weeks array";
      assert MissingWeeksMessage[0] == "Invalid"[0] == 'I';
      assert NoWeeksMessage[0] == 'R';
    }
  }

  /** A roadmap without a non-empty weeks array is rejected, with the message `generateRoadmap` throws. */
  lemma RejectsMissingWeeks(roadmap: Json)
    ensures !roadmap.JNull? && (!roadmap.JObj? || "weeks" !in roadmap.fields || !roadmap.fields["weeks"].JArr?) ==>
      NormalizeRoadmap(roadmap) == Failure(MissingWeeksMessage)
    ensures roadmap.JObj? && "weeks" in roadmap.fields && roadmap.fields["weeks"] == JArr([]) ==>
      NormalizeRoadmap(roadmap) == Failure(NoWeeksMessage)
    ensures NormalizeRoadmap(roadmap).Success? ==>
      roadmap.JObj? && "weeks" in roadmap.fields && roadmap.fields["weeks"].JArr? && |roadmap.fields["weeks"].items| > 0
  {
  }

  /** What normalisation does to one topic object: ids kept when truthy, generated otherwise; resources defaulted; nothing else changes. */
  lemma NormTopicFieldsCorrect(f: map<string, Json>, w: nat, t: nat)
    ensures var g := NormTopicFields(f, w, t);
      && g.Keys == f.Keys + {"id", "resources"}
      && ("id" in f && Truthy(f["id"]) ==> g["id"] == f["id"])
      && (!("id" in f && Truthy(f["id"])) ==> g["id"] == JStr(TopicId(w, t)))
      && ("resources" in f && f["resources"].JArr? ==> g["resources"] == f["resources"])
      && (!("resources" in f && f["resources"].JArr?) ==> g["resources"] == JArr([]))
      && (forall k :: k in f && k != "id" && k != "resources" ==> g[k] == f[k])
      && Truthy(g["id"]) && g["resources"].JArr?
  {
    NatToStringNonEmpty(w, t);
  }

  lemma NatToStringNonEmpty(w: nat, t: nat)
    ensures |TopicId(w, t)| > 0
  {
  }

  /**
   * A successful normalisation keeps every other roadmap field, the number
   * of weeks, each week's other fields, and the number of topics of every
   * week whose topics were an array (others get []), and normalises each
   * topic object in place.
   */
  lemma NormalizeRoadmapCorrect(roadmap: Json)
    requires NormalizeRoadmap(roadmap).Success?
    ensures var out := NormalizeRoadmap(roadmap).value;
      var weeks := roadmap.fields["weeks"].items;
      && out.JObj? && out.fields.Keys == roadmap.fields.Keys
      && (forall k :: k in roadmap.fields && k != "weeks" ==> out.fields[k] == roadmap.fields[k])
      && out.fields["weeks"].JArr? && |out.fields["weeks"].items| == |weeks|
      && (forall i :: 0 <= i < |weeks| && weeks[i].JArr? ==> out.fields["weeks"].items[i] == weeks[i])
      && (forall i :: 0 <= i < |weeks| && weeks[i].JObj? ==> WeekNormalized(weeks[i].fields, out.fields["weeks"].items[i], i))
  {
    var weeks := roadmap.fields["weeks"].items;
    var ws := NormWeeks(weeks).value;
    forall i | 0 <= i < |weeks| && weeks[i].JObj?
      ensures WeekNormalized(weeks[i].fields, ws[i], i)
    {
      NormWeekCorrect(weeks[i].fields, i);
    }
  }

  /** A week object after normalisation, as the loop in `generateRoadmap` leaves it. */
  ghost predicate WeekNormalized(f: map<string, Json>, out: Json, w: nat) {
    var topics := TopicsOf(f);
    && out.JObj? && out.fields.Keys == f.Keys + {"topics"}
    && (forall k :: k in f && k != "topics" ==> out.fields[k] == f[k])
    && out.fields["topics"].JArr? && |out.fields["topics"].items| == |topics|
    && (forall j :: 0 <= j < |topics| && topics[j].JArr? ==> out.fields["topics"].items[j] == topics[j])
    && (forall j :: 0 <= j < |topics| && topics[j].JObj? ==>
          out.fields["topics"].items[j] == JObj(NormTopicFields(topics[j].fields, w, j)))
  }

  lemma NormWeekCorrect(f: map<string, Json>, w: nat)
    requires NormWeek(JObj(f), w).Some?
    ensures WeekNormalized(f, NormWeek(JObj(f), w).value, w)
  {
  }

  /** Normalising a normalised roadmap changes nothing more. */
  lemma NormTopicFieldsIdempotent(f: map<string, Json>, w: nat, t: nat)
    ensures NormTopicFields(NormTopicFields(f, w, t), w, t) == NormTopicFields(f, w, t)
  {
    NormTopicFieldsCorrect(f, w, t);
  }
}

=== FILE: roadmap_cache.dfy ===
/**
 * The browser's roadmap cache (`RoadmapCache`): entries kept in a
 * string-to-string store (localStorage) under a prefixed key, each holding
 * the serialised `{data, timestamp, key}` record, with a 30-day time to live.
 *
 * The clock is a parameter `now`; `JSON.parse` and `JSON.stringify` are
 * parameters `parse` and `serialize`; whether a write fits the storage
 * quota is a parameter. SHA-256 is abstracted as in the backend cache.
 */
module RoadmapCache {

  import opened Wrappers
  import opened Text
  import opened Json

  const CachePrefix: string := "roadmap_cache_"

  /** 30 days in milliseconds. */
  const CacheDuration: int := 30 * 24 * 60 * 60 * 1000

  type Store = map<string, string>

  /** `generateCacheKey` */
  function CacheKey(technology: string, duration: string, difficulty: string): string {
    Lower(technology + "-" + duration + "-" + difficulty)
  }

  /** The localStorage key of a request. */
  function StorageKey(technology: string, duration: string, difficulty: string): (k: string)
    ensures StartsWith(k, CachePrefix)
    ensures k[|CachePrefix|..] == CacheKey(technology, duration, difficulty)
  {
    CachePrefix + CacheKey(technology, duration, difficulty)
  }

  predicate Prefixed(key: string) {
    StartsWith(key, CachePrefix)
  }

  /**
   * `now - parsed.timestamp` when JavaScript's subtraction yields a number;
   * None stands for NaN (a missing timestamp, an object, a non-empty
   * string), which is never past the time to live.
   */
  function Age(parsed: Json, now: int): Option<real> {
    match Field(parsed, "timestamp")
    case Some(t) =>
      (match ToNumber(t)
       case Some(n) => Some(now as real - n)
       case None => None)
    case None => None
  }

  /** The coercions of an array timestamp: `[]` is 0, `[n]` and `[[n]]` are n, `[a, b]` is NaN. */
  lemma ArrayAge(parsed: Json, now: int, n: real, a: Json, b: Json)
    ensures Field(parsed, "timestamp") == Some(JArr([])) ==> Age(parsed, now) == Some(now as real)
    ensures Field(parsed, "timestamp") == Some(JArr([JNum(n)])) ==> Age(parsed, now) == Some(now as real - n)
    ensures Field(parsed, "timestamp") == Some(JArr([JArr([JNum(n)])])) ==> Age(parsed, now) == Some(now as real - n)
    ensures Field(parsed, "timestamp") == Some(JArr([a, b])) ==> Age(parsed, now) == None
  {
    assert ArrayNumber([JNum(n)]) == Some(n);
    assert ArrayNumber([JArr([JNum(n)])]) == ArrayNumber([JNum(n)]);
  }

  predicate ExpiredRecord(parsed: Json, now: int) {
    var age := Age(parsed, now);
    age.Some? && age.value > CacheDuration as real
  }

  /** `getCachedRoadmap`: the outcome of a read, and the store after it. */
  function GetCachedRoadmap(store: Store, technology: string, duration: string, difficulty: string, now: int,
                            parse: string -> Option<Json>): (r: (Store, Option<Json>))
    ensures r.0 == store || r.0 == store - {StorageKey(technology, duration, difficulty)}
  {
    var key := StorageKey(technology, duration, difficulty);
    if key !in store || |store[key]| == 0 then (store, None)
    else
      match parse(store[key])
      case None => (store, None)
      case Some(parsed) =>
        if parsed.JNull? then (store, None)
        else if ExpiredRecord(parsed, now) then (store - {key}, None)
        else (store, Field(parsed, "data"))
  }

  /**
   * A read misses on a missing key, an empty value or an unparsable value,
   * leaving the store alone; an expired record is removed and misses; any
   * other record yields its data field.
   */
  lemma GetCachedRoadmapCorrect(store: Store, technology: string, duration: string, difficulty: string, now: int,
                                parse: string -> Option<Json>)
    ensures var key := StorageKey(technology, duration, difficulty);
      var (after, got) := GetCachedRoadmap(store, technology, duration, difficulty, now, parse);
      && (key !in store ==> after == store && got == None)
      && (key in store && parse(store[key]).None? ==> after == store && got == None)
      && (key in store && |store[key]| > 0 && parse(store[key]).Some? && !parse(store[key]).value.JNull? ==>
            (ExpiredRecord(parse(store[key]).value, now) <==> after == store - {key} && after != store)
            && (ExpiredRecord(parse(store[key]).value, now) ==> got == None)
            && (!ExpiredRecord(parse(store[key]).value, now) ==> got == Field(parse(store[key]).value, "data")))
      && (got.Some? ==> key in store)
  {
    var key := StorageKey(technology, duration, difficulty);
    if key in store {
      assert key in store && key !in store - {key};
    }
  }

  /** The record `setCachedRoadmap` stores. */
  function Record(data: Json, now: int, cacheKey: string): Json {
    JObj(map["data" := data, "timestamp" := JNum(now as real), "key" := JStr(cacheKey)])
  }

  /** What becomes of a write to localStorage. */
  datatype WriteOutcome = Written | QuotaExceeded | OtherError

  /** `setCachedRoadmap`: store the serialised record; a quota error clears the expired entries instead. */
  function SetCachedRoadmap(store: Store, technology: string, duration: string, difficulty: string, data: Json, now: int,
                            serialize: Json -> string, parse: string -> Option<Json>, outcome: WriteOutcome): (r: Store)
    ensures outcome == Written ==>
      r == store[StorageKey(technology, duration, difficulty) := serialize(Record(data, now, CacheKey(technology, duration, difficulty)))]
    ensures outcome == QuotaExceeded ==> r == ClearExpiredCaches(store, now, parse)
    ensures outcome == OtherError ==> r == store
  {
    match outcome
    case Written => store[StorageKey(technology, duration, difficulty) := serialize(Record(data, now, CacheKey(technology, duration, difficulty)))]
    case QuotaExceeded => ClearExpiredCaches(store, now, parse)
    case OtherError => store
  }

  /** `removeCachedRoadmap` */
  function RemoveCachedRoadmap(store: Store, technology: string, duration: string, difficulty: string): (r: Store)
    ensures StorageKey(technology, duration, difficulty) !in r
    ensures forall k :: k != StorageKey(technology, duration, difficulty) ==> (k in r <==> k in store)
    ensures forall k :: k in r ==> r[k] == store[k]
  {
    store - {StorageKey(technology, duration, difficulty)}
  }

  /** A prefixed entry `clearExpiredCaches` removes: unparsable, null (whose field read throws), or expired. */
  predicate Stale(key: string, value: string, now: int, parse: string -> Option<Json>) {
    Prefixed(key) && |value| > 0 &&
    (parse(value).None? || parse(value).value.JNull? || ExpiredRecord(parse(value).value, now))
  }

  /** `clearExpiredCaches` */
  function ClearExpiredCaches(store: Store, now: int, parse: string -> Option<Json>): (r: Store)
    ensures forall k :: k in r <==> k in store && !Stale(k, store[k], now, parse)
    ensures forall k :: k in r ==> r[k] == store[k]
  {
    map k | k in store && !Stale(k, store[k], now, parse) :: store[k]
  }

  /** Clearing expired caches never touches a key without the prefix. */
  lemma ClearExpiredKeepsForeign(store: Store, now: int, parse: string -> Option<Json>, k: string)
    requires k in store && !Prefixed(k)
    ensures k in ClearExpiredCaches(store, now, parse) && ClearExpiredCaches(store, now, parse)[k] == store[k]
  {
  }

  /** `clearAllCaches`: all and only the prefixed keys go. */
  function ClearAllCaches(store: Store): (r: Store)
    ensures forall k :: k in r <==> k in store && !Prefixed(k)
    ensures forall k :: k in r ==> r[k] == store[k]
  {
    map k | k in store && !Prefixed(k) :: store[k]
  }

  /** The store's keys, each once, in localStorage's enumeration order. */
  predicate Enumerates(order: seq<string>, store: Store) {
    (forall i, j :: 0 <= i < j < |order| ==> order[i] != order[j]) &&
    (forall k :: k in order ==> k in store) && (forall k :: k in store ==> k in order)
  }

  /** The records `getAllCachedRoadmaps` collects from the keys in enumeration order. */
  function CollectRecords(order: seq<string>, store: Store, parse: string -> Option<Json>): (r: seq<Json>)
    requires forall k :: k in order ==> k in store
    ensures |r| <= |order|
  {
    if |order| == 0 then []
    else
      var k := order[|order| - 1];
      var pre := CollectRecords(order[..|order| - 1], store, parse);
      if Prefixed(k) && |store[k]| > 0 && parse(store[k]).Some? then pre + [parse(store[k]).value] else pre
  }

  function GetAllCachedRoadmaps(store: Store, order: seq<string>, parse: string -> Option<Json>): seq<Json>
    requires Enumerates(order, store)
  {
    CollectRecords(order, store, parse)
  }

  /** `x` is the parse of a non-empty value stored under a prefixed key listed in `order`. */
  ghost predicate StoredRecord(x: Json, order: seq<string>, store: Store, parse: string -> Option<Json>)
    requires forall k :: k in order ==> k in store
  {
    exists k :: k in order && Prefixed(k) && |store[k]| > 0 && parse(store[k]) == Some(x)
  }

  /** Every collected record is the parse of a non-empty value under a prefixed key. */
  lemma {:induction false} CollectRecordsSound(order: seq<string>, store: Store, parse: string -> Option<Json>)
    requires forall k :: k in order ==> k in store
    ensures forall j :: 0 <= j < |CollectRecords(order, store, parse)| ==>
      StoredRecord(CollectRecords(order, store, parse)[j], order, store, parse)
  {
    if |order| > 0 {
      var pre := order[..|order| - 1];
      var last := order[|order| - 1];
      assert forall k :: k in pre ==> k in order;
      CollectRecordsSound(pre, store, parse);
      var r := CollectRecords(order, store, parse);
      var rp := CollectRecords(pre, store, parse);
      forall j | 0 <= j < |r|
        ensures StoredRecord(r[j], order, store, parse)
      {
        if j < |rp| {
          assert r[j] == rp[j];
          assert StoredRecord(rp[j], pre, store, parse);
          var k :| k in pre && Prefixed(k) && |store[k]| > 0 && parse(store[k]) == Some(rp[j]);
          assert k in order;
        } else {
          assert r[j] == parse(store[last]).value;
          assert last in order;
        }
      }
    }
  }

  /** Each non-empty value under a prefixed key that parses is collected. */
  lemma {:induction false} CollectRecordsComplete(order: seq<string>, store: Store, parse: string -> Option<Json>)
    requires forall k :: k in order ==> k in store
    ensures forall k :: k in order && Prefixed(k) && |store[k]| > 0 && parse(store[k]).Some? ==>
      parse(store[k]).value in CollectRecords(order, store, parse)
  {
    if |order| > 0 {
      var pre := order[..|order| - 1];
      var last := order[|order| - 1];
      assert forall k :: k in pre ==> k in order;
      CollectRecordsComplete(pre, store, parse);
      assert forall k :: k in order ==> k in pre || k == last;
      var r := CollectRecords(order, store, parse);
      var rp := CollectRecords(pre, store, parse);
      forall k | k in order && Prefixed(k) && |store[k]| > 0 && parse(store[k]).Some?
        ensures parse(store[k]).value in r
      {
        if k != last {
          assert k in pre;
          assert parse(store[k]).value in rp;
        }
      }
    }
  }

  /**
   * Reading back a fresh write returns the written data, provided parsing
   * undoes serialising.
   */
  lemma SetThenGet(store: Store, technology: string, duration: string, difficulty: string, data: Json, stored: int, now: int,
                   serialize: Json -> string, parse: string -> Option<Json>)
    requires forall j :: parse(serialize(j)) == Some(j)
    requires now - stored <= CacheDuration
    requires |serialize(Record(data, stored, CacheKey(technology, duration, difficulty)))| > 0
    ensures var written := SetCachedRoadmap(store, technology, duration, difficulty, data, stored, serialize, parse, Written);
      GetCachedRoadmap(written, technology, duration, difficulty, now, parse) == (written, Some(data))
  {
    var rec := Record(data, stored, CacheKey(technology, duration, difficulty));
    assert parse(serialize(rec)) == Some(rec);
    assert Field(rec, "timestamp") == Some(JNum(stored as real));
  }

  /** Removing one request's entry leaves every other request's read as it was. */
  lemma RemoveIsolated(store: Store, t1: string, d1: string, f1: string, t2: string, d2: string, f2: string, now: int,
                       parse: string -> Option<Json>)
    requires StorageKey(t1, d1, f1) != StorageKey(t2, d2, f2)
    ensures GetCachedRoadmap(RemoveCachedRoadmap(store, t1, d1, f1), t2, d2, f2, now, parse).1
         == GetCachedRoadmap(store, t2, d2, f2, now, parse).1
  {
    var k := StorageKey(t2, d2, f2);
    var removed := RemoveCachedRoadmap(store, t1, d1, f1);
    assert (k in removed <==> k in store);
    if k in store { assert removed[k] == store[k]; }
  }
}

=== FILE: roadmap_cache_service.dfy ===
/**
 * The backend's in-memory roadmap cache (`RoadmapCacheService`): a map from
 * a request key to the cached data and the time it was stored, with a
 * 30-day time to live.
 *
 * The clock is a parameter `now` (milliseconds). SHA-256 is abstracted as
 * the identity on the lower-cased joined string: the model keeps the
 * property that matters, that equal joined strings give equal keys, and
 * treats different joined strings as different keys (no hash collisions).
 */
module RoadmapCacheService {

  import opened Wrappers
  import opened Text

  /** 30 days in milliseconds. */
  const CacheDuration: int := 30 * 24 * 60 * 60 * 1000

  datatype Entry<D> = Entry(data: D, timestamp: int)

  type Cache<D> = map<string, Entry<D>>

  /** `generateCacheKey`: the hash of `technology-duration-difficulty`, lower-cased. */
  function CacheKey(technology: string, duration: string, difficulty: string): string {
    Lower(technology + "-" + duration + "-" + difficulty)
  }

  /** Keys ignore ASCII case. */
  lemma CacheKeyIgnoresCase(technology: string, duration: string, difficulty: string)
    ensures CacheKey(Lower(technology), Lower(duration), Lower(difficulty)) == CacheKey(technology, duration, difficulty)
    ensures CacheKey(Upper(technology), duration, difficulty) == CacheKey(technology, duration, difficulty)
  {
    LowerConcat(technology, "-");
    LowerConcat(technology + "-", duration);
    LowerConcat(technology + "-" + duration, "-");
    LowerConcat(technology + "-" + duration + "-", difficulty);
    LowerConcat(Lower(technology), "-");
    LowerConcat(Lower(technology) + "-", Lower(duration));
    LowerConcat(Lower(technology) + "-" + Lower(duration), "-");
    LowerConcat(Lower(technology) + "-" + Lower(duration) + "-", Lower(difficulty));
    LowerIdempotent(technology);
    LowerIdempotent(duration);
    LowerIdempotent(difficulty);
    LowerUpper(technology);
    LowerConcat(Upper(technology), "-");
    LowerConcat(Upper(technology) + "-", duration);
    LowerConcat(Upper(technology) + "-" + duration, "-");
    LowerConcat(Upper(technology) + "-" + duration + "-", difficulty);
  }

  lemma LowerUpper(s: string)
    ensures Lower(Upper(s)) == Lower(s)
  {
  }

  /** Requests whose fields join to the same text share one key, however the dashes split them. */
  lemma CacheKeySplitsCollide()
    ensures CacheKey("a-b", "c", "d") == CacheKey("a", "b-c", "d")
  {
    assert "a-b" + "-" + "c" + "-" + "d" == "a" + "-" + "b-c" + "-" + "d";
  }

  /** The age of an entry at time `now` is past the time to live. */
  predicate Expired<D>(e: Entry<D>, now: int) {
    now - e.timestamp > CacheDuration
  }

  /** `get`: the data when present and fresh; an expired entry is deleted. */
  function Get<D>(cache: Cache<D>, technology: string, duration: string, difficulty: string, now: int): (r: (Cache<D>, Option<D>))
    ensures var key := CacheKey(technology, duration, difficulty);
      && (key !in cache ==> r == (cache, None))
      && (key in cache && Expired(cache[key], now) ==> r == (cache - {key}, None))
      && (key in cache && !Expired(cache[key], now) ==> r == (cache, Some(cache[key].data)))
  {
    var key := CacheKey(technology, duration, difficulty);
    if key !in cache then (cache, None)
    else if now - cache[key].timestamp > CacheDuration then (cache - {key}, None)
    else (cache, Some(cache[key].data))
  }

  /** `set`: the entry for the key is replaced with the data, stamped now. */
  function Set<D>(cache: Cache<D>, technology: string, duration: string, difficulty: string, data: D, now: int): (r: Cache<D>)
    ensures r.Keys == cache.Keys + {CacheKey(technology, duration, difficulty)}
    ensures r[CacheKey(technology, duration, difficulty)] == Entry(data, now)
    ensures forall k :: k in cache && k != CacheKey(technology, duration, difficulty) ==> r[k] == cache[k]
  {
    cache[CacheKey(technology, duration, difficulty) := Entry(data, now)]
  }

  function Clear<D>(cache: Cache<D>): (r: Cache<D>)
    ensures |r| == 0
  {
    map[]
  }

  function Size<D>(cache: Cache<D>): nat {
    |cache|
  }

  /** `clearExpired`: the entries past the time to live, and only those, are removed. */
  function ClearExpired<D>(cache: Cache<D>, now: int): (r: Cache<D>)
    ensures forall k :: k in r <==> k in cache && !Expired(cache[k], now)
    ensures forall k :: k in r ==> r[k] == cache[k]
  {
    map k | k in cache && !Expired(cache[k], now) :: cache[k]
  }

  /**
   * Within the time to live a get returns what the last set stored, and an
   * entry exactly 30 days old is still a hit; one millisecond later it is
   * gone and the get misses.
   */
  lemma SetThenGet<D>(cache: Cache<D>, technology: string, duration: string, difficulty: string, data: D, stored: int, now: int)
    ensures now - stored <= CacheDuration ==>
      Get(Set(cache, technology, duration, difficulty, data, stored), technology, duration, difficulty, now).1 == Some(data)
    ensures now - stored > CacheDuration ==>
      Get(Set(cache, technology, duration, difficulty, data, stored), technology, duration, difficulty, now).1 == None
    ensures Get(Set(cache, technology, duration, difficulty, data, stored), technology, duration, difficulty, stored + CacheDuration).1 == Some(data)
  {
  }

  /** A second set for the same key overwrites the first: data and timestamp. */
  lemma SetOverwrites<D>(cache: Cache<D>, technology: string, duration: string, difficulty: string, a: D, b: D, t1: int, t2: int)
    ensures Set(Set(cache, technology, duration, difficulty, a, t1), technology, duration, difficulty, b, t2)
         == Set(cache, technology, duration, difficulty, b, t2)
  {
  }

  /** After clear the size is 0; a get never increases the size. */
  lemma SizeFacts<D>(cache: Cache<D>, technology: string, duration: string, difficulty: string, now: int)
    ensures Size(Clear(cache)) == 0
    ensures Size(Get(cache, technology, duration, difficulty, now).0) <= Size(cache)
  {
    var key := CacheKey(technology, duration, difficulty);
    if key in cache && Expired(cache[key], now) {
      assert |cache - {key}| == |cache| - 1;
    }
  }

  /** Clearing expired entries never removes an entry a get would still return. */
  lemma ClearExpiredKeepsHits<D>(cache: Cache<D>, technology: string, duration: string, difficulty: string, now: int)
    ensures Get(ClearExpired(cache, now), technology, duration, difficulty, now).1 == Get(cache, technology, duration, difficulty, now).1
  {
  }
}

=== FILE: roadmap_view.dfy ===
/**
 * The roadmap page: expanding weeks, ticking topics off (and the progress
 * upsert that syncs a tick), the progress loaded from the database, the
 * counters, and the resource type badges.
 *
 * Local storage and the network are left out: the stored and fetched values
 * are parameters, and the sync is returned as the body it would post.
 */
module RoadmapView {

  import opened Wrappers
  import opened Sorting
  import opened Lists
  import opened JsMath

  datatype Week = Week(topics: seq<string>)

  // ------------------------------------------------------------- the weeks

  /** `toggleWeek`: open a closed week at the end of the list, or close an open one. */
  function ToggleWeek(expanded: seq<int>, w: int): (r: seq<int>)
    ensures w in r <==> w !in expanded
    ensures forall x :: x != w ==> (x in r <==> x in expanded)
  {
    if w in expanded then
      var keep := (x: int) => x != w;
      forall x | x in expanded && keep(x) ensures x in Filter(expanded, keep) {
        FilterMember(expanded, keep, x);
      }
      Filter(expanded, keep)
    else expanded + [w]
  }

  /** Toggling a week twice restores which weeks are open, and the very list when it starts closed. */
  lemma ToggleWeekTwice(expanded: seq<int>, w: int)
    ensures forall x :: x in ToggleWeek(ToggleWeek(expanded, w), w) <==> x in expanded
    ensures w !in expanded ==> ToggleWeek(ToggleWeek(expanded, w), w) == expanded
  {
    if w !in expanded {
      var keep := (x: int) => x != w;
      FilterAll(expanded, keep);
      FilterSnocDrop(expanded, w, keep);
    }
  }

  lemma {:induction false} FilterSnocDrop(s: seq<int>, w: int, p: int -> bool)
    requires !p(w)
    ensures Filter(s + [w], p) == Filter(s, p)
  {
    if |s| > 0 {
      assert (s + [w])[1..] == s[1..] + [w];
      FilterSnocDrop(s[1..], w, p);
    } else {
      assert (s + [w])[1..] == [];
    }
  }

  // ------------------------------------------------------------ the topics

  /** The body posted to `/api/roadmap/progress`. */
  datatype Sync = Sync(userId: string, roadmapId: string, topicId: string, completed: bool)

  /** A stored id is truthy when present and non-empty. */
  predicate Truthy(v: Option<string>) { v.Some? && v.value != "" }

  /**
   * `toggleComplete`: flip the topic and, when both ids are known, the
   * upsert that records the new state.
   */
  function ToggleComplete(completed: set<string>, topicId: string, dbUserId: Option<string>,
                          roadmapId: Option<string>): (r: (set<string>, Option<Sync>))
    ensures topicId in r.0 <==> topicId !in completed
    ensures forall t :: t != topicId ==> (t in r.0 <==> t in completed)
    ensures r.1.Some? <==> Truthy(dbUserId) && Truthy(roadmapId)
    ensures r.1.Some? ==> r.1.value == Sync(dbUserId.value, roadmapId.value, topicId, topicId in r.0)
  {
    var isCompleting := topicId !in completed;
    var next := if isCompleting then completed + {topicId} else completed - {topicId};
    (next, if Truthy(dbUserId) && Truthy(roadmapId)
           then Some(Sync(dbUserId.value, roadmapId.value, topicId, isCompleting)) else None)
  }

  /** Two ticks of the same topic cancel out, and post opposite states. */
  lemma ToggleCompleteTwice(completed: set<string>, topicId: string, dbUserId: Option<string>, roadmapId: Option<string>)
    ensures var (once, s1) := ToggleComplete(completed, topicId, dbUserId, roadmapId);
      var (twice, s2) := ToggleComplete(once, topicId, dbUserId, roadmapId);
      twice == completed && (s1.Some? ==> s2.Some? && s2.value.completed == !s1.value.completed)
  {
  }

  /** A record of the progress listing. */
  datatype Record = Record(topicId: string, completed: bool)

  /** `completedTopicIds`: the completed records' topic ids, in order. */
  function CompletedTopicIds(progress: seq<Record>): (r: seq<string>)
    ensures |r| <= |progress|
  {
    if |progress| == 0 then []
    else CompletedTopicIds(progress[..|progress| - 1])
         + (if progress[|progress| - 1].completed then [progress[|progress| - 1].topicId] else [])
  }

  /** `loadProgressFromDatabase`: the set of topics with a completed record. */
  function LoadFromDatabase(progress: seq<Record>): set<string> {
    set t | t in CompletedTopicIds(progress)
  }

  lemma {:induction false} LoadFromDatabaseCorrect(progress: seq<Record>, t: string)
    ensures t in LoadFromDatabase(progress) <==> Record(t, true) in progress
  {
    if |progress| > 0 {
      var pre := progress[..|progress| - 1];
      LoadFromDatabaseCorrect(pre, t);
      assert progress == pre + [progress[|progress| - 1]];
      assert Record(t, true) in progress <==> Record(t, true) in pre || Record(t, true) == progress[|progress| - 1];
    }
  }

  // ---------------------------------------------------------- the counters

  /** `totalTopics`: the topics of all weeks. */
  function TotalTopics(weeks: seq<Week>): nat {
    if |weeks| == 0 then 0 else TotalTopics(weeks[..|weeks| - 1]) + |weeks[|weeks| - 1].topics|
  }

  /** Every topic id of the roadmap, week by week. */
  function AllTopics(weeks: seq<Week>): seq<string> {
    if |weeks| == 0 then [] else AllTopics(weeks[..|weeks| - 1]) + weeks[|weeks| - 1].topics
  }

  /** `weekCompletedTopics` */
  function WeekCompleted(w: Week, completed: set<string>): (n: nat)
    ensures n <= |w.topics|
  {
    CountIf(w.topics, (t: string) => t in completed)
  }

  function SumWeekCompleted(weeks: seq<Week>, completed: set<string>): nat {
    if |weeks| == 0 then 0
    else SumWeekCompleted(weeks[..|weeks| - 1], completed) + WeekCompleted(weeks[|weeks| - 1], completed)
  }

  /** `Math.round((k / n) * 100)`; `NaN` for an empty whole. The part may exceed the whole. */
  function Ratio(k: nat, n: nat): (r: Option<int>)
    ensures r.Some? <==> n > 0
    ensures r.Some? ==> PercentOf(r.value, k, n)
    ensures n > 0 && k <= n ==> r == Some(Percent(k, n))
  {
    if n == 0 then None else Some(RoundedShare(k, n))
  }

  datatype Counters = Counters(total: nat, done: nat, remaining: int, percentage: Option<int>)

  /** The overall progress card: `completedTopics` is the size of the whole set. */
  function Overall(weeks: seq<Week>, completed: set<string>): (c: Counters)
    ensures c.done + c.remaining == c.total
  {
    var total := TotalTopics(weeks);
    Counters(total, |completed|, total - |completed|, Ratio(|completed|, total))
  }

  lemma {:induction false} TotalIsAllTopics(weeks: seq<Week>)
    ensures TotalTopics(weeks) == |AllTopics(weeks)|
  {
    if |weeks| > 0 {
      TotalIsAllTopics(weeks[..|weeks| - 1]);
    }
  }

  lemma {:induction false} SumIsCount(weeks: seq<Week>, completed: set<string>)
    ensures SumWeekCompleted(weeks, completed) == CountIf(AllTopics(weeks), (t: string) => t in completed)
  {
    if |weeks| > 0 {
      SumIsCount(weeks[..|weeks| - 1], completed);
      CountIfConcat(AllTopics(weeks[..|weeks| - 1]), weeks[|weeks| - 1].topics, (t: string) => t in completed);
    }
  }

  /** The members of `completed` among `s`. */
  function Among(s: seq<string>, completed: set<string>): set<string> {
    set t | t in s && t in completed
  }

  lemma {:induction false} CountDistinct(s: seq<string>, completed: set<string>)
    requires Distinct(s)
    ensures CountIf(s, (t: string) => t in completed) == |Among(s, completed)|
  {
    if |s| > 0 {
      var pre := s[..|s| - 1];
      var x := s[|s| - 1];
      assert Distinct(pre);
      CountDistinct(pre, completed);
      assert x !in pre by {
        forall k | 0 <= k < |pre| ensures pre[k] != x {
          assert pre[k] == s[k];
        }
      }
      assert s == pre + [x];
      if x in completed {
        assert Among(s, completed) == Among(pre, completed) + {x};
      } else {
        assert Among(s, completed) == Among(pre, completed);
      }
    }
  }

  /**
   * When no topic id repeats and every ticked id belongs to this roadmap,
   * the overall count is the sum of the week counts, never above the total,
   * and the percentage is between 0 and 100.
   */
  lemma ConsistentCounters(weeks: seq<Week>, completed: set<string>)
    requires Distinct(AllTopics(weeks))
    requires forall t :: t in completed ==> t in AllTopics(weeks)
    ensures var c := Overall(weeks, completed);
      && c.done == SumWeekCompleted(weeks, completed)
      && c.done <= c.total && c.remaining >= 0
      && (c.percentage.Some? ==> 0 <= c.percentage.value <= 100)
  {
    SumIsCount(weeks, completed);
    CountDistinct(AllTopics(weeks), completed);
    assert Among(AllTopics(weeks), completed) == completed;
    TotalIsAllTopics(weeks);
  }

  /**
   * The ticked set is not narrowed to the roadmap's topics, so ids left from
   * another roadmap count: one topic with two ticked ids shows 2 of 1 done,
   * -1 remaining and 200%.
   */
  lemma ForeignTicksOvercount()
    ensures var c := Overall([Week(["a"])], {"a", "b"});
      c.total == 1 && c.done == 2 && c.remaining == -1 && c.percentage == Some(200)
  {
    assert [Week(["a"])][..0] == [];
    assert |{"a", "b"}| == 2;
  }

  // ---------------------------------------------------------- the badges

  datatype Icon = VideoIcon | BookIcon | CodeIcon | TargetIcon | FileIcon

  /** `getTypeIcon` */
  function TypeIcon(kind: string): Icon {
    if kind == "video" then VideoIcon
    else if kind == "reading" then BookIcon
    else if kind == "practice" then CodeIcon
    else if kind == "project" then TargetIcon
    else FileIcon
  }

  const DefaultColour := "text-white/60 bg-white/5 border-white/10"

  /** `getTypeColor` */
  function TypeColour(kind: string): string {
    if kind == "video" then "text-red-400 bg-red-400/10 border-red-400/20"
    else if kind == "reading" then "text-blue-400 bg-blue-400/10 border-blue-400/20"
    else if kind == "practice" then "text-green-400 bg-green-400/10 border-green-400/20"
    else if kind == "project" then "text-purple-400 bg-purple-400/10 border-purple-400/20"
    else DefaultColour
  }

  /** The five colour classes differ in length, which tells them apart. */
  lemma ColourLength(kind: string)
    ensures |TypeColour(kind)| == match TypeIcon(kind)
      case VideoIcon => 44
      case BookIcon => 47
      case CodeIcon => 50
      case TargetIcon => 53
      case FileIcon => 40
  {
  }

  /** Only a type outside the four known ones gets the fallback icon, and exactly it gets the fallback colour. */
  lemma FallbackBadges(a: string)
    ensures TypeIcon(a) == FileIcon <==> TypeColour(a) == DefaultColour
    ensures TypeIcon(a) == FileIcon <==> a !in ["video", "reading", "practice", "project"]
  {
    ColourLength(a);
  }

  /** The two badges agree: each known type has its own icon and colour, any other type the fallbacks of both. */
  lemma BadgesAgree(a: string, b: string)
    ensures TypeIcon(a) == FileIcon <==> TypeColour(a) == DefaultColour
    ensures TypeIcon(a) == FileIcon <==> a !in ["video", "reading", "practice", "project"]
    ensures TypeIcon(a) == TypeIcon(b) <==> TypeColour(a) == TypeColour(b)
  {
    FallbackBadges(a);
    if TypeColour(a) == TypeColour(b) {
      ColourLength(a);
      ColourLength(b);
    }
    if TypeIcon(a) == TypeIcon(b) {
      SameIconSameColour(a, b);
    }
  }

  /** Types with one icon have one colour. */
  lemma SameIconSameColour(a: string, b: string)
    requires TypeIcon(a) == TypeIcon(b)
    ensures TypeColour(a) == TypeColour(b)
  {
  }
}

=== FILE: skill_matcher.dfy ===
/**
 * Semantic skill extraction (`extract_skills`).
 *
 * The sentence-embedding model is not modelled: the similarity between chunk
 * `i` and entry `j` of the skills database is a parameter `sim(i, j)`. What is
 * modelled is everything around it: how the resume text is cut into chunks,
 * which (chunk, skill) pairs count as a match, how the best match per skill
 * name is kept, and the final ordering and cut-off.
 */
module SkillMatcher {

  import opened Text
  import Sorting

  const DefaultThreshold: real := 0.55
  const MinChunkExclusive: nat := 10
  const MaxChunkExclusive: nat := 500
  const ContextLength: nat := 150
  const MaxSkills: nat := 25

  datatype Skill = Skill(skill: string, confidence: real, context: string)

  /** One (chunk, database entry) pair in the order the nested loops visit it. */
  datatype Candidate = Candidate(name: string, score: real, chunk: string)

  // ---------------------------------------------------------------- chunking

  /** The raw pieces: newlines become ". ", then the text is split on ". ". */
  function Pieces(text: string): (ps: seq<string>)
    ensures |ps| >= 1
    ensures forall p :: p in ps ==> '\n' !in p
  {
    var joined := ReplaceAll(text, "\n", ". ");
    ReplaceAllRemoves(text, '\n', ". ");
    SplitKeepsOut(joined, ". ", '\n');
    Split(joined, ". ")
  }

  predicate KeptChunk(c: string) { MinChunkExclusive < |c| < MaxChunkExclusive }

  /** Strips every piece and keeps those strictly between 10 and 500 characters, in order. */
  function KeepChunks(ps: seq<string>): (cs: seq<string>)
    ensures |cs| <= |ps|
    ensures forall c :: c in cs <==> exists p :: p in ps && c == PyStrip(p) && KeptChunk(c)
  {
    if |ps| == 0 then []
    else
      var c := PyStrip(ps[0]);
      var rest := KeepChunks(ps[1..]);
      assert forall p :: p in ps <==> p == ps[0] || p in ps[1..];
      if KeptChunk(c) then [c] + rest else rest
  }

  /** A single piece is kept, stripped, exactly when its stripped length is admissible. */
  lemma KeepChunksOne(p: string)
    ensures KeepChunks([p]) == if KeptChunk(PyStrip(p)) then [PyStrip(p)] else []
  {
    assert [p][1..] == [];
  }

  /** The chunks of two runs of pieces are the chunks of the first, then those of the second: order and repeats are kept. */
  lemma {:induction false} KeepChunksConcat(a: seq<string>, b: seq<string>)
    ensures KeepChunks(a + b) == KeepChunks(a) + KeepChunks(b)
  {
    if |a| > 0 {
      assert (a + b)[0] == a[0];
      assert (a + b)[1..] == a[1..] + b;
      KeepChunksConcat(a[1..], b);
    }
    else {
      assert a + b == b;
    }
  }

  function Chunks(text: string): seq<string> {
    KeepChunks(Pieces(text))
  }

  /** Every chunk has a length strictly between the bounds and no newline. */
  lemma ChunksShape(text: string)
    ensures forall c :: c in Chunks(text) ==> KeptChunk(c) && '\n' !in c
  {
    forall c | c in Chunks(text) ensures KeptChunk(c) && '\n' !in c {
      var p :| p in Pieces(text) && c == PyStrip(p) && KeptChunk(c);
      StripByKeepsOut(p, IsPyWhitespace, '\n');
    }
  }

  // ---------------------------------------------------------------- matching

  /** The candidates of chunk `i`, one per database entry, in database order. */
  function Row(chunks: seq<string>, db: seq<string>, sim: (nat, nat) -> real, i: nat): (r: seq<Candidate>)
    requires i < |chunks|
    ensures |r| == |db|
    ensures forall j :: 0 <= j < |db| ==> r[j] == Candidate(db[j], sim(i, j), chunks[i])
  {
    seq(|db|, j requires 0 <= j < |db| => Candidate(db[j], sim(i, j), chunks[i]))
  }

  /** All candidates of the first `n` chunks, chunk by chunk. */
  function Grid(chunks: seq<string>, db: seq<string>, sim: (nat, nat) -> real, n: nat): (g: seq<Candidate>)
    requires n <= |chunks|
    ensures |g| == n * |db|
    ensures forall c :: c in g <==> exists i, j :: 0 <= i < n && 0 <= j < |db| && c == Row(chunks, db, sim, i)[j]
  {
    if n == 0 then []
    else
      var g := Grid(chunks, db, sim, n - 1);
      var row := Row(chunks, db, sim, n - 1);
      assert forall c :: c in row <==> exists j :: 0 <= j < |db| && c == row[j];
      g + row
  }

  function Context(chunk: string): (r: string)
    ensures |r| <= ContextLength && r <= chunk
  {
    Sorting.Take(chunk, ContextLength)
  }

  /** The position of the entry for `name`, or -1 when there is none. */
  function Find(acc: seq<Skill>, name: string): (k: int)
    ensures -1 <= k < |acc|
    ensures k >= 0 ==> acc[k].skill == name
    ensures k == -1 <==> forall m :: 0 <= m < |acc| ==> acc[m].skill != name
  {
    if |acc| == 0 then -1
    else if acc[|acc| - 1].skill == name then |acc| - 1
    else Find(acc[..|acc| - 1], name)
  }

  /** One step of the loop: a candidate above the threshold enters, or replaces a strictly weaker entry. */
  function Absorb(acc: seq<Skill>, c: Candidate, threshold: real): seq<Skill> {
    if c.score <= threshold then acc
    else
      var k := Find(acc, c.name);
      var e := Skill(c.name, c.score, Context(c.chunk));
      if k == -1 then acc + [e]
      else if c.score > acc[k].confidence then acc[k := e]
      else acc
  }

  /** The dictionary's values after visiting `cands` in order (insertion order is kept). */
  function Matched(cands: seq<Candidate>, threshold: real): seq<Skill>
  {
    if |cands| == 0 then []
    else Absorb(Matched(cands[..|cands| - 1], threshold), cands[|cands| - 1], threshold)
  }

  /**
   * `e` is the outcome of the first candidate, at position `k`, that reaches
   * the maximal score for its name: every earlier candidate of that name
   * scored strictly less and no later one scored more.
   */
  predicate WinsAt(cands: seq<Candidate>, k: int, e: Skill) {
    && 0 <= k < |cands|
    && cands[k].name == e.skill
    && cands[k].score == e.confidence
    && e.context == Context(cands[k].chunk)
    && (forall m :: 0 <= m < k && cands[m].name == e.skill ==> cands[m].score < e.confidence)
    && (forall m :: k < m < |cands| && cands[m].name == e.skill ==> cands[m].score <= e.confidence)
  }

  predicate HasHit(cands: seq<Candidate>, name: string, threshold: real) {
    exists m :: 0 <= m < |cands| && cands[m].name == name && cands[m].score > threshold
  }

  predicate UniqueNames(acc: seq<Skill>) {
    forall a, b :: 0 <= a < b < |acc| ==> acc[a].skill != acc[b].skill
  }

  /** What the dictionary holds after any prefix of the loop. */
  ghost predicate MatchedInvariant(cands: seq<Candidate>, acc: seq<Skill>, threshold: real) {
    && UniqueNames(acc)
    && (forall e :: e in acc ==> e.confidence > threshold && exists k :: WinsAt(cands, k, e))
    && (forall name :: HasHit(cands, name, threshold) <==> Find(acc, name) >= 0)
  }

  lemma HitExtend(cands: seq<Candidate>, c: Candidate, name: string, threshold: real)
    ensures HasHit(cands + [c], name, threshold)
        <==> HasHit(cands, name, threshold) || (c.name == name && c.score > threshold)
  {
    var cs := cands + [c];
    if HasHit(cs, name, threshold) && !(c.name == name && c.score > threshold) {
      var m :| 0 <= m < |cs| && cs[m].name == name && cs[m].score > threshold;
      assert m < |cands| && cands[m] == cs[m];
    }
    if HasHit(cands, name, threshold) {
      var m :| 0 <= m < |cands| && cands[m].name == name && cands[m].score > threshold;
      assert cs[m] == cands[m];
    }
    if c.name == name && c.score > threshold {
      assert cs[|cands|] == c;
    }
  }

  /** A candidate that does not beat an entry leaves its winner in place. */
  lemma WinsExtend(cands: seq<Candidate>, c: Candidate, k: int, e: Skill)
    requires WinsAt(cands, k, e)
    requires c.name != e.skill || c.score <= e.confidence
    ensures WinsAt(cands + [c], k, e)
  {
    var cs := cands + [c];
    assert forall m :: 0 <= m < |cands| ==> cs[m] == cands[m];
  }

  /** A candidate strictly above every earlier one of its name wins. */
  lemma WinsNew(cands: seq<Candidate>, c: Candidate)
    requires forall m :: 0 <= m < |cands| && cands[m].name == c.name ==> cands[m].score < c.score
    ensures WinsAt(cands + [c], |cands|, Skill(c.name, c.score, Context(c.chunk)))
  {
    var cs := cands + [c];
    assert forall m :: 0 <= m < |cands| ==> cs[m] == cands[m];
  }

  lemma AbsorbUnchanged(cands: seq<Candidate>, acc: seq<Skill>, c: Candidate, threshold: real)
    requires MatchedInvariant(cands, acc, threshold)
    requires c.score <= threshold || (Find(acc, c.name) >= 0 && c.score <= acc[Find(acc, c.name)].confidence)
    ensures MatchedInvariant(cands + [c], acc, threshold)
  {
    forall e | e in acc ensures exists k :: WinsAt(cands + [c], k, e) {
      var w :| WinsAt(cands, w, e);
      if e.skill == c.name && c.score > threshold {
        var a :| 0 <= a < |acc| && acc[a] == e;
        assert a == Find(acc, c.name);
      }
      WinsExtend(cands, c, w, e);
    }
    forall name ensures HasHit(cands + [c], name, threshold) <==> Find(acc, name) >= 0 {
      HitExtend(cands, c, name, threshold);
    }
  }

  lemma AbsorbAppend(cands: seq<Candidate>, acc: seq<Skill>, c: Candidate, threshold: real)
    requires MatchedInvariant(cands, acc, threshold)
    requires c.score > threshold && Find(acc, c.name) == -1
    ensures MatchedInvariant(cands + [c], acc + [Skill(c.name, c.score, Context(c.chunk))], threshold)
  {
    var e := Skill(c.name, c.score, Context(c.chunk));
    var acc' := acc + [e];
    assert !HasHit(cands, c.name, threshold);
    WinsNew(cands, c);
    forall e2 | e2 in acc ensures exists k :: WinsAt(cands + [c], k, e2) {
      var w :| WinsAt(cands, w, e2);
      WinsExtend(cands, c, w, e2);
    }
    forall name ensures HasHit(cands + [c], name, threshold) <==> Find(acc', name) >= 0 {
      HitExtend(cands, c, name, threshold);
      assert forall m :: 0 <= m < |acc'| ==> (acc'[m].skill == name <==> (m < |acc| && acc[m].skill == name) || (m == |acc| && c.name == name));
    }
  }

  lemma ReplaceNames(acc: seq<Skill>, k: nat, e: Skill, name: string)
    requires UniqueNames(acc) && k < |acc| && acc[k].skill == e.skill
    ensures UniqueNames(acc[k := e])
    ensures (Find(acc[k := e], name) >= 0) == (Find(acc, name) >= 0)
  {
    var acc' := acc[k := e];
    assert forall m :: 0 <= m < |acc'| ==> acc'[m].skill == acc[m].skill;
  }

  lemma ReplaceEntries(cands: seq<Candidate>, acc: seq<Skill>, c: Candidate, threshold: real)
    requires MatchedInvariant(cands, acc, threshold)
    requires c.score > threshold && Find(acc, c.name) >= 0 && c.score > acc[Find(acc, c.name)].confidence
    ensures var acc' := acc[Find(acc, c.name) := Skill(c.name, c.score, Context(c.chunk))];
      forall e2 :: e2 in acc' ==> e2.confidence > threshold && exists k2 :: WinsAt(cands + [c], k2, e2)
  {
    var k := Find(acc, c.name);
    var e := Skill(c.name, c.score, Context(c.chunk));
    var acc' := acc[k := e];
    var old_e := acc[k];
    assert old_e in acc;
    var w :| WinsAt(cands, w, old_e);
    WinsNew(cands, c);
    forall e2 | e2 in acc' ensures e2.confidence > threshold && exists k2 :: WinsAt(cands + [c], k2, e2) {
      var a :| 0 <= a < |acc'| && acc'[a] == e2;
      if a != k {
        assert acc[a] == e2 && e2 in acc;
        var w2 :| WinsAt(cands, w2, e2);
        WinsExtend(cands, c, w2, e2);
      }
    }
  }

  lemma AbsorbReplace(cands: seq<Candidate>, acc: seq<Skill>, c: Candidate, threshold: real)
    requires MatchedInvariant(cands, acc, threshold)
    requires c.score > threshold && Find(acc, c.name) >= 0 && c.score > acc[Find(acc, c.name)].confidence
    ensures MatchedInvariant(cands + [c], acc[Find(acc, c.name) := Skill(c.name, c.score, Context(c.chunk))], threshold)
  {
    var k := Find(acc, c.name);
    var e := Skill(c.name, c.score, Context(c.chunk));
    var acc' := acc[k := e];
    ReplaceEntries(cands, acc, c, threshold);
    ReplaceNames(acc, k, e, c.name);
    forall name ensures HasHit(cands + [c], name, threshold) <==> Find(acc', name) >= 0 {
      HitExtend(cands, c, name, threshold);
      ReplaceNames(acc, k, e, name);
    }
  }

  lemma AbsorbKeeps(cands: seq<Candidate>, acc: seq<Skill>, c: Candidate, threshold: real)
    requires MatchedInvariant(cands, acc, threshold)
    ensures MatchedInvariant(cands + [c], Absorb(acc, c, threshold), threshold)
  {
    if c.score <= threshold {
      AbsorbUnchanged(cands, acc, c, threshold);
    } else {
      var k := Find(acc, c.name);
      if k == -1 {
        AbsorbAppend(cands, acc, c, threshold);
      } else if c.score > acc[k].confidence {
        AbsorbReplace(cands, acc, c, threshold);
      } else {
        AbsorbUnchanged(cands, acc, c, threshold);
      }
    }
  }

  /** The loop's outcome: unique names, every entry above the threshold and won by the first best candidate, and a name present iff it has a candidate above the threshold. */
  lemma {:induction false} MatchedCorrect(cands: seq<Candidate>, threshold: real)
    ensures MatchedInvariant(cands, Matched(cands, threshold), threshold)
  {
    if |cands| > 0 {
      var pre := cands[..|cands| - 1];
      var c := cands[|cands| - 1];
      assert pre + [c] == cands;
      assert Matched(cands, threshold) == Absorb(Matched(pre, threshold), c, threshold);
      MatchedCorrect(pre, threshold);
      AbsorbKeeps(pre, Matched(pre, threshold), c, threshold);
    }
  }

  // ----------------------------------------------------------- insertion order

  /** The position of the first candidate of `name` above the threshold, or `|cands|` when there is none. */
  function FirstHit(cands: seq<Candidate>, name: string, threshold: real): (r: nat)
    ensures r <= |cands|
    ensures r < |cands| ==> cands[r].name == name && cands[r].score > threshold
    ensures forall m :: 0 <= m < r ==> !(cands[m].name == name && cands[m].score > threshold)
  {
    if |cands| == 0 then 0
    else
      var p := FirstHit(cands[..|cands| - 1], name, threshold);
      var c := cands[|cands| - 1];
      if p < |cands| - 1 then p
      else if c.name == name && c.score > threshold then |cands| - 1
      else |cands|
  }

  /** Appending a candidate moves no earlier first hit. */
  lemma FirstHitSnoc(cands: seq<Candidate>, c: Candidate, name: string, threshold: real)
    ensures FirstHit(cands + [c], name, threshold) ==
      if FirstHit(cands, name, threshold) < |cands| then FirstHit(cands, name, threshold)
      else if c.name == name && c.score > threshold then |cands|
      else |cands| + 1
  {
    assert (cands + [c])[..|cands|] == cands;
  }

  /** The entries are ordered by the position of their name's first candidate above the threshold. */
  ghost predicate InOrder(cands: seq<Candidate>, acc: seq<Skill>, threshold: real) {
    && (forall a :: 0 <= a < |acc| ==> FirstHit(cands, acc[a].skill, threshold) < |cands|)
    && (forall a, b :: 0 <= a < b < |acc| ==> FirstHit(cands, acc[a].skill, threshold) < FirstHit(cands, acc[b].skill, threshold))
  }

  /** Renaming nothing keeps the order. */
  lemma InOrderSameNames(cands: seq<Candidate>, acc: seq<Skill>, m: seq<Skill>, threshold: real)
    requires InOrder(cands, acc, threshold)
    requires |m| == |acc| && forall a :: 0 <= a < |acc| ==> m[a].skill == acc[a].skill
    ensures InOrder(cands, m, threshold)
  {
  }

  /** A name first hit after every entry's may go last. */
  lemma InOrderSnoc(cands: seq<Candidate>, acc: seq<Skill>, e: Skill, threshold: real)
    requires InOrder(cands, acc, threshold)
    requires FirstHit(cands, e.skill, threshold) < |cands|
    requires forall a :: 0 <= a < |acc| ==> FirstHit(cands, acc[a].skill, threshold) < FirstHit(cands, e.skill, threshold)
    ensures InOrder(cands, acc + [e], threshold)
  {
    var m := acc + [e];
    assert forall a :: 0 <= a < |acc| ==> m[a] == acc[a];
  }

  /** One loop step keeps the order: a new name is inserted last, a better score replaces a value in place. */
  lemma AbsorbInOrder(cands: seq<Candidate>, acc: seq<Skill>, c: Candidate, threshold: real)
    requires InOrder(cands, acc, threshold)
    requires Find(acc, c.name) == -1 ==> !HasHit(cands, c.name, threshold)
    ensures InOrder(cands + [c], Absorb(acc, c, threshold), threshold)
  {
    var cs := cands + [c];
    forall a | 0 <= a < |acc| ensures FirstHit(cs, acc[a].skill, threshold) == FirstHit(cands, acc[a].skill, threshold) {
      FirstHitSnoc(cands, c, acc[a].skill, threshold);
    }
    assert InOrder(cs, acc, threshold);
    if c.score > threshold && Find(acc, c.name) == -1 {
      FirstHitSnoc(cands, c, c.name, threshold);
      assert FirstHit(cands, c.name, threshold) == |cands|;
      InOrderSnoc(cs, acc, Skill(c.name, c.score, Context(c.chunk)), threshold);
    } else {
      InOrderSameNames(cs, acc, Absorb(acc, c, threshold), threshold);
    }
  }

  /**
   * The dictionary keeps its keys in insertion order: the entries are
   * ordered by the position of their name's first candidate above the
   * threshold, and a later, higher score replaces the value in place.
   */
  lemma {:induction false} MatchedInOrder(cands: seq<Candidate>, threshold: real)
    ensures InOrder(cands, Matched(cands, threshold), threshold)
  {
    if |cands| > 0 {
      var pre := cands[..|cands| - 1];
      var c := cands[|cands| - 1];
      assert pre + [c] == cands;
      assert Matched(cands, threshold) == Absorb(Matched(pre, threshold), c, threshold);
      MatchedInOrder(pre, threshold);
      if HasHit(pre, c.name, threshold) {
        MatchedHas(pre, threshold, c.name);
      }
      AbsorbInOrder(pre, Matched(pre, threshold), c, threshold);
    }
  }

  /** Python's sort is stable: two matched entries of equal confidence keep their insertion order. */
  lemma SortedTies(cands: seq<Candidate>, threshold: real, i: nat, j: nat)
    requires var s := Sorting.SortDesc(Matched(cands, threshold), Confidence);
      i < j < |s| && s[i].confidence == s[j].confidence
    ensures var s := Sorting.SortDesc(Matched(cands, threshold), Confidence);
      FirstHit(cands, s[i].skill, threshold) < FirstHit(cands, s[j].skill, threshold)
  {
    var m := Matched(cands, threshold);
    var a, b := Sorting.SortDescTie(m, Confidence, i, j);
    MatchedInOrder(cands, threshold);
    assert FirstHit(cands, m[a].skill, threshold) < FirstHit(cands, m[b].skill, threshold);
  }

  // ---------------------------------------------------------------- result

  function Confidence(s: Skill): real { s.confidence }

  /** `extract_skills(resume_text, threshold)` over the similarity `sim`. */
  function ExtractSkills(text: string, db: seq<string>, sim: (nat, nat) -> real, threshold: real): seq<Skill> {
    var chunks := Chunks(text);
    if |chunks| == 0 then []
    else
      var cands := Grid(chunks, db, sim, |chunks|);
      Sorting.Take(Sorting.SortDesc(Matched(cands, threshold), Confidence), MaxSkills)
  }

  /** Every candidate examined, in loop order. */
  function AllCandidates(text: string, db: seq<string>, sim: (nat, nat) -> real): seq<Candidate> {
    var chunks := Chunks(text);
    Grid(chunks, db, sim, |chunks|)
  }

  /**
   * The returned list: at most 25 entries, ordered by non-increasing
   * confidence, distinct names, each above the threshold and carrying the
   * score and context of the first candidate with its name's maximal score;
   * entries of equal confidence come in the order their names were first
   * matched.
   */
  lemma ExtractSkillsCorrect(text: string, db: seq<string>, sim: (nat, nat) -> real, threshold: real)
    ensures var r := ExtractSkills(text, db, sim, threshold);
      && |r| <= MaxSkills
      && Sorting.SortedDesc(r, Confidence)
      && UniqueNames(r)
      && (forall e :: e in r ==> e.confidence > threshold && exists k :: WinsAt(AllCandidates(text, db, sim), k, e))
      && (forall a, b :: 0 <= a < b < |r| && r[a].confidence == r[b].confidence ==>
            FirstHit(AllCandidates(text, db, sim), r[a].skill, threshold) <
            FirstHit(AllCandidates(text, db, sim), r[b].skill, threshold))
  {
    var chunks := Chunks(text);
    if |chunks| > 0 {
      var cands := AllCandidates(text, db, sim);
      var m := Matched(cands, threshold);
      MatchedCorrect(cands, threshold);
      var sorted := Sorting.SortDesc(m, Confidence);
      var r := Sorting.Take(sorted, MaxSkills);
      forall a, b | 0 <= a < b < |r| && r[a].confidence == r[b].confidence
        ensures FirstHit(cands, r[a].skill, threshold) < FirstHit(cands, r[b].skill, threshold)
      {
        assert r[a] == sorted[a] && r[b] == sorted[b];
        SortedTies(cands, threshold, a, b);
      }
      forall e | e in sorted ensures e in m {
        assert e in multiset(sorted);
      }
      forall a, b | 0 <= a < b < |r| ensures r[a].skill != r[b].skill {
        assert r[a] in m && r[b] in m;
        if r[a].skill == r[b].skill {
          SameNameSame(cands, m, threshold, r[a], r[b]);
        }
      }
    }
  }

  /**
   * Nothing better is cut: a name with some candidate above the threshold is
   * either returned, or the list is full, every returned confidence is at
   * least as high as any score that name reached, and a returned entry tied
   * with that name's best score was matched first.
   */
  lemma ExtractSkillsTopRanked(text: string, db: seq<string>, sim: (nat, nat) -> real, threshold: real, name: string)
    requires HasHit(AllCandidates(text, db, sim), name, threshold)
    ensures var r := ExtractSkills(text, db, sim, threshold);
      var cands := AllCandidates(text, db, sim);
      || (exists e :: e in r && e.skill == name)
      || (&& |r| == MaxSkills
          && (forall e, m :: e in r && 0 <= m < |cands| && cands[m].name == name ==> e.confidence >= cands[m].score)
          && (forall e, m :: e in r && 0 <= m < |cands| && cands[m].name == name && cands[m].score == e.confidence ==>
                FirstHit(cands, e.skill, threshold) < FirstHit(cands, name, threshold)))
  {
    var chunks := Chunks(text);
    assert |chunks| > 0;
    TopRankedOf(AllCandidates(text, db, sim), threshold, name);
  }

  /** `ExtractSkillsTopRanked` stated over the candidate sequence. */
  lemma TopRankedOf(cands: seq<Candidate>, threshold: real, name: string)
    requires HasHit(cands, name, threshold)
    ensures var r := Sorting.Take(Sorting.SortDesc(Matched(cands, threshold), Confidence), MaxSkills);
      || (exists e :: e in r && e.skill == name)
      || (&& |r| == MaxSkills
          && (forall e, m :: e in r && 0 <= m < |cands| && cands[m].name == name ==> e.confidence >= cands[m].score)
          && (forall e, m :: e in r && 0 <= m < |cands| && cands[m].name == name && cands[m].score == e.confidence ==>
                FirstHit(cands, e.skill, threshold) < FirstHit(cands, name, threshold)))
  {
    var r := Sorting.Take(Sorting.SortDesc(Matched(cands, threshold), Confidence), MaxSkills);
    TopScores(cands, threshold, name);
    if !(exists e :: e in r && e.skill == name) {
      var j := DroppedAt(cands, threshold, name);
      CutTies(cands, threshold, name, j);
    }
  }

  /** A name's winning entry is kept, or outscored by all 25 kept entries. */
  lemma TopScores(cands: seq<Candidate>, threshold: real, name: string)
    requires HasHit(cands, name, threshold)
    ensures var r := Sorting.Take(Sorting.SortDesc(Matched(cands, threshold), Confidence), MaxSkills);
      || (exists e :: e in r && e.skill == name)
      || (|r| == MaxSkills
          && forall e, m :: e in r && 0 <= m < |cands| && cands[m].name == name ==> e.confidence >= cands[m].score)
  {
    var m := Matched(cands, threshold);
    MatchedCorrect(cands, threshold);
    var x := m[Find(m, name)];
    assert x in m;
    var w :| WinsAt(cands, w, x);
    var sorted := Sorting.SortDesc(m, Confidence);
    assert x in multiset(sorted);
    Sorting.TakeSortedKeepsTop(sorted, Confidence, MaxSkills, x);
  }

  /** A name with a candidate above the threshold has an entry. */
  lemma MatchedHas(cands: seq<Candidate>, threshold: real, name: string)
    requires HasHit(cands, name, threshold)
    ensures 0 <= Find(Matched(cands, threshold), name) < |Matched(cands, threshold)|
    ensures Matched(cands, threshold)[Find(Matched(cands, threshold), name)].skill == name
  {
    MatchedCorrect(cands, threshold);
  }

  /** Where a matched name that the cut drops sits in the sorted list. */
  lemma DroppedAt(cands: seq<Candidate>, threshold: real, name: string) returns (j: nat)
    requires HasHit(cands, name, threshold)
    requires forall e :: e in Sorting.Take(Sorting.SortDesc(Matched(cands, threshold), Confidence), MaxSkills) ==> e.skill != name
    ensures var s := Sorting.SortDesc(Matched(cands, threshold), Confidence);
      MaxSkills <= j < |s| && s[j].skill == name
  {
    var m := Matched(cands, threshold);
    MatchedHas(cands, threshold, name);
    var x := m[Find(m, name)];
    var sorted := Sorting.SortDesc(m, Confidence);
    assert x in multiset(sorted);
    var r := Sorting.Take(sorted, MaxSkills);
    j :| 0 <= j < |sorted| && sorted[j] == x;
    assert forall i :: 0 <= i < |r| ==> sorted[i] == r[i] && r[i].skill != name;
    assert j >= |r|;
  }

  /** An entry cut by `[:25]` comes after every kept entry of the same confidence in insertion order. */
  lemma CutTies(cands: seq<Candidate>, threshold: real, name: string, j: nat)
    requires var s := Sorting.SortDesc(Matched(cands, threshold), Confidence);
      MaxSkills <= j < |s| && s[j].skill == name
    ensures var r := Sorting.Take(Sorting.SortDesc(Matched(cands, threshold), Confidence), MaxSkills);
      forall e, k :: e in r && 0 <= k < |cands| && cands[k].name == name && cands[k].score == e.confidence ==>
        FirstHit(cands, e.skill, threshold) < FirstHit(cands, name, threshold)
  {
    var m := Matched(cands, threshold);
    var s := Sorting.SortDesc(m, Confidence);
    var r := Sorting.Take(s, MaxSkills);
    MatchedCorrect(cands, threshold);
    assert s[j] in multiset(m);
    var w :| WinsAt(cands, w, s[j]);
    forall e, k | e in r && 0 <= k < |cands| && cands[k].name == name && cands[k].score == e.confidence
      ensures FirstHit(cands, e.skill, threshold) < FirstHit(cands, name, threshold)
    {
      var i :| 0 <= i < |r| && r[i] == e;
      assert s[i] == e;
      assert cands[k].score <= s[j].confidence;
      SortedTies(cands, threshold, i, j);
    }
  }

  /** Two entries of the dictionary with the same name are the same entry. */
  lemma SameNameSame(cands: seq<Candidate>, m: seq<Skill>, threshold: real, x: Skill, y: Skill)
    requires MatchedInvariant(cands, m, threshold)
    requires x in m && y in m && x.skill == y.skill
    ensures x == y
  {
  }

  lemma {:induction false} KeepNone(ps: seq<string>)
    requires forall p :: p in ps ==> !KeptChunk(PyStrip(p))
    ensures KeepChunks(ps) == []
  {
    if |ps| > 0 {
      assert ps[0] in ps;
      KeepNone(ps[1..]);
    }
  }

  /** With no chunk of admissible length, nothing is matched. */
  lemma NoChunksNoSkills(text: string, db: seq<string>, sim: (nat, nat) -> real, threshold: real)
    requires forall p :: p in Pieces(text) ==> !KeptChunk(PyStrip(p))
    ensures ExtractSkills(text, db, sim, threshold) == []
  {
    KeepNone(Pieces(text));
  }
}

=== FILE: sorting.dfy ===
/**
 * Stable sorting, as Python's `list.sort(key=..., reverse=True)` and
 * JavaScript's `Array.prototype.sort` (stable since ES2019) perform it.
 *
 * Keys are reals; integer keys are converted with `as real`, and an ascending
 * order is obtained by negating the key.
 */
module Sorting {

  import Text

  /** Non-increasing order of keys. */
  predicate SortedDesc<T>(s: seq<T>, key: T -> real) {
    forall i, j :: 0 <= i < j < |s| ==> key(s[i]) >= key(s[j])
  }

  /** The subsequence of the elements whose key is `k`, in their order in `s`. */
  function KeyFilter<T>(s: seq<T>, key: T -> real, k: real): (r: seq<T>)
    ensures |r| <= |s|
    ensures forall x :: x in r ==> x in s && key(x) == k
  {
    if |s| == 0 then []
    else (if key(s[0]) == k then [s[0]] else []) + KeyFilter(s[1..], key, k)
  }

  /** The filter keeps every element with the key. */
  lemma {:induction false} KeyFilterMember<T>(s: seq<T>, key: T -> real, k: real, x: T)
    requires x in s && key(x) == k
    ensures x in KeyFilter(s, key, k)
  {
    if s[0] != x {
      assert x in s[1..];
      KeyFilterMember(s[1..], key, k, x);
    }
  }

  /** `x` occurs somewhere before `y` in `s`. */
  ghost predicate Precedes<T>(s: seq<T>, x: T, y: T) {
    exists i, j :: 0 <= i < j < |s| && s[i] == x && s[j] == y
  }

  lemma PrecedesCons<T>(h: T, t: seq<T>, x: T, y: T)
    ensures Precedes([h] + t, x, y) <==> (h == x && y in t) || Precedes(t, x, y)
  {
    var s := [h] + t;
    if Precedes(s, x, y) {
      var i, j :| 0 <= i < j < |s| && s[i] == x && s[j] == y;
      if i > 0 {
        assert t[i - 1] == x && t[j - 1] == y;
      } else {
        assert t[j - 1] == y;
      }
    }
    if h == x && y in t {
      var j :| 0 <= j < |t| && t[j] == y;
      assert s[0] == x && s[j + 1] == y;
    }
    if Precedes(t, x, y) {
      var i, j :| 0 <= i < j < |t| && t[i] == x && t[j] == y;
      assert s[i + 1] == x && s[j + 1] == y;
    }
  }

  /** Filtering by a key shared by `x` and `y` keeps whether `x` comes before `y`. */
  lemma {:induction false} KeyFilterPrecedes<T>(s: seq<T>, key: T -> real, k: real, x: T, y: T)
    requires key(x) == k && key(y) == k
    ensures Precedes(KeyFilter(s, key, k), x, y) <==> Precedes(s, x, y)
  {
    if |s| > 0 {
      var h := s[0];
      var t := s[1..];
      assert s == [h] + t;
      KeyFilterPrecedes(t, key, k, x, y);
      PrecedesCons(h, t, x, y);
      if key(h) == k {
        assert KeyFilter(s, key, k) == [h] + KeyFilter(t, key, k);
        PrecedesCons(h, KeyFilter(t, key, k), x, y);
        if y in t {
          KeyFilterMember(t, key, k, y);
        }
      } else {
        assert KeyFilter(s, key, k) == KeyFilter(t, key, k);
      }
    }
  }

  /** `filter(p)`: the elements satisfying `p`, in their order in `s`. */
  function Filter<T>(s: seq<T>, p: T -> bool): (r: seq<T>)
    ensures |r| <= |s|
    ensures forall x :: x in r ==> x in s && p(x)
  {
    if |s| == 0 then []
    else (if p(s[0]) then [s[0]] else []) + Filter(s[1..], p)
  }

  lemma {:induction false} FilterMember<T>(s: seq<T>, p: T -> bool, x: T)
    requires x in s && p(x)
    ensures x in Filter(s, p)
  {
    if s[0] != x {
      assert x in s[1..];
      FilterMember(s[1..], p, x);
    }
  }

  /** Filtering keeps whether one kept element comes before another. */
  lemma {:induction false} FilterPrecedes<T>(s: seq<T>, p: T -> bool, x: T, y: T)
    requires p(x) && p(y)
    ensures Precedes(Filter(s, p), x, y) <==> Precedes(s, x, y)
  {
    if |s| > 0 {
      var h := s[0];
      var t := s[1..];
      assert s == [h] + t;
      FilterPrecedes(t, p, x, y);
      PrecedesCons(h, t, x, y);
      if p(h) {
        assert Filter(s, p) == [h] + Filter(t, p);
        PrecedesCons(h, Filter(t, p), x, y);
        if y in t {
          FilterMember(t, p, y);
        }
      } else {
        assert Filter(s, p) == Filter(t, p);
      }
    }
  }

  /** A filter every element passes keeps the whole sequence. */
  lemma {:induction false} FilterAll<T>(s: seq<T>, p: T -> bool)
    requires forall i :: 0 <= i < |s| ==> p(s[i])
    ensures Filter(s, p) == s
  {
    if |s| > 0 {
      FilterAll(s[1..], p);
      assert s == [s[0]] + s[1..];
    }
  }

  /** A filter and its complement split the elements between them. */
  lemma {:induction false} NoneKept<T>(s: seq<T>, p: T -> bool)
    requires forall i :: 0 <= i < |s| ==> !p(s[i])
    ensures Filter(s, p) == []
  {
    if |s| > 0 {
      NoneKept(s[1..], p);
    }
  }

  lemma {:induction false} FilterPartition<T>(s: seq<T>, p: T -> bool, q: T -> bool)
    requires forall x :: p(x) <==> !q(x)
    ensures multiset(Filter(s, p)) + multiset(Filter(s, q)) == multiset(s)
  {
    if |s| > 0 {
      FilterPartition(s[1..], p, q);
      assert s == [s[0]] + s[1..];
    }
  }

  /** Places `x` before the first element whose key is not greater than its own. */
  function Insert<T>(x: T, s: seq<T>, key: T -> real): (r: seq<T>)
    ensures |r| == |s| + 1
    ensures multiset(r) == multiset(s) + multiset{x}
  {
    if |s| == 0 || key(s[0]) <= key(x) then [x] + s
    else
      assert s == [s[0]] + s[1..];
      [s[0]] + Insert(x, s[1..], key)
  }

  lemma {:induction false} InsertSorted<T>(x: T, s: seq<T>, key: T -> real)
    requires SortedDesc(s, key)
    ensures SortedDesc(Insert(x, s, key), key)
  {
    if |s| == 0 || key(s[0]) <= key(x) {
    } else {
      var t := s[1..];
      InsertSorted(x, t, key);
      var r := Insert(x, t, key);
      forall y | y in r ensures key(y) <= key(s[0]) {
        assert y in multiset(r);
        if y != x {
          assert y in multiset(t);
        }
      }
    }
  }

  /** Stable sort by non-increasing key. */
  function SortDesc<T>(s: seq<T>, key: T -> real): (r: seq<T>)
    ensures |r| == |s|
    ensures multiset(r) == multiset(s)
    ensures SortedDesc(r, key)
  {
    if |s| == 0 then []
    else
      assert s == [s[0]] + s[1..];
      var rest := SortDesc(s[1..], key);
      InsertSorted(s[0], rest, key);
      Insert(s[0], rest, key)
  }

  lemma {:induction false} InsertKeyFilter<T>(x: T, s: seq<T>, key: T -> real, k: real)
    ensures KeyFilter(Insert(x, s, key), key, k)
         == (if key(x) == k then [x] else []) + KeyFilter(s, key, k)
  {
    if |s| == 0 || key(s[0]) <= key(x) {
      assert Insert(x, s, key) == [x] + s;
      assert ([x] + s)[0] == x && ([x] + s)[1..] == s;
    } else {
      var rest := Insert(x, s[1..], key);
      InsertKeyFilter(x, s[1..], key, k);
      assert Insert(x, s, key) == [s[0]] + rest;
      assert ([s[0]] + rest)[0] == s[0] && ([s[0]] + rest)[1..] == rest;
      var tail := KeyFilter(s[1..], key, k);
      assert KeyFilter(s, key, k) == (if key(s[0]) == k then [s[0]] else []) + tail;
      assert KeyFilter([s[0]] + rest, key, k) == (if key(s[0]) == k then [s[0]] else []) + KeyFilter(rest, key, k);
      if key(x) == k {
        assert key(s[0]) != k;
        assert KeyFilter(s, key, k) == tail;
        assert KeyFilter([s[0]] + rest, key, k) == [x] + tail;
      } else {
        assert KeyFilter(rest, key, k) == tail;
      }
    }
  }

  /** Stability: the elements sharing any one key keep their original relative order. */
  lemma {:induction false} SortDescStable<T>(s: seq<T>, key: T -> real, k: real)
    ensures KeyFilter(SortDesc(s, key), key, k) == KeyFilter(s, key, k)
  {
    if |s| > 0 {
      SortDescStable(s[1..], key, k);
      InsertKeyFilter(s[0], SortDesc(s[1..], key), key, k);
    }
  }

  /** Two sorted elements of equal key stand in the input in the same order. */
  lemma SortDescTie<T>(s: seq<T>, key: T -> real, i: nat, j: nat) returns (a: nat, b: nat)
    requires i < j < |SortDesc(s, key)| && key(SortDesc(s, key)[i]) == key(SortDesc(s, key)[j])
    ensures a < b < |s| && s[a] == SortDesc(s, key)[i] && s[b] == SortDesc(s, key)[j]
  {
    var r := SortDesc(s, key);
    var k := key(r[i]);
    assert Precedes(r, r[i], r[j]);
    KeyFilterPrecedes(r, key, k, r[i], r[j]);
    SortDescStable(s, key, k);
    KeyFilterPrecedes(s, key, k, r[i], r[j]);
    a, b :| 0 <= a < b < |s| && s[a] == r[i] && s[b] == r[j];
  }

  /** Cutting a sorted list to `n` drops an element only when `n` elements at least as large are kept. */
  lemma TakeSortedKeepsTop<T>(s: seq<T>, key: T -> real, n: nat, x: T)
    requires SortedDesc(s, key) && x in s
    ensures x in Take(s, n) || (|Take(s, n)| == n && forall e :: e in Take(s, n) ==> key(e) >= key(x))
  {
    var p :| 0 <= p < |s| && s[p] == x;
    if p < n {
      assert Take(s, n)[p] == x;
    } else {
      forall e | e in Take(s, n) ensures key(e) >= key(x) {
        var q :| 0 <= q < |Take(s, n)| && Take(s, n)[q] == e;
        assert s[q] == e;
      }
    }
  }

  /** The first `n` elements, or all of them when there are fewer: Python `s[:n]`, JavaScript `slice(0, n)`. */
  function Take<T>(s: seq<T>, n: nat): (r: seq<T>)
    ensures |r| == if |s| < n then |s| else n
    ensures r <= s
  {
    if |s| < n then s else s[..n]
  }

  // ------------------------------------------------------------ strings

  /** Lexicographic order on code-unit sequences; a proper prefix comes first. */
  predicate UnitsLe(a: seq<int>, b: seq<int>)
    decreases |a|
  {
    if |a| == 0 then true
    else if |b| == 0 then false
    else if a[0] != b[0] then a[0] < b[0]
    else UnitsLe(a[1..], b[1..])
  }

  /**
   * Where a character's UTF-16 encoding falls in code-unit order: below
   * U+D800 and beyond U+FFFF the code point itself; U+E000..U+FFFF after
   * every surrogate pair.
   */
  function UnitRank(c: char): int {
    if 0xE000 <= c as int <= 0xFFFF then c as int + 0x110000 else c as int
  }

  /**
   * JavaScript's default `sort()` order on strings: UTF-16 code units,
   * lexicographically, computed character by character.
   */
  predicate StrLe(a: string, b: string)
    decreases |a|
  {
    if |a| == 0 then true
    else if |b| == 0 then false
    else if a[0] != b[0] then UnitRank(a[0]) < UnitRank(b[0])
    else StrLe(a[1..], b[1..])
  }

  /** A common prefix of code units does not change the order. */
  lemma {:induction false} UnitsLeCommon(u: seq<int>, a: seq<int>, b: seq<int>)
    ensures UnitsLe(u + a, u + b) == UnitsLe(a, b)
    decreases |u|
  {
    if |u| > 0 {
      var ua, ub := u + a, u + b;
      assert |ua| > 0 && |ub| > 0 && ua[0] == ub[0];
      assert ua[1..] == u[1..] + a && ub[1..] == u[1..] + b;
      UnitsLeCommon(u[1..], a, b);
    } else {
      assert u + a == a && u + b == b;
    }
  }

  /** Two different characters are ordered by their encodings, whatever follows them. */
  lemma CharUnitsOrder(x: char, y: char, a: seq<int>, b: seq<int>)
    requires x != y
    ensures UnitsLe(Text.CharUnits(x) + a, Text.CharUnits(y) + b) == (UnitRank(x) < UnitRank(y))
  {
    var ux := Text.CharUnits(x) + a;
    var uy := Text.CharUnits(y) + b;
    var cx := x as int;
    var cy := y as int;
    if cx > 0xFFFF && cy > 0xFFFF && (cx - 0x10000) / 0x400 == (cy - 0x10000) / 0x400 {
      assert ux[0] == uy[0];
      assert ux[1..][0] == 0xDC00 + (cx - 0x10000) % 0x400;
      assert uy[1..][0] == 0xDC00 + (cy - 0x10000) % 0x400;
    }
  }

  /** The character-by-character order is the code-unit order of the encodings. */
  lemma {:induction false} StrLeUnits(a: string, b: string)
    ensures StrLe(a, b) == UnitsLe(Text.CodeUnits(a), Text.CodeUnits(b))
    decreases |a|
  {
    if |a| > 0 && |b| > 0 {
      Text.CodeUnitsCons(a);
      Text.CodeUnitsCons(b);
      if a[0] == b[0] {
        UnitsLeCommon(Text.CharUnits(a[0]), Text.CodeUnits(a[1..]), Text.CodeUnits(b[1..]));
        StrLeUnits(a[1..], b[1..]);
      } else {
        CharUnitsOrder(a[0], b[0], Text.CodeUnits(a[1..]), Text.CodeUnits(b[1..]));
      }
    } else if |a| > 0 {
      Text.CodeUnitsCons(a);
    }
  }

  lemma {:induction false} StrLeTotal(a: string, b: string)
    ensures StrLe(a, b) || StrLe(b, a)
    decreases |a|
  {
    if |a| > 0 && |b| > 0 && a[0] == b[0] {
      StrLeTotal(a[1..], b[1..]);
    }
  }

  lemma {:induction false} StrLeTrans(a: string, b: string, c: string)
    requires StrLe(a, b) && StrLe(b, c)
    ensures StrLe(a, c)
    decreases |a|
  {
    if |a| > 0 && |b| > 0 && |c| > 0 && a[0] == b[0] && b[0] == c[0] {
      StrLeTrans(a[1..], b[1..], c[1..]);
    }
  }

  lemma {:induction false} StrLeAntisym(a: string, b: string)
    requires StrLe(a, b) && StrLe(b, a)
    ensures a == b
    decreases |a|
  {
    if |a| > 0 && |b| > 0 {
      StrLeAntisym(a[1..], b[1..]);
      assert a == [a[0]] + a[1..] && b == [b[0]] + b[1..];
    }
  }

  predicate StrSorted(s: seq<string>) {
    forall i, j :: 0 <= i < j < |s| ==> StrLe(s[i], s[j])
  }

  function InsertStr(x: string, s: seq<string>): (r: seq<string>)
    ensures |r| == |s| + 1
    ensures multiset(r) == multiset(s) + multiset{x}
  {
    if |s| == 0 || StrLe(x, s[0]) then [x] + s
    else
      assert s == [s[0]] + s[1..];
      [s[0]] + InsertStr(x, s[1..])
  }

  lemma {:induction false} InsertStrSorted(x: string, s: seq<string>)
    requires StrSorted(s)
    ensures StrSorted(InsertStr(x, s))
  {
    var r := InsertStr(x, s);
    if |s| == 0 || StrLe(x, s[0]) {
      forall j | 0 < j < |r| ensures StrLe(r[0], r[j]) {
        if j > 1 { StrLeTrans(x, s[0], s[j - 1]); }
      }
    } else {
      StrLeTotal(x, s[0]);
      var t := s[1..];
      InsertStrSorted(x, t);
      var rt := InsertStr(x, t);
      forall y | y in rt ensures StrLe(s[0], y) {
        assert y in multiset(rt);
        if y != x {
          assert y in multiset(t);
          var k :| 0 <= k < |t| && t[k] == y;
          assert s[k + 1] == y;
        }
      }
      forall j | 0 < j < |r| ensures StrLe(r[0], r[j]) {
        assert r[j] == rt[j - 1] && rt[j - 1] in rt;
      }
    }
  }

  /** `sort()` on a list of strings. */
  function SortStrings(s: seq<string>): (r: seq<string>)
    ensures |r| == |s|
    ensures multiset(r) == multiset(s)
    ensures StrSorted(r)
  {
    if |s| == 0 then []
    else
      assert s == [s[0]] + s[1..];
      InsertStrSorted(s[0], SortStrings(s[1..]));
      InsertStr(s[0], SortStrings(s[1..]))
  }
}

=== FILE: text.dfy ===
/**
 * String primitives shared by the Python and TypeScript parts of the model.
 *
 * Case mapping is ASCII-only. Whitespace follows each language's own
 * definition: Python's `str.isspace` (used by `strip`, `split()` and `\s`)
 * and JavaScript's WhiteSpace plus LineTerminator (used by `trim` and `\s`).
 */
module Text {

  predicate IsDigit(c: char) { '0' <= c <= '9' }
  predicate IsAsciiUpper(c: char) { 'A' <= c <= 'Z' }
  predicate IsAsciiLower(c: char) { 'a' <= c <= 'z' }
  predicate IsAsciiLetter(c: char) { IsAsciiUpper(c) || IsAsciiLower(c) }
  predicate IsAsciiAlnum(c: char) { IsAsciiLetter(c) || IsDigit(c) }

  function LowerChar(c: char): char {
    if IsAsciiUpper(c) then (c as int + 32) as char else c
  }

  function UpperChar(c: char): char {
    if IsAsciiLower(c) then (c as int - 32) as char else c
  }

  /** `toLowerCase()` / `lower()`, restricted to ASCII letters. */
  function Lower(s: string): (r: string)
    ensures |r| == |s|
    ensures forall i :: 0 <= i < |s| ==> r[i] == LowerChar(s[i])
  {
    seq(|s|, i requires 0 <= i < |s| => LowerChar(s[i]))
  }

  /** `toUpperCase()` / `upper()`, restricted to ASCII letters. */
  function Upper(s: string): (r: string)
    ensures |r| == |s|
    ensures forall i :: 0 <= i < |s| ==> r[i] == UpperChar(s[i])
  {
    seq(|s|, i requires 0 <= i < |s| => UpperChar(s[i]))
  }

  lemma LowerIdempotent(s: string)
    ensures Lower(Lower(s)) == Lower(s)
  {
  }

  lemma LowerConcat(a: string, b: string)
    ensures Lower(a + b) == Lower(a) + Lower(b)
  {
  }

  /** Python's `str.isspace`: the set behind `strip()`, `split()` and regex `\s`. */
  predicate IsPyWhitespace(c: char) {
    c == ' ' || ('\t' <= c <= '\r') || ('\U{1C}' <= c <= '\U{1F}') || c == '\U{85}' || c == '\U{A0}'
    || c == '\U{1680}' || ('\U{2000}' <= c <= '\U{200A}') || c == '\U{2028}' || c == '\U{2029}'
    || c == '\U{202F}' || c == '\U{205F}' || c == '\U{3000}'
  }

  /** ECMAScript LineTerminator: the characters regex `.` does not match. */
  predicate IsJsLineTerminator(c: char) {
    c == '\n' || c == '\r' || c == '\U{2028}' || c == '\U{2029}'
  }

  /** ECMAScript WhiteSpace and LineTerminator: the set behind `trim()` and regex `\s`. */
  predicate IsJsWhitespace(c: char) {
    IsJsLineTerminator(c) || c == '\t' || c == '\U{0B}' || c == '\U{0C}' || c == ' ' || c == '\U{A0}'
    || c == '\U{FEFF}' || c == '\U{1680}' || ('\U{2000}' <= c <= '\U{200A}') || c == '\U{202F}'
    || c == '\U{205F}' || c == '\U{3000}'
  }

  /** The first index at or after `i` whose character does not satisfy `ws`: the end of a greedy run. */
  function SkipWhile(s: string, ws: char -> bool, i: nat): (k: nat)
    requires i <= |s|
    ensures i <= k <= |s|
    ensures forall j :: i <= j < k ==> ws(s[j])
    ensures k < |s| ==> !ws(s[k])
    decreases |s| - i
  {
    if i < |s| && ws(s[i]) then SkipWhile(s, ws, i + 1) else i
  }

  /** The first index at or after `i` whose character satisfies `ws`. */
  function SkipUntil(s: string, ws: char -> bool, i: nat): (k: nat)
    requires i <= |s|
    ensures i <= k <= |s|
    ensures forall j :: i <= j < k ==> !ws(s[j])
    ensures k < |s| ==> ws(s[k])
    decreases |s| - i
  {
    if i < |s| && !ws(s[i]) then SkipUntil(s, ws, i + 1) else i
  }

  /** The smallest `k <= j` such that every character in `s[k..j]` is in `ws`. */
  function TrailStart(s: string, ws: char -> bool, j: nat): (k: nat)
    requires j <= |s|
    ensures k <= j
    ensures forall m :: k <= m < j ==> ws(s[m])
    ensures k > 0 ==> !ws(s[k - 1])
    decreases j
  {
    if j > 0 && ws(s[j - 1]) then TrailStart(s, ws, j - 1) else j
  }

  /** Removes leading and trailing characters of `ws`. */
  function StripBy(s: string, ws: char -> bool): (r: string)
  {
    var lo := SkipWhile(s, ws, 0);
    var hi := TrailStart(s, ws, |s|);
    if lo < hi then s[lo..hi] else ""
  }

  /** What strip removes is whitespace, what it keeps has none at either end, and nothing else changes. */
  lemma StripByShape(s: string, ws: char -> bool)
    ensures |StripBy(s, ws)| > 0 ==> !ws(StripBy(s, ws)[0]) && !ws(StripBy(s, ws)[|StripBy(s, ws)| - 1])
    ensures StripBy(s, ws) == "" <==> forall i :: 0 <= i < |s| ==> ws(s[i])
    ensures exists lo, hi :: (0 <= lo <= hi <= |s| && StripBy(s, ws) == s[lo..hi]
      && (forall i :: 0 <= i < lo ==> ws(s[i])) && (forall i :: hi <= i < |s| ==> ws(s[i])))
  {
    var lo := SkipWhile(s, ws, 0);
    var hi := TrailStart(s, ws, |s|);
    if lo < hi {
      assert StripBy(s, ws) == s[lo..hi];
      assert !ws(s[lo]);
    } else {
      assert forall i :: 0 <= i < |s| ==> ws(s[i]) by {
        forall i | 0 <= i < |s| ensures ws(s[i]) {
          if i < lo {} else {}
        }
      }
      assert StripBy(s, ws) == s[0..0];
    }
  }

  /** Stripping adds no character. */
  lemma StripByKeepsOut(s: string, ws: char -> bool, c: char)
    requires c !in s
    ensures c !in StripBy(s, ws)
  {
    var lo := SkipWhile(s, ws, 0);
    var hi := TrailStart(s, ws, |s|);
    if lo < hi {
      assert forall i :: 0 <= i < hi - lo ==> s[lo..hi][i] == s[lo + i];
    }
  }

  /** A text that starts and ends with a kept character is its own strip. */
  lemma StripByKeeps(s: string, ws: char -> bool)
    requires |s| > 0 && !ws(s[0]) && !ws(s[|s| - 1])
    ensures StripBy(s, ws) == s
  {
    assert SkipWhile(s, ws, 0) == 0;
    assert TrailStart(s, ws, |s|) == |s|;
  }

  /** Python `str.strip()`. */
  function PyStrip(s: string): string { StripBy(s, IsPyWhitespace) }

  /** JavaScript `String.prototype.trim()`. */
  function JsTrim(s: string): string { StripBy(s, IsJsWhitespace) }

  /** Python `str.split()` with no argument: the maximal runs of non-whitespace from `i` on. */
  function PyWordsFrom(s: string, i: nat): (words: seq<string>)
    requires i <= |s|
    ensures forall w :: w in words ==> |w| > 0
    decreases |s| - i
  {
    var a := SkipWhile(s, IsPyWhitespace, i);
    if a == |s| then []
    else
      var b := SkipUntil(s, IsPyWhitespace, a);
      [s[a..b]] + PyWordsFrom(s, b)
  }

  function PyWords(s: string): seq<string> { PyWordsFrom(s, 0) }

  predicate StartsWith(s: string, p: string) { |p| <= |s| && s[..|p|] == p }

  predicate OccursAt(s: string, sub: string, k: int) {
    0 <= k && k + |sub| <= |s| && s[k..k + |sub|] == sub
  }

  /** The first index at or after `from` where `sub` occurs, or -1: `indexOf` / `find`. */
  function IndexOfFrom(s: string, sub: string, from: nat): (r: int)
    requires from <= |s|
    ensures r == -1 || (from <= r && OccursAt(s, sub, r))
    ensures r == -1 ==> forall k :: from <= k ==> !OccursAt(s, sub, k)
    ensures r != -1 ==> forall k :: from <= k < r ==> !OccursAt(s, sub, k)
    decreases |s| - from
  {
    if from + |sub| > |s| then -1
    else if s[from..from + |sub|] == sub then from
    else IndexOfFrom(s, sub, from + 1)
  }

  function IndexOf(s: string, sub: string): int { IndexOfFrom(s, sub, 0) }

  /** `includes` / Python `in` on strings. */
  predicate Contains(s: string, sub: string) { IndexOf(s, sub) >= 0 }

  lemma ContainsIff(s: string, sub: string)
    ensures Contains(s, sub) <==> exists k :: OccursAt(s, sub, k)
  {
  }

  /** Index of the first `c` in `s`, or -1. */
  function IndexOfChar(s: string, c: char): (r: int)
    ensures r == -1 <==> c !in s
    ensures r != -1 ==> 0 <= r < |s| && s[r] == c && c !in s[..r]
  {
    if |s| == 0 then -1
    else if s[0] == c then 0
    else var r := IndexOfChar(s[1..], c); if r == -1 then -1 else r + 1
  }

  /** Index of the last `c` in `s`, or -1. */
  function LastIndexOfChar(s: string, c: char): (r: int)
    ensures r == -1 <==> c !in s
    ensures r != -1 ==> 0 <= r < |s| && s[r] == c && c !in s[r + 1..]
  {
    if |s| == 0 then -1
    else if s[|s| - 1] == c then |s| - 1
    else LastIndexOfChar(s[..|s| - 1], c)
  }

  /** `split(sep)` with a non-empty separator, as Python and JavaScript define it. */
  function Split(s: string, sep: string): (parts: seq<string>)
    requires |sep| > 0
    ensures |parts| >= 1
    decreases |s|
  {
    var i := IndexOf(s, sep);
    if i < 0 then [s] else [s[..i]] + Split(s[i + |sep|..], sep)
  }

  function Join(parts: seq<string>, sep: string): string
  {
    if |parts| == 0 then ""
    else if |parts| == 1 then parts[0]
    else parts[0] + sep + Join(parts[1..], sep)
  }

  /** Splitting and joining back with the same separator gives the original text. */
  lemma {:induction false} JoinSplit(s: string, sep: string)
    requires |sep| > 0
    ensures Join(Split(s, sep), sep) == s
    decreases |s|
  {
    var i := IndexOf(s, sep);
    if i >= 0 {
      var head := s[..i];
      var rest := s[i + |sep|..];
      var parts := Split(rest, sep);
      JoinSplit(rest, sep);
      assert Split(s, sep) == [head] + parts;
      assert ([head] + parts)[1..] == parts;
      assert Join([head] + parts, sep) == head + sep + Join(parts, sep);
      assert s[i..i + |sep|] == sep;
      assert s == head + s[i..i + |sep|] + rest;
    }
  }

  /** No piece of a split contains the separator. */
  lemma {:induction false} SplitPartsFree(s: string, sep: string)
    requires |sep| > 0
    ensures forall p :: p in Split(s, sep) ==> !Contains(p, sep)
    decreases |s|
  {
    var i := IndexOf(s, sep);
    if i >= 0 {
      SplitPartsFree(s[i + |sep|..], sep);
      var head := s[..i];
      forall k | OccursAt(head, sep, k) ensures false {
        assert s[k..k + |sep|] == head[k..k + |sep|];
        assert OccursAt(s, sep, k);
      }
    }
  }

  /** Every occurrence of `pat`, left to right and non-overlapping, replaced by `rep`. */
  function ReplaceAll(s: string, pat: string, rep: string): string
    requires |pat| > 0
  {
    Join(Split(s, pat), rep)
  }

  /** A one-character needle is found exactly when the character occurs. */
  lemma ContainsChar(s: string, c: char)
    ensures Contains(s, [c]) <==> c in s
  {
    if Contains(s, [c]) {
      var r := IndexOf(s, [c]);
      assert s[r..r + 1] == [c];
      assert s[r] == c;
    }
    if c in s {
      var k :| 0 <= k < |s| && s[k] == c;
      assert OccursAt(s, [c], k);
    }
  }

  lemma {:induction false} SplitKeepsOut(s: string, sep: string, c: char)
    requires |sep| > 0 && c !in s
    ensures forall p :: p in Split(s, sep) ==> c !in p
    decreases |s|
  {
    var i := IndexOf(s, sep);
    if i >= 0 {
      SplitKeepsOut(s[i + |sep|..], sep, c);
      assert forall k :: 0 <= k < i ==> s[..i][k] == s[k];
    }
  }

  lemma {:induction false} JoinKeepsOut(parts: seq<string>, sep: string, c: char)
    requires c !in sep
    requires forall p :: p in parts ==> c !in p
    ensures c !in Join(parts, sep)
  {
    if |parts| > 1 {
      JoinKeepsOut(parts[1..], sep, c);
      assert parts[0] in parts;
    }
  }

  /** Replacing every one-character `pat` by a text free of that character leaves none of it. */
  lemma ReplaceAllRemoves(s: string, c: char, rep: string)
    requires c !in rep
    ensures c !in ReplaceAll(s, [c], rep)
  {
    var parts := Split(s, [c]);
    SplitPartsFree(s, [c]);
    forall p | p in parts ensures c !in p {
      ContainsChar(p, c);
    }
    JoinKeepsOut(parts, rep, c);
  }

  function DigitChar(d: nat): char
    requires d < 10
  {
    ('0' as int + d) as char
  }

  /** Decimal rendering of a natural number, as `str(n)` / `${n}` print it. */
  function NatToString(n: nat): (r: string)
    ensures |r| > 0
    ensures forall i :: 0 <= i < |r| ==> IsDigit(r[i])
    decreases n
  {
    if n < 10 then [DigitChar(n)] else NatToString(n / 10) + [DigitChar(n % 10)]
  }

  /** The value of a string of decimal digits. */
  function DigitsValue(s: string): nat
    requires forall i :: 0 <= i < |s| ==> IsDigit(s[i])
  {
    if |s| == 0 then 0
    else
      assert IsDigit(s[|s| - 1]);
      10 * DigitsValue(s[..|s| - 1]) + (s[|s| - 1] as int - '0' as int)
  }

  /** Reading back the rendering gives the number, so the rendering is injective. */
  lemma {:induction false} NatToStringRoundTrip(n: nat)
    ensures DigitsValue(NatToString(n)) == n
    decreases n
  {
    if n >= 10 {
      NatToStringRoundTrip(n / 10);
      var r := NatToString(n);
      assert r[..|r| - 1] == NatToString(n / 10);
    }
  }

  lemma NatToStringInjective(a: nat, b: nat)
    requires NatToString(a) == NatToString(b)
    ensures a == b
  {
    NatToStringRoundTrip(a);
    NatToStringRoundTrip(b);
  }

  /** The JavaScript `.length`: a character beyond the Basic Multilingual Plane is two UTF-16 code units. */
  function Utf16Length(s: string): (n: nat)
    ensures |s| <= n <= 2 * |s|
  {
    if |s| == 0 then 0 else Utf16Length(s[..|s| - 1]) + (if s[|s| - 1] as int > 0xFFFF then 2 else 1)
  }

  /** The UTF-16 code units of one character: itself, or a surrogate pair beyond the Basic Multilingual Plane. */
  function CharUnits(c: char): (u: seq<int>)
    ensures |u| == if c as int > 0xFFFF then 2 else 1
  {
    if c as int > 0xFFFF then [0xD800 + (c as int - 0x10000) / 0x400, 0xDC00 + (c as int - 0x10000) % 0x400]
    else [c as int]
  }

  /** The UTF-16 encoding of a string, the code units a JavaScript string holds. */
  function CodeUnits(s: string): (u: seq<int>)
    ensures |u| == Utf16Length(s)
  {
    if |s| == 0 then [] else CodeUnits(s[..|s| - 1]) + CharUnits(s[|s| - 1])
  }

  /** The encoding read from the front: the first character's units, then the rest's. */
  lemma {:induction false} CodeUnitsCons(s: string)
    requires |s| > 0
    ensures CodeUnits(s) == CharUnits(s[0]) + CodeUnits(s[1..])
  {
    if |s| > 1 {
      var pre := s[..|s| - 1];
      CodeUnitsCons(pre);
      assert pre[1..] == s[1..][..|s[1..]| - 1];
      assert pre[0] == s[0];
    } else {
      assert s[1..] == [];
    }
  }

  /** Within the Basic Multilingual Plane the JavaScript length is the number of characters. */
  lemma {:induction false} Utf16LengthBmp(s: string)
    requires forall i :: 0 <= i < |s| ==> s[i] as int <= 0xFFFF
    ensures Utf16Length(s) == |s|
  {
    if |s| > 0 {
      Utf16LengthBmp(s[..|s| - 1]);
    }
  }
}

=== FILE: users.dfy ===
/**
 * The user service: the `createOrUpdateUser` upsert keyed by the Clerk id,
 * and the `getUserStats` assembly of counters and the recent-activity feed.
 *
 * A user's related rows are given in full; the model performs the ordering
 * and `take` limits of the query itself, keeping the input order among rows
 * with equal dates. Rendered descriptions (locale dates) are not modelled.
 */
module Users {

  import opened Wrappers
  import opened Json
  import opened Sorting
  import opened Lists

  // ------------------------------------------------------------ the upsert

  /** The Clerk payload; `None` is an absent (undefined) field. */
  datatype UserData = UserData(
    clerkId: string,
    email: string,
    firstName: Option<string>,
    lastName: Option<string>,
    imageUrl: Option<string>,
    collegeId: Option<string>,
    graduationYear: Option<int>)

  datatype User = User(id: string, data: UserData)

  /** Users by Clerk id; the email column is unique as well. */
  type Directory = map<string, User>

  /** An update leaves a field alone when the payload leaves it undefined. */
  function Keep<T>(given: Option<T>, stored: Option<T>): (r: Option<T>)
    ensures given.Some? ==> r == given
    ensures given.None? ==> r == stored
  {
    if given.Some? then given else stored
  }

  /** The stored record after an update with `data`. */
  function Merged(u: User, data: UserData): (r: User)
    ensures r.id == u.id && r.data.clerkId == u.data.clerkId && r.data.email == data.email
  {
    User(u.id, UserData(u.data.clerkId, data.email,
      Keep(data.firstName, u.data.firstName), Keep(data.lastName, u.data.lastName),
      Keep(data.imageUrl, u.data.imageUrl), Keep(data.collegeId, u.data.collegeId),
      Keep(data.graduationYear, u.data.graduationYear)))
  }

  /** Some user other than `clerkId` already holds `email`. */
  predicate EmailTaken(db: Directory, clerkId: string, email: string) {
    exists c :: c in db && c != clerkId && db[c].data.email == email
  }

  /** A given college id that `colleges` does not hold breaks the user's foreign key. */
  predicate UnknownCollege(data: UserData, colleges: set<string>) {
    data.collegeId.Some? && data.collegeId.value !in colleges
  }

  /**
   * `createOrUpdateUser`: update the user with that Clerk id, or create one
   * with id `freshId`; a clash on the unique email, or a college id that no
   * stored college has, makes the upsert throw.
   */
  function CreateOrUpdateUser(db: Directory, colleges: set<string>, data: UserData, freshId: string): (r: Result<(Directory, User), ()>)
    ensures r.Failure? <==> EmailTaken(db, data.clerkId, data.email) || UnknownCollege(data, colleges)
    ensures r.Success? ==> r.value.1.data.collegeId.Some? ==>
      r.value.1.data.collegeId.value in colleges || (data.clerkId in db && r.value.1.data.collegeId == db[data.clerkId].data.collegeId)
    ensures r.Success? ==> data.clerkId in r.value.0 && r.value.0[data.clerkId] == r.value.1
    ensures r.Success? ==> r.value.0.Keys == db.Keys + {data.clerkId}
    ensures r.Success? && data.clerkId in db ==> r.value.1.id == db[data.clerkId].id
    ensures r.Success? && data.clerkId !in db ==> r.value.1 == User(freshId, data)
  {
    if EmailTaken(db, data.clerkId, data.email) || UnknownCollege(data, colleges) then Failure(())
    else
      var u := if data.clerkId in db then Merged(db[data.clerkId], data) else User(freshId, data);
      Success((db[data.clerkId := u], u))
  }

  /** No two users share an email. */
  ghost predicate EmailsUnique(db: Directory) {
    forall a, b :: a in db && b in db && a != b ==> db[a].data.email != db[b].data.email
  }

  /** Every user is filed under its own Clerk id. */
  ghost predicate KeyedByClerkId(db: Directory) {
    forall c :: c in db ==> db[c].data.clerkId == c
  }

  /** The upsert keeps one user per Clerk id and per email. */
  lemma UpsertKeepsKeys(db: Directory, colleges: set<string>, data: UserData, freshId: string)
    requires EmailsUnique(db) && KeyedByClerkId(db)
    ensures var r := CreateOrUpdateUser(db, colleges, data, freshId);
      r.Success? ==> EmailsUnique(r.value.0) && KeyedByClerkId(r.value.0)
  {
  }

  /** The upsert touches no other user. */
  lemma UpsertIsolated(db: Directory, colleges: set<string>, data: UserData, freshId: string, c: string)
    requires c != data.clerkId && c in db
    ensures var r := CreateOrUpdateUser(db, colleges, data, freshId);
      r.Success? ==> c in r.value.0 && r.value.0[c] == db[c]
  {
  }

  /** Sending the same payload again changes nothing and returns the same user. */
  lemma UpsertIdempotent(db: Directory, colleges: set<string>, data: UserData, freshId: string, freshId2: string)
    requires KeyedByClerkId(db)
    ensures var r := CreateOrUpdateUser(db, colleges, data, freshId);
      r.Success? ==> CreateOrUpdateUser(r.value.0, colleges, data, freshId2) == r
  {
    var r := CreateOrUpdateUser(db, colleges, data, freshId);
    if r.Success? {
      var db1 := r.value.0;
      assert !EmailTaken(db1, data.clerkId, data.email);
      var u := r.value.1;
      assert Merged(u, data) == u;
      assert db1[data.clerkId := u] == db1;
    }
  }

  // ------------------------------------------------------------- the stats

  datatype Analysis = Analysis(atsScore: int, analyzedAt: int, skills: Json)
  datatype Roadmap = Roadmap(technology: string, duration: string, difficulty: string, createdAt: int)
  datatype Experience = Experience(role: string, outcome: string, createdAt: int)

  /** A user with all related rows; `completed` lists the flags of the progress rows. */
  datatype Profile = Profile(analyses: seq<Analysis>, roadmaps: seq<Roadmap>, completed: seq<bool>, experiences: seq<Experience>)

  datatype Kind = ResumeActivity | RoadmapActivity | ExperienceActivity

  datatype Activity = Activity(kind: Kind, title: string, link: string, date: int)

  datatype Stats = Stats(skillsAnalyzed: nat, careerPaths: nat, problemsSolved: nat, certifications: nat, recentActivity: seq<Activity>)

  /** `getUserStats` returns the stats, null for an unknown user, or throws. */
  datatype Outcome = Found(stats: Stats) | NoUser | Thrown

  function AnalyzedAt(a: Analysis): real { a.analyzedAt as real }
  function RoadmapDate(r: Roadmap): real { r.createdAt as real }
  function ExperienceDate(e: Experience): real { e.createdAt as real }
  function ActivityDate(a: Activity): real { a.date as real }

  /** `orderBy: { <date>: "desc" }, take: n` */
  function Latest<T>(s: seq<T>, date: T -> real, n: nat): (r: seq<T>)
    ensures |r| == if |s| < n then |s| else n
    ensures forall x :: x in r ==> x in s
    ensures SortedDesc(r, date)
    ensures forall x :: x in s && x !in r ==> forall y :: y in r ==> date(y) >= date(x)
  {
    var sorted := SortDesc(s, date);
    assert forall x :: x in sorted ==> x in s by {
      forall x | x in sorted ensures x in s { assert x in multiset(sorted); }
    }
    forall x | x in s && x !in Take(sorted, n) ensures forall y :: y in Take(sorted, n) ==> date(y) >= date(x) {
      assert x in multiset(sorted);
      TakeSortedKeepsTop(sorted, date, n, x);
    }
    Take(sorted, n)
  }

  /** Whether a skill entry is `{ type: "certification", ... }`; `None` when reading `type` throws. */
  function IsCertification(skill: Json): Option<bool> {
    if skill.JNull? then None
    else Some(skill.JObj? && Field(skill, "type") == Some(JStr("certification")))
  }

  /** `skills?.filter((s) => s.type === "certification").length || 0`, or `None` when it throws. */
  function Certifications(skills: Json): (r: Option<nat>)
    ensures skills.JNull? ==> r == Some(0)
    ensures skills.JArr? && (forall i :: 0 <= i < |skills.items| ==> !skills.items[i].JNull?) ==> r.Some? && r.value <= |skills.items|
    ensures !skills.JNull? && !skills.JArr? ==> r.None?
  {
    if skills.JNull? then Some(0)
    else if skills.JArr? then CountCertifications(skills.items)
    else None
  }

  function CountCertifications(items: seq<Json>): (r: Option<nat>)
    ensures r.None? <==> exists i :: 0 <= i < |items| && items[i].JNull?
    ensures r.Some? ==> r.value <= |items|
  {
    if |items| == 0 then Some(0)
    else
      var pre := CountCertifications(items[..|items| - 1]);
      var last := items[|items| - 1];
      assert forall i :: 0 <= i < |items| - 1 ==> items[..|items| - 1][i] == items[i];
      if pre.None? || last.JNull? then None
      else Some(pre.value + (if IsCertification(last) == Some(true) then 1 else 0))
  }

  /** A skill object whose `type` is "certification". */
  predicate CertificationEntry(skill: Json) {
    skill.JObj? && Field(skill, "type") == Some(JStr("certification"))
  }

  /** Without null entries, the count is the number of certification entries. */
  lemma {:induction false} CountCertificationsMatches(items: seq<Json>)
    requires forall i :: 0 <= i < |items| ==> !items[i].JNull?
    ensures CountCertifications(items) == Some(CountIf(items, CertificationEntry))
  {
    if |items| > 0 {
      var pre := items[..|items| - 1];
      assert forall i :: 0 <= i < |pre| ==> pre[i] == items[i];
      CountCertificationsMatches(pre);
    }
  }

  /** The certification counts of the fetched analyses, summed. */
  function CertificationTotal(analyses: seq<Analysis>): Option<nat> {
    if |analyses| == 0 then Some(0)
    else
      var pre := CertificationTotal(analyses[..|analyses| - 1]);
      var last := Certifications(analyses[|analyses| - 1].skills);
      if pre.None? || last.None? then None else Some(pre.value + last.value)
  }

  function ResumeEntry(a: Analysis): Activity {
    Activity(ResumeActivity, "Resume Analyzed", "/dashboard/resume-analyze", a.analyzedAt)
  }

  function RoadmapEntries(rs: seq<Roadmap>): (r: seq<Activity>)
    ensures |r| == |rs|
    ensures forall i :: 0 <= i < |rs| ==>
      r[i] == Activity(RoadmapActivity, rs[i].technology + " Roadmap", "/dashboard/careerPaths", rs[i].createdAt)
  {
    seq(|rs|, i requires 0 <= i < |rs| =>
      Activity(RoadmapActivity, rs[i].technology + " Roadmap", "/dashboard/careerPaths", rs[i].createdAt))
  }

  function ExperienceEntries(es: seq<Experience>): (r: seq<Activity>)
    ensures |r| == |es|
    ensures forall i :: 0 <= i < |es| ==>
      r[i] == Activity(ExperienceActivity, "Interview Experience Shared", "/dashboard/interview-questions", es[i].createdAt)
  {
    seq(|es|, i requires 0 <= i < |es| =>
      Activity(ExperienceActivity, "Interview Experience Shared", "/dashboard/interview-questions", es[i].createdAt))
  }

  /** The feed before sorting: the latest analysis, then the roadmaps, then the experiences. */
  function Feed(analyses: seq<Analysis>, roadmaps: seq<Roadmap>, experiences: seq<Experience>): seq<Activity> {
    (if |analyses| > 0 then [ResumeEntry(analyses[0])] else []) + RoadmapEntries(roadmaps) + ExperienceEntries(experiences)
  }

  function IsKind(k: Kind): Activity -> bool {
    (a: Activity) => a.kind == k
  }

  function IsTrue(b: bool): bool { b }

  /** The feed of the rows the query fetches. */
  function FetchedFeed(p: Profile): seq<Activity> {
    Feed(Latest(p.analyses, AnalyzedAt, 1), Latest(p.roadmaps, RoadmapDate, 3), Latest(p.experiences, ExperienceDate, 3))
  }

  /** `getUserStats` for a user lookup that found `profile`, or nothing. */
  function UserStats(user: Option<Profile>): Outcome {
    if user.None? then NoUser
    else
      var p := user.value;
      var analyses := Latest(p.analyses, AnalyzedAt, 1);
      var certs := CertificationTotal(analyses);
      if certs.None? then Thrown
      else
        Found(Stats(|analyses|, |Latest(p.roadmaps, RoadmapDate, 3)|, CountIf(p.completed, IsTrue), certs.value,
                    Newest(FetchedFeed(p))))
  }

  /**
   * The counters: no user gives null; at most one analysis and three
   * roadmaps are counted; problems solved counts the completed progress
   * rows; certifications are those of the latest analysis, and reading
   * them throws exactly when that analysis's skills cannot be filtered.
   */
  lemma UserStatsCounters(user: Option<Profile>)
    ensures user.None? <==> UserStats(user) == NoUser
    ensures UserStats(user).Found? ==>
      var s := UserStats(user).stats;
      var p := user.value;
      && s.skillsAnalyzed <= 1 && (s.skillsAnalyzed == 1 <==> |p.analyses| > 0)
      && s.careerPaths == (if |p.roadmaps| < 3 then |p.roadmaps| else 3)
      && s.problemsSolved == CountIf(p.completed, IsTrue)
      && (|p.analyses| == 0 ==> s.certifications == 0)
      && (|p.analyses| > 0 ==> exists a :: NewestAnalysis(a, p) && Certifications(a.skills) == Some(s.certifications))
    ensures UserStats(user) == Thrown ==>
      user.Some? && exists a :: NewestAnalysis(a, user.value) && Certifications(a.skills).None?
    ensures user.Some? && |user.value.analyses| > 0
      && (forall a :: NewestAnalysis(a, user.value) ==> Certifications(a.skills).None?)
      ==> UserStats(user) == Thrown
  {
    if user.Some? && |user.value.analyses| > 0 {
      var p := user.value;
      var l := Latest(p.analyses, AnalyzedAt, 1);
      var a := l[0];
      assert NewestAnalysis(a, p) by {
        forall b | b in p.analyses ensures b.analyzedAt <= a.analyzedAt {
          if b !in l { assert AnalyzedAt(a) >= AnalyzedAt(b); }
        }
      }
      assert l == [a];
      assert CertificationTotal(l) == Certifications(a.skills) by {
        assert l[..0] == [];
      }
    }
  }

  /** An analysis of the profile that no other analysis postdates: the one `take: 1` fetches. */
  predicate NewestAnalysis(a: Analysis, p: Profile) {
    a in p.analyses && forall b :: b in p.analyses ==> b.analyzedAt <= a.analyzedAt
  }

  /** The feed counts at most one resume, three roadmap and three experience entries. */
  lemma FeedKinds(analyses: seq<Analysis>, roadmaps: seq<Roadmap>, experiences: seq<Experience>)
    requires |analyses| <= 1 && |roadmaps| <= 3 && |experiences| <= 3
    ensures var f := Feed(analyses, roadmaps, experiences);
      && CountIf(f, IsKind(ResumeActivity)) <= 1
      && CountIf(f, IsKind(RoadmapActivity)) <= 3
      && CountIf(f, IsKind(ExperienceActivity)) <= 3
  {
    var head := if |analyses| > 0 then [ResumeEntry(analyses[0])] else [];
    var rs := RoadmapEntries(roadmaps);
    var es := ExperienceEntries(experiences);
    assert Feed(analyses, roadmaps, experiences) == head + rs + es;
    forall k | true
      ensures CountIf(head + rs + es, IsKind(k)) == CountIf(head, IsKind(k)) + CountIf(rs, IsKind(k)) + CountIf(es, IsKind(k))
    {
      CountIfConcat(head + rs, es, IsKind(k));
      CountIfConcat(head, rs, IsKind(k));
    }
    KindCount(rs, RoadmapActivity);
    KindCount(es, ExperienceActivity);
    assert head == [] || head[..0] == [];
  }

  /** A list of one kind counts no other kind. */
  lemma {:induction false} KindCount(s: seq<Activity>, k: Kind)
    requires forall i :: 0 <= i < |s| ==> s[i].kind == k
    ensures forall k' :: k' != k ==> CountIf(s, IsKind(k')) == 0
  {
    if |s| > 0 {
      KindCount(s[..|s| - 1], k);
    }
  }

  /** The five newest of a feed, newest first. */
  function Newest(feed: seq<Activity>): seq<Activity> {
    Take(SortDesc(feed, ActivityDate), 5)
  }

  /**
   * The five newest: sorted, drawn from the feed, counting no kind more
   * often than the feed does; an entry left out is no newer than any kept
   * one, and a feed of at most five entries is kept whole.
   */
  lemma NewestCorrect(feed: seq<Activity>)
    ensures var r := Newest(feed);
      && |r| <= 5
      && (forall i, j :: 0 <= i < j < |r| ==> r[i].date >= r[j].date)
      && (forall a :: a in r ==> a in feed)
      && (forall k :: CountIf(r, IsKind(k)) <= CountIf(feed, IsKind(k)))
      && (forall a :: a in feed && a !in r ==> |r| == 5 && forall b :: b in r ==> b.date >= a.date)
      && (|feed| <= 5 ==> multiset(r) == multiset(feed))
  {
    var sorted := SortDesc(feed, ActivityDate);
    var r := Take(sorted, 5);
    if |feed| <= 5 {
      assert r == sorted[..|sorted|] == sorted;
    }
    forall k ensures CountIf(r, IsKind(k)) <= CountIf(feed, IsKind(k)) {
      CountIfPrefix(sorted, r, IsKind(k));
      CountIfPermutation(sorted, feed, IsKind(k));
    }
    forall a | a in r ensures a in feed {
      assert a in multiset(sorted);
    }
    forall a | a in feed && a !in r ensures |r| == 5 && forall b :: b in r ==> b.date >= a.date {
      assert a in multiset(sorted);
      TakeSortedKeepsTop(sorted, ActivityDate, 5, a);
    }
  }

  /**
   * Recent activity: at most five entries, newest first, each an entry of
   * the fetched feed, at most one resume, three roadmap and three
   * experience entries; an entry left out is no newer than any kept one,
   * and when the feed has at most five entries all are kept.
   */
  lemma RecentActivityCorrect(user: Option<Profile>)
    requires UserStats(user).Found?
    ensures var feed := FetchedFeed(user.value);
      var r := UserStats(user).stats.recentActivity;
      && |r| <= 5
      && (forall i, j :: 0 <= i < j < |r| ==> r[i].date >= r[j].date)
      && (forall a :: a in r ==> a in feed)
      && CountIf(r, IsKind(ResumeActivity)) <= 1
      && CountIf(r, IsKind(RoadmapActivity)) <= 3
      && CountIf(r, IsKind(ExperienceActivity)) <= 3
      && (forall a :: a in feed && a !in r ==> |r| == 5 && forall b :: b in r ==> b.date >= a.date)
      && (|feed| <= 5 ==> multiset(r) == multiset(feed))
  {
    StatsFeed(user);
    FetchedFeedKinds(user.value);
    NewestCorrect(FetchedFeed(user.value));
  }

  lemma StatsFeed(user: Option<Profile>)
    requires UserStats(user).Found?
    ensures UserStats(user).stats.recentActivity == Newest(FetchedFeed(user.value))
  {
  }

  /** The fetched feed counts at most one resume, three roadmap and three experience entries. */
  lemma FetchedFeedKinds(p: Profile)
    ensures var f := FetchedFeed(p);
      && CountIf(f, IsKind(ResumeActivity)) <= 1
      && CountIf(f, IsKind(RoadmapActivity)) <= 3
      && CountIf(f, IsKind(ExperienceActivity)) <= 3
  {
    FeedKinds(Latest(p.analyses, AnalyzedAt, 1), Latest(p.roadmaps, RoadmapDate, 3), Latest(p.experiences, ExperienceDate, 3));
  }
}

=== FILE: votes.dfy ===
/**
 * The three-way vote toggle shared by interview questions and company
 * experiences: a ballot box holds at most one vote per (user, item) pair,
 * and each item carries an up/down tally that the toggle adjusts.
 *
 * Voting in a direction creates a vote when the user has none, removes it
 * when the user already voted that way, and flips it when the user voted
 * the other way.
 */
module Votes {

  import opened Wrappers

  datatype VoteType = Upvote | Downvote

  /** The `upvotes` and `downvotes` counters of one item. */
  datatype Tally = Tally(upvotes: int, downvotes: int)

  /** Votes keyed by (userId, itemId): the composite unique key makes a second vote impossible. */
  type Ballots = map<(string, string), VoteType>

  /** Which of the three branches a toggle took. */
  datatype Change = Created | Removed | Flipped

  function Opposite(v: VoteType): (o: VoteType)
    ensures o != v
  {
    if v == Upvote then Downvote else Upvote
  }

  /** Adds `delta` to the counter of direction `v`. */
  function Bump(t: Tally, v: VoteType, delta: int): (r: Tally)
    ensures v == Upvote ==> r.upvotes == t.upvotes + delta && r.downvotes == t.downvotes
    ensures v == Downvote ==> r.downvotes == t.downvotes + delta && r.upvotes == t.upvotes
  {
    if v == Upvote then t.(upvotes := t.upvotes + delta) else t.(downvotes := t.downvotes + delta)
  }

  /** The counter of direction `v`. */
  function Count(t: Tally, v: VoteType): int {
    if v == Upvote then t.upvotes else t.downvotes
  }

  /** The vote `user` holds on `item`, if any. */
  function VoteOf(b: Ballots, user: string, item: string): (r: Option<VoteType>)
    ensures r.Some? <==> (user, item) in b
    ensures r.Some? ==> r.value == b[(user, item)]
  {
    if (user, item) in b then Some(b[(user, item)]) else None
  }

  /**
   * A vote by `user` on `item` in direction `v`: the ballots and the item's
   * tally afterwards, and the branch taken.
   */
  function Toggle(b: Ballots, t: Tally, user: string, item: string, v: VoteType): (r: (Ballots, Tally, Change))
    ensures VoteOf(r.0, user, item) == Some(v) <==> VoteOf(b, user, item) != Some(v)
    ensures VoteOf(r.0, user, item) != Some(Opposite(v))
    ensures forall p :: p != (user, item) ==> (p in r.0 <==> p in b)
    ensures forall p :: p in r.0 && p != (user, item) ==> r.0[p] == b[p]
  {
    var key := (user, item);
    if key !in b then (b[key := v], Bump(t, v, 1), Created)
    else if b[key] == v then (b - {key}, Bump(t, v, -1), Removed)
    else (b[key := v], Bump(Bump(t, v, 1), Opposite(v), -1), Flipped)
  }

  /** The keys of the `v` votes on `item`. */
  ghost function Voters(b: Ballots, item: string, v: VoteType): set<(string, string)> {
    set p | p in b && p.1 == item && b[p] == v
  }

  /** The tally of `item` equals the number of its up and down votes. */
  ghost predicate Counted(b: Ballots, item: string, t: Tally) {
    t.upvotes == |Voters(b, item, Upvote)| && t.downvotes == |Voters(b, item, Downvote)|
  }

  /** Voters after adding a key that was absent. */
  lemma VotersAdd(b: Ballots, key: (string, string), v: VoteType, w: VoteType)
    requires key !in b
    ensures Voters(b[key := v], key.1, w) == if w == v then Voters(b, key.1, w) + {key} else Voters(b, key.1, w)
    ensures key !in Voters(b, key.1, w)
  {
  }

  /** Voters after removing a present key. */
  lemma VotersRemove(b: Ballots, key: (string, string), w: VoteType)
    requires key in b
    ensures Voters(b - {key}, key.1, w) == if w == b[key] then Voters(b, key.1, w) - {key} else Voters(b, key.1, w)
    ensures w == b[key] ==> key in Voters(b, key.1, w)
  {
  }

  /** Voters after re-pointing a present key at `v`. */
  lemma VotersFlip(b: Ballots, key: (string, string), v: VoteType, w: VoteType)
    requires key in b && b[key] != v
    ensures Voters(b[key := v], key.1, w) ==
      if w == v then Voters(b, key.1, w) + {key}
      else if w == b[key] then Voters(b, key.1, w) - {key}
      else Voters(b, key.1, w)
    ensures w == v ==> key !in Voters(b, key.1, w)
    ensures w == b[key] ==> key in Voters(b, key.1, w)
  {
  }

  /** A toggle keeps the tally equal to the vote counts of the item voted on. */
  lemma ToggleKeepsCounted(b: Ballots, t: Tally, user: string, item: string, v: VoteType)
    requires Counted(b, item, t)
    ensures Counted(Toggle(b, t, user, item, v).0, item, Toggle(b, t, user, item, v).1)
  {
    var key := (user, item);
    var r := Toggle(b, t, user, item, v);
    if key !in b {
      VotersAdd(b, key, v, Upvote);
      VotersAdd(b, key, v, Downvote);
    } else if b[key] == v {
      VotersRemove(b, key, Upvote);
      VotersRemove(b, key, Downvote);
    } else {
      VotersFlip(b, key, v, Upvote);
      VotersFlip(b, key, v, Downvote);
    }
  }

  /** A toggle on one item leaves the votes of every other item alone. */
  lemma ToggleIsolated(b: Ballots, t: Tally, user: string, item: string, v: VoteType, other: string, w: VoteType)
    requires other != item
    ensures Voters(Toggle(b, t, user, item, v).0, other, w) == Voters(b, other, w)
  {
  }

  /** The tally moves by exactly the branch's adjustment. */
  lemma ToggleTallies(b: Ballots, t: Tally, user: string, item: string, v: VoteType)
    ensures var (_, t', c) := Toggle(b, t, user, item, v);
      && (c == Created <==> VoteOf(b, user, item) == None)
      && (c == Removed <==> VoteOf(b, user, item) == Some(v))
      && (c == Flipped <==> VoteOf(b, user, item) == Some(Opposite(v)))
      && Count(t', v) == Count(t, v) + (if c == Removed then -1 else 1)
      && Count(t', Opposite(v)) == Count(t, Opposite(v)) - (if c == Flipped then 1 else 0)
  {
  }

  /** Voting the same way twice restores ballots and tally, unless the first vote flipped an opposite vote. */
  lemma ToggleTwice(b: Ballots, t: Tally, user: string, item: string, v: VoteType)
    requires VoteOf(b, user, item) != Some(Opposite(v))
    ensures var (b1, t1, _) := Toggle(b, t, user, item, v);
      Toggle(b1, t1, user, item, v).0 == b && Toggle(b1, t1, user, item, v).1 == t
  {
  }

  /** From an opposite vote, voting twice removes the vote and leaves the opposite counter one lower. */
  lemma ToggleTwiceFromOpposite(b: Ballots, t: Tally, user: string, item: string, v: VoteType)
    requires VoteOf(b, user, item) == Some(Opposite(v))
    ensures var (b1, t1, _) := Toggle(b, t, user, item, v);
      var (b2, t2, _) := Toggle(b1, t1, user, item, v);
      && VoteOf(b2, user, item) == None
      && Count(t2, v) == Count(t, v)
      && Count(t2, Opposite(v)) == Count(t, Opposite(v)) - 1
  {
  }

  /** From no vote, an upvote then a downvote leaves one downvote, upvotes as before and downvotes one higher. */
  lemma UpThenDown(b: Ballots, t: Tally, user: string, item: string)
    requires VoteOf(b, user, item) == None
    ensures var (b1, t1, _) := Toggle(b, t, user, item, Upvote);
      var (b2, t2, c2) := Toggle(b1, t1, user, item, Downvote);
      && c2 == Flipped
      && b2 == b[(user, item) := Downvote]
      && t2 == Tally(t.upvotes, t.downvotes + 1)
  {
  }

  /** The ballots with every vote reversed. */
  function Swap(b: Ballots): (r: Ballots)
    ensures r.Keys == b.Keys
    ensures forall p :: p in r ==> r[p] == Opposite(b[p])
  {
    map p | p in b :: Opposite(b[p])
  }

  function SwapTally(t: Tally): (r: Tally)
    ensures r.upvotes == t.downvotes && r.downvotes == t.upvotes
  {
    Tally(t.downvotes, t.upvotes)
  }

  /** A downvote is an upvote seen through reversed ballots and a swapped tally. */
  lemma {:induction false} DownvoteMirrorsUpvote(b: Ballots, t: Tally, user: string, item: string)
    ensures var r := Toggle(Swap(b), SwapTally(t), user, item, Upvote);
      Toggle(b, t, user, item, Downvote) == (Swap(r.0), SwapTally(r.1), r.2)
  {
    var key := (user, item);
    var r := Toggle(Swap(b), SwapTally(t), user, item, Upvote);
    var d := Toggle(b, t, user, item, Downvote);
    assert d.0 == Swap(r.0) by {
      assert forall p :: p in d.0 <==> p in Swap(r.0);
      forall p | p in d.0
        ensures d.0[p] == Swap(r.0)[p]
      {
        if p != key {
          assert d.0[p] == b[p] && r.0[p] == Swap(b)[p];
        }
      }
    }
  }
}

=== FILE: wrappers.dfy ===
/** Failure-compatible wrappers shared by every module of the model. */
module Wrappers {

  /** An optional value: Python's None / JavaScript's null or undefined. */
  datatype Option<+T> = None | Some(value: T) {

    /** Returns the value inside Some, or the given default. */
    function GetOr(default: T): T {
      match this
      case Some(v) => v
      case None => default
    }
  }

  /** The outcome of an operation that either succeeds or fails with an error. */
  datatype Result<+R, +E> = Success(value: R) | Failure(error: E) {

    predicate IsFailure() {
      Failure?
    }

    function PropagateFailure<U>(): Result<U, E>
      requires Failure?
    {
      Failure(error)
    }

    function Extract(): R
      requires Success?
    {
      value
    }
  }
}
